=== FILE: README.md ===
# TrackMate tracking bookkeeping, in Dafny

A model of the bookkeeping core of TrackMate, the Fiji plugin that detects
spots in a movie and links them into tracks. The numerical solvers (the linear
assignment algorithms, the Kalman filter arithmetic, the cost-matrix builders)
are not part of the model; everything around them is:

- **The frame-indexed object store** (`Collection`, `CollectionIteration`,
  `CollectionQueries`). A collection maps frame numbers to buckets of object
  IDs. The objects' features live in a separate store shared by every
  collection, and `VISIBILITY` (0 or 1) is the soft-delete flag. The model
  covers add, put, remove, the visibility filters, crop, counts, the
  frame-ordered iteration, search and the three spatial queries.
- **The object layer** (`Trackable`, `Spots`, `ObjectUtils`, `Comparators`,
  `CostFunction`, `Features`, `JavaLang`). It covers feature maps,
  differences, squared distances, the spot ID counter and constructors,
  equality, display strings, the comparators and the square-distance cost.
- **Track graphs** (`Graph`, `Branches`, `Segments`, `NearestNeighbor`,
  `FramePair`, `Kalman`, `DepthFirst`, `TreeSets`). This is the simple
  weighted graph the trackers build, and graph construction from branches and
  links. It also covers the segment splitter, the nearest-neighbour linking
  rule with its greedy one-to-one pass over a frame pair, the Kalman
  tracker's filter life cycle and the child expansion of the two time-directed
  depth-first iterators.
- **Selection and navigation** (`Selection`, `Navigator`). The selection
  model keeps an event log. The navigator moves cyclically between tracks
  and between siblings.
- **Small computations** (`Duration`, `SessionSettings`, `RadiusEstimate`,
  `SpotContrast`). These are track start/stop/duration/displacement, the
  settings' crop box, validity check and filter lists, the radius
  estimator, and the spot contrast.

Feature values are `real`. A division that would produce NaN or infinity in
Java (an empty ring, coincident abscissas) is an `Option`'s `None`. Java
`int` arithmetic is wrapped explicitly where it can overflow (`JavaLang`).
Iteration orders of hash-based collections are parameters. Where a result
depends on such an order, the contract says how.

## Model

| member | source | states |
|---|---|---|
| Features.FeatureTablesAgree | src/main/java/fiji/plugin/trackmate/interfaces/TrackableObjectUtils.java:54-88 | The name, short-name and dimension tables have exactly the seven privileged features as keys. Only `RADIUS` has a short name differing from its name, and the position dimension belongs to exactly X, Y, Z. |
| Features.PrivilegedFeaturesDistinct | src/main/java/fiji/plugin/trackmate/interfaces/TrackableObjectUtils.java:54-64 | The feature list holds seven pairwise distinct names, and visibility is not among them. |
| Trackable.GetFeature | src/main/java/fiji/plugin/trackmate/AbstractTrackableObject.java:62-65 | A feature is present exactly when it was stored, and then its value is the stored one. |
| Trackable.PutFeature | src/main/java/fiji/plugin/trackmate/AbstractTrackableObject.java:76-79 | After a put the feature names are the old ones plus the new one. |
| Trackable.GetAfterPut | src/main/java/fiji/plugin/trackmate/AbstractTrackableObject.java:62-79 | Reading a feature after a put returns the value just put under that name, and the old value under any other name. |
| Trackable.DiffTo | src/main/java/fiji/plugin/trackmate/AbstractTrackableObject.java:95-100 | The difference exists exactly when both objects have the feature. |
| Trackable.DiffToAntisymmetric | src/main/java/fiji/plugin/trackmate/AbstractTrackableObject.java:95-100 | `a.diffTo(b) == -b.diffTo(a)`, and each side is defined exactly when the other is. |
| Trackable.NormalizeDiffTo | src/main/java/fiji/plugin/trackmate/AbstractTrackableObject.java:122-130 | It is zero when `a == -b` and otherwise `|a - b| / ((a + b) / 2)`, which is non-negative for a positive sum. It is defined exactly when both objects have the feature. |
| Trackable.NormalizeDiffToSymmetric | src/main/java/fiji/plugin/trackmate/AbstractTrackableObject.java:122-130 | The normalized difference does not depend on the order of its arguments. |
| Trackable.SquareDistanceTo | src/main/java/fiji/plugin/trackmate/AbstractTrackableObject.java:139-151 | It is defined exactly when both objects carry X, Y and Z. It is non-negative, and zero exactly for equal positions. |
| Trackable.SquareDistanceToIsSqDist | src/main/java/fiji/plugin/trackmate/AbstractTrackableObject.java:139-151 | The feature-wise sum equals the Euclidean squared distance of the two positions. |
| Trackable.SquareDistanceToSymmetric | src/main/java/fiji/plugin/trackmate/AbstractTrackableObject.java:139-151 | The squared distance is symmetric. |
| Trackable.GetDoublePosition | src/main/java/fiji/plugin/trackmate/AbstractTrackableObject.java:176-179 | Coordinate `d` is the position feature `d`, so the position is determined by the feature map. It is absent for `d` outside 0..2 or a missing feature. |
| ObjectUtils.FrameCompare | src/main/java/fiji/plugin/trackmate/util/TrackableObjectUtils.java:48-59 | The frame comparator returns 0 exactly for equal frames, even under 32-bit wrap-around. |
| ObjectUtils.FrameDiffOrders | src/main/java/fiji/plugin/trackmate/util/TrackableObjectUtils.java:10-14 | For non-negative frames the frame difference does not overflow. It is anti-symmetric, and its sign orders objects by frame. |
| ObjectUtils.SumSqDiffZeroIff | src/main/java/fiji/plugin/trackmate/util/TrackableObjectUtils.java:19-26 | The sum of squared coordinate differences is zero exactly when the coordinates agree. |
| ObjectUtils.SumSqDiffSymmetric | src/main/java/fiji/plugin/trackmate/util/TrackableObjectUtils.java:19-26 | The sum of squared coordinate differences is symmetric. |
| ObjectUtils.SquareDistance | src/main/java/fiji/plugin/trackmate/util/TrackableObjectUtils.java:16-28 | The distance is taken over the first object's dimensions and is always strictly positive. It is absent when the second object has fewer dimensions. |
| ObjectUtils.SquareDistanceProperties | src/main/java/fiji/plugin/trackmate/util/TrackableObjectUtils.java:16-28 | For equal dimensions it is symmetric. Coincident objects get exactly `MIN_NORMAL`, and any other value is the plain sum of squares. |
| Comparators.FeatureCompare | src/main/java/fiji/plugin/trackmate/interfaces/TrackableObjectUtils.java:13-30 | The result is -1, 0 or 1 exactly as `o1.f` is less than, equal to or greater than `o2.f`. |
| Comparators.FeatureCompareIsOrder | src/main/java/fiji/plugin/trackmate/interfaces/TrackableObjectUtils.java:20-26 | Swapping the arguments flips the sign, and the order is transitive. |
| Comparators.NameCompare | src/main/java/fiji/plugin/trackmate/interfaces/TrackableObjectUtils.java:32-43 | Names are compared with `String.compareTo` on their UTF-16 code units, which is zero exactly for equal names. A null name has no comparison. |
| Comparators.NameCompareIsOrder | src/main/java/fiji/plugin/trackmate/interfaces/TrackableObjectUtils.java:32-43 | The name comparison is anti-symmetric and transitive. |
| JavaLang.WrapInt | src/main/java/fiji/plugin/trackmate/util/TrackableObjectUtils.java:13 | The wrapped value is an `int` congruent to the input modulo 2^32, and it is the input itself when that is already an `int`. |
| JavaLang.SubIntZeroIff | src/main/java/fiji/plugin/trackmate/util/TrackableObjectUtils.java:56 | A wrapped difference of two `int`s is zero exactly when they are equal, which is what makes the frame comparator sound. |
| JavaLang.Utf16Units | src/main/java/fiji/plugin/trackmate/interfaces/TrackableObjectUtils.java:39 | A character below U+10000 is one code unit equal to it and outside the surrogate range; any other is a high surrogate followed by a low surrogate that together encode it. |
| JavaLang.Utf16Injective | src/main/java/fiji/plugin/trackmate/interfaces/TrackableObjectUtils.java:39 | Distinct strings have distinct UTF-16 encodings. |
| JavaLang.CompareToSurrogateOrder | src/main/java/fiji/plugin/trackmate/interfaces/TrackableObjectUtils.java:39 | Code-unit order differs from code-point order: U+10000 sorts before U+E000 although its scalar value is larger. |
| JavaLang.CompareUnitsAntisymmetric | src/main/java/fiji/plugin/trackmate/interfaces/TrackableObjectUtils.java:39 | The code-unit comparison flips sign when the arguments are swapped. |
| JavaLang.CompareUnitsZeroIff | src/main/java/fiji/plugin/trackmate/interfaces/TrackableObjectUtils.java:39 | The code-unit comparison is zero exactly for equal unit sequences. |
| JavaLang.CompareUnitsTransitive | src/main/java/fiji/plugin/trackmate/interfaces/TrackableObjectUtils.java:39 | The code-unit comparison is transitive. |
| JavaLang.CompareToAntisymmetric | src/main/java/fiji/plugin/trackmate/interfaces/TrackableObjectUtils.java:39 | `String.compareTo` flips sign when the arguments are swapped. |
| JavaLang.CompareToZeroIff | src/main/java/fiji/plugin/trackmate/interfaces/TrackableObjectUtils.java:39 | `String.compareTo` is zero exactly for equal strings. |
| JavaLang.CompareToTransitive | src/main/java/fiji/plugin/trackmate/interfaces/TrackableObjectUtils.java:39 | `String.compareTo` is transitive. |
| JavaLang.IntToStringRoundTrip | src/main/java/fiji/plugin/trackmate/Spot.java:85 | The decimal text of an `int` parses back to the same `int`. |
| JavaLang.IntToStringInjective | src/main/java/fiji/plugin/trackmate/Spot.java:217 | Distinct `int`s print differently. |
| JavaLang.TruncateToInt | src/main/java/fiji/plugin/trackmate/util/TrackNavigator.java:133 | `Double.intValue` truncates toward zero inside the `int` range and saturates at `Integer.MAX_VALUE` and `Integer.MIN_VALUE` outside it; the result is always an `int`. |
| JavaLang.TruncateToIntMonotone | src/main/java/fiji/plugin/trackmate/util/TrackNavigator.java:133 | The conversion never reverses the order of two values. |
| JavaLang.IncIntOverflow | src/main/java/fiji/plugin/trackmate/Spot.java:77 | Incrementing the largest `int` wraps to the smallest. |
| CostFunction.LinkingCost | src/main/java/fiji/plugin/trackmate/tracking/sparselap/costfunction/SquareDistCostFunction.java:17-21 | The cost is defined when the target has the source's dimensions, and is then strictly positive. |
| CostFunction.LinkingCostIsSymmetricDistance | src/main/java/fiji/plugin/trackmate/tracking/sparselap/costfunction/SquareDistCostFunction.java:17-21 | For equal dimensions the cost is symmetric and positive. Coincident objects cost exactly `MIN_NORMAL`, and every other cost is the squared distance. |
| Spots.NewSpot | src/main/java/fiji/plugin/trackmate/Spot.java:74-91 | The ID is the counter plus one, with 32-bit wrap. The spot stores exactly X, Y, Z, radius and quality with the given values. A missing name becomes `"ID" + ID`. |
| Spots.CopySpot | src/main/java/fiji/plugin/trackmate/Spot.java:156-159 | The copy gets a fresh ID and the source's position, radius, quality and name. A nameless source gives a copy named by the default name of the new ID. It fails when one of these features is missing. |
| Spots.CopyOfCopy | src/main/java/fiji/plugin/trackmate/Spot.java:156-159 | Copying a copy again gives the same features and the same name as the first copy, under yet another ID. |
| Spots.LoadSpot | src/main/java/fiji/plugin/trackmate/Spot.java:169-180 | The given ID is kept, and the counter becomes the larger of itself and that ID. |
| Spots.LoadedIdsStayBehind | src/main/java/fiji/plugin/trackmate/Spot.java:169-180 | After loading any IDs, the counter is at least every loaded ID and at least its old value. |
| Spots.FreshIdAfterLoading | src/main/java/fiji/plugin/trackmate/Spot.java:77 | A spot made after loading gets an ID different from every loaded one, unless the counter overflows. |
| Spots.SuccessiveSpotsDiffer | src/main/java/fiji/plugin/trackmate/Spot.java:77 | Two spots made one after the other get different IDs. |
| Spots.Equals | src/main/java/fiji/plugin/trackmate/Spot.java:193-203 | Spots are equal exactly when their IDs are equal, and never equal to null. |
| Spots.EqualsIsConsistent | src/main/java/fiji/plugin/trackmate/Spot.java:186-203 | Equality is reflexive, symmetric and transitive, and equal spots have equal hash codes. |
| Spots.ToString | src/main/java/fiji/plugin/trackmate/Spot.java:212-221 | The display string is the name unless the name is null or empty. It is never empty. |
| Spots.UnnamedToStringInjective | src/main/java/fiji/plugin/trackmate/Spot.java:216-217 | Unnamed spots with different IDs display differently. |
| Spots.SetName | src/main/java/fiji/plugin/trackmate/AbstractTrackableObject.java:30-41 | Getting the name after setting it returns the name set. Nothing else changes. |
| Spots.PutSpotFeature | src/main/java/fiji/plugin/trackmate/AbstractTrackableObject.java:76-79 | A put on a spot goes to the inherited map. Every other feature, the ID, the name and the shadowing map are unchanged. |
| Spots.EchoNameLine | src/main/java/fiji/plugin/trackmate/Spot.java:231-234 | The dump starts with `Spot: <no name>` or with `Spot: ` followed by the name. |
| Spots.EchoFeatureSection | src/main/java/fiji/plugin/trackmate/Spot.java:245-261 | As written, the dump reports no features exactly when the shadowing `features` field is empty. |
| Spots.EchoFeatureSectionCorrected | src/main/java/fiji/plugin/trackmate/Spot.java:245-261 | Corrected, the dump lists exactly the spot's stored feature names. |
| Spots.ConstructorsAndSettersKeepShadowEmpty | src/main/java/fiji/plugin/trackmate/Spot.java:47 | No constructor or setter ever writes the shadowing map. |
| Spots.EchoIgnoresStoredFeatures | src/main/java/fiji/plugin/trackmate/Spot.java:245-246 | Every reachable spot's dump says no features were calculated. A freshly made spot stores five features, which the corrected dump lists. |
| Collection.Objects | src/main/java/fiji/plugin/trackmate/ObjectCollection.java:59 | An object belongs to the collection exactly when some bucket holds it. |
| Collection.VisibleIn | src/main/java/fiji/plugin/trackmate/ObjectCollection.java:989-1022 | A frame's visible objects are its bucket's objects whose visibility is positive. An absent frame has none. |
| Collection.Add | src/main/java/fiji/plugin/trackmate/ObjectCollection.java:123-134 | The object joins the frame's bucket, and the bucket is created if missing. Its FRAME becomes the frame and its VISIBILITY becomes 1. No other bucket and no other object changes. |
| Collection.Remove | src/main/java/fiji/plugin/trackmate/ObjectCollection.java:143-148 | An absent frame gives `false` with no change. Otherwise the result is whether the object was in the bucket, which loses it. Frame keys, including emptied buckets, are kept. |
| Collection.RemoveUndoesAdd | src/main/java/fiji/plugin/trackmate/ObjectCollection.java:123-148 | Removing a just-added object succeeds. On an existing frame it restores the buckets; on a new frame it leaves that frame as an empty bucket. |
| Collection.Put | src/main/java/fiji/plugin/trackmate/ObjectCollection.java:734-743 | The frame's bucket becomes exactly the given objects. Each gets FRAME = frame and VISIBILITY = 0; other objects and buckets are unchanged. |
| Collection.PutFrameIsInvisible | src/main/java/fiji/plugin/trackmate/ObjectCollection.java:734-743 | A bucket just put shows no visible object. |
| Collection.AddPutKeepVisibility | src/main/java/fiji/plugin/trackmate/ObjectCollection.java:123-134 | `add` (and `put`, lines 734-743) write the visibility flag on every object they file, so a collection that had the flag on all its objects keeps it on all of them. |
| Collection.Clear | src/main/java/fiji/plugin/trackmate/ObjectCollection.java:792-795 | The collection is left with no frames and no objects. |
| Collection.SetVisible | src/main/java/fiji/plugin/trackmate/ObjectCollection.java:156-195 | Every object of the collection gets VISIBILITY 1 or 0 as asked. No other feature or object changes. |
| Collection.Filter | src/main/java/fiji/plugin/trackmate/ObjectCollection.java:205-276 | Every object a frame task reaches before its first object lacking the feature stores the feature and is reassigned: an above-filter shows it exactly when its value is ≥ the threshold, a below-filter exactly when ≤. Only VISIBILITY changes, and only on reached objects. |
| Collection.Evaluated | src/main/java/fiji/plugin/trackmate/ObjectCollection.java:227-256 | A frame task gets exactly as far as the first object whose verdict needs a missing feature (the `null` unboxing throws there), or through the whole frame. |
| Collection.Reflagged | src/main/java/fiji/plugin/trackmate/ObjectCollection.java:208-276 | An object is re-flagged when it comes before that point in some frame's enumeration; every re-flagged object is in the collection and has a verdict. |
| Collection.ReflaggedAllIff | src/main/java/fiji/plugin/trackmate/ObjectCollection.java:287-351 | Every object is re-flagged exactly when no object lacks a feature its verdict needs. |
| Collection.FilterAllStopsAtMissingFeature | src/main/java/fiji/plugin/trackmate/ObjectCollection.java:299-330 | With each object in one bucket, the objects a frame enumerates at or after its first unevaluable object keep all their features: the frame is left partly filtered. |
| Collection.PutFlags | src/main/java/fiji/plugin/trackmate/ObjectCollection.java:233-252 | Each given object gets the given flag, and nothing else changes. |
| Collection.FilterIdempotent | src/main/java/fiji/plugin/trackmate/ObjectCollection.java:205-276 | Applying the same filter twice equals applying it once, as long as the filter does not test VISIBILITY itself; the second pass reaches the same objects as the first. |
| Collection.ReflaggedAgree | src/main/java/fiji/plugin/trackmate/ObjectCollection.java:205-351 | Two stores that give every object the same verdict reach the same objects. |
| Collection.SameFeatureSameVerdict | src/main/java/fiji/plugin/trackmate/ObjectCollection.java:205-276 | Rewriting only VISIBILITY leaves every object's value and verdict under a filter on another feature unchanged. |
| Collection.PutFlagsTwice | src/main/java/fiji/plugin/trackmate/ObjectCollection.java:233-252 | Re-flagging the same objects with the same flags changes nothing. |
| Collection.FilterOnVisibilityFlips | src/main/java/fiji/plugin/trackmate/ObjectCollection.java:205-276 | A filter on VISIBILITY itself is not idempotent: a below-0.5 filter flips a visible object to invisible and back. |
| Collection.OneObjectVisibilityFilter | src/main/java/fiji/plugin/trackmate/ObjectCollection.java:205-276 | On a one-object collection, a below-0.5 VISIBILITY filter makes the object visible exactly when its VISIBILITY is at most 0.5. |
| Collection.PassesAll | src/main/java/fiji/plugin/trackmate/ObjectCollection.java:300-330 | An object passes the chained filters exactly when it passes every one of them. |
| Collection.Passes | src/main/java/fiji/plugin/trackmate/ObjectCollection.java:304-330 | Each reached object is flagged ONE exactly when it passes every filter of the list, and ZERO otherwise. |
| Collection.FilterAll | src/main/java/fiji/plugin/trackmate/ObjectCollection.java:287-351 | A reached object is visible afterwards exactly when it passes every filter. Only VISIBILITY changes, and only on reached objects. |
| Collection.EmptyFilterListShowsAll | src/main/java/fiji/plugin/trackmate/ObjectCollection.java:287-351 | An empty filter list reaches every object and makes it visible, exactly like `setVisible(true)`. |
| Collection.SingletonFilterList | src/main/java/fiji/plugin/trackmate/ObjectCollection.java:205-351 | A one-element filter list acts as the single filter, including on a collection where some object lacks the feature. |
| Collection.Crop | src/main/java/fiji/plugin/trackmate/ObjectCollection.java:1051-1097 | The new collection has the same frame keys, and its buckets are the previously visible objects. Those objects get VISIBILITY 0; invisible objects are untouched. |
| Collection.CropHidesSource | src/main/java/fiji/plugin/trackmate/ObjectCollection.java:1051-1097 | After a crop the source shows nothing, and the crop holds only former objects of the source. |
| Collection.FirstKey | src/main/java/fiji/plugin/trackmate/ObjectCollection.java:750-759 | The result is the smallest frame of a non-empty collection. |
| Collection.LastKey | src/main/java/fiji/plugin/trackmate/ObjectCollection.java:761-770 | The result is the largest frame of a non-empty collection. |
| Collection.KeysBracketFrames | src/main/java/fiji/plugin/trackmate/ObjectCollection.java:750-770 | Every frame lies between the first and the last key. |
| Collection.Higher | src/main/java/fiji/plugin/trackmate/tracking/kdtree/NearestNeighborTracker.java:92 | `frames.higher(i)` is the least frame above `i`. |
| Collection.FromObjectsAsWritten | src/main/java/fiji/plugin/trackmate/ObjectCollection.java:1182-1196 | As written, the iterable constructor fails on an object without FRAME, and otherwise builds an empty collection. |
| Collection.FromObjects | src/main/java/fiji/plugin/trackmate/ObjectCollection.java:1182-1196 | Corrected, every object lands in the bucket of its own frame, and the collection holds exactly the given objects. |
| Collection.FromMapAsWritten | src/main/java/fiji/plugin/trackmate/ObjectCollection.java:1208-1212 | As written, the map constructor builds an empty collection. |
| Collection.FromMap | src/main/java/fiji/plugin/trackmate/ObjectCollection.java:1208-1212 | Corrected, the collection holds exactly the source's buckets. |
| Collection.ConversionConstructorsLoseObjects | src/main/java/fiji/plugin/trackmate/ObjectCollection.java:1182-1212 | On any non-empty input the as-written constructors lose every object, which the corrected ones keep. |
| CollectionIteration.ShownOf | src/main/java/fiji/plugin/trackmate/ObjectCollection.java:1002-1022 | The visible-only iterator yields exactly the enumerated objects that are shown, in order and without repeats. |
| CollectionIteration.NObjectsInFrame | src/main/java/fiji/plugin/trackmate/ObjectCollection.java:529-551 | A frame's count is the bucket size, or the number of its visible objects. An absent frame counts 0. |
| CollectionIteration.ExclusiveTotalCountsObjects | src/main/java/fiji/plugin/trackmate/ObjectCollection.java:498-518 | When no object sits in two frames, the summed count is the number of distinct objects shown. |
| CollectionIteration.ExclusiveCountsObjects | src/main/java/fiji/plugin/trackmate/ObjectCollection.java:498-518 | For such a collection, the counts are the number of objects and the number of visible objects. |
| CollectionIteration.IterateFrame | src/main/java/fiji/plugin/trackmate/ObjectCollection.java:665-677 | One frame's iteration yields each shown object of that frame once. Its length is the frame count. |
| CollectionIteration.IterationStep | src/main/java/fiji/plugin/trackmate/ObjectCollection.java:847-874 | Appending the next frame's objects extends a frame-ordered iteration by that frame. |
| CollectionIteration.Iterate | src/main/java/fiji/plugin/trackmate/ObjectCollection.java:642-652 | The whole-collection iteration yields frames in ascending order and every shown (frame, object) pair exactly once. Its length is the count. The loop's result is the frame-by-frame definition `Iteration` (lowest frame first, each frame in its enumeration order). |
| CollectionIteration.CollectValues | src/main/java/fiji/plugin/trackmate/ObjectCollection.java:617-627 | The call fails exactly when some iterated object lacks the feature (the `null` unboxing). Otherwise the array has one slot per counted object, and slot k holds the feature of the k-th object of the iteration, so order and repetitions follow the iteration. |
| CollectionIteration.ReadValues | src/main/java/fiji/plugin/trackmate/ObjectCollection.java:619-626 | Reading the feature of each iterated object succeeds exactly when every one carries it, and then gives one value per object in iteration order. |
| CollectionIteration.ValuesOfShown | src/main/java/fiji/plugin/trackmate/ObjectCollection.java:617-627 | When the iteration lists every shown object, the collected values are exactly the feature values of the shown objects, and all shown objects carry the feature. |
| CollectionIteration.CollectAllValues | src/main/java/fiji/plugin/trackmate/ObjectCollection.java:570-605 | A requested feature gets an array exactly when every iterated object carries it (a failing task never stores its array). Each array has one slot per counted object, and slot k holds that feature of the k-th iterated object. |
| CollectionIteration.Search | src/main/java/fiji/plugin/trackmate/ObjectCollection.java:89-101 | An ID is found, invisible objects included, exactly when some bucket holds it. |
| CollectionQueries.DistIsSquareDistance | src/main/java/fiji/plugin/trackmate/ObjectCollection.java:376-386 | The distance the queries compare is the objects' square distance to the location. |
| CollectionQueries.GetClosestObject | src/main/java/fiji/plugin/trackmate/ObjectCollection.java:368-393 | The result is a closest shown object of the frame, the first enumerated among ties. There is none exactly when the frame shows nothing. |
| CollectionQueries.ScanClosest | src/main/java/fiji/plugin/trackmate/ObjectCollection.java:373-392 | Only a strictly smaller distance replaces the kept object. So the kept object is at least as close as every shown one and strictly closer than every shown one enumerated before it. There is none exactly when nothing is shown. |
| CollectionQueries.Containing | src/main/java/fiji/plugin/trackmate/ObjectCollection.java:420-434 | The candidates are exactly the shown objects of the frame whose radius reaches the location. |
| CollectionQueries.GetObjectAt | src/main/java/fiji/plugin/trackmate/ObjectCollection.java:412-441 | The result is a closest candidate, the last enumerated among ties. There is none exactly when no candidate exists. |
| CollectionQueries.ScanContaining | src/main/java/fiji/plugin/trackmate/ObjectCollection.java:417-432 | Each put under an equal key overwrites the kept candidate. So it is at least as close as every candidate and strictly closer than every candidate enumerated after it. There is none exactly when no candidate exists. |
| CollectionQueries.DistanceMap | src/main/java/fiji/plugin/trackmate/ObjectCollection.java:465-478 | The distance-keyed map has one key per distinct distance, each holding the last object enumerated at that distance. |
| CollectionQueries.KeptLastStep | src/main/java/fiji/plugin/trackmate/ObjectCollection.java:468-478 | One more pass of the fill loop keeps the map's description: every shown distance so far is a key, each key holds a shown object at that distance, and no later shown object has it. |
| CollectionQueries.KeptLastShown | src/main/java/fiji/plugin/trackmate/ObjectCollection.java:476-477 | Putting a shown object under its distance keeps that description, with the object replacing any earlier one at the same distance. |
| CollectionQueries.KeptLastHidden | src/main/java/fiji/plugin/trackmate/ObjectCollection.java:471-474 | Skipping a hidden object keeps that description. |
| CollectionQueries.SmallestKeys | src/main/java/fiji/plugin/trackmate/ObjectCollection.java:480-487 | The first `n` keys, or all of them, are taken in strictly ascending order, and every key left out is larger. |
| CollectionQueries.GetNClosestObjects | src/main/java/fiji/plugin/trackmate/ObjectCollection.java:462-488 | The result has at most `n` shown objects in strictly ascending distance, with equal distances collapsed to the last one enumerated. Any missing distance is beyond all listed ones. An absent frame or a negative `n` fails. |
| CollectionQueries.NClosestIn | src/main/java/fiji/plugin/trackmate/ObjectCollection.java:465-487 | For a present frame and `n ≥ 0`, at most `n` shown objects come in strictly ascending distance. Every shown distance is listed or lies beyond a full list, and each listed object is the last one enumerated at its distance. |
| CollectionQueries.NClosestOrdered | src/main/java/fiji/plugin/trackmate/ObjectCollection.java:480-487 | The selected objects are shown, and come in strictly ascending distance. |
| CollectionQueries.NClosestCovers | src/main/java/fiji/plugin/trackmate/ObjectCollection.java:465-487 | Every shown distance is represented or lies beyond the cut, and each selected object is the last one enumerated at its distance. |
| Graph.AddVertex | src/main/java/fiji/plugin/trackmate/graph/FromContinuousBranches.java:99 | Adding a vertex adds it to the vertex set. Adding a present vertex changes nothing. |
| Graph.AddEdge | src/main/java/fiji/plugin/trackmate/graph/FromContinuousBranches.java:110 | Both endpoints must be vertices. An existing edge makes the call a no-op and a loop is refused; otherwise exactly the new undirected edge is added. |
| Graph.AddWeightedEdge | src/main/java/fiji/plugin/trackmate/tracking/kdtree/NearestNeighborTracker.java:136-137 | Adding and weighting an edge succeeds exactly for two distinct vertices that are not yet adjacent, and stores the weight. |
| Graph.AddEdgeIdempotent | src/main/java/fiji/plugin/trackmate/graph/FromContinuousBranches.java:110-117 | Adding the same edge again, in either orientation, changes nothing. |
| Branches.ErrorMessage | src/main/java/fiji/plugin/trackmate/graph/FromContinuousBranches.java:62-79 | Every error message extends the base prefix. |
| Branches.CheckIfInBranches | src/main/java/fiji/plugin/trackmate/graph/FromContinuousBranches.java:137-144 | The result is true exactly when some branch contains the spot. |
| Branches.LinkFault | src/main/java/fiji/plugin/trackmate/graph/FromContinuousBranches.java:60-81 | A link has no fault exactly when it has two elements and both are in some branch. |
| Branches.CheckLinks | src/main/java/fiji/plugin/trackmate/graph/FromContinuousBranches.java:58-82 | The fault reported is that of the first invalid link, and there is none exactly when all links are valid. |
| Branches.CheckInput | src/main/java/fiji/plugin/trackmate/graph/FromContinuousBranches.java:45-86 | Checks run in order: null branches, then null links, then the first bad link. The input passes exactly when all are present and valid. |
| Branches.AddBranchVertices | src/main/java/fiji/plugin/trackmate/graph/FromContinuousBranches.java:95-101 | The vertices become exactly the old ones plus every branch element. |
| Branches.AddPath | src/main/java/fiji/plugin/trackmate/graph/FromContinuousBranches.java:105-112 | One branch's consecutive pairs become edges, and nothing else does. The step fails exactly on an element repeated back to back. |
| Branches.AddBranchEdges | src/main/java/fiji/plugin/trackmate/graph/FromContinuousBranches.java:103-113 | The edges added are the consecutive pairs of every branch. The step fails on an empty branch. |
| Branches.AddLinks | src/main/java/fiji/plugin/trackmate/graph/FromContinuousBranches.java:115-118 | Each link pair becomes an edge, and nothing else does. |
| Branches.Process | src/main/java/fiji/plugin/trackmate/graph/FromContinuousBranches.java:89-123 | The vertices are exactly the branch elements. The edges are exactly the consecutive branch pairs and the link pairs, unordered, with default weight, in a simple graph. |
| Branches.ProcessSucceedsIff | src/main/java/fiji/plugin/trackmate/graph/FromContinuousBranches.java:89-123 | The build succeeds exactly when every branch is non-empty with no back-to-back repeat and every link joins two distinct branch elements. |
| Branches.BranchEdgesUnweighted | src/main/java/fiji/plugin/trackmate/graph/FromContinuousBranches.java:103-113 | Branch edges are added with the default weight only. |
| Branches.LinksUnweighted | src/main/java/fiji/plugin/trackmate/graph/FromContinuousBranches.java:115-118 | Link edges are added with the default weight only. |
| Branches.CheckedInputProcesses | src/main/java/fiji/plugin/trackmate/graph/FromContinuousBranches.java:45-123 | Checked input builds unless a branch is empty, repeats back to back, or a link joins a spot to itself: the checks `checkInput` leaves out. |
| Segments.SortByFrame | src/main/java/fiji/plugin/trackmate/tracking/sparselap/costmatrix/GraphSegmentSplitter.java:52-53 | The sort is a permutation of the component, ordered by frame. |
| Segments.InsertSorted | src/main/java/fiji/plugin/trackmate/tracking/sparselap/costmatrix/GraphSegmentSplitter.java:53 | Inserting into a frame-sorted sequence keeps it sorted by frame. |
| Segments.Big | src/main/java/fiji/plugin/trackmate/tracking/sparselap/costmatrix/GraphSegmentSplitter.java:45-50 | Exactly the components with at least two objects are kept. |
| Segments.SplitOne | src/main/java/fiji/plugin/trackmate/tracking/sparselap/costmatrix/GraphSegmentSplitter.java:52-60 | The start has the minimal frame and the end the maximal frame, and they differ. Ties are broken by the component's iteration order: no object enumerated before the start shares its frame, and none enumerated after the end shares the end's frame. The middle is the rest, in ascending frame order. |
| Segments.SortStable | src/main/java/fiji/plugin/trackmate/tracking/sparselap/costmatrix/GraphSegmentSplitter.java:53 | The frame sort is stable: for every frame, the objects of that frame come out in the order they went in. |
| Segments.InsertStable | src/main/java/fiji/plugin/trackmate/tracking/sparselap/costmatrix/GraphSegmentSplitter.java:53 | Inserting an object into a frame-sorted sequence puts it behind every object of its own frame and leaves the other frames' order unchanged. |
| Segments.SortedEndsInOrder | src/main/java/fiji/plugin/trackmate/tracking/sparselap/costmatrix/GraphSegmentSplitter.java:53-55 | The first element of the sorted component is the first-enumerated object of the earliest frame, and the last element is the last-enumerated object of the latest frame. |
| Segments.Split | src/main/java/fiji/plugin/trackmate/tracking/sparselap/costmatrix/GraphSegmentSplitter.java:24-62 | There are as many starts as ends, one per component of at least two objects; each start is an earliest and each end a latest object of its component, chosen with the same tie-breaking as in `SplitOne`. Middles exist only with `findMiddlePoints` and are otherwise empty. |
| Segments.SegmentsPartitionComponents | src/main/java/fiji/plugin/trackmate/tracking/sparselap/costmatrix/GraphSegmentSplitter.java:52-60 | Start, middle and end together are exactly the objects of the component. |
| NearestNeighbor.CheckInput | src/main/java/fiji/plugin/trackmate/tracking/kdtree/NearestNeighborTracker.java:176-182 | The input passes exactly when the maximal linking distance is present as a `Double`. A missing key is reported. |
| NearestNeighbor.CheckInputStoring | src/main/java/fiji/plugin/trackmate/tracking/kdtree/NearestNeighborTracker.java:56-64 | On failure the error text is stored; on success the old text is kept. |
| NearestNeighbor.Reset | src/main/java/fiji/plugin/trackmate/tracking/kdtree/NearestNeighborTracker.java:168-174 | The graph holds exactly the visible objects and no edge. |
| NearestNeighbor.MaxDistSquare | src/main/java/fiji/plugin/trackmate/tracking/kdtree/NearestNeighborTracker.java:72-73 | The cap compared against is the square of the maximal linking distance, never negative. |
| NearestNeighbor.D | src/main/java/fiji/plugin/trackmate/tracking/kdtree/NearestNeighborTracker.java:118-123 | The distance reported for a candidate is non-negative and zero exactly for coincident positions. |
| FramePair.Nearest | src/main/java/fiji/plugin/trackmate/tracking/kdtree/NearestNeighborTracker.java:121-124 | The search returns a target nearest to the source among those it is given, and that target's squared distance. |
| FramePair.LinkFramePair | src/main/java/fiji/plugin/trackmate/tracking/kdtree/NearestNeighborTracker.java:115-139 | The sources are taken in enumeration order. The `k`-th source is linked to a target nearest among those no earlier source was linked to, if that target is within the cap; otherwise it gets no edge. Every new edge goes from a source to a target within the cap and is weighted by the squared distance. No source and no target gets two new edges. Every source ends up linked, or every target in its range has been taken. When every source and target is a vertex, no source is a target and no source is already joined to a target, no addition is refused and the pass succeeds. |
| FramePair.FreshAdd | src/main/java/fiji/plugin/trackmate/tracking/kdtree/NearestNeighborTracker.java:131-138 | On such a fresh pair, linking the next source to any target is an addition the graph accepts, whatever the earlier sources were linked to. |
| FramePair.GreedyAdd | src/main/java/fiji/plugin/trackmate/tracking/kdtree/NearestNeighborTracker.java:131-138 | Linking the next source to its nearest free target keeps the one-to-one matching and the greedy rule of all earlier sources, and takes exactly that target out of the free set. |
| FramePair.GreedySkip | src/main/java/fiji/plugin/trackmate/tracking/kdtree/NearestNeighborTracker.java:123-129 | A source with no free target in range adds no edge and takes no target. |
| FramePair.GreedyMaximal | src/main/java/fiji/plugin/trackmate/tracking/kdtree/NearestNeighborTracker.java:115-139 | After the greedy pass, each source has an edge, or every target within its range went to some source. |
| NearestNeighbor.LinkFrame | src/main/java/fiji/plugin/trackmate/tracking/kdtree/NearestNeighborTracker.java:88-142 | One frame turn links the visible objects of frame `i`, in the frame's enumeration order, to the next present frame. The graph stays simple and keeps its vertices and old edges. Every new edge joins a visible object of `i` to a visible object of the next present frame, within the cap and weighted by the squared distance. Each visible source of `i` gets a new edge, or every target in its range gets one. A source frame whose next frame shows nothing adds no edge. When no object is filed in two frames, the graph holds every visible object and no edge leaves frame `i` or the next present frame, the turn succeeds. |
| NearestNeighbor.BelowUntouched | src/main/java/fiji/plugin/trackmate/tracking/kdtree/NearestNeighborTracker.java:88-92 | When no object is filed in two frames, the edges made by earlier frame turns leave neither frame of the next pair. |
| NearestNeighbor.FreshFrames | src/main/java/fiji/plugin/trackmate/tracking/kdtree/NearestNeighborTracker.java:91-117 | Under the same conditions, the visible objects of frame `i` and of the next present frame form a fresh pair. |
| NearestNeighbor.LinkFrames | src/main/java/fiji/plugin/trackmate/tracking/kdtree/NearestNeighborTracker.java:88-143 | From the reset graph, every edge joins a visible object of some frame `first ≤ i < last` to one of its next present frame, within the cap and weighted by the squared distance. Every linkable source is linked, or all targets in its range are taken by sources of its frame. Only a failing edge addition stops the loop, and when no object is filed in two frames none fails and the loop succeeds. |
| NearestNeighbor.Process | src/main/java/fiji/plugin/trackmate/tracking/kdtree/NearestNeighborTracker.java:66-161 | The vertices are the visible objects. Every edge joins frame `i` to the next present frame, within the cap, for `first ≤ i < last`. Every linkable source is linked, or every target in its range is taken. A settings error is reported, and so is an empty collection. With valid settings and a non-empty collection in which no object is filed in two frames, it always succeeds, as `process` returns true. It fails only on a settings error, an empty collection, or an edge refused because an object is filed in two frames. |
| Kalman.PredictionCost | src/main/java/fiji/plugin/trackmate/tracking/kalman/KalmanTracker.java:437-453 | The prediction cost is the squared 3D distance plus `MIN_NORMAL`. It is always positive, and `MIN_NORMAL` exactly for a perfect prediction. |
| Kalman.NucleationCost | src/main/java/fiji/plugin/trackmate/tracking/kalman/KalmanTracker.java:114-115 | The nucleation cost is positive, and `MIN_NORMAL` for coincident objects. |
| Kalman.NucleationCostSymmetric | src/main/java/fiji/plugin/trackmate/tracking/kalman/KalmanTracker.java:114-115 | The nucleation cost is symmetric. |
| Kalman.EstimateInitialState | src/main/java/fiji/plugin/trackmate/tracking/kalman/KalmanTracker.java:383-392 | The initial state is the target's position and the displacement from source to target. |
| Kalman.PredictionLinkingError | src/main/java/fiji/plugin/trackmate/tracking/kalman/KalmanTracker.java:209-215 | The message starts with the tracker's prefix and ends with the linker's message. |
| Kalman.NucleationLinkingError | src/main/java/fiji/plugin/trackmate/tracking/kalman/KalmanTracker.java:270-276 | The message starts with the tracker's prefix and ends with the linker's message. |
| Kalman.AddLinks | src/main/java/fiji/plugin/trackmate/tracking/kalman/KalmanTracker.java:299-303 | Adding a round of links succeeds exactly when they are addable. The graph then gains exactly these edges with their costs. |
| Kalman.TwoLinkings | src/main/java/fiji/plugin/trackmate/tracking/kalman/KalmanTracker.java:222-304 | Two linking rounds keep every earlier edge and add exactly both rounds' edges. |
| Kalman.OrphansAfterMatchingAsWritten | src/main/java/fiji/plugin/trackmate/tracking/kalman/KalmanTracker.java:199-243 | As written, the orphans are refreshed from the measurements only when predictions were assigned. |
| Kalman.OrphansAfterMatching | src/main/java/fiji/plugin/trackmate/tracking/kalman/KalmanTracker.java:221-243 | Corrected, the orphans are exactly the measurements nothing was assigned to. |
| Kalman.StaleOrphansAsWritten | src/main/java/fiji/plugin/trackmate/tracking/kalman/KalmanTracker.java:199-306 | With no filter to predict, the as-written orphans are the previous frame's. A previous orphan may then be assigned to itself, which the graph refuses. |
| Kalman.StaleSelfPairWithoutSharing | src/main/java/fiji/plugin/trackmate/tracking/kalman/KalmanTracker.java:199-306 | As written, a collection with no object filed in two frames can still fail. Objects 1 and 2 sit in frames 0 and 1, and frame 2 is empty. No filter ever predicts, and frame 1 pairs nothing, which leaves both orphan sets `{2}`. Frame 2 then nucleates `{2}` against itself, and a sound solver may pair 2 with itself. |
| Kalman.LinkedNewEdges | src/main/java/fiji/plugin/trackmate/tracking/kalman/KalmanTracker.java:230-234 | A linking round's edges are new, and are all that is new. |
| Kalman.MatchReaches | src/main/java/fiji/plugin/trackmate/tracking/kalman/KalmanTracker.java:221-247 | Removing the assigned measurements from the orphan pool leaves exactly the pool's objects that no new edge reached. |
| Kalman.MatchPredictions | src/main/java/fiji/plugin/trackmate/tracking/kalman/KalmanTracker.java:178-248 | Each assigned filter links its tip to its measurement within the cap, and its tip becomes that measurement. The unassigned filters are returned as childless. The orphans are refreshed from the measurements only when the prediction linker ran; otherwise they are the previous orphans. With `corrected` set, they are always the unassigned measurements. |
| Kalman.NucleationReaches | src/main/java/fiji/plugin/trackmate/tracking/kalman/KalmanTracker.java:281-287 | The orphans left after nucleation are exactly those no nucleation edge reached. |
| Kalman.Targets | src/main/java/fiji/plugin/trackmate/tracking/kalman/KalmanTracker.java:281-286 | The nucleated targets are exactly the values of the nucleation assignment. |
| Kalman.Nucleate | src/main/java/fiji/plugin/trackmate/tracking/kalman/KalmanTracker.java:256-306 | Each assignment starts a filter at the target with the initial state and adds a `source → target` edge at its cost. The leftover orphans become the previous orphans. An orphan paired with itself fails with a graph error. |
| Kalman.Retire | src/main/java/fiji/plugin/trackmate/tracking/kalman/KalmanTracker.java:309-320 | A childless filter whose occlusions exceed `maxFrameGap` is dropped. All others are kept with their tips. |
| Kalman.FinishFrame | src/main/java/fiji/plugin/trackmate/tracking/kalman/KalmanTracker.java:250-320 | After the prediction step, nucleating the previous orphans and retiring over-occluded filters adds only capped nucleation edges into the orphan pool and keeps the pool's unreached objects as orphans. An orphan paired with itself fails with a graph error. It fails only on a solver error or on a nucleation round the graph refuses. |
| Kalman.Step | src/main/java/fiji/plugin/trackmate/tracking/kalman/KalmanTracker.java:169-324 | One frame keeps earlier edges. It adds only capped prediction edges to visible objects and capped nucleation edges into the orphan pool. It leaves the pool's unreached objects as orphans, drops only over-occluded filters, and starts filters only by nucleation. As written, a frame where the prediction linker did not run and the nucleation solver pairs an orphan with itself fails with a graph error. Corrected, when no object is filed in two frames and the state looks backwards, only a solver error fails it. |
| Kalman.CombineEdges | src/main/java/fiji/plugin/trackmate/tracking/kalman/KalmanTracker.java:169-324 | Over a frame, each new edge is a capped prediction edge to a measurement or a capped nucleation edge into the orphan pool. |
| Kalman.CombineOrphans | src/main/java/fiji/plugin/trackmate/tracking/kalman/KalmanTracker.java:221-306 | After a frame, the orphans are the pool's objects that no edge reached, and they become the previous orphans. |
| Kalman.CombineFilters | src/main/java/fiji/plugin/trackmate/tracking/kalman/KalmanTracker.java:169-324 | Over a frame, a surviving filter keeps or advances its tip, and a dropped filter exceeded the gap. A new filter was nucleated in this frame. |
| Kalman.MatchAddable | src/main/java/fiji/plugin/trackmate/tracking/kalman/KalmanTracker.java:199-234 | When no object is filed in two frames and every tip and vertex is filed in an earlier frame, every prediction link of the frame can be added: each goes to a distinct measurement that no edge touches. |
| Kalman.OrphanUntouched | src/main/java/fiji/plugin/trackmate/tracking/kalman/KalmanTracker.java:221-243 | Corrected, under the same conditions, an orphan left after the prediction step is filed in no earlier frame and is not yet a vertex. |
| Kalman.NucleationAddable | src/main/java/fiji/plugin/trackmate/tracking/kalman/KalmanTracker.java:256-303 | Corrected, under the same conditions, every nucleation link can be added: each joins a previous orphan of an earlier frame to a distinct, untouched orphan of this frame. |
| Kalman.StartBehind | src/main/java/fiji/plugin/trackmate/tracking/kalman/KalmanTracker.java:130-134 | The loop starts looking backwards: the orphans of the first frame are filed before the second, and those of the second frame before the third. |
| Kalman.StepKeepsBehind | src/main/java/fiji/plugin/trackmate/tracking/kalman/KalmanTracker.java:169-324 | A frame keeps the state looking backwards: every tip, previous orphan and vertex after it is filed in that frame or earlier. |
| Kalman.NextFrame | src/main/java/fiji/plugin/trackmate/tracking/kalman/KalmanTracker.java:169-324 | One turn of the main loop keeps what holds between frames. Corrected, when no object is filed in two frames, only a solver error fails it. |
| Kalman.StepKeepsRunning | src/main/java/fiji/plugin/trackmate/tracking/kalman/KalmanTracker.java:169-324 | The main loop's invariant survives one frame. Carried-over orphans are visible objects too. |
| Kalman.Track | src/main/java/fiji/plugin/trackmate/tracking/kalman/KalmanTracker.java:95-330 | No frames fail and one frame gives an empty graph. Otherwise the result is a simple graph over visible objects, and every edge costs positive and within the larger of the two squared radii. This holds with either orphan refresh. Corrected, when no object is filed in two frames, only a solver error fails a non-empty collection. |
| Kalman.Process | src/main/java/fiji/plugin/trackmate/tracking/kalman/KalmanTracker.java:95-330 | As written: the same guarantees as `Track`, with the orphans refreshed only when the prediction linker ran. |
| Kalman.ProcessCorrected | src/main/java/fiji/plugin/trackmate/tracking/kalman/KalmanTracker.java:95-330 | Corrected: the same guarantees, with the orphans refreshed from every frame's measurements. When no object is filed in two frames, only a solver error fails a non-empty collection, as each frame's linker failure returns false. |
| DepthFirst.ExpandTraversesEveryEdge | src/main/java/fiji/plugin/trackmate/graph/TimeDirectedDepthFirstIterator.java:23-26 | With listeners, an edge-traversed event fires for every incident edge in order, backward ones included. Without listeners none fires. |
| DepthFirst.ExpandOnlyForward | src/main/java/fiji/plugin/trackmate/graph/TimeDirectedDepthFirstIterator.java:28-38 | Only later-frame neighbours are encountered, and a first encounter is never of a seen vertex. |
| DepthFirst.ExpandReachesForward | src/main/java/fiji/plugin/trackmate/graph/TimeDirectedDepthFirstIterator.java:28-38 | Every later-frame neighbour is encountered across its edge, as an "again" encounter exactly when it was already seen. |
| DepthFirst.Candidates | src/main/java/fiji/plugin/trackmate/graph/TimeDirectedSortedDepthFirstIterator.java:35-45 | The queued children are exactly the unseen later-frame neighbours. |
| DepthFirst.LocalEdges | src/main/java/fiji/plugin/trackmate/graph/TimeDirectedSortedDepthFirstIterator.java:32-46 | Every later-frame neighbour maps to one of its edges. |
| DepthFirst.VisitFacts | src/main/java/fiji/plugin/trackmate/graph/TimeDirectedSortedDepthFirstIterator.java:49-62 | Visiting distinct unseen children encounters exactly them, in queue order. With listeners one edge-traversed event fires per child, and without them none. |
| DepthFirst.VisitEvents | src/main/java/fiji/plugin/trackmate/graph/TimeDirectedSortedDepthFirstIterator.java:49-62 | Visiting distinct unseen children never re-encounters a vertex. Each encounter crosses the edge recorded for that child, and every traversed edge is one of the children's edges. |
| DepthFirst.SortedExpandFacts | src/main/java/fiji/plugin/trackmate/graph/TimeDirectedSortedDepthFirstIterator.java:27-63 | The sorted expansion never encounters a vertex again. Children come in strictly descending comparator order, with equal ones collapsed, and every unseen later neighbour is covered. |
| TreeSets.TreeOfFacts | src/main/java/fiji/plugin/trackmate/util/TrackNavigator.java:61-62 | A tree set is ascending, and every added element is held or collapsed onto an equal held one. |
| TreeSets.Ceiling | src/main/java/fiji/plugin/trackmate/util/TrackNavigator.java:63 | A ceiling is a held element not below `x`; there is none only when every element is below `x`. |
| TreeSets.Floor | src/main/java/fiji/plugin/trackmate/util/TrackNavigator.java:65 | A floor is a held element not above `x`; there is none only when every element is above `x`. |
| TreeSets.CeilingIsLeast | src/main/java/fiji/plugin/trackmate/util/TrackNavigator.java:145-148 | In an ascending tree set the ceiling is at most every element not below `x`. |
| TreeSets.FloorIsGreatest | src/main/java/fiji/plugin/trackmate/util/TrackNavigator.java:177-180 | In an ascending tree set the floor is at least every element not above `x`. |
| TreeSets.Reverse | src/main/java/fiji/plugin/trackmate/graph/TimeDirectedSortedDepthFirstIterator.java:49 | The descending iterator yields the elements from last to first. |
| TreeSets.CeilingOfTree | src/main/java/fiji/plugin/trackmate/util/TrackNavigator.java:63 | The ceiling exists when some element is not below `x`, and is then at most every such element. |
| TreeSets.FloorOfTree | src/main/java/fiji/plugin/trackmate/util/TrackNavigator.java:65 | The floor exists when some element is not above `x`, and is then at least every such element. |
| TreeSets.EndsOfTree | src/main/java/fiji/plugin/trackmate/util/TrackNavigator.java:147 | The first element of a tree set is at most every element, and the last at least every element. |
| Selection.AddAllIsUnion | src/main/java/fiji/plugin/trackmate/SelectionModel.java:137-151 | A bulk add yields the union and reports exactly the new items as true. |
| Selection.RemoveAllIsDifference | src/main/java/fiji/plugin/trackmate/SelectionModel.java:153-165 | A bulk remove yields the difference and reports exactly the removed items as false. |
| Selection.AddSpot | src/main/java/fiji/plugin/trackmate/SelectionModel.java:111-123 | Adding a selected spot changes nothing and fires nothing. Adding a new spot inserts it and fires one event mapping it to true. |
| Selection.RemoveSpot | src/main/java/fiji/plugin/trackmate/SelectionModel.java:125-135 | Removing an unselected spot changes nothing. Removing a selected spot fires one event mapping it to false. |
| Selection.AddSpots | src/main/java/fiji/plugin/trackmate/SelectionModel.java:137-151 | The spot selection becomes the union, and one event maps exactly the new spots to true, even when none is new. |
| Selection.RemoveSpots | src/main/java/fiji/plugin/trackmate/SelectionModel.java:153-165 | The spot selection becomes the difference, and one event maps exactly the removed spots to false. |
| Selection.ClearSpots | src/main/java/fiji/plugin/trackmate/SelectionModel.java:81-94 | The spot selection is emptied, and one event reports every previously selected spot as false. |
| Selection.AddEdgeToSelection | src/main/java/fiji/plugin/trackmate/SelectionModel.java:167-178 | This is the edge mirror of adding a spot. |
| Selection.RemoveEdge | src/main/java/fiji/plugin/trackmate/SelectionModel.java:180-191 | This is the edge mirror of removing a spot. |
| Selection.AddEdges | src/main/java/fiji/plugin/trackmate/SelectionModel.java:193-205 | This is the edge mirror of the bulk spot add. |
| Selection.RemoveEdges | src/main/java/fiji/plugin/trackmate/SelectionModel.java:207-219 | This is the edge mirror of the bulk spot remove. |
| Selection.ClearEdges | src/main/java/fiji/plugin/trackmate/SelectionModel.java:96-109 | The edge selection is emptied, and one event reports every previously selected edge as false. |
| Selection.Clear | src/main/java/fiji/plugin/trackmate/SelectionModel.java:62-79 | Both sets are emptied. The spot-clear event fires, then the edge-clear event, then the combined event. |
| Selection.AddSpotIdempotent | src/main/java/fiji/plugin/trackmate/SelectionModel.java:111-113 | Adding a spot twice is adding it once, and the second call fires nothing. |
| Selection.AddThenRemoveSpot | src/main/java/fiji/plugin/trackmate/SelectionModel.java:111-135 | Removing a just-added spot restores the spot set, with one event per call. |
| Selection.SingleAndBulkAdd | src/main/java/fiji/plugin/trackmate/SelectionModel.java:111-151 | Single and bulk add agree on the selection. For an already selected spot only the bulk add fires (an empty event). |
| Selection.ClearReportsEverything | src/main/java/fiji/plugin/trackmate/SelectionModel.java:62-79 | The combined clear event reports exactly what the two separate clears report. |
| Selection.Reach | src/main/java/fiji/plugin/trackmate/SelectionModel.java:273-298 | The walk's result contains its start and stays within the graph. Each spot is inspected once (the source's walk can revisit spots; see Left out). |
| Selection.Next | src/main/java/fiji/plugin/trackmate/SelectionModel.java:282-296 | One step of the walk stays within the graph's vertices. |
| Selection.ReachClosed | src/main/java/fiji/plugin/trackmate/SelectionModel.java:273-298 | What the walk reaches is closed under its steps. |
| Selection.ReachLeast | src/main/java/fiji/plugin/trackmate/SelectionModel.java:273-298 | The walk reaches nothing outside any closed set holding its start. |
| Selection.Seeds | src/main/java/fiji/plugin/trackmate/SelectionModel.java:245-251 | The inspected spots are exactly the given spots plus both ends of the given edges. |
| Selection.CutTail | src/main/java/fiji/plugin/trackmate/SelectionModel.java:302-312 | The tail cut keeps exactly the edges with both ends among the selected spots. |
| Selection.WalkedEdges | src/main/java/fiji/plugin/trackmate/SelectionModel.java:257-299 | The edges the walk collects are edges of the graph. |
| Selection.SelectTrack | src/main/java/fiji/plugin/trackmate/SelectionModel.java:243-317 | The prior selection is kept and the seeds are added. The edges afterwards are exactly the prior edges plus every edge the walk follows from a reached spot; the tail cut removes none of them. Added edges are graph edges with both ends selected, and exactly two events fire. |
| Selection.SelectTrackSpots | src/main/java/fiji/plugin/trackmate/SelectionModel.java:253-300 | The spots added are exactly the least set holding the seeds that no step of the walk leaves. |
| Selection.TailCutKeepsWalkedEdges | src/main/java/fiji/plugin/trackmate/SelectionModel.java:302-312 | The tail cut removes nothing, because every walked edge already has both ends reached. |
| Navigator.LowestIndex | src/main/java/fiji/plugin/trackmate/util/TrackNavigator.java:228-238 | The scan returns the first spot of lowest frame. |
| Navigator.GetASpot | src/main/java/fiji/plugin/trackmate/util/TrackNavigator.java:224-263 | The result is a lowest-frame selected spot, else a lowest-frame source among selected edges, else none. It is none exactly for an empty selection. |
| Navigator.NextAfter | src/main/java/fiji/plugin/trackmate/util/TrackNavigator.java:45-58 | The result is the track ID after `t`, wrapping to the first. An unlisted `t` has none. |
| Navigator.PreviousBefore | src/main/java/fiji/plugin/trackmate/util/TrackNavigator.java:84-108 | The result is the track ID before `t`, wrapping to the last. An unlisted `t` gives the last. |
| Navigator.TrackCycle | src/main/java/fiji/plugin/trackmate/util/TrackNavigator.java:39-108 | For a listed track, next-then-previous and previous-then-next return to it. A spot without a track counts as on the first track (next) or the last (previous). |
| Navigator.RingTargetInTrack | src/main/java/fiji/plugin/trackmate/util/TrackNavigator.java:60-66 | The ring target exists exactly for a non-empty track, and is one of its spots. |
| Navigator.RingTargetCeiling | src/main/java/fiji/plugin/trackmate/util/TrackNavigator.java:61-63 | When the track has a spot at or after the current frame, the target is in the earliest such frame. |
| Navigator.RingTargetFloor | src/main/java/fiji/plugin/trackmate/util/TrackNavigator.java:63-66 | When all of the track is earlier, the target is in its latest frame. |
| Navigator.FrameCeiling | src/main/java/fiji/plugin/trackmate/util/TrackNavigator.java:61-63 | In the frame-ordered tree, the ceiling exists when some spot is not earlier, and is not later than any such spot. |
| Navigator.FrameFloor | src/main/java/fiji/plugin/trackmate/util/TrackNavigator.java:63-66 | In the frame-ordered tree, the floor exists when some spot is not later, and is not earlier than any such spot. |
| Navigator.NoCeiling | src/main/java/fiji/plugin/trackmate/util/TrackNavigator.java:60-66 | When every spot of the track is earlier, the frame ring has no ceiling, so the floor decides. |
| Navigator.SiblingCandidates | src/main/java/fiji/plugin/trackmate/util/TrackNavigator.java:133-142 | The siblings are exactly the other spots of the track in the same frame. |
| Navigator.SiblingAmongCandidates | src/main/java/fiji/plugin/trackmate/util/TrackNavigator.java:144-151 | A sibling exists exactly when there are candidates, and it is one of them. |
| Navigator.NextSiblingIsCeiling | src/main/java/fiji/plugin/trackmate/util/TrackNavigator.java:144-148 | The next sibling is the name ceiling, else the first name, which closes the ring. |
| Navigator.PreviousSiblingIsFloor | src/main/java/fiji/plugin/trackmate/util/TrackNavigator.java:176-180 | The previous sibling is the name floor, else the last name. |
| Navigator.MoveSelection | src/main/java/fiji/plugin/trackmate/util/TrackNavigator.java:68-69 | After a move the spot selection is exactly the target and the edge selection is empty. |
| Navigator.MoveToTrack | src/main/java/fiji/plugin/trackmate/util/TrackNavigator.java:60-69 | The move succeeds exactly when the track exists. On a non-empty track it lands on the ring target, which belongs to the track; on an empty track the selection is only cleared. |
| Navigator.NextTrack | src/main/java/fiji/plugin/trackmate/util/TrackNavigator.java:28-70 | With an empty selection or no tracks nothing happens. Any change moves the selection onto the next track as `MoveToTrack` does: onto its ring target, or to an empty selection when that track is empty. |
| Navigator.PreviousTrack | src/main/java/fiji/plugin/trackmate/util/TrackNavigator.java:72-120 | This is the mirror of `nextTrack`, towards the previous track. |
| Navigator.NextSibling | src/main/java/fiji/plugin/trackmate/util/TrackNavigator.java:122-152 | With no current spot, no track or no sibling nothing happens. Otherwise the selection becomes the next sibling. |
| Navigator.PreviousSibling | src/main/java/fiji/plugin/trackmate/util/TrackNavigator.java:154-184 | This is the mirror of `nextSibling`. |
| Duration.Scan | src/main/java/fiji/plugin/trackmate/features/track/TrackDurationAnalyzer.java:115-133 | The scan yields the first spot of minimal time and the first of maximal time, because both comparisons are strict. |
| Duration.Measure | src/main/java/fiji/plugin/trackmate/features/track/TrackDurationAnalyzer.java:113-141 | START is the minimal and STOP the maximal time, both attained. DURATION = STOP − START ≥ 0, and the squared displacement is positive. An empty track fails. |
| Duration.MeasureEndpoints | src/main/java/fiji/plugin/trackmate/features/track/TrackDurationAnalyzer.java:120-141 | The displacement joins the first spot reaching START to the first reaching STOP. A non-empty track of one dimension always measures. |
| Duration.SingleSpotTrack | src/main/java/fiji/plugin/trackmate/features/track/TrackDurationAnalyzer.java:135-141 | A one-spot track lasts 0, and its squared displacement is `MIN_NORMAL`, not 0. |
| Duration.TimesIndependentOfOrder | src/main/java/fiji/plugin/trackmate/features/track/TrackDurationAnalyzer.java:120-138 | START, STOP and DURATION do not depend on the order in which spots are visited. |
| Duration.Process | src/main/java/fiji/plugin/trackmate/features/track/TrackDurationAnalyzer.java:91-152 | An empty ID list writes nothing. Otherwise exactly the listed tracks receive their measured features and other tracks keep theirs. The run fails exactly when some listed track cannot be measured. |
| SessionSettings.WholeImageBox | src/main/java/fiji/plugin/trackmate/Settings.java:188-195 | Without an ROI the box spans the whole image with inclusive ends. |
| SessionSettings.RoiBoxAsWritten | src/main/java/fiji/plugin/trackmate/Settings.java:198-203 | As written, the ROI box ends at `x + width` and `y + height`, so the end minus the start is the ROI size. |
| SessionSettings.RoiBox | src/main/java/fiji/plugin/trackmate/Settings.java:198-203 | Corrected, the ROI box has inclusive ends and covers exactly the ROI size. |
| SessionSettings.SetFromWith | src/main/java/fiji/plugin/trackmate/Settings.java:146-207 | A null image sets only `imp`. Otherwise: size and calibration are copied, `dt` is 1 when the interval is 0, z and t span all slices and frames, the ROI decides box and polygon, the file name and folder come from the file info or the title, and nothing else changes. |
| SessionSettings.SetFromAsWritten | src/main/java/fiji/plugin/trackmate/Settings.java:146-207 | As written, `setFrom` takes the ROI box as `x + width`. |
| SessionSettings.SetFrom | src/main/java/fiji/plugin/trackmate/Settings.java:146-207 | Corrected, `setFrom` takes the inclusive ROI box. |
| SessionSettings.FullRoiBoxAsWritten | src/main/java/fiji/plugin/trackmate/Settings.java:198-203 | As written, a whole-image ROI yields the box `(0, w, 0, h)`, unlike the box without an ROI. |
| SessionSettings.FullRoiBox | src/main/java/fiji/plugin/trackmate/Settings.java:188-203 | Corrected, a whole-image ROI crops exactly like no ROI. |
| SessionSettings.RoiBoxInsideImage | src/main/java/fiji/plugin/trackmate/Settings.java:198-203 | An ROI inside the image gives a corrected box inside the image. The as-written box reaches one pixel further. |
| SessionSettings.CheckValidity | src/main/java/fiji/plugin/trackmate/Settings.java:342-360 | The check passes exactly when image, detector settings and threshold are present. Otherwise only the error message changes, naming the first missing item in that order. |
| SessionSettings.SetFromThenCheck | src/main/java/fiji/plugin/trackmate/Settings.java:146-360 | After `setFrom(image)` the check passes exactly when detector settings and threshold are present. `setFrom(null)` fails it with the image message. |
| SessionSettings.AddFilter | src/main/java/fiji/plugin/trackmate/Settings.java:375-378 | Add appends the filter at the end. |
| SessionSettings.RemoveFilter | src/main/java/fiji/plugin/trackmate/Settings.java:380-383 | Remove deletes the first equal filter if there is one (as a multiset, one occurrence fewer) and otherwise changes nothing. |
| SessionSettings.RemoveAfterAdd | src/main/java/fiji/plugin/trackmate/Settings.java:375-383 | Remove after add restores the filters up to order, and exactly when the filter was new. |
| SessionSettings.AddSpotFilter | src/main/java/fiji/plugin/trackmate/Settings.java:375-378 | The spot-filter list is appended to, and nothing else changes. |
| SessionSettings.RemoveSpotFilter | src/main/java/fiji/plugin/trackmate/Settings.java:380-383 | One occurrence is removed from the spot filters, and nothing else changes. |
| SessionSettings.ClearSpotFilters | src/main/java/fiji/plugin/trackmate/Settings.java:386-389 | The spot filters are emptied, and nothing else changes. |
| SessionSettings.AddTrackFilter | src/main/java/fiji/plugin/trackmate/Settings.java:402-405 | The track-filter list is appended to, and nothing else changes. |
| SessionSettings.RemoveTrackFilter | src/main/java/fiji/plugin/trackmate/Settings.java:407-410 | One occurrence is removed from the track filters, and nothing else changes. |
| SessionSettings.ClearTrackFilters | src/main/java/fiji/plugin/trackmate/Settings.java:413-416 | The track filters are emptied, and nothing else changes. |
| SessionSettings.FilterListsIndependent | src/main/java/fiji/plugin/trackmate/Settings.java:375-416 | Spot-filter and track-filter edits commute and never touch each other's list. |
| RadiusEstimate.PrepareDiameters | src/main/java/fiji/plugin/trackmate/features/spot/RadiusEstimator.java:137-144 | There are `n` diameters from `0.1 c` to `2 c`, strictly increasing for `c > 0`. |
| RadiusEstimate.SquaredRadii | src/main/java/fiji/plugin/trackmate/features/spot/RadiusEstimator.java:69-72 | Each squared radius is `d²/4`. |
| RadiusEstimate.SquaredRadiiIncrease | src/main/java/fiji/plugin/trackmate/features/spot/RadiusEstimator.java:69-72 | Increasing positive diameters give increasing squared radii. |
| RadiusEstimate.RingOf | src/main/java/fiji/plugin/trackmate/features/spot/RadiusEstimator.java:88 | A sample lands in the first ring `i < n−1` with `d2 ≤ r2[i]`, else in ring `n−1`. |
| RadiusEstimate.RingIsAnnulus | src/main/java/fiji/plugin/trackmate/features/spot/RadiusEstimator.java:88 | For increasing radii the ring is the annulus holding the sample, and the last ring takes everything beyond. |
| RadiusEstimate.Accumulate | src/main/java/fiji/plugin/trackmate/features/spot/RadiusEstimator.java:85-91 | Every sample adds exactly one to the ring volumes. |
| RadiusEstimate.RingVolumes | src/main/java/fiji/plugin/trackmate/features/spot/RadiusEstimator.java:85-91 | A ring's volume is positive exactly when some sample falls in it. |
| RadiusEstimate.MeanIntensities | src/main/java/fiji/plugin/trackmate/features/spot/RadiusEstimator.java:94-96 | A ring's mean is defined exactly when its volume is positive (0/0 is NaN), and then the mean times the volume is the ring's sum. |
| RadiusEstimate.Contrasts | src/main/java/fiji/plugin/trackmate/features/spot/RadiusEstimator.java:99-103 | There are `n−1` contrasts. A contrast is defined exactly when both neighbouring means are, and then `mean[j+1] = mean[j] − contrast[j]`. |
| RadiusEstimate.ContrastsTelescope | src/main/java/fiji/plugin/trackmate/features/spot/RadiusEstimator.java:99-103 | When every mean is defined, the contrasts sum to the innermost mean minus the outermost. |
| RadiusEstimate.FirstMax | src/main/java/fiji/plugin/trackmate/features/spot/RadiusEstimator.java:106-113 | The index is the first attaining the largest defined contrast. It is 0 when no contrast is defined, since NaN never beats the running maximum. |
| RadiusEstimate.Interpolate | src/main/java/fiji/plugin/trackmate/features/spot/RadiusEstimator.java:127-135 | The interpolation is defined exactly when the three abscissas are distinct. |
| RadiusEstimate.InterpolateIsVertex | src/main/java/fiji/plugin/trackmate/features/spot/RadiusEstimator.java:127-135 | The parabola passes through the three points, and its slope vanishes at the result. With zero curvature the result is `x2`. |
| RadiusEstimate.ParabolaPoints | src/main/java/fiji/plugin/trackmate/features/spot/RadiusEstimator.java:127-135 | The parabola built from the middle value, the middle slope and the curvature passes through the outer two points. |
| RadiusEstimate.InterpolateForm | src/main/java/fiji/plugin/trackmate/features/spot/RadiusEstimator.java:127-135 | The interpolation is `x2 − b/(2c)` for middle slope `b` and curvature `c ≠ 0`, and `x2` when the curvature is zero. |
| RadiusEstimate.VertexBetween | src/main/java/fiji/plugin/trackmate/features/spot/RadiusEstimator.java:127-135 | When the middle point is highest, the vertex lies between the outer abscissas. |
| RadiusEstimate.BestDiameterCases | src/main/java/fiji/plugin/trackmate/features/spot/RadiusEstimator.java:105-135 | With increasing diameters the estimate is NaN exactly when the vertex is fitted through an undefined neighbouring contrast. Otherwise it lies within the tried range, and a vertex lies between the neighbouring diameters. |
| RadiusEstimate.RingBeforeLast | src/main/java/fiji/plugin/trackmate/features/spot/RadiusEstimator.java:80-88 | A sample within the second-largest radius never lands in the last ring. |
| RadiusEstimate.OutermostContrastUndefined | src/main/java/fiji/plugin/trackmate/features/spot/RadiusEstimator.java:80-113 | The cursor stops at the second-largest radius, so the outermost ring is empty and the last contrast is NaN. Beyond two diameters, the maximum is never at the last index. |
| RadiusEstimate.Estimate | src/main/java/fiji/plugin/trackmate/features/spot/RadiusEstimator.java:60-125 | For `maxIndex ≤ 1` the estimate is that diameter. At `maxIndex = n−3` it is NaN. For a positive radius it is NaN exactly when a neighbouring contrast is; otherwise it lies within `[0.2 r, 4 r]`, and a vertex lies between the neighbouring diameters. |
| SpotContrast.InnerRadius2 | src/main/java/fiji/plugin/trackmate/features/spot/SpotContrastAnalyzer.java:46-47 | The inner threshold is `r²·(1−0.5)² = r²/4`. |
| SpotContrast.Classify | src/main/java/fiji/plugin/trackmate/features/spot/SpotContrastAnalyzer.java:56-67 | `d2 > r²` is outer only, `r²/4 < d2 ≤ r²` is inner only, and `d2 ≤ r²/4` counts toward neither ring. |
| SpotContrast.Accumulate | src/main/java/fiji/plugin/trackmate/features/spot/SpotContrastAnalyzer.java:52-67 | The ring volumes are the numbers of samples classified into each ring, and every sample is classified once. |
| SpotContrast.Contrast | src/main/java/fiji/plugin/trackmate/features/spot/SpotContrastAnalyzer.java:38-72 | The contrast is defined exactly when both rings are non-empty. |
| SpotContrast.UniformTotals | src/main/java/fiji/plugin/trackmate/features/spot/SpotContrastAnalyzer.java:52-67 | On uniform pixels each ring's total is its volume times the intensity. |
| SpotContrast.UniformHasNoContrast | src/main/java/fiji/plugin/trackmate/features/spot/SpotContrastAnalyzer.java:69-71 | A uniform neighbourhood has contrast 0. |
| SpotContrast.Process | src/main/java/fiji/plugin/trackmate/features/spot/SpotContrastAnalyzer.java:24-28 | The stored value is `|contrast| ≥ 0` under the key, and other features are unchanged. A missing radius or empty ring gives no value. |

## Left out

- Threads, thread pools, timeouts, `AtomicInteger` work claiming and `synchronized` blocks. Each pooled operation is one map update. That is exact when the tasks touch disjoint frames or tracks. The cases where they can overlap are listed below.
- Collection.Crop: an object held in two buckets goes into both crop buckets in the model. In the source, whichever frame task runs first sets its VISIBILITY to 0, and the other task then skips it. Which one wins depends on thread scheduling, so the model does not promise the source's outcome for such a collection.
- Collection.Filter: an object held in two buckets is re-flagged once, from the store as it was before the call. The source's two tasks write the same flag unless the filter tests VISIBILITY itself; in that case the second task reads the first task's flag, and the result depends on scheduling. Collection.FilterAll has the same gap.
- Selection.Reach: the one-direction walk in the source keeps no visited set. It terminates only when the edges it follows form no cycle; on a cycle it pushes spots forever. The model inspects each spot once and always terminates. Where the source terminates, it reaches the same set.
- Navigator.MoveToTrack: on an empty track the source clears the selection, then adds `null` to the spot selection and fires a change event for it. The model only clears the selection; a `null` member of the selection has no counterpart.
- JavaLang.TruncateToInt: `Double.intValue` maps NaN to 0. Feature values are reals here, so NaN never reaches it; the saturation at the `int` bounds is modelled.
- JavaLang.CompareTo: the UTF-16 code units are computed from Dafny's Unicode scalar values. Lone surrogates, which a Java string can hold, are not representable.
- Java `float` rounding: the `0.1f` diameter ratio and `0.5f` ring percentage are exact reals, and `(float)` calibration casts keep the value. `Double.MIN_NORMAL` is the exact value 2^-1022.
- NaN and infinity. A division by a zero ring volume or by coincident abscissas gives `None` rather than a NaN that later comparisons would silently reject.
- Duration.Measure: the displacement is kept squared; the `Math.sqrt` applied before storing it is not modelled.
- Duration.Process: the analyzer runs tracks on threads and a missing or unmeasurable track only kills its thread. The model stops at the first failing track and returns its error.
- Duration.Measure: `POSITION_T` is assumed present on every spot (a missing value throws in the source).
- The k-d tree and `NearestNeighborFlagSearchOnKDTree` are not part of this model. The flag search is modelled as a brute-force minimum over the targets not yet visited, and a source that finds every target visited is skipped; what the search returns in that case is not part of this model. Which of several equally near targets the tree returns is left open. NearestNeighbor.Process and LinkFrames state the range, the weights and the maximality of each frame pair; the one-to-one greedy choice is stated per frame pair by FramePair.LinkFramePair, since an object filed in two frames can take part in two frame pairs.
- NearestNeighbor.CheckInput: `TMUtils.checkParameter` and `checkMapKeys` are not part of this model. The check is modelled as "the key is present with a `Double` value", without their error texts.
- The Kalman filter arithmetic (`CVMKalmanFilter.predict/update`), the cost-matrix builder and `JaqamanLinker` are parameters. The linkers are oracles returning partial injective assignments within the cost cap, and the occlusion counter is an abstract per-filter value. The mean spot radius and the process noise feed only the filter and are not modelled.
- The predictions map keyed by `ComparableRealPoint` is not modelled. Each filter keeps its own prediction, whereas in the source two filters predicting the same point could collide in the map.
- jgrapht internals (`ConnectivityInspector`, the `SortedDepthFirstIterator` superclass, the track model). Connected components are inputs to the segment splitter, and the walk of `selectTrack` is the closure of its step relation rather than the depth-first iterator's visit order. The sorted iterator's `addUnseenChildrenOf(Spot)` is modelled as a child expansion, without claiming that the superclass calls it (its parameter type differs from the vertex type).
- Hash iteration orders (the sets of a bucket, the selection, the track spots) are inputs. The contracts say which results depend on them.
- Pixel access (`SphereCursor`, `DiscCursor`, `SpotNeighborhood`). The samples a cursor visits, as (squared distance, intensity) pairs, are inputs.
- RadiusEstimate.Estimate: requires at least two diameters, since the source indexes `diameters[nDiameters-2]`. It takes the cursor's pixels as samples within the second-largest radius; the disc and sphere cursors themselves are image code outside the model. The guard `1 >= maxIndex` also skips interpolation at index 1; it is modelled as written. NaN results, including the infinities and NaN of a zero radius's coincident diameters, are all `None`.
- `previousInTime` and `nextInTime` of the navigator depend on `TimeDirectedNeighborIndex`, which is not part of this model.
- Navigator sibling ring: it orders spots with `nameComparator` of `interfaces/TrackableObjectUtils`, which is `String.compareTo` on the names, and the model uses `CompareTo` for it. A spot whose name is `null` makes that comparator throw; names are strings here, so that case is not modelled.
- Settings getters and setters, `toString`, `toStringImageInfo` and `toStringFeatureAnalyzersInfo` are left out, as are the detector and tracker settings values, which are carried as opaque presence flags.
- `Spot.echo` beyond its first line and its feature section (time, coordinates, number formatting) is left out.
- NearestNeighbor.Process: when an object is filed in two frames, an edge can be refused. A loop makes `addEdge` throw (NearestNeighborTracker.java:136). An already joined pair makes `addEdge` return null, and `setEdgeWeight` then throws (line 137). Either exception ends only that frame worker's thread, and `process` still returns true with the edges made so far. The model returns a link failure instead, so it promises success only for collections with no object filed in two frames. NearestNeighbor.LinkFrames and LinkFrame inherit this.
- Kalman.Process: states no success condition. As written, a frame in which no filter predicts nucleates the stale orphan set against itself (see Findings). So a collection with no object filed in two frames can still fail with a graph error (Kalman.StaleSelfPairWithoutSharing). The success condition is stated for Kalman.ProcessCorrected and for Kalman.Track when corrected.
- Kalman.Track: the frame loop `for (frame = secondFrame; frame <= last; frame++)` never ends in the source when the last frame key is `Integer.MAX_VALUE`, because `frame++` wraps to `Integer.MIN_VALUE`. The model's loop runs on unbounded integers and stops after the last frame. Kalman.Process and Kalman.ProcessCorrected inherit this.
- Feature presence: the requires `HasVisibility`, `Readable`, `Measurable` and `HasRadii` exclude the `NullPointerException` that unboxing an absent VISIBILITY, position or RADIUS throws in the source. `add` and `put` write VISIBILITY and FRAME on every object they file (Collection.AddPutKeepVisibility), and the `Spot` constructors write position and radius, so these hold for collections built through them. DepthFirst takes the frame of a spot as a total function for the same reason: `getFeature(FRAME).intValue()` throws only for a spot never filed in a collection.
- Selection.SelectTrack: requires every seed spot to be a vertex of the graph. jgrapht's `edgesOf` throws `IllegalArgumentException` for any other spot, and that exception is not modelled.
- Segments.SortByFrame: the frame comparator is `o1.frame() - o2.frame()`, which wraps for frames more than 2^31 apart. The model sorts by the true frame order, so frames are assumed non-negative `int`s, where the difference cannot wrap (ObjectUtils.FrameDiffOrders).
- UI, rendering, logging, progress and processing-time measurement are left out.

## Findings

| source | as written | input that shows it | evidently intended | confidence | as-written member | corrected member |
|---|---|---|---|---|---|---|
| src/main/java/fiji/plugin/trackmate/ObjectCollection.java:1182-1196 | The iterable constructor adds every object to a new local `sc`, which is then dropped | One object with FRAME 0 | The constructed collection holds the objects, each in its frame | high, not executed | Collection.FromObjectsAsWritten | Collection.FromObjects |
| src/main/java/fiji/plugin/trackmate/ObjectCollection.java:1208-1212 | The map constructor copies the source into a local `sc`, which is dropped | `{0: {7}}` | The collection holds the source's buckets | high, not executed | Collection.FromMapAsWritten | Collection.FromMap |
| src/main/java/fiji/plugin/trackmate/tracking/kalman/KalmanTracker.java:199-221 | The orphan set is refreshed from the current frame only when predictions and measurements both exist | No filter active, previous orphans `{1}`, current frame `{2}`: the orphans stay `{1}`, so nucleation pairs `{1}` with itself | The orphans are this frame's unmatched measurements | medium, not executed | Kalman.StaleOrphansAsWritten, Kalman.StaleSelfPairWithoutSharing, Kalman.Process | Kalman.OrphansAfterMatching, Kalman.ProcessCorrected |
| src/main/java/fiji/plugin/trackmate/Spot.java:245-246 | `echo` tests `Spot`'s own `features` field, which shadows the inherited map and is never written | Any spot from the main constructor, which stores five features | The dump lists the stored features | high, not executed | Spots.EchoIgnoresStoredFeatures | Spots.EchoFeatureSectionCorrected |
| src/main/java/fiji/plugin/trackmate/Settings.java:198-203 | With an ROI, `xend = x + width` and `yend = y + height` | An ROI covering a `w × h` image gives `xend = w`, one pixel outside it, while no ROI gives `w - 1` | `xend = x + width - 1`, inclusive like every other crop bound | medium, not executed | SessionSettings.FullRoiBoxAsWritten | SessionSettings.FullRoiBox |

=== FILE: branches.dfy ===
/**
 * `FromContinuousBranches`: builds a simple undirected graph from a
 * collection of branches (each a list of objects linked one after the other)
 * and a collection of links (two-element lists joining two branches).
 * Collections are modelled as sequences in their iteration order; a Java
 * `null` collection is `None`.
 */
module Branches {
  import opened Wrappers
  import opened Graph

  const BASE_ERROR_MSG: string := "[FromContinuousBranches] "

  /** The reasons `checkInput` gives for refusing its input, in the order it tests them. */
  datatype CheckError =
    | BranchesNull
    | LinksNull
    | LinkNotPair
    | NotInBranches(spot: ObjId, first: ObjId, second: ObjId)

  /**
   * The stored error message. The Java code prints the spots with their
   * `toString`, which is the `show` parameter here.
   */
  function ErrorMessage(e: CheckError, show: ObjId -> string): (m: string)
    ensures |m| > |BASE_ERROR_MSG| && m[..|BASE_ERROR_MSG|] == BASE_ERROR_MSG
  {
    BASE_ERROR_MSG +
    match e
    case BranchesNull => "branches are null."
    case LinksNull => "links are null."
    case LinkNotPair => "A link is not made of two spots."
    case NotInBranches(s, a, b) =>
      "A spot in a link is not present in the branch collection: " + show(s) + " in the link " + show(a) + "-" + show(b) + "."
  }

  /** `checkIfInBranches`: whether some branch contains `spot`. */
  function CheckIfInBranches(branches: seq<seq<ObjId>>, spot: ObjId): (r: bool)
    ensures r <==> exists i :: 0 <= i < |branches| && spot in branches[i]
  {
    if |branches| == 0 then false
    else if spot in branches[0] then true
    else
      var r := CheckIfInBranches(branches[1..], spot);
      assert r ==> exists i :: 0 <= i < |branches| && spot in branches[i] by {
        if r {
          var i :| 0 <= i < |branches[1..]| && spot in branches[1..][i];
          assert spot in branches[i + 1];
        }
      }
      assert (exists i :: 0 <= i < |branches| && spot in branches[i]) ==> r by {
        if exists i :: 0 <= i < |branches| && spot in branches[i] {
          var i :| 0 <= i < |branches| && spot in branches[i];
          assert i != 0 && spot in branches[1..][i - 1];
        }
      }
      r
  }

  /** A link `checkInput` accepts: two elements, both in some branch. */
  predicate ValidLink(branches: seq<seq<ObjId>>, link: seq<ObjId>) {
    |link| == 2 && CheckIfInBranches(branches, link[0]) && CheckIfInBranches(branches, link[1])
  }

  /** What `checkInput` reports for one link: size first, then the first endpoint, then the second. */
  function LinkFault(branches: seq<seq<ObjId>>, link: seq<ObjId>): (r: Option<CheckError>)
    ensures r.None? <==> ValidLink(branches, link)
  {
    if |link| != 2 then Some(LinkNotPair)
    else if !CheckIfInBranches(branches, link[0]) then Some(NotInBranches(link[0], link[0], link[1]))
    else if !CheckIfInBranches(branches, link[1]) then Some(NotInBranches(link[1], link[0], link[1]))
    else None
  }

  /** The fault of the first invalid link, in iteration order. */
  function CheckLinks(branches: seq<seq<ObjId>>, links: seq<seq<ObjId>>): (r: Option<CheckError>)
    ensures r.None? <==> forall k :: 0 <= k < |links| ==> ValidLink(branches, links[k])
    ensures r.Some? ==> exists k :: 0 <= k < |links| && (forall j :: 0 <= j < k ==> ValidLink(branches, links[j])) &&
                                    r == LinkFault(branches, links[k])
  {
    if |links| == 0 then None
    else match LinkFault(branches, links[0])
      case Some(e) => Some(e)
      case None =>
        var r := CheckLinks(branches, links[1..]);
        assert forall k :: 1 <= k < |links| ==> links[k] == links[1..][k - 1];
        assert r.Some? ==> exists k :: 0 <= k < |links| && (forall j :: 0 <= j < k ==> ValidLink(branches, links[j])) &&
                                       r == LinkFault(branches, links[k]) by {
          if r.Some? {
            var k :| 0 <= k < |links[1..]| && (forall j :: 0 <= j < k ==> ValidLink(branches, links[1..][j])) &&
                     r == LinkFault(branches, links[1..][k]);
            assert forall j :: 0 <= j < k + 1 ==> ValidLink(branches, links[j]) by {
              forall j | 0 <= j < k + 1 ensures ValidLink(branches, links[j]) {
                if j > 0 { assert links[j] == links[1..][j - 1]; }
              }
            }
          }
        }
        r
  }

  /** `checkInput`: null branches, then null links, then the first bad link. */
  function CheckInput(branches: Option<seq<seq<ObjId>>>, links: Option<seq<seq<ObjId>>>): (r: Result<(), CheckError>)
    ensures branches.None? ==> r == Err(BranchesNull)
    ensures branches.Some? && links.None? ==> r == Err(LinksNull)
    ensures r.Ok? <==> branches.Some? && links.Some? &&
                       forall k :: 0 <= k < |links.value| ==> ValidLink(branches.value, links.value[k])
    ensures r.Err? && branches.Some? && links.Some? ==>
              exists k :: 0 <= k < |links.value| && (forall j :: 0 <= j < k ==> ValidLink(branches.value, links.value[j])) &&
                          Some(r.error) == LinkFault(branches.value, links.value[k])
  {
    if branches.None? then Err(BranchesNull)
    else if links.None? then Err(LinksNull)
    else match CheckLinks(branches.value, links.value)
      case Some(e) => Err(e)
      case None => Ok(())
  }

  /** Why `process` throws: a null collection, an empty branch (`it.next()`), a link shorter than two (`get(1)`), or `addEdge`. */
  datatype ProcessError = NullInput | NoSuchElement | IndexOutOfBounds | GraphFailure(e: GraphError)

  /** `x` is immediately followed by `y` somewhere in `b`. */
  predicate Step(b: seq<ObjId>, x: ObjId, y: ObjId) {
    exists j :: 0 <= j < |b| - 1 && PairAt(b, j) == (x, y)
  }

  /** The element at `j` and the one after it. */
  function PairAt(b: seq<ObjId>, j: nat): (ObjId, ObjId)
    requires j < |b| - 1
  {
    (b[j], b[j + 1])
  }

  /** Linking each element of `b` to the next joins two distinct vertices each time. */
  predicate Chainable(vs: set<ObjId>, b: seq<ObjId>) {
    (|b| >= 2 ==> forall x :: x in b ==> x in vs) && NoRepeat(b)
  }

  function AddVertices(g: Graph, vs: seq<ObjId>): (r: Graph)
    ensures r.weights == g.weights
    ensures forall v :: v in r.vertices <==> v in g.vertices || v in vs
    ensures Simple(g) ==> Simple(r)
    decreases |vs|
  {
    if |vs| == 0 then g else AddVertices(AddVertex(g, vs[0]), vs[1..])
  }

  /** The first loop of `process`: every element of every branch becomes a vertex. */
  function AddBranchVertices(g: Graph, branches: seq<seq<ObjId>>): (r: Graph)
    ensures r.weights == g.weights
    ensures forall v :: v in r.vertices <==> v in g.vertices || CheckIfInBranches(branches, v)
    ensures Simple(g) ==> Simple(r)
    decreases |branches|
  {
    if |branches| == 0 then g else AddBranchVertices(AddVertices(g, branches[0]), branches[1..])
  }

  /** Links each element of `b` to the next one. */
  function AddPath(g: Graph, b: seq<ObjId>): (r: Result<Graph, GraphError>)
    requires Simple(g)
    ensures r.Ok? <==> Chainable(g.vertices, b)
    ensures r.Ok? ==> Simple(r.value) && r.value.vertices == g.vertices
    ensures r.Ok? ==> forall x, y :: Adjacent(r.value, x, y) <==> Adjacent(g, x, y) || Step(b, x, y) || Step(b, y, x)
    decreases |b|
  {
    if |b| < 2 then Ok(g)
    else
      assert Chainable(g.vertices, b) <==> b[0] in g.vertices && b[1] in g.vertices && b[0] != b[1] && Chainable(g.vertices, b[1..]) by {
        ChainableCons(g.vertices, b);
      }
      match AddEdge(g, b[0], b[1])
      case Err(e) => Err(e)
      case Ok(h) =>
        var r := AddPath(h, b[1..]);
        StepCons(b);
        r
  }

  lemma StepCons(b: seq<ObjId>)
    requires |b| >= 2
    ensures forall x, y :: Step(b, x, y) <==> (x == b[0] && y == b[1]) || Step(b[1..], x, y)
  {
    PairAtTail(b);
    assert PairAt(b, 0) == (b[0], b[1]);
    forall x, y ensures Step(b, x, y) <==> (x == b[0] && y == b[1]) || Step(b[1..], x, y) {
      if Step(b, x, y) {
        var j :| 0 <= j < |b| - 1 && PairAt(b, j) == (x, y);
        if j > 0 { assert PairAt(b[1..], j - 1) == (x, y); }
      }
      if Step(b[1..], x, y) {
        var j :| 0 <= j < |b[1..]| - 1 && PairAt(b[1..], j) == (x, y);
        assert PairAt(b, j + 1) == (x, y);
      }
    }
  }

  /** The consecutive pairs of `b[1..]` are those of `b` after the first. */
  lemma PairAtTail(b: seq<ObjId>)
    requires |b| >= 1
    ensures forall j :: 0 <= j < |b| - 2 ==> PairAt(b[1..], j) == PairAt(b, j + 1)
  {
  }

  lemma ChainableCons(vs: set<ObjId>, b: seq<ObjId>)
    requires |b| >= 2
    ensures Chainable(vs, b) <==> b[0] in vs && b[1] in vs && b[0] != b[1] && Chainable(vs, b[1..])
  {
    assert b == [b[0]] + b[1..];
    forall x ensures x in b <==> x == b[0] || x in b[1..] { }
    PairAtTail(b);
    assert PairAt(b, 0) == (b[0], b[1]);
    if NoRepeat(b) {
      forall j | 0 <= j < |b[1..]| - 1 ensures PairAt(b[1..], j).0 != PairAt(b[1..], j).1 {
        assert PairAt(b[1..], j) == PairAt(b, j + 1);
      }
    }
    if b[0] != b[1] && NoRepeat(b[1..]) {
      forall j | 0 <= j < |b| - 1 ensures PairAt(b, j).0 != PairAt(b, j).1 {
        if j > 0 { assert PairAt(b, j) == PairAt(b[1..], j - 1); }
      }
    }
  }

  /** Some branch has `x` immediately followed by `y`. */
  predicate BranchStep(branches: seq<seq<ObjId>>, x: ObjId, y: ObjId) {
    exists i :: 0 <= i < |branches| && Step(branches[i], x, y)
  }

  /** Some link (of at least two elements) starts with `x` then `y`. */
  predicate LinkPair(links: seq<seq<ObjId>>, x: ObjId, y: ObjId) {
    exists k :: 0 <= k < |links| && |links[k]| >= 2 && links[k][0] == x && links[k][1] == y
  }

  /** The second loop of `process`: the consecutive pairs of every branch, which must be non-empty. */
  function AddBranchEdges(g: Graph, branches: seq<seq<ObjId>>): (r: Result<Graph, ProcessError>)
    requires Simple(g)
    ensures r.Ok? <==> forall i :: 0 <= i < |branches| ==> |branches[i]| > 0 && Chainable(g.vertices, branches[i])
    ensures r.Ok? ==> Simple(r.value) && r.value.vertices == g.vertices
    ensures r.Ok? ==> forall x, y :: Adjacent(r.value, x, y) <==>
                        Adjacent(g, x, y) || BranchStep(branches, x, y) || BranchStep(branches, y, x)
    decreases |branches|
  {
    if |branches| == 0 then Ok(g)
    else if |branches[0]| == 0 then Err(NoSuchElement)
    else match AddPath(g, branches[0])
      case Err(e) => Err(GraphFailure(e))
      case Ok(h) =>
        var r := AddBranchEdges(h, branches[1..]);
        BranchStepCons(branches);
        assert forall i :: 1 <= i < |branches| ==> branches[i] == branches[1..][i - 1];
        r
  }

  lemma BranchStepCons(branches: seq<seq<ObjId>>)
    requires |branches| > 0
    ensures forall x, y :: BranchStep(branches, x, y) <==> Step(branches[0], x, y) || BranchStep(branches[1..], x, y)
  {
    forall x, y ensures BranchStep(branches, x, y) <==> Step(branches[0], x, y) || BranchStep(branches[1..], x, y) {
      if BranchStep(branches, x, y) {
        var i :| 0 <= i < |branches| && Step(branches[i], x, y);
        if i > 0 { assert branches[1..][i - 1] == branches[i]; }
      }
      if BranchStep(branches[1..], x, y) {
        var i :| 0 <= i < |branches[1..]| && Step(branches[1..][i], x, y);
        assert branches[i + 1] == branches[1..][i];
      }
    }
  }

  /** The third loop of `process`: an edge for each link. */
  function AddLinks(g: Graph, links: seq<seq<ObjId>>): (r: Result<Graph, ProcessError>)
    requires Simple(g)
    ensures r.Ok? <==> forall k :: 0 <= k < |links| ==>
                         |links[k]| >= 2 && links[k][0] in g.vertices && links[k][1] in g.vertices && links[k][0] != links[k][1]
    ensures r.Ok? ==> Simple(r.value) && r.value.vertices == g.vertices
    ensures r.Ok? ==> forall x, y :: Adjacent(r.value, x, y) <==> Adjacent(g, x, y) || LinkPair(links, x, y) || LinkPair(links, y, x)
    decreases |links|
  {
    if |links| == 0 then Ok(g)
    else if |links[0]| < 2 then Err(IndexOutOfBounds)
    else match AddEdge(g, links[0][0], links[0][1])
      case Err(e) => Err(GraphFailure(e))
      case Ok(h) =>
        var r := AddLinks(h, links[1..]);
        LinkPairCons(links);
        assert forall k :: 1 <= k < |links| ==> links[k] == links[1..][k - 1];
        r
  }

  lemma LinkPairCons(links: seq<seq<ObjId>>)
    requires |links| > 0
    ensures forall x, y :: LinkPair(links, x, y) <==>
              (|links[0]| >= 2 && links[0][0] == x && links[0][1] == y) || LinkPair(links[1..], x, y)
  {
    forall x, y ensures LinkPair(links, x, y) <==>
                        (|links[0]| >= 2 && links[0][0] == x && links[0][1] == y) || LinkPair(links[1..], x, y) {
      if LinkPair(links, x, y) {
        var k :| 0 <= k < |links| && |links[k]| >= 2 && links[k][0] == x && links[k][1] == y;
        if k > 0 { assert links[1..][k - 1] == links[k]; }
      }
      if LinkPair(links[1..], x, y) {
        var k :| 0 <= k < |links[1..]| && |links[1..][k]| >= 2 && links[1..][k][0] == x && links[1..][k][1] == y;
        assert links[k + 1] == links[1..][k];
      }
    }
  }

  /**
   * `process`: the vertices are every branch element, the edges join
   * consecutive branch elements and the two ends of each link, all with the
   * default weight. It reports success whenever it does not throw.
   */
  function Process(branches: Option<seq<seq<ObjId>>>, links: Option<seq<seq<ObjId>>>): (r: Result<Graph, ProcessError>)
    ensures branches.None? || links.None? ==> r == Err(NullInput)
    ensures r.Ok? ==> Simple(r.value)
    ensures r.Ok? ==> forall v :: v in r.value.vertices <==> CheckIfInBranches(branches.value, v)
    ensures r.Ok? ==> forall x, y :: Adjacent(r.value, x, y) <==>
                        BranchStep(branches.value, x, y) || BranchStep(branches.value, y, x) ||
                        LinkPair(links.value, x, y) || LinkPair(links.value, y, x)
    ensures r.Ok? ==> forall e :: e in r.value.weights ==> r.value.weights[e] == DEFAULT_EDGE_WEIGHT
  {
    if branches.None? || links.None? then Err(NullInput)
    else
      var g := AddBranchVertices(EmptyGraph(), branches.value);
      assert forall x, y :: !Adjacent(g, x, y);
      match AddBranchEdges(g, branches.value)
      case Err(e) => Err(e)
      case Ok(h) =>
        var r := AddLinks(h, links.value);
        assert r.Ok? ==> forall e :: e in r.value.weights ==> r.value.weights[e] == DEFAULT_EDGE_WEIGHT by {
          if r.Ok? { AllDefaultWeights(branches.value, links.value, g, h); }
        }
        r
  }

  /** A graph whose every edge carries the default weight. */
  predicate Unweighted(g: Graph) {
    forall e :: e in g.weights ==> g.weights[e] == DEFAULT_EDGE_WEIGHT
  }

  lemma AllDefaultWeights(branches: seq<seq<ObjId>>, links: seq<seq<ObjId>>, g: Graph, h: Graph)
    requires Simple(g) && g.weights == map[]
    requires AddBranchEdges(g, branches) == Ok(h)
    requires AddLinks(h, links).Ok?
    ensures Unweighted(AddLinks(h, links).value)
  {
    BranchEdgesUnweighted(g, branches);
    LinksUnweighted(h, links);
  }

  lemma {:induction false} PathUnweighted(g: Graph, b: seq<ObjId>)
    requires Simple(g) && Unweighted(g) && AddPath(g, b).Ok?
    ensures Unweighted(AddPath(g, b).value)
    decreases |b|
  {
    if |b| >= 2 {
      var h := AddEdge(g, b[0], b[1]).value;
      PathUnweighted(h, b[1..]);
    }
  }

  lemma {:induction false} BranchEdgesUnweighted(g: Graph, branches: seq<seq<ObjId>>)
    requires Simple(g) && Unweighted(g) && AddBranchEdges(g, branches).Ok?
    ensures Unweighted(AddBranchEdges(g, branches).value)
    decreases |branches|
  {
    if |branches| > 0 {
      PathUnweighted(g, branches[0]);
      BranchEdgesUnweighted(AddPath(g, branches[0]).value, branches[1..]);
    }
  }

  lemma {:induction false} LinksUnweighted(g: Graph, links: seq<seq<ObjId>>)
    requires Simple(g) && Unweighted(g) && AddLinks(g, links).Ok?
    ensures Unweighted(AddLinks(g, links).value)
    decreases |links|
  {
    if |links| > 0 {
      LinksUnweighted(AddEdge(g, links[0][0], links[0][1]).value, links[1..]);
    }
  }

  /**
   * `process` succeeds exactly when both collections are present, every
   * branch is non-empty with no element repeated back to back, and every link
   * has two distinct endpoints taken from the branches.
   */
  lemma ProcessSucceedsIff(branches: seq<seq<ObjId>>, links: seq<seq<ObjId>>)
    ensures Process(Some(branches), Some(links)).Ok? <==>
              (forall i :: 0 <= i < |branches| ==> |branches[i]| > 0 && NoRepeat(branches[i])) &&
              (forall k :: 0 <= k < |links| ==>
                 (|links[k]| >= 2 && links[k][0] != links[k][1] &&
                  CheckIfInBranches(branches, links[k][0]) && CheckIfInBranches(branches, links[k][1])))
  {
    var g := AddBranchVertices(EmptyGraph(), branches);
    forall i | 0 <= i < |branches| ensures Chainable(g.vertices, branches[i]) <==> NoRepeat(branches[i]) {
      forall x | x in branches[i] ensures x in g.vertices {
        assert CheckIfInBranches(branches, x);
      }
    }
    var edges := AddBranchEdges(g, branches);
    assert Process(Some(branches), Some(links)) == if edges.Err? then Err(edges.error) else AddLinks(edges.value, links);
    if edges.Ok? {
      var h := edges.value;
      assert h.vertices == g.vertices;
      assert forall v :: v in h.vertices <==> CheckIfInBranches(branches, v);
    }
  }

  /** No element of `b` is immediately followed by itself. */
  predicate NoRepeat(b: seq<ObjId>) {
    forall j :: 0 <= j < |b| - 1 ==> PairAt(b, j).0 != PairAt(b, j).1
  }

  /**
   * Input that `checkInput` accepts is processed without error unless a
   * branch is empty, repeats an element back to back, or a link joins a spot
   * to itself: the checks `checkInput` leaves to `process`.
   */
  lemma CheckedInputProcesses(branches: seq<seq<ObjId>>, links: seq<seq<ObjId>>)
    requires CheckInput(Some(branches), Some(links)).Ok?
    requires forall i :: 0 <= i < |branches| ==> |branches[i]| > 0 && NoRepeat(branches[i])
    requires forall k :: 0 <= k < |links| ==> links[k][0] != links[k][1]
    ensures Process(Some(branches), Some(links)).Ok?
  {
    ProcessSucceedsIff(branches, links);
    assert forall k :: 0 <= k < |links| ==> ValidLink(branches, links[k]);
  }
}

=== FILE: collection.dfy ===
/**
 * The frame-indexed object store. A collection maps frame numbers to buckets
 * of objects; the objects' features, including the `VISIBILITY` flag used as a
 * soft delete, live in a feature store shared by every collection holding
 * them. Work the Java code spreads over a thread pool, one task per frame, is
 * modelled as one map update. That is exact when no object sits in two
 * buckets; otherwise two tasks may race on the same object, and each such
 * operation says which outcome it models.
 */
module Collection {
  import opened Wrappers
  import opened Sets
  import opened JavaLang
  import opened Features
  import opened Trackable

  /** Objects are identified by their ID, which is also what their equality uses. */
  type ObjId = int

  /** Frame number to the bucket of objects in that frame. */
  type Content = map<int, set<ObjId>>

  /** The features of every object, by object. */
  type Store = map<ObjId, FeatureMap>

  /** The feature map of `o`; empty for an object that never stored a feature. */
  function FeaturesOf(store: Store, o: ObjId): FeatureMap {
    if o in store then store[o] else map[]
  }

  /** The position of an object, the origin when it has none (the trackers' preconditions exclude that). */
  function PosOf(store: Store, o: ObjId): Point3 {
    var fm := FeaturesOf(store, o);
    if Positioned(fm) then Position(fm) else Point3(0.0, 0.0, 0.0)
  }

  function Bucket(c: Content, frame: int): set<ObjId> {
    if frame in c then c[frame] else {}
  }

  /** Every object held in some bucket. */
  function Objects(c: Content): (r: set<ObjId>)
    ensures forall o :: o in r <==> exists f :: f in c && o in c[f]
  {
    set f, o | f in c && o in c[f] :: o
  }

  /** The visibility test every visible-only operation uses: the flag compares above zero. */
  predicate IsVisible(store: Store, o: ObjId) {
    VISIBILITY in FeaturesOf(store, o) && FeaturesOf(store, o)[VISIBILITY] > 0.0
  }

  /** The visible objects of the whole collection. */
  function VisibleObjects(c: Content, store: Store): (r: set<ObjId>)
    ensures forall o :: o in r <==> o in Objects(c) && IsVisible(store, o)
  {
    set o | o in Objects(c) && IsVisible(store, o)
  }

  /** Every object of the collection carries the visibility flag (reading it otherwise throws). */
  predicate HasVisibility(c: Content, store: Store) {
    forall o :: o in Objects(c) ==> VISIBILITY in FeaturesOf(store, o)
  }

  /** The visible objects of one frame; empty for an absent frame. */
  function VisibleIn(c: Content, store: Store, frame: int): (r: set<ObjId>)
    ensures forall o :: o in r <==> o in Bucket(c, frame) && IsVisible(store, o)
  {
    set o | o in Bucket(c, frame) && IsVisible(store, o)
  }

  /** No object sits in two buckets. */
  predicate Exclusive(c: Content) {
    forall f, g, o :: f in c && g in c && o in c[f] && o in c[g] ==> f == g
  }

  /** Writes one feature on each object of `objs`. */
  function PutOnAll(store: Store, objs: set<ObjId>, feature: string, value: real): (r: Store)
    ensures r.Keys == store.Keys + objs
    ensures forall o :: o in objs ==> r[o] == FeaturesOf(store, o)[feature := value]
    ensures forall o :: o in store && o !in objs ==> r[o] == store[o]
  {
    map o | o in store.Keys + objs :: if o in objs then FeaturesOf(store, o)[feature := value] else store[o]
  }

  /** `store` and `s1` agree on everything except possibly `feature` of the objects in `objs`. */
  ghost predicate OnlyChanges(store: Store, s1: Store, objs: set<ObjId>, feature: string) {
    (forall o :: o !in objs ==> FeaturesOf(s1, o) == FeaturesOf(store, o)) &&
    (forall o, g :: o in objs && g != feature ==> GetFeature(FeaturesOf(s1, o), g) == GetFeature(FeaturesOf(store, o), g))
  }

  // ---------------------------------------------------------------- insertion

  /**
   * Adds `o` to the bucket of `frame` (creating the bucket if needed), records
   * the frame in its `FRAME` feature and makes it visible.
   */
  function Add(c: Content, store: Store, o: ObjId, frame: int): (r: (Content, Store))
    ensures r.0.Keys == c.Keys + {frame}
    ensures r.0[frame] == Bucket(c, frame) + {o}
    ensures forall f :: f in c && f != frame ==> r.0[f] == c[f]
    ensures GetFeature(FeaturesOf(r.1, o), FRAME) == Some(frame as real)
    ensures GetFeature(FeaturesOf(r.1, o), VISIBILITY) == Some(1.0) && IsVisible(r.1, o)
    ensures forall p :: p != o ==> FeaturesOf(r.1, p) == FeaturesOf(store, p)
    ensures forall g :: g != FRAME && g != VISIBILITY ==> GetFeature(FeaturesOf(r.1, o), g) == GetFeature(FeaturesOf(store, o), g)
  {
    var fm := FeaturesOf(store, o)[FRAME := frame as real][VISIBILITY := 1.0];
    (c[frame := Bucket(c, frame) + {o}], store[o := fm])
  }

  /**
   * Removes `o` from the bucket of `frame`. Reports `false` and changes nothing
   * for an absent frame; otherwise reports whether `o` was there. A bucket
   * emptied this way stays in the collection.
   */
  function Remove(c: Content, o: ObjId, frame: int): (r: (Content, bool))
    ensures frame !in c ==> r == (c, false)
    ensures frame in c ==> r.1 == (o in c[frame])
    ensures r.0.Keys == c.Keys
    ensures frame in c ==> r.0[frame] == c[frame] - {o}
    ensures forall f :: f in c && f != frame ==> r.0[f] == c[f]
  {
    if frame !in c then (c, false) else (c[frame := c[frame] - {o}], o in c[frame])
  }

  /**
   * Removing an object just added to an existing frame restores the collection;
   * on a new frame it leaves that frame behind as an empty bucket.
   */
  lemma RemoveUndoesAdd(c: Content, store: Store, o: ObjId, frame: int)
    requires o !in Bucket(c, frame)
    ensures Remove(Add(c, store, o, frame).0, o, frame).1
    ensures frame in c ==> Remove(Add(c, store, o, frame).0, o, frame).0 == c
    ensures frame !in c ==> Remove(Add(c, store, o, frame).0, o, frame).0 == c[frame := {}]
  {
  }

  /**
   * Replaces the bucket of `frame` with the given objects (duplicates collapse)
   * and marks each of them with the frame and as invisible.
   */
  function Put(c: Content, store: Store, frame: int, objs: seq<ObjId>): (r: (Content, Store))
    ensures r.0.Keys == c.Keys + {frame}
    ensures forall o :: o in r.0[frame] <==> o in objs
    ensures forall f :: f in c && f != frame ==> r.0[f] == c[f]
    ensures forall o :: o in objs ==>
              GetFeature(FeaturesOf(r.1, o), FRAME) == Some(frame as real) &&
              GetFeature(FeaturesOf(r.1, o), VISIBILITY) == Some(0.0)
    ensures forall o :: o !in objs ==> FeaturesOf(r.1, o) == FeaturesOf(store, o)
  {
    var objSet := set o | o in objs;
    var s1 := PutOnAll(store, objSet, FRAME, frame as real);
    var s2 := PutOnAll(s1, objSet, VISIBILITY, 0.0);
    (c[frame := objSet], s2)
  }

  /** A bucket just put holds no visible object. */
  lemma PutFrameIsInvisible(c: Content, store: Store, frame: int, objs: seq<ObjId>)
    ensures VisibleIn(Put(c, store, frame, objs).0, Put(c, store, frame, objs).1, frame) == {}
  {
  }

  /**
   * `add` and `put` write VISIBILITY on every object they file, so a collection
   * built with them always has the flag the visible-only reads unbox.
   */
  lemma AddPutKeepVisibility(c: Content, store: Store, o: ObjId, frame: int, objs: seq<ObjId>)
    requires HasVisibility(c, store)
    ensures HasVisibility(Add(c, store, o, frame).0, Add(c, store, o, frame).1)
    ensures HasVisibility(Put(c, store, frame, objs).0, Put(c, store, frame, objs).1)
  {
    var (c1, s1) := Add(c, store, o, frame);
    forall p | p in Objects(c1) ensures VISIBILITY in FeaturesOf(s1, p) {
      var f :| f in c1 && p in c1[f];
      if p != o {
        assert p in Bucket(c, f);
      }
    }
    var (c2, s2) := Put(c, store, frame, objs);
    forall p | p in Objects(c2) ensures VISIBILITY in FeaturesOf(s2, p) {
      var f :| f in c2 && p in c2[f];
      if p !in objs {
        assert f != frame && p in c[f];
      }
    }
  }

  /** Empties the collection (the objects keep their features). */
  function Clear(c: Content): (r: Content)
    ensures Objects(r) == {} && r.Keys == {}
  {
    map[]
  }

  // ---------------------------------------------------------------- visibility

  /** Marks every object of the collection visible (1) or invisible (0). */
  function SetVisible(c: Content, store: Store, visible: bool): (r: Store)
    ensures forall o :: o in Objects(c) ==> (IsVisible(r, o) <==> visible)
    ensures forall o :: o in Objects(c) ==> GetFeature(FeaturesOf(r, o), VISIBILITY) == Some(if visible then 1.0 else 0.0)
    ensures OnlyChanges(store, r, Objects(c), VISIBILITY)
  {
    PutOnAll(store, Objects(c), VISIBILITY, if visible then 1.0 else 0.0)
  }

  /** A threshold on one feature: keep values at or above it, or at or below it. */
  datatype FeatureFilter = FeatureFilter(feature: string, value: real, isAbove: bool)

  /** Whether a value survives the filter: above keeps `val >= t`, below keeps `val <= t`. */
  predicate Keeps(ff: FeatureFilter, val: real) {
    if ff.isAbove then !(val < ff.value) else !(val > ff.value)
  }

  /** Every object of the collection stores `feature`. */
  predicate AllHave(c: Content, store: Store, feature: string) {
    forall o :: o in Objects(c) ==> feature in FeaturesOf(store, o)
  }

  function Flag(b: bool): real {
    if b then 1.0 else 0.0
  }

  /** How each bucket's hash set enumerates its objects. */
  type Orders = map<int, seq<ObjId>>

  /** `order` lists every object of `s` exactly once. */
  ghost predicate Enumerates(order: seq<ObjId>, s: set<ObjId>) {
    Distinct(order) && forall o :: o in order <==> o in s
  }

  /** Every bucket comes with its enumeration. */
  ghost predicate WellOrdered(c: Content, orders: Orders) {
    forall f :: f in c ==> f in orders && Enumerates(orders[f], c[f])
  }

  /**
   * AND-chained evaluation of a filter list on one object: `Some(false)` at the
   * first failing filter (later ones are not read), `Some(true)` when all pass,
   * `None` when a feature needed before the verdict is missing.
   */
  function PassesAll(fm: FeatureMap, filters: seq<FeatureFilter>): (r: Option<bool>)
    ensures r == Some(true) <==> forall i :: 0 <= i < |filters| ==> filters[i].feature in fm && Keeps(filters[i], fm[filters[i].feature])
  {
    if |filters| == 0 then Some(true)
    else if filters[0].feature !in fm then None
    else if !Keeps(filters[0], fm[filters[0].feature]) then Some(false)
    else
      var rest := PassesAll(fm, filters[1..]);
      assert forall i :: 1 <= i < |filters| ==> filters[i] == filters[1..][i - 1];
      rest
  }

  /** Every object can be evaluated against the filter list without a missing feature. */
  predicate AllEvaluable(c: Content, store: Store, filters: seq<FeatureFilter>) {
    forall o :: o in Objects(c) ==> PassesAll(FeaturesOf(store, o), filters).Some?
  }

  /**
   * How far one frame's task gets through its enumeration. The first object
   * whose verdict needs a missing feature unboxes `null`; the exception ends
   * that frame's task, leaving the objects before it re-flagged and the rest
   * untouched, while the other frames' tasks go on.
   */
  function Evaluated(store: Store, order: seq<ObjId>, filters: seq<FeatureFilter>): (k: nat)
    ensures k <= |order|
    ensures forall i :: 0 <= i < k ==> PassesAll(FeaturesOf(store, order[i]), filters).Some?
    ensures k < |order| ==> PassesAll(FeaturesOf(store, order[k]), filters).None?
  {
    if order == [] then 0
    else if PassesAll(FeaturesOf(store, order[0]), filters).None? then 0
    else
      var k := Evaluated(store, order[1..], filters);
      assert forall i :: 1 <= i < |order| ==> order[i] == order[1..][i - 1];
      1 + k
  }

  /** The objects some frame task re-flags before it ends. */
  function Reflagged(c: Content, store: Store, orders: Orders, filters: seq<FeatureFilter>): (r: set<ObjId>)
    requires WellOrdered(c, orders)
    ensures forall o :: o in r <==> exists f :: f in c && o in orders[f][..Evaluated(store, orders[f], filters)]
    ensures r <= Objects(c)
    ensures forall o :: o in r ==> PassesAll(FeaturesOf(store, o), filters).Some?
  {
    var r := set f, o | f in c && o in orders[f][..Evaluated(store, orders[f], filters)] :: o;
    assert forall o :: o in r ==> o in Objects(c) && PassesAll(FeaturesOf(store, o), filters).Some? by {
      forall o | o in r
        ensures o in Objects(c) && PassesAll(FeaturesOf(store, o), filters).Some?
      {
        var f :| f in c && o in orders[f][..Evaluated(store, orders[f], filters)];
        var i :| 0 <= i < Evaluated(store, orders[f], filters) && orders[f][i] == o;
        assert o in orders[f];
      }
    }
    r
  }

  /** Writes `flags[o]` as the visibility flag of each object `o` the map holds. */
  function PutFlags(store: Store, flags: map<ObjId, real>): (r: Store)
    ensures r.Keys == store.Keys + flags.Keys
    ensures forall o :: o in flags ==> FeaturesOf(r, o) == FeaturesOf(store, o)[VISIBILITY := flags[o]]
    ensures OnlyChanges(store, r, flags.Keys, VISIBILITY)
  {
    map o | o in store.Keys + flags.Keys :: if o in flags then FeaturesOf(store, o)[VISIBILITY := flags[o]] else store[o]
  }

  /** An object given a flag is visible exactly when its flag is 1. */
  lemma FlagsShow(store: Store, flags: map<ObjId, real>)
    requires forall o :: o in flags ==> flags[o] == 0.0 || flags[o] == 1.0
    ensures forall o :: o in flags ==> (IsVisible(PutFlags(store, flags), o) <==> flags[o] == 1.0)
  {
  }

  /**
   * Single-filter pass: every object a frame task reaches is reassigned visible
   * exactly when it survives the filter; the rest keep their flags.
   */
  function Filter(c: Content, store: Store, orders: Orders, ff: FeatureFilter): (r: Store)
    requires WellOrdered(c, orders)
    ensures forall o :: o in Reflagged(c, store, orders, [ff]) ==>
              ff.feature in FeaturesOf(store, o) &&
              (IsVisible(r, o) <==> (if ff.isAbove then FeaturesOf(store, o)[ff.feature] >= ff.value
                                     else FeaturesOf(store, o)[ff.feature] <= ff.value))
    ensures forall o :: o in Reflagged(c, store, orders, [ff]) ==> GetFeature(FeaturesOf(r, o), VISIBILITY) in {Some(0.0), Some(1.0)}
    ensures OnlyChanges(store, r, Reflagged(c, store, orders, [ff]), VISIBILITY)
  {
    PutFlags(store, Verdicts(store, Reflagged(c, store, orders, [ff]), ff))
  }

  /** The flag one filter gives an object: 1 when it has the feature and keeps it, else 0. */
  function Verdict(store: Store, ff: FeatureFilter, o: ObjId): real {
    Flag(ff.feature in FeaturesOf(store, o) && Keeps(ff, FeaturesOf(store, o)[ff.feature]))
  }

  /** The flags one filter gives the objects of `objs`. */
  function Verdicts(store: Store, objs: set<ObjId>, ff: FeatureFilter): (m: map<ObjId, real>)
    ensures m.Keys == objs && forall o :: o in objs ==> m[o] == Verdict(store, ff, o)
  {
    map o | o in objs :: Verdict(store, ff, o)
  }

  /** The flags a filter list gives the objects of `objs`: 1 exactly for those passing every filter. */
  function Passes(store: Store, objs: set<ObjId>, filters: seq<FeatureFilter>): (m: map<ObjId, real>)
    ensures m.Keys == objs
    ensures forall o :: o in objs ==> (m[o] == 0.0 || m[o] == 1.0) && (m[o] == 1.0 <==> PassesAll(FeaturesOf(store, o), filters) == Some(true))
  {
    map o | o in objs :: Flag(PassesAll(FeaturesOf(store, o), filters) == Some(true))
  }

  /** A one-element filter list flags each object as the filter alone does. */
  lemma PassesOne(store: Store, objs: set<ObjId>, ff: FeatureFilter)
    ensures Passes(store, objs, [ff]) == Verdicts(store, objs, ff)
  {
    forall o | o in objs
      ensures Passes(store, objs, [ff])[o] == Verdicts(store, objs, ff)[o]
    {
      var fm := FeaturesOf(store, o);
      assert PassesAll(fm, [ff]) == Some(true) <==> ff.feature in fm && Keeps(ff, fm[ff.feature]);
    }
  }

  /** Writing the same flag everywhere is setting the feature on every object. */
  lemma UniformFlags(store: Store, flags: map<ObjId, real>, v: real)
    requires forall o :: o in flags ==> flags[o] == v
    ensures PutFlags(store, flags) == PutOnAll(store, flags.Keys, VISIBILITY, v)
  {
  }

  /** Collection filter: an object a frame task reaches is visible afterwards exactly when it passes every filter. */
  function FilterAll(c: Content, store: Store, orders: Orders, filters: seq<FeatureFilter>): (r: Store)
    requires WellOrdered(c, orders)
    ensures forall o :: o in Reflagged(c, store, orders, filters) ==>
              (IsVisible(r, o) <==> forall i :: 0 <= i < |filters| ==>
                                       filters[i].feature in FeaturesOf(store, o) &&
                                       Keeps(filters[i], FeaturesOf(store, o)[filters[i].feature]))
    ensures OnlyChanges(store, r, Reflagged(c, store, orders, filters), VISIBILITY)
  {
    var reached := Reflagged(c, store, orders, filters);
    var flags := Passes(store, reached, filters);
    var r := PutFlags(store, flags);
    FlagsShow(store, flags);
    r
  }

  /** Every object is reached exactly when none lacks a feature its verdict needs. */
  lemma ReflaggedAllIff(c: Content, store: Store, orders: Orders, filters: seq<FeatureFilter>)
    requires WellOrdered(c, orders)
    ensures Reflagged(c, store, orders, filters) == Objects(c) <==> AllEvaluable(c, store, filters)
  {
    var r := Reflagged(c, store, orders, filters);
    if AllEvaluable(c, store, filters) {
      forall o | o in Objects(c)
        ensures o in r
      {
        var f :| f in c && o in c[f];
        var order := orders[f];
        var k := Evaluated(store, order, filters);
        assert k == |order|;
        assert order[..k] == order;
      }
    }
  }

  /**
   * In a collection where each object sits in one bucket, an object enumerated
   * at or after the first unevaluable object of its frame keeps its features:
   * that frame is left partly filtered.
   */
  lemma FilterAllStopsAtMissingFeature(c: Content, store: Store, orders: Orders, filters: seq<FeatureFilter>, f: int, j: int)
    requires WellOrdered(c, orders) && Exclusive(c) && f in c && Evaluated(store, orders[f], filters) <= j < |orders[f]|
    ensures FeaturesOf(FilterAll(c, store, orders, filters), orders[f][j]) == FeaturesOf(store, orders[f][j])
  {
    var o := orders[f][j];
    assert o in c[f];
    assert o !in Reflagged(c, store, orders, filters);
  }

  /**
   * Filtering twice with the same filter is filtering once, provided the filter
   * does not test the visibility flag it writes.
   */
  lemma FilterIdempotent(c: Content, store: Store, orders: Orders, ff: FeatureFilter)
    requires WellOrdered(c, orders) && ff.feature != VISIBILITY
    ensures Filter(c, Filter(c, store, orders, ff), orders, ff) == Filter(c, store, orders, ff)
  {
    var reached := Reflagged(c, store, orders, [ff]);
    var s1 := Filter(c, store, orders, ff);
    SameFeatureSameVerdict(store, s1, reached, ff);
    ReflaggedAgree(c, store, s1, orders, [ff]);
    VerdictsAgree(store, s1, reached, ff);
    PutFlagsTwice(store, Verdicts(store, reached, ff));
  }

  /** Two stores that agree on a filter's feature give every object the same verdict. */
  lemma VerdictsAgree(store: Store, s1: Store, objs: set<ObjId>, ff: FeatureFilter)
    requires forall o :: GetFeature(FeaturesOf(s1, o), ff.feature) == GetFeature(FeaturesOf(store, o), ff.feature)
    ensures Verdicts(s1, objs, ff) == Verdicts(store, objs, ff)
  {
    forall o | o in objs
      ensures Verdict(s1, ff, o) == Verdict(store, ff, o)
    {
      assert GetFeature(FeaturesOf(s1, o), ff.feature) == GetFeature(FeaturesOf(store, o), ff.feature);
    }
  }

  /** Re-flagging the same objects with the same flags changes nothing. */
  lemma PutFlagsTwice(store: Store, flags: map<ObjId, real>)
    ensures PutFlags(PutFlags(store, flags), flags) == PutFlags(store, flags)
  {
    var s1 := PutFlags(store, flags);
    var s2 := PutFlags(s1, flags);
    forall o | o in s2
      ensures s2[o] == s1[o]
    {
      if o in flags {
        assert FeaturesOf(s2, o) == FeaturesOf(s1, o)[VISIBILITY := flags[o]];
      }
    }
  }

  /** A pass of `ff` that only rewrote visibility leaves every object's verdict under `ff` as it was. */
  lemma SameFeatureSameVerdict(store: Store, s1: Store, objs: set<ObjId>, ff: FeatureFilter)
    requires ff.feature != VISIBILITY && OnlyChanges(store, s1, objs, VISIBILITY)
    ensures forall o :: PassesAll(FeaturesOf(s1, o), [ff]) == PassesAll(FeaturesOf(store, o), [ff])
    ensures forall o :: GetFeature(FeaturesOf(s1, o), ff.feature) == GetFeature(FeaturesOf(store, o), ff.feature)
  {
    forall o
      ensures GetFeature(FeaturesOf(s1, o), ff.feature) == GetFeature(FeaturesOf(store, o), ff.feature)
    {
      if o in objs {
        assert GetFeature(FeaturesOf(s1, o), ff.feature) == GetFeature(FeaturesOf(store, o), ff.feature);
      }
    }
  }

  /** Two stores that give every object the same verdict reach the same objects. */
  lemma ReflaggedAgree(c: Content, store: Store, s1: Store, orders: Orders, filters: seq<FeatureFilter>)
    requires WellOrdered(c, orders)
    requires forall o :: PassesAll(FeaturesOf(s1, o), filters) == PassesAll(FeaturesOf(store, o), filters)
    ensures Reflagged(c, s1, orders, filters) == Reflagged(c, store, orders, filters)
  {
    forall f | f in c
      ensures Evaluated(s1, orders[f], filters) == Evaluated(store, orders[f], filters)
    {
      EvaluatedAgree(store, s1, orders[f], filters);
    }
  }

  lemma {:induction false} EvaluatedAgree(store: Store, s1: Store, order: seq<ObjId>, filters: seq<FeatureFilter>)
    requires forall o :: PassesAll(FeaturesOf(s1, o), filters) == PassesAll(FeaturesOf(store, o), filters)
    ensures Evaluated(s1, order, filters) == Evaluated(store, order, filters)
    decreases |order|
  {
    if order != [] {
      EvaluatedAgree(store, s1, order[1..], filters);
    }
  }

  /** The filter below 0.5 on the visibility flag itself flips it, so it is not idempotent. */
  lemma FilterOnVisibilityFlips()
    ensures var c: Content := map[0 := {7}];
            var orders: Orders := map[0 := [7]];
            var s: Store := map[7 := map[VISIBILITY := 1.0]];
            var ff := FeatureFilter(VISIBILITY, 0.5, false);
            WellOrdered(c, orders) &&
            !IsVisible(Filter(c, s, orders, ff), 7) && IsVisible(Filter(c, Filter(c, s, orders, ff), orders, ff), 7)
  {
    OneObjectVisibilityFilter(1.0);
    OneObjectVisibilityFilter(0.0);
  }

  /** On a one-object collection, the filter below 0.5 on the visibility flag sets the flag to whether it was at most 0.5. */
  lemma OneObjectVisibilityFilter(v: real)
    ensures var c: Content := map[0 := {7}];
            var orders: Orders := map[0 := [7]];
            var ff := FeatureFilter(VISIBILITY, 0.5, false);
            WellOrdered(c, orders) &&
            Filter(c, map[7 := map[VISIBILITY := v]], orders, ff) == map[7 := map[VISIBILITY := if v <= 0.5 then 1.0 else 0.0]]
  {
    var c: Content := map[0 := {7}];
    var orders: Orders := map[0 := [7]];
    var s: Store := map[7 := map[VISIBILITY := v]];
    var ff := FeatureFilter(VISIBILITY, 0.5, false);
    OneObjectReflagged(v);
    var w := if v <= 0.5 then 1.0 else 0.0;
    assert Verdict(s, ff, 7) == w by {
      assert FeaturesOf(s, 7) == map[VISIBILITY := v];
    }
    var flags := Verdicts(s, {7}, ff);
    assert flags == map[7 := w];
    var r := PutFlags(s, flags);
    assert Filter(c, s, orders, ff) == r;
    UpdateTwice(map[], VISIBILITY, v, w);
    SingleKey(r, 7, map[VISIBILITY := w]);
  }

  /** A second update of the same key overwrites the first. */
  lemma UpdateTwice<K, V>(m: map<K, V>, k: K, a: V, b: V)
    ensures m[k := a][k := b] == m[k := b]
  {
  }

  /** A map with the one key `k` is the one-entry map of its value there. */
  lemma SingleKey<K, V>(m: map<K, V>, k: K, x: V)
    requires m.Keys == {k} && m[k] == x
    ensures m == map[k := x]
  {
  }

  /** The one-object collection is well ordered, and a VISIBILITY filter reaches its object. */
  lemma OneObjectReflagged(v: real)
    ensures var c: Content := map[0 := {7}];
            var orders: Orders := map[0 := [7]];
            WellOrdered(c, orders) &&
            Reflagged(c, map[7 := map[VISIBILITY := v]], orders, [FeatureFilter(VISIBILITY, 0.5, false)]) == {7}
  {
    var c: Content := map[0 := {7}];
    var orders: Orders := map[0 := [7]];
    var s: Store := map[7 := map[VISIBILITY := v]];
    var ff := FeatureFilter(VISIBILITY, 0.5, false);
    assert Distinct(orders[0]);
    assert WellOrdered(c, orders);
    assert PassesAll(FeaturesOf(s, 7), [ff]).Some?;
    assert Evaluated(s, [7], [ff]) == 1 by {
      assert [7][1..] == [];
    }
    assert orders[0][..1] == [7];
  }

  /** An empty filter list reaches every object and makes it visible, like `SetVisible(true)`. */
  lemma EmptyFilterListShowsAll(c: Content, store: Store, orders: Orders)
    requires WellOrdered(c, orders)
    ensures FilterAll(c, store, orders, []) == SetVisible(c, store, true)
  {
    ReflaggedAllIff(c, store, orders, []);
    UniformFlags(store, Passes(store, Objects(c), []), 1.0);
  }

  /** A one-element filter list is the single filter. */
  lemma SingletonFilterList(c: Content, store: Store, orders: Orders, ff: FeatureFilter)
    requires WellOrdered(c, orders)
    ensures FilterAll(c, store, orders, [ff]) == Filter(c, store, orders, ff)
  {
    PassesOne(store, Reflagged(c, store, orders, [ff]), ff);
  }

  // ---------------------------------------------------------------- crop

  /**
   * A new collection with the same frames whose buckets hold the currently
   * visible objects; those objects are then marked invisible and every other
   * object is left alone.
   */
  function Crop(c: Content, store: Store): (r: (Content, Store))
    requires HasVisibility(c, store)
    ensures r.0.Keys == c.Keys
    ensures forall f :: f in c ==> r.0[f] == VisibleIn(c, store, f)
    ensures forall o :: o in Objects(c) && IsVisible(store, o) ==> GetFeature(FeaturesOf(r.1, o), VISIBILITY) == Some(0.0)
    ensures OnlyChanges(store, r.1, VisibleObjects(c, store), VISIBILITY)
    ensures forall o :: o in Objects(c) && !IsVisible(store, o) ==> FeaturesOf(r.1, o) == FeaturesOf(store, o)
  {
    var shown := VisibleObjects(c, store);
    (map f | f in c :: VisibleIn(c, store, f), PutOnAll(store, shown, VISIBILITY, 0.0))
  }

  /** After cropping, the source collection shows nothing and the crop holds only its former visible objects. */
  lemma CropHidesSource(c: Content, store: Store)
    requires HasVisibility(c, store)
    ensures forall f :: f in c ==> VisibleIn(c, Crop(c, store).1, f) == {}
    ensures Objects(Crop(c, store).0) <= Objects(c)
  {
    var r := Crop(c, store);
    forall f | f in c
      ensures VisibleIn(c, r.1, f) == {}
    {
      forall o | o in c[f]
        ensures !IsVisible(r.1, o)
      {
        assert o in Objects(c);
      }
    }
  }

  // ---------------------------------------------------------------- keys

  /** The smallest frame, or 0 for an empty collection. */
  function FirstKey(c: Content): (r: int)
    ensures c == map[] ==> r == 0
    ensures c != map[] ==> r in c && forall f :: f in c ==> r <= f
  {
    if c.Keys == {} then 0 else SetMin(c.Keys)
  }

  /** The largest frame, or 0 for an empty collection. */
  function LastKey(c: Content): (r: int)
    ensures c == map[] ==> r == 0
    ensures c != map[] ==> r in c && forall f :: f in c ==> f <= r
  {
    if c.Keys == {} then 0 else SetMax(c.Keys)
  }

  /** The first and last frames bracket every frame of the collection. */
  lemma KeysBracketFrames(c: Content)
    ensures forall f :: f in c ==> FirstKey(c) <= f <= LastKey(c)
    ensures c != map[] ==> FirstKey(c) <= LastKey(c)
  {
  }

  /** `frames.higher(i)`: the first frame of the collection after `i`. */
  function Higher(c: Content, i: int): (r: int)
    requires i < LastKey(c) && c != map[]
    ensures r in c && i < r
    ensures forall f :: f in c && i < f ==> r <= f
  {
    var later := set f | f in c && i < f;
    assert LastKey(c) in later;
    assert forall f :: f in c && i < f ==> f in later;
    SetMin(later)
  }

  // ---------------------------------------------------------------- conversion constructors

  /** Why building a collection from bare objects failed: an object lacked its `FRAME` feature. */
  datatype BuildError = MissingFrame(o: ObjId)

  /** The first object of `objs` without a `FRAME` feature, if any. */
  function FirstWithoutFrame(store: Store, objs: seq<ObjId>): (r: Option<ObjId>)
    ensures r.None? <==> forall i :: 0 <= i < |objs| ==> FRAME in FeaturesOf(store, objs[i])
    ensures r.Some? ==> r.value in objs && FRAME !in FeaturesOf(store, r.value)
  {
    if |objs| == 0 then None
    else if FRAME !in FeaturesOf(store, objs[0]) then Some(objs[0])
    else
      var rest := FirstWithoutFrame(store, objs[1..]);
      assert forall i :: 1 <= i < |objs| ==> objs[i] == objs[1..][i - 1];
      rest
  }

  /** The frame an object's `FRAME` feature designates (the double truncated to an int). */
  function FrameOf(store: Store, o: ObjId): int
    requires FRAME in FeaturesOf(store, o)
  {
    TruncateToInt(FeaturesOf(store, o)[FRAME])
  }

  /**
   * The constructor from an iterable, as written: it reads every object's frame
   * and fills a local collection that is then dropped, so the collection it
   * builds is empty.
   */
  function FromObjectsAsWritten(store: Store, objs: seq<ObjId>): (r: Result<Content, BuildError>)
    ensures r.Err? <==> exists i :: 0 <= i < |objs| && FRAME !in FeaturesOf(store, objs[i])
    ensures r.Ok? ==> r.value == map[]
  {
    match FirstWithoutFrame(store, objs)
    case Some(o) => Err(MissingFrame(o))
    case None => Ok(map[])
  }

  /** The constructor from an iterable as intended: each object goes to the bucket of its frame. */
  function FromObjects(store: Store, objs: seq<ObjId>): (r: Result<Content, BuildError>)
    ensures r.Err? <==> exists i :: 0 <= i < |objs| && FRAME !in FeaturesOf(store, objs[i])
    ensures r.Ok? ==> Objects(r.value) == set o | o in objs
    ensures r.Ok? ==> forall f, o :: f in r.value && o in r.value[f] ==> FRAME in FeaturesOf(store, o) && f == FrameOf(store, o)
  {
    match FirstWithoutFrame(store, objs)
    case Some(o) => Err(MissingFrame(o))
    case None =>
      var frames := set o | o in objs :: FrameOf(store, o);
      var c := map f | f in frames :: set o | o in objs && FrameOf(store, o) == f;
      assert forall o :: o in objs ==> o in c[FrameOf(store, o)];
      Ok(c)
  }

  /** The constructor from a frame map, as written: the copy goes to a dropped local, leaving the collection empty. */
  function FromMapAsWritten(source: Content): (r: Content)
    ensures Objects(r) == {} && r.Keys == {}
  {
    map[]
  }

  /** The constructor from a frame map as intended: the collection holds exactly the source's buckets. */
  function FromMap(source: Content): (r: Content)
    ensures r.Keys == source.Keys && forall f :: f in r ==> r[f] == source[f]
  {
    source
  }

  /** Any non-empty input exhibits the difference: the as-written constructors lose every object. */
  lemma ConversionConstructorsLoseObjects(store: Store, objs: seq<ObjId>, source: Content)
    requires |objs| > 0 && forall i :: 0 <= i < |objs| ==> FRAME in FeaturesOf(store, objs[i])
    requires Objects(source) != {}
    ensures FromObjectsAsWritten(store, objs) == Ok(map[])
    ensures FromObjects(store, objs).Ok? && objs[0] in Objects(FromObjects(store, objs).value)
    ensures Objects(FromMapAsWritten(source)) == {} && Objects(FromMap(source)) == Objects(source)
  {
  }
}

=== FILE: collection_iteration.dfy ===
/**
 * Counting and iterating over a collection. Frames are visited in ascending
 * order (the collection is a sorted map); within a frame the objects come in
 * the order the frame's hash set happens to enumerate them, which is given
 * here as an explicit per-frame enumeration.
 */
module CollectionIteration {
  import opened Wrappers
  import opened Sets
  import opened Features
  import opened Collection

  /** Whether an iteration restricted (or not) to visible objects yields `o`. */
  predicate Shown(store: Store, o: ObjId, visibleOnly: bool) {
    !visibleOnly || IsVisible(store, o)
  }

  /** The objects of one frame an iteration yields; empty for an absent frame. */
  function ShownIn(c: Content, store: Store, frame: int, visibleOnly: bool): (r: set<ObjId>)
    ensures forall o :: o in r <==> o in Bucket(c, frame) && Shown(store, o, visibleOnly)
  {
    if visibleOnly then VisibleIn(c, store, frame) else Bucket(c, frame)
  }

  /** Reading the visibility flag of an object that lacks it throws, so visible-only walks need it everywhere. */
  predicate Readable(c: Content, store: Store, visibleOnly: bool) {
    visibleOnly ==> HasVisibility(c, store)
  }

  /** The sub-sequence of an enumeration an iteration yields. */
  function ShownOf(order: seq<ObjId>, store: Store, visibleOnly: bool): (r: seq<ObjId>)
    ensures forall o :: o in r <==> o in order && Shown(store, o, visibleOnly)
    ensures Distinct(order) ==> Distinct(r)
  {
    if |order| == 0 then []
    else
      var rest := ShownOf(order[1..], store, visibleOnly);
      assert Distinct(order) ==> order[0] !in order[1..] by {
        if Distinct(order) {
          forall j | 0 <= j < |order[1..]|
            ensures order[1..][j] != order[0]
          {
            assert order[1..][j] == order[j + 1];
          }
        }
      }
      assert Distinct(order) ==> Distinct(order[1..]) by {
        if Distinct(order) {
          forall i, j | 0 <= i < j < |order[1..]|
            ensures order[1..][i] != order[1..][j]
          {
            assert order[1..][i] == order[i + 1] && order[1..][j] == order[j + 1];
          }
        }
      }
      if Shown(store, order[0], visibleOnly) then [order[0]] + rest else rest
  }

  /**
   * The number of objects the frames `frames` hold (the visible ones only, or
   * all), summed frame by frame so that an object in two buckets counts twice.
   */
  function Total(c: Content, store: Store, visibleOnly: bool, frames: set<int>): nat
    decreases frames
  {
    if frames == {} then 0
    else
      var m := SetMax(frames);
      |ShownIn(c, store, m, visibleOnly)| + Total(c, store, visibleOnly, frames - {m})
  }

  /** Adding a frame above all others adds its count. */
  lemma TotalAddLast(c: Content, store: Store, visibleOnly: bool, frames: set<int>, m: int)
    requires forall f :: f in frames ==> f < m
    ensures Total(c, store, visibleOnly, frames + {m}) ==
            Total(c, store, visibleOnly, frames) + |ShownIn(c, store, m, visibleOnly)|
  {
    var s := frames + {m};
    assert SetMax(s) == m;
    assert s - {m} == frames;
  }

  /** The total number of objects, over all frames. */
  function NObjects(c: Content, store: Store, visibleOnly: bool): nat {
    Total(c, store, visibleOnly, c.Keys)
  }

  /** The number of objects of one frame, 0 for an absent frame. */
  function NObjectsInFrame(c: Content, store: Store, frame: int, visibleOnly: bool): (n: nat)
    ensures frame !in c ==> n == 0
    ensures !visibleOnly ==> n == |Bucket(c, frame)|
    ensures visibleOnly ==> n == |VisibleIn(c, store, frame)|
  {
    |ShownIn(c, store, frame, visibleOnly)|
  }

  /**
   * When no object sits in two frames, the total is the number of distinct
   * objects of the collection (visible ones only, or all).
   */
  lemma {:induction false} ExclusiveTotalCountsObjects(c: Content, store: Store, visibleOnly: bool, frames: set<int>)
    requires Exclusive(c)
    ensures Total(c, store, visibleOnly, frames) == |ShownObjects(c, store, visibleOnly, frames)|
    decreases frames
  {
    if frames != {} {
      var m := SetMax(frames);
      var rest := frames - {m};
      ExclusiveTotalCountsObjects(c, store, visibleOnly, rest);
      ShownObjectsSplit(c, store, visibleOnly, frames, m);
    }
  }

  /** Taking one frame out of `frames` splits the shown objects into two disjoint parts. */
  lemma ShownObjectsSplit(c: Content, store: Store, visibleOnly: bool, frames: set<int>, m: int)
    requires Exclusive(c) && m in frames
    ensures ShownObjects(c, store, visibleOnly, frames) ==
            ShownIn(c, store, m, visibleOnly) + ShownObjects(c, store, visibleOnly, frames - {m})
    ensures ShownIn(c, store, m, visibleOnly) * ShownObjects(c, store, visibleOnly, frames - {m}) == {}
  {
    var a := ShownIn(c, store, m, visibleOnly);
    var b := ShownObjects(c, store, visibleOnly, frames - {m});
  }

  /** The distinct objects the frames `frames` hold (visible ones only, or all). */
  ghost function ShownObjects(c: Content, store: Store, visibleOnly: bool, frames: set<int>): (r: set<ObjId>)
    ensures forall o :: o in r <==> exists f :: f in frames && o in ShownIn(c, store, f, visibleOnly)
  {
    set f, o | f in frames && o in Bucket(c, f) && Shown(store, o, visibleOnly) :: o
  }

  /** Over all frames, the objects an exclusive collection counts are its (visible) objects. */
  lemma ExclusiveCountsObjects(c: Content, store: Store)
    requires Exclusive(c)
    ensures NObjects(c, store, false) == |Objects(c)|
    ensures NObjects(c, store, true) == |VisibleObjects(c, store)|
  {
    ExclusiveTotalCountsObjects(c, store, false, c.Keys);
    ExclusiveTotalCountsObjects(c, store, true, c.Keys);
    assert ShownObjects(c, store, false, c.Keys) == Objects(c);
    assert ShownObjects(c, store, true, c.Keys) == VisibleObjects(c, store);
  }

  /** Each element of `objs`, tagged with `frame`. */
  function Tagged(frame: int, objs: seq<ObjId>): (r: seq<(int, ObjId)>)
    ensures |r| == |objs|
    ensures forall i :: 0 <= i < |r| ==> r[i] == (frame, objs[i])
  {
    seq(|objs|, i requires 0 <= i < |objs| => (frame, objs[i]))
  }

  /** The objects one frame's iteration yields, in enumeration order; nothing for an absent frame. */
  function IterateFrame(c: Content, store: Store, orders: Orders, frame: int, visibleOnly: bool): (r: seq<ObjId>)
    requires WellOrdered(c, orders)
    ensures Distinct(r)
    ensures forall o :: o in r <==> o in ShownIn(c, store, frame, visibleOnly)
    ensures |r| == NObjectsInFrame(c, store, frame, visibleOnly)
  {
    if frame !in c then []
    else
      assert Enumerates(orders[frame], c[frame]);
      var r := ShownOf(orders[frame], store, visibleOnly);
      DistinctCardinality(r);
      assert Elements(r) == ShownIn(c, store, frame, visibleOnly) by {
        forall o
          ensures o in Elements(r) <==> o in ShownIn(c, store, frame, visibleOnly)
        {
          assert o in orders[frame] <==> o in c[frame];
        }
      }
      r
  }

  /**
   * `r` is the iteration over the frames `done`: every (frame, object) pair of
   * those frames exactly once, frames ascending, as many entries as they count.
   */
  ghost predicate IterationOf(c: Content, store: Store, visibleOnly: bool, r: seq<(int, ObjId)>, done: set<int>) {
    (forall f, o :: f in done && o in ShownIn(c, store, f, visibleOnly) ==> (f, o) in r) &&
    (forall i :: 0 <= i < |r| ==> r[i].0 in done && r[i].1 in ShownIn(c, store, r[i].0, visibleOnly)) &&
    (forall i, j :: 0 <= i < j < |r| ==> r[i].0 <= r[j].0) &&
    Distinct(r) &&
    |r| == Total(c, store, visibleOnly, done)
  }

  /** Appending the next frame's objects extends the iteration by that frame. */
  lemma IterationStep(c: Content, store: Store, visibleOnly: bool, r: seq<(int, ObjId)>, done: set<int>,
                      m: int, objs: seq<ObjId>)
    requires IterationOf(c, store, visibleOnly, r, done)
    requires forall f :: f in done ==> f < m
    requires Distinct(objs) && |objs| == |ShownIn(c, store, m, visibleOnly)|
    requires forall o :: o in objs <==> o in ShownIn(c, store, m, visibleOnly)
    ensures IterationOf(c, store, visibleOnly, r + Tagged(m, objs), done + {m})
  {
    var part := Tagged(m, objs);
    var r' := r + part;
    TotalAddLast(c, store, visibleOnly, done, m);
    forall f, o | f in done + {m} && o in ShownIn(c, store, f, visibleOnly)
      ensures (f, o) in r'
    {
      if f == m {
        var k :| 0 <= k < |objs| && objs[k] == o;
        assert r'[|r| + k] == (f, o);
      } else {
        assert (f, o) in r;
      }
    }
    forall i, j | 0 <= i < j < |r'|
      ensures r'[i] != r'[j]
    {
      if j < |r| {
      } else if i >= |r| {
        assert objs[i - |r|] != objs[j - |r|];
      } else {
        assert r'[i].0 in done;
      }
    }
  }

  /**
   * The iteration over the frames `frames`: the lowest frame's objects in
   * enumeration order, tagged with that frame, then the remaining frames.
   */
  function IterationOver(c: Content, store: Store, orders: Orders, visibleOnly: bool, frames: set<int>): seq<(int, ObjId)>
    requires WellOrdered(c, orders)
    decreases frames
  {
    if frames == {} then []
    else
      var m := SetMin(frames);
      Tagged(m, IterateFrame(c, store, orders, m, visibleOnly)) + IterationOver(c, store, orders, visibleOnly, frames - {m})
  }

  /** Peeling the lowest frame off the iteration still to come. */
  lemma IterationOverStep(c: Content, store: Store, orders: Orders, visibleOnly: bool, rest: set<int>, r: seq<(int, ObjId)>)
    requires WellOrdered(c, orders) && rest != {}
    ensures r + IterationOver(c, store, orders, visibleOnly, rest) ==
            (r + Tagged(SetMin(rest), IterateFrame(c, store, orders, SetMin(rest), visibleOnly))) +
            IterationOver(c, store, orders, visibleOnly, rest - {SetMin(rest)})
  {
    var m := SetMin(rest);
    var a := Tagged(m, IterateFrame(c, store, orders, m, visibleOnly));
    var b := IterationOver(c, store, orders, visibleOnly, rest - {m});
    assert IterationOver(c, store, orders, visibleOnly, rest) == a + b;
    AppendAssoc(r, a, b);
  }

  lemma AppendAssoc<T>(r: seq<T>, a: seq<T>, b: seq<T>)
    ensures r + (a + b) == (r + a) + b
  {
  }

  /** The whole-collection iteration as `iterable(visibleOnly)` yields it. */
  function Iteration(c: Content, store: Store, orders: Orders, visibleOnly: bool): seq<(int, ObjId)>
    requires WellOrdered(c, orders)
  {
    IterationOver(c, store, orders, visibleOnly, c.Keys)
  }

  /**
   * The whole-collection iteration, each object tagged with the frame whose
   * bucket yields it: frames in ascending order, every (frame, object) pair of
   * the collection exactly once, and as many entries as the count reports.
   */
  method Iterate(c: Content, store: Store, orders: Orders, visibleOnly: bool) returns (r: seq<(int, ObjId)>)
    requires WellOrdered(c, orders)
    requires Readable(c, store, visibleOnly)
    ensures r == Iteration(c, store, orders, visibleOnly)
    ensures forall f, o :: f in c && o in ShownIn(c, store, f, visibleOnly) ==> (f, o) in r
    ensures forall i :: 0 <= i < |r| ==> r[i].0 in c && r[i].1 in ShownIn(c, store, r[i].0, visibleOnly)
    ensures forall i, j :: 0 <= i < j < |r| ==> r[i].0 <= r[j].0
    ensures Distinct(r)
    ensures |r| == NObjects(c, store, visibleOnly)
  {
    r := [];
    var rest := c.Keys;
    ghost var done: set<int> := {};
    while rest != {}
      invariant IterateInv(c, store, orders, visibleOnly, r, rest, done)
      decreases rest
    {
      var m := SetMin(rest);
      IterateInvStep(c, store, orders, visibleOnly, r, rest, done);
      r := r + Tagged(m, IterateFrame(c, store, orders, m, visibleOnly));
      rest := rest - {m};
      done := done + {m};
    }
    IterateInvDone(c, store, orders, visibleOnly, r, done);
  }

  /** The loop state of `Iterate`: `r` iterates the frames `done`, and `rest` (all above them) is still to come. */
  ghost predicate IterateInv(c: Content, store: Store, orders: Orders, visibleOnly: bool,
                             r: seq<(int, ObjId)>, rest: set<int>, done: set<int>) {
    WellOrdered(c, orders) &&
    rest + done == c.Keys && rest * done == {} &&
    (forall f, g :: f in done && g in rest ==> f < g) &&
    IterationOf(c, store, visibleOnly, r, done) &&
    r + IterationOver(c, store, orders, visibleOnly, rest) == Iteration(c, store, orders, visibleOnly)
  }

  lemma IterateInvStep(c: Content, store: Store, orders: Orders, visibleOnly: bool,
                       r: seq<(int, ObjId)>, rest: set<int>, done: set<int>)
    requires IterateInv(c, store, orders, visibleOnly, r, rest, done) && rest != {}
    ensures IterateInv(c, store, orders, visibleOnly,
                       r + Tagged(SetMin(rest), IterateFrame(c, store, orders, SetMin(rest), visibleOnly)),
                       rest - {SetMin(rest)}, done + {SetMin(rest)})
  {
    var m := SetMin(rest);
    var objs := IterateFrame(c, store, orders, m, visibleOnly);
    IterationStep(c, store, visibleOnly, r, done, m, objs);
    MinToDone(done, rest, m);
    IterationOverStep(c, store, orders, visibleOnly, rest, r);
  }

  lemma IterateInvDone(c: Content, store: Store, orders: Orders, visibleOnly: bool, r: seq<(int, ObjId)>, done: set<int>)
    requires IterateInv(c, store, orders, visibleOnly, r, {}, done)
    ensures r == Iteration(c, store, orders, visibleOnly)
    ensures forall f, o :: f in c && o in ShownIn(c, store, f, visibleOnly) ==> (f, o) in r
    ensures forall i :: 0 <= i < |r| ==> r[i].0 in c && r[i].1 in ShownIn(c, store, r[i].0, visibleOnly)
    ensures forall i, j :: 0 <= i < j < |r| ==> r[i].0 <= r[j].0
    ensures Distinct(r)
    ensures |r| == NObjects(c, store, visibleOnly)
  {
    assert done == c.Keys;
    assert r + [] == r;
  }

  /** Every object the iteration yields stores `feature`. */
  predicate AllShownHave(c: Content, store: Store, feature: string, visibleOnly: bool) {
    forall f, o :: f in c && o in ShownIn(c, store, f, visibleOnly) ==> feature in FeaturesOf(store, o)
  }

  /**
   * The values of one feature over the iteration, in iteration order. The Java
   * array is sized by the object count before the iteration fills it; the two
   * agree, so every slot is written and none overflows. An object without the
   * feature unboxes `null` and throws, which is `None` here.
   */
  method CollectValues(c: Content, store: Store, orders: Orders, feature: string, visibleOnly: bool)
    returns (r: Option<seq<real>>)
    requires WellOrdered(c, orders)
    requires Readable(c, store, visibleOnly)
    ensures r.Some? <==> AllShownHave(c, store, feature, visibleOnly)
    ensures r.Some? ==> |r.value| == NObjects(c, store, visibleOnly) == |Iteration(c, store, orders, visibleOnly)|
    ensures r.Some? ==> forall k :: 0 <= k < |r.value| ==>
              feature in FeaturesOf(store, Iteration(c, store, orders, visibleOnly)[k].1) &&
              r.value[k] == FeaturesOf(store, Iteration(c, store, orders, visibleOnly)[k].1)[feature]
    ensures r.Some? ==> forall v :: v in r.value ==>
              exists f, o :: f in c && o in ShownIn(c, store, f, visibleOnly) && v == FeaturesOf(store, o)[feature]
    ensures r.Some? ==> forall f, o :: f in c && o in ShownIn(c, store, f, visibleOnly) ==> FeaturesOf(store, o)[feature] in r.value
  {
    var entries := Iterate(c, store, orders, visibleOnly);
    r := ReadValues(store, entries, feature);
    if r.Some? {
      ValuesOfShown(c, store, feature, visibleOnly, entries, r.value);
    } else {
      var k :| 0 <= k < |entries| && feature !in FeaturesOf(store, entries[k].1);
      assert entries[k].0 in c && entries[k].1 in ShownIn(c, store, entries[k].0, visibleOnly);
    }
  }

  /**
   * The value of `feature` on each enumerated object, in order; `None` at
   * the first object without it, where unboxing `null` throws.
   */
  method ReadValues(store: Store, entries: seq<(int, ObjId)>, feature: string) returns (r: Option<seq<real>>)
    ensures r.Some? <==> forall k :: 0 <= k < |entries| ==> feature in FeaturesOf(store, entries[k].1)
    ensures r.Some? ==> |r.value| == |entries|
    ensures r.Some? ==> forall k :: 0 <= k < |entries| ==> r.value[k] == FeaturesOf(store, entries[k].1)[feature]
  {
    var values := [];
    var i := 0;
    while i < |entries|
      invariant 0 <= i <= |entries|
      invariant |values| == i
      invariant forall k :: 0 <= k < i ==> feature in FeaturesOf(store, entries[k].1)
      invariant forall k :: 0 <= k < i ==> values[k] == FeaturesOf(store, entries[k].1)[feature]
    {
      if feature !in FeaturesOf(store, entries[i].1) {
        return None;
      }
      values := values + [FeaturesOf(store, entries[i].1)[feature]];
      i := i + 1;
    }
    r := Some(values);
  }

  /**
   * Values read slot by slot from an enumeration of the shown objects are
   * exactly the shown objects' values, and every shown object has one.
   */
  lemma ValuesOfShown(c: Content, store: Store, feature: string, visibleOnly: bool, entries: seq<(int, ObjId)>, values: seq<real>)
    requires forall f, o :: f in c && o in ShownIn(c, store, f, visibleOnly) ==> (f, o) in entries
    requires forall i :: 0 <= i < |entries| ==> entries[i].0 in c && entries[i].1 in ShownIn(c, store, entries[i].0, visibleOnly)
    requires |values| == |entries|
    requires forall k :: 0 <= k < |entries| ==>
               feature in FeaturesOf(store, entries[k].1) && values[k] == FeaturesOf(store, entries[k].1)[feature]
    ensures AllShownHave(c, store, feature, visibleOnly)
    ensures forall v :: v in values ==>
              exists f, o :: f in c && o in ShownIn(c, store, f, visibleOnly) && v == FeaturesOf(store, o)[feature]
    ensures forall f, o :: f in c && o in ShownIn(c, store, f, visibleOnly) ==> FeaturesOf(store, o)[feature] in values
  {
    forall f, o | f in c && o in ShownIn(c, store, f, visibleOnly)
      ensures feature in FeaturesOf(store, o) && FeaturesOf(store, o)[feature] in values
    {
      var k :| 0 <= k < |entries| && entries[k] == (f, o);
      assert values[k] == FeaturesOf(store, o)[feature];
    }
    forall v | v in values
      ensures exists f, o :: f in c && o in ShownIn(c, store, f, visibleOnly) && v == FeaturesOf(store, o)[feature]
    {
      var k :| 0 <= k < |values| && values[k] == v;
      assert (entries[k].0, entries[k].1) in entries;
    }
  }

  /**
   * The values of several features at once, one array per requested feature.
   * The Java code fills the arrays on a thread pool, one feature per task; a
   * task that throws on a missing feature never stores its array, so exactly
   * the features every iterated object carries get an entry.
   */
  method CollectAllValues(c: Content, store: Store, orders: Orders, features: seq<string>, visibleOnly: bool)
    returns (values: map<string, seq<real>>)
    requires WellOrdered(c, orders)
    requires Readable(c, store, visibleOnly)
    ensures forall g :: g in values <==> g in features && AllShownHave(c, store, g, visibleOnly)
    ensures forall g :: g in values ==> |values[g]| == NObjects(c, store, visibleOnly) == |Iteration(c, store, orders, visibleOnly)|
    ensures forall g, k :: g in values && 0 <= k < |values[g]| ==>
              g in FeaturesOf(store, Iteration(c, store, orders, visibleOnly)[k].1) &&
              values[g][k] == FeaturesOf(store, Iteration(c, store, orders, visibleOnly)[k].1)[g]
  {
    values := map[];
    var i := 0;
    while i < |features|
      invariant 0 <= i <= |features|
      invariant forall g :: g in values <==> g in features[..i] && AllShownHave(c, store, g, visibleOnly)
      invariant forall g :: g in values ==> |values[g]| == NObjects(c, store, visibleOnly) == |Iteration(c, store, orders, visibleOnly)|
      invariant forall g, k :: g in values && 0 <= k < |values[g]| ==>
                  g in FeaturesOf(store, Iteration(c, store, orders, visibleOnly)[k].1) &&
                  values[g][k] == FeaturesOf(store, Iteration(c, store, orders, visibleOnly)[k].1)[g]
    {
      var v := CollectValues(c, store, orders, features[i], visibleOnly);
      if v.Some? {
        values := values[features[i] := v.value];
      }
      assert features[..i + 1] == features[..i] + [features[i]];
      i := i + 1;
    }
    assert features[..i] == features;
  }

  /**
   * Looks an object up by ID over the whole collection, invisible objects
   * included: it is found exactly when some bucket holds it.
   */
  method Search(c: Content, store: Store, orders: Orders, id: ObjId) returns (r: Option<ObjId>)
    requires WellOrdered(c, orders)
    ensures r.Some? <==> id in Objects(c)
    ensures r.Some? ==> r.value == id
  {
    var entries := Iterate(c, store, orders, false);
    r := None;
    var i := 0;
    while i < |entries|
      invariant 0 <= i <= |entries|
      invariant r == None ==> forall k :: 0 <= k < i ==> entries[k].1 != id
      invariant r.Some? ==> r.value == id && id in Objects(c)
    {
      assert (entries[i].0, entries[i].1) in entries;
      if entries[i].1 == id {
        r := Some(entries[i].1);
        break;
      }
      i := i + 1;
    }
    if r == None {
      forall f, o | f in c && o in c[f]
        ensures o != id
      {
        assert (f, o) in entries;
        var k :| 0 <= k < |entries| && entries[k] == (f, o);
        assert entries[k].1 == o;
      }
    }
  }
}

=== FILE: collection_queries.dfy ===
/**
 * Spatial queries on one frame of a collection: the closest object, the
 * object whose radius contains a location, and the `n` closest objects. The
 * bucket is walked in its hash set's enumeration order, which decides ties.
 */
module CollectionQueries {
  import opened Wrappers
  import opened Sets
  import opened Features
  import opened Trackable
  import opened Collection
  import opened CollectionIteration

  /**
   * What the queries read: the location's position, the visibility flag of
   * every object of the frame when only visible ones count, and the position
   * of every object that counts. Missing ones throw in the Java code.
   */
  predicate Measurable(c: Content, store: Store, frame: int, loc: FeatureMap, visibleOnly: bool) {
    Positioned(loc) &&
    (forall o :: o in Bucket(c, frame) && visibleOnly ==> VISIBILITY in FeaturesOf(store, o)) &&
    (forall o :: o in Bucket(c, frame) && Shown(store, o, visibleOnly) ==> Positioned(FeaturesOf(store, o)))
  }

  /**
   * The squared distance from object `o` to the location; 0 when either lacks
   * a position, which the queries' preconditions rule out for every object
   * they measure.
   */
  function Dist(store: Store, o: ObjId, loc: FeatureMap): (d: real)
    ensures d >= 0.0
  {
    match SquareDistanceTo(FeaturesOf(store, o), loc)
    case Some(d) => d
    case None => 0.0
  }

  /** For positioned objects the distance is the object's squared distance to the location. */
  lemma DistIsSquareDistance(store: Store, o: ObjId, loc: FeatureMap)
    requires Positioned(FeaturesOf(store, o)) && Positioned(loc)
    ensures SquareDistanceTo(FeaturesOf(store, o), loc) == Some(Dist(store, o, loc))
    ensures Dist(store, o, loc) == SqDist(Position(FeaturesOf(store, o)), Position(loc))
  {
    SquareDistanceToIsSqDist(FeaturesOf(store, o), loc);
  }

  /**
   * The closest object of the frame (visible ones only, or all); the first in
   * enumeration order among equally close ones; `None` for an absent frame or
   * when no object counts.
   */
  method GetClosestObject(c: Content, store: Store, orders: Orders, loc: FeatureMap, frame: int, visibleOnly: bool)
    returns (r: Option<ObjId>)
    requires WellOrdered(c, orders)
    requires Measurable(c, store, frame, loc, visibleOnly)
    ensures r.None? <==> ShownIn(c, store, frame, visibleOnly) == {}
    ensures r.Some? ==> frame in orders && r.value in ShownIn(c, store, frame, visibleOnly)
    ensures r.Some? ==> forall p :: p in ShownIn(c, store, frame, visibleOnly) ==> Dist(store, r.value, loc) <= Dist(store, p, loc)
    ensures r.Some? ==> forall i, j :: (0 <= i < j < |orders[frame]| && orders[frame][j] == r.value &&
                                       Shown(store, orders[frame][i], visibleOnly)) ==>
                          Dist(store, orders[frame][i], loc) > Dist(store, r.value, loc)
  {
    if frame !in c {
      return None;
    }
    var order := orders[frame];
    assert Enumerates(order, c[frame]);
    var at;
    r, at := ScanClosest(store, order, loc, visibleOnly);
    if r.None? {
      assert forall o :: o in ShownIn(c, store, frame, visibleOnly) ==> o in order;
    } else {
      forall p | p in ShownIn(c, store, frame, visibleOnly)
        ensures Dist(store, r.value, loc) <= Dist(store, p, loc)
      {
        var k :| 0 <= k < |order| && order[k] == p;
      }
      forall k, j | 0 <= k < j < |order| && order[j] == r.value && Shown(store, order[k], visibleOnly)
        ensures Dist(store, order[k], loc) > Dist(store, r.value, loc)
      {
        assert j == at;
      }
    }
  }

  /**
   * The loop of `getClosestSpot` over one enumeration of the frame: the
   * object it keeps, at position `at`, is at least as close as every shown
   * object and strictly closer than every earlier one.
   */
  method ScanClosest(store: Store, order: seq<ObjId>, loc: FeatureMap, visibleOnly: bool) returns (r: Option<ObjId>, at: nat)
    ensures r.None? <==> forall k :: 0 <= k < |order| ==> !Shown(store, order[k], visibleOnly)
    ensures r.Some? ==> at < |order| && order[at] == r.value && Shown(store, r.value, visibleOnly)
    ensures r.Some? ==> forall k :: 0 <= k < |order| && Shown(store, order[k], visibleOnly) ==>
                          Dist(store, r.value, loc) <= Dist(store, order[k], loc)
    ensures r.Some? ==> forall k :: 0 <= k < at && Shown(store, order[k], visibleOnly) ==>
                          Dist(store, order[k], loc) > Dist(store, r.value, loc)
  {
    r := None;
    var minDist := 0.0;
    at := 0;
    var i := 0;
    while i < |order|
      invariant 0 <= i <= |order|
      invariant r.None? <==> forall k :: 0 <= k < i ==> !Shown(store, order[k], visibleOnly)
      invariant r.Some? ==> 0 <= at < i && order[at] == r.value && Shown(store, r.value, visibleOnly) && minDist == Dist(store, r.value, loc)
      invariant r.Some? ==> forall k :: 0 <= k < i && Shown(store, order[k], visibleOnly) ==> minDist <= Dist(store, order[k], loc)
      invariant r.Some? ==> forall k :: 0 <= k < at && Shown(store, order[k], visibleOnly) ==> Dist(store, order[k], loc) > minDist
    {
      var s := order[i];
      if Shown(store, s, visibleOnly) {
        var d2 := Dist(store, s, loc);
        if r.None? || d2 < minDist {
          r := Some(s);
          minDist := d2;
          at := i;
        }
      }
      i := i + 1;
    }
  }

  /** The object's radius contains the location: squared distance below the squared radius. */
  predicate Contains(store: Store, o: ObjId, loc: FeatureMap) {
    RADIUS in FeaturesOf(store, o) &&
    Dist(store, o, loc) < Mul(FeaturesOf(store, o)[RADIUS], FeaturesOf(store, o)[RADIUS])
  }

  /** Every object that counts carries a radius. */
  predicate HasRadii(c: Content, store: Store, frame: int, visibleOnly: bool) {
    forall o :: o in Bucket(c, frame) && Shown(store, o, visibleOnly) ==> RADIUS in FeaturesOf(store, o)
  }

  /** `o` counts in the frame and its radius contains the location. */
  predicate Candidate(c: Content, store: Store, frame: int, o: ObjId, loc: FeatureMap, visibleOnly: bool) {
    o in Bucket(c, frame) && Shown(store, o, visibleOnly) && Contains(store, o, loc)
  }

  /** The objects of the frame that count and whose radius contains the location. */
  ghost function Containing(c: Content, store: Store, frame: int, loc: FeatureMap, visibleOnly: bool): (r: set<ObjId>)
    ensures forall o :: o in r <==> Candidate(c, store, frame, o, loc, visibleOnly)
  {
    set o | o in Bucket(c, frame) && Candidate(c, store, frame, o, loc, visibleOnly)
  }

  /**
   * The object whose radius contains the location, the closest one when
   * several do. Candidates are keyed by distance in a sorted map, so among
   * equally close candidates the last one enumerated wins. `None` for an
   * absent or empty frame or when no radius contains the location.
   */
  method GetObjectAt(c: Content, store: Store, orders: Orders, loc: FeatureMap, frame: int, visibleOnly: bool)
    returns (r: Option<ObjId>)
    requires WellOrdered(c, orders)
    requires Measurable(c, store, frame, loc, visibleOnly) && HasRadii(c, store, frame, visibleOnly)
    ensures r.None? <==> Containing(c, store, frame, loc, visibleOnly) == {}
    ensures r.Some? ==> frame in orders && r.value in Containing(c, store, frame, loc, visibleOnly)
    ensures r.Some? ==> forall p :: p in Containing(c, store, frame, loc, visibleOnly) ==> Dist(store, r.value, loc) <= Dist(store, p, loc)
    ensures r.Some? ==> forall i, j :: (0 <= i < j < |orders[frame]| && orders[frame][i] == r.value &&
                                       orders[frame][j] in Containing(c, store, frame, loc, visibleOnly)) ==>
                          Dist(store, orders[frame][j], loc) > Dist(store, r.value, loc)
  {
    if frame !in c || c[frame] == {} {
      return None;
    }
    var order := orders[frame];
    assert Enumerates(order, c[frame]);
    assert forall o :: o in order ==> o in c[frame];
    forall k | 0 <= k < |order| ensures order[k] in Bucket(c, frame) {
      assert order[k] in order;
    }
    var at;
    r, at := ScanContaining(c, store, frame, order, loc, visibleOnly);
    if r.None? {
      assert forall o :: Candidate(c, store, frame, o, loc, visibleOnly) ==> o in order;
    } else {
      forall p | Candidate(c, store, frame, p, loc, visibleOnly)
        ensures Dist(store, r.value, loc) <= Dist(store, p, loc)
      {
        var k :| 0 <= k < |order| && order[k] == p;
      }
      forall k, j | 0 <= k < j < |order| && order[k] == r.value && Candidate(c, store, frame, order[j], loc, visibleOnly)
        ensures Dist(store, order[j], loc) > Dist(store, r.value, loc)
      {
        assert k == at;
      }
    }
  }

  /**
   * The loop of `getSpotAt` over one enumeration of the frame: the candidate
   * it keeps, at position `at`, is at least as close as every candidate and
   * strictly closer than every later one.
   */
  method ScanContaining(c: Content, store: Store, frame: int, order: seq<ObjId>, loc: FeatureMap, visibleOnly: bool)
    returns (r: Option<ObjId>, at: nat)
    requires forall k :: 0 <= k < |order| ==> order[k] in Bucket(c, frame)
    requires Measurable(c, store, frame, loc, visibleOnly) && HasRadii(c, store, frame, visibleOnly)
    ensures r.None? <==> forall k :: 0 <= k < |order| ==> !Candidate(c, store, frame, order[k], loc, visibleOnly)
    ensures r.Some? ==> at < |order| && order[at] == r.value && Candidate(c, store, frame, r.value, loc, visibleOnly)
    ensures r.Some? ==> forall k :: 0 <= k < |order| && Candidate(c, store, frame, order[k], loc, visibleOnly) ==>
                          Dist(store, r.value, loc) <= Dist(store, order[k], loc)
    ensures r.Some? ==> forall j :: at < j < |order| && Candidate(c, store, frame, order[j], loc, visibleOnly) ==>
                          Dist(store, order[j], loc) > Dist(store, r.value, loc)
  {
    r := None;
    var best := 0.0;
    at := 0;
    var i := 0;
    while i < |order|
      invariant 0 <= i <= |order|
      invariant r.None? <==> forall k :: 0 <= k < i ==> !Candidate(c, store, frame, order[k], loc, visibleOnly)
      invariant r.Some? ==> 0 <= at < i && order[at] == r.value && Candidate(c, store, frame, r.value, loc, visibleOnly) && best == Dist(store, r.value, loc)
      invariant r.Some? ==> forall k :: 0 <= k < i && Candidate(c, store, frame, order[k], loc, visibleOnly) ==> best <= Dist(store, order[k], loc)
      invariant r.Some? ==> forall j :: at < j < i && Candidate(c, store, frame, order[j], loc, visibleOnly) ==> Dist(store, order[j], loc) > best
    {
      var s := order[i];
      assert s in Bucket(c, frame);
      if Shown(store, s, visibleOnly) {
        var d2 := Dist(store, s, loc);
        if d2 < Mul(FeaturesOf(store, s)[RADIUS], FeaturesOf(store, s)[RADIUS]) {
          if r.None? || d2 <= best {
            r := Some(s);
            best := d2;
            at := i;
          }
        }
      }
      i := i + 1;
    }
  }

  /** How a query can fail where the Java code throws. */
  datatype QueryError =
    | AbsentFrame        // iterating the missing bucket throws a null pointer exception
    | NegativeCount      // a list with negative initial capacity cannot be made

  /**
   * The distance-keyed sorted map `getNClosestObjects` fills: one entry per
   * distinct distance, holding the last object enumerated at that distance.
   */
  method DistanceMap(store: Store, order: seq<ObjId>, loc: FeatureMap, visibleOnly: bool) returns (tm: map<real, ObjId>)
    requires Positioned(loc) && Distinct(order)
    requires forall o :: o in order && visibleOnly ==> VISIBILITY in FeaturesOf(store, o)
    requires forall o :: o in order && Shown(store, o, visibleOnly) ==> Positioned(FeaturesOf(store, o))
    ensures forall k :: 0 <= k < |order| && Shown(store, order[k], visibleOnly) ==> Dist(store, order[k], loc) in tm
    ensures forall d :: d in tm ==> tm[d] in order && Shown(store, tm[d], visibleOnly) && Dist(store, tm[d], loc) == d
    ensures forall d, a, b :: d in tm && 0 <= a < b < |order| && order[a] == tm[d] && Shown(store, order[b], visibleOnly) ==>
              Dist(store, order[b], loc) != d
  {
    tm := map[];
    ghost var pos: map<real, nat> := map[];
    var i := 0;
    while i < |order|
      invariant 0 <= i <= |order|
      invariant KeptLast(store, order, loc, visibleOnly, tm, pos, i)
    {
      KeptLastStep(store, order, loc, visibleOnly, tm, pos, i);
      var s := order[i];
      if Shown(store, s, visibleOnly) {
        tm := tm[Dist(store, s, loc) := s];
        pos := pos[Dist(store, s, loc) := i];
      }
      i := i + 1;
    }
    forall d, a, b | d in tm && 0 <= a < b < |order| && order[a] == tm[d] && Shown(store, order[b], visibleOnly)
      ensures Dist(store, order[b], loc) != d
    {
      assert order[a] == order[pos[d]];
      assert a == pos[d];
    }
  }

  /**
   * What the first `i` enumerated objects leave in the distance map: every
   * shown object's distance is a key, each key holds a shown object at that
   * distance, enumerated at `pos`, and no later shown object has that
   * distance.
   */
  ghost predicate KeptLast(store: Store, order: seq<ObjId>, loc: FeatureMap, visibleOnly: bool,
                           tm: map<real, ObjId>, pos: map<real, nat>, i: nat)
    requires i <= |order|
  {
    && pos.Keys == tm.Keys
    && (forall k :: 0 <= k < i && Shown(store, order[k], visibleOnly) ==> Dist(store, order[k], loc) in tm)
    && (forall d :: d in tm ==> pos[d] < i && order[pos[d]] == tm[d] && Shown(store, tm[d], visibleOnly) && Dist(store, tm[d], loc) == d)
    && (forall d, b :: d in tm && pos[d] < b < i && Shown(store, order[b], visibleOnly) ==> Dist(store, order[b], loc) != d)
  }

  /** Putting the next object under its distance, when it is shown, keeps the map's description. */
  lemma KeptLastStep(store: Store, order: seq<ObjId>, loc: FeatureMap, visibleOnly: bool,
                     tm: map<real, ObjId>, pos: map<real, nat>, i: nat)
    requires i < |order| && KeptLast(store, order, loc, visibleOnly, tm, pos, i)
    ensures Shown(store, order[i], visibleOnly) ==>
              KeptLast(store, order, loc, visibleOnly, tm[Dist(store, order[i], loc) := order[i]], pos[Dist(store, order[i], loc) := i], i + 1)
    ensures !Shown(store, order[i], visibleOnly) ==> KeptLast(store, order, loc, visibleOnly, tm, pos, i + 1)
  {
    if Shown(store, order[i], visibleOnly) {
      KeptLastShown(store, order, loc, visibleOnly, tm, pos, i);
    } else {
      KeptLastHidden(store, order, loc, visibleOnly, tm, pos, i);
    }
  }

  lemma KeptLastShown(store: Store, order: seq<ObjId>, loc: FeatureMap, visibleOnly: bool,
                      tm: map<real, ObjId>, pos: map<real, nat>, i: nat)
    requires i < |order| && KeptLast(store, order, loc, visibleOnly, tm, pos, i) && Shown(store, order[i], visibleOnly)
    ensures KeptLast(store, order, loc, visibleOnly, tm[Dist(store, order[i], loc) := order[i]], pos[Dist(store, order[i], loc) := i], i + 1)
  {
    var s := order[i];
    var d0 := Dist(store, s, loc);
    var tm', pos' := tm[d0 := s], pos[d0 := i];
    forall k | 0 <= k < i + 1 && Shown(store, order[k], visibleOnly) ensures Dist(store, order[k], loc) in tm' {
      if k < i {
        assert Dist(store, order[k], loc) in tm;
      }
    }
    forall d | d in tm'
      ensures pos'[d] < i + 1 && order[pos'[d]] == tm'[d] && Shown(store, tm'[d], visibleOnly) && Dist(store, tm'[d], loc) == d
    {
      if d != d0 {
        assert d in tm;
      }
    }
    forall d, b | d in tm' && pos'[d] < b < i + 1 && Shown(store, order[b], visibleOnly)
      ensures Dist(store, order[b], loc) != d
    {
      if b < i {
        assert d != d0 && d in tm && pos'[d] == pos[d];
      }
    }
  }

  lemma KeptLastHidden(store: Store, order: seq<ObjId>, loc: FeatureMap, visibleOnly: bool,
                       tm: map<real, ObjId>, pos: map<real, nat>, i: nat)
    requires i < |order| && KeptLast(store, order, loc, visibleOnly, tm, pos, i) && !Shown(store, order[i], visibleOnly)
    ensures KeptLast(store, order, loc, visibleOnly, tm, pos, i + 1)
  {
    forall k | 0 <= k < i + 1 && Shown(store, order[k], visibleOnly) ensures Dist(store, order[k], loc) in tm {
      assert k < i;
    }
  }

  /**
   * The first `n` keys of a sorted map in ascending order, or all of them when
   * there are fewer: a strictly increasing prefix of the keys.
   */
  method SmallestKeys(tm: map<real, ObjId>, n: int) returns (ks: seq<real>)
    requires n >= 0
    ensures |ks| == if n < |tm.Keys| then n else |tm.Keys|
    ensures forall i :: 0 <= i < |ks| ==> ks[i] in tm
    ensures forall i, j :: 0 <= i < j < |ks| ==> ks[i] < ks[j]
    ensures forall d :: d in tm && d !in ks ==> forall i :: 0 <= i < |ks| ==> ks[i] < d
    ensures |ks| < n ==> forall d :: d in tm ==> d in ks
  {
    ks := [];
    var remaining := tm.Keys;
    var left := n;
    while left > 0 && remaining != {}
      invariant 0 <= left <= n && |ks| == n - left
      invariant remaining == tm.Keys - Elements(ks)
      invariant forall i :: 0 <= i < |ks| ==> ks[i] in tm
      invariant forall i, j :: 0 <= i < j < |ks| ==> ks[i] < ks[j]
      invariant forall i, e :: 0 <= i < |ks| && e in remaining ==> ks[i] < e
      decreases left
    {
      var k := SetMinReal(remaining);
      ks := ks + [k];
      remaining := remaining - {k};
      left := left - 1;
    }
    KeysSplit(tm.Keys, ks, remaining);
    assert forall d :: d in tm && d !in ks ==> d in remaining;
  }

  /** A strictly increasing sequence of keys and the keys it leaves out account for all keys. */
  lemma KeysSplit(keys: set<real>, ks: seq<real>, remaining: set<real>)
    requires forall i, j :: 0 <= i < j < |ks| ==> ks[i] < ks[j]
    requires forall i :: 0 <= i < |ks| ==> ks[i] in keys
    requires remaining == keys - Elements(ks)
    ensures |keys| == |ks| + |remaining|
  {
    DistinctCardinality(ks);
    assert keys == Elements(ks) + remaining;
  }

  /** Each of `objs` is the last object of `order` enumerated at its distance: no later shown object is as far. */
  predicate LastAtDistance(store: Store, order: seq<ObjId>, loc: FeatureMap, visibleOnly: bool, objs: seq<ObjId>) {
    forall i, a, b :: (0 <= i < |objs| && 0 <= a < b < |order| && order[a] == objs[i] && Shown(store, order[b], visibleOnly)) ==>
      Dist(store, order[b], loc) != Dist(store, objs[i], loc)
  }

  /**
   * The `n` closest objects in ascending distance. Objects are keyed by their
   * distance, so equally distant objects collapse to the last one enumerated
   * and the list has one object per distinct distance. An absent frame and a
   * negative `n` fail.
   */
  method GetNClosestObjects(c: Content, store: Store, orders: Orders, loc: FeatureMap, frame: int, n: int, visibleOnly: bool)
    returns (r: Result<seq<ObjId>, QueryError>)
    requires WellOrdered(c, orders)
    requires Measurable(c, store, frame, loc, visibleOnly)
    ensures frame !in c <==> r == Err(AbsentFrame)
    ensures frame in c && n < 0 <==> r == Err(NegativeCount)
    ensures r.Ok? ==> frame in orders && |r.value| <= n
    ensures r.Ok? ==> forall i :: 0 <= i < |r.value| ==> r.value[i] in ShownIn(c, store, frame, visibleOnly)
    ensures r.Ok? ==> forall i, j :: 0 <= i < j < |r.value| ==> Dist(store, r.value[i], loc) < Dist(store, r.value[j], loc)
    ensures r.Ok? ==> forall p :: p in ShownIn(c, store, frame, visibleOnly) ==>
                        (exists i :: 0 <= i < |r.value| && Dist(store, r.value[i], loc) == Dist(store, p, loc)) ||
                        (|r.value| == n && forall i :: 0 <= i < |r.value| ==> Dist(store, r.value[i], loc) < Dist(store, p, loc))
    ensures r.Ok? ==> LastAtDistance(store, orders[frame], loc, visibleOnly, r.value)
  {
    if frame !in c {
      return Err(AbsentFrame);
    }
    assert Enumerates(orders[frame], c[frame]);
    // The distance map is filled before the list is made, so a negative
    // count fails only after the walk, which has no visible effect.
    if n < 0 {
      return Err(NegativeCount);
    }
    var objs := NClosestIn(c, store, frame, orders[frame], loc, n, visibleOnly);
    return Ok(objs);
  }

  /** The body of `getNClosestObjects` for a present frame and a non-negative count. */
  method NClosestIn(c: Content, store: Store, frame: int, order: seq<ObjId>, loc: FeatureMap, n: int, visibleOnly: bool)
    returns (objs: seq<ObjId>)
    requires frame in c && Enumerates(order, c[frame]) && n >= 0
    requires Measurable(c, store, frame, loc, visibleOnly)
    ensures |objs| <= n
    ensures forall i :: 0 <= i < |objs| ==> objs[i] in ShownIn(c, store, frame, visibleOnly)
    ensures forall i, j :: 0 <= i < j < |objs| ==> Dist(store, objs[i], loc) < Dist(store, objs[j], loc)
    ensures forall p :: p in ShownIn(c, store, frame, visibleOnly) ==>
              (exists i :: 0 <= i < |objs| && Dist(store, objs[i], loc) == Dist(store, p, loc)) ||
              (|objs| == n && forall i :: 0 <= i < |objs| ==> Dist(store, objs[i], loc) < Dist(store, p, loc))
    ensures LastAtDistance(store, order, loc, visibleOnly, objs)
  {
    var tm := DistanceMap(store, order, loc, visibleOnly);
    var ks := SmallestKeys(tm, n);
    objs := Lookup(tm, ks);
    NClosestOrdered(c, store, frame, order, loc, visibleOnly, n, tm, ks, objs);
    NClosestCovers(c, store, frame, order, loc, visibleOnly, n, tm, ks, objs);
  }

  /** The values of `tm` at the keys `ks`, in order. */
  function Lookup(tm: map<real, ObjId>, ks: seq<real>): (objs: seq<ObjId>)
    requires forall i :: 0 <= i < |ks| ==> ks[i] in tm
    ensures |objs| == |ks| && forall i :: 0 <= i < |ks| ==> objs[i] == tm[ks[i]]
  {
    seq(|ks|, i requires 0 <= i < |ks| => tm[ks[i]])
  }

  /** The objects the smallest keys select count in the frame and come in strictly increasing distance. */
  lemma NClosestOrdered(c: Content, store: Store, frame: int, order: seq<ObjId>, loc: FeatureMap, visibleOnly: bool,
                        n: int, tm: map<real, ObjId>, ks: seq<real>, objs: seq<ObjId>)
    requires frame in c && Enumerates(order, c[frame]) && n >= 0
    requires forall d :: d in tm ==> tm[d] in order && Shown(store, tm[d], visibleOnly) && Dist(store, tm[d], loc) == d
    requires |ks| == if n < |tm.Keys| then n else |tm.Keys|
    requires forall i :: 0 <= i < |ks| ==> ks[i] in tm
    requires forall i, j :: 0 <= i < j < |ks| ==> ks[i] < ks[j]
    requires |objs| == |ks| && forall i :: 0 <= i < |ks| ==> objs[i] == tm[ks[i]]
    ensures |objs| <= n
    ensures forall i :: 0 <= i < |objs| ==> objs[i] in ShownIn(c, store, frame, visibleOnly) && Dist(store, objs[i], loc) == ks[i]
    ensures forall i, j :: 0 <= i < j < |objs| ==> Dist(store, objs[i], loc) < Dist(store, objs[j], loc)
  {
    forall i | 0 <= i < |objs|
      ensures objs[i] in ShownIn(c, store, frame, visibleOnly) && Dist(store, objs[i], loc) == ks[i]
    {
      SelectedObject(c, store, frame, order, loc, visibleOnly, tm, ks[i]);
    }
  }

  /**
   * Every distance of the frame is either represented among the selected
   * objects or lies beyond all of them when `n` cut the list short; and each
   * selected object is the last one enumerated at its distance.
   */
  lemma NClosestCovers(c: Content, store: Store, frame: int, order: seq<ObjId>, loc: FeatureMap, visibleOnly: bool,
                       n: int, tm: map<real, ObjId>, ks: seq<real>, objs: seq<ObjId>)
    requires frame in c && Enumerates(order, c[frame]) && n >= 0
    requires forall k :: 0 <= k < |order| && Shown(store, order[k], visibleOnly) ==> Dist(store, order[k], loc) in tm
    requires forall d, a, b :: d in tm && 0 <= a < b < |order| && order[a] == tm[d] && Shown(store, order[b], visibleOnly) ==>
               Dist(store, order[b], loc) != d
    requires forall i :: 0 <= i < |ks| ==> ks[i] in tm
    requires forall d :: d in tm && d !in ks ==> forall i :: 0 <= i < |ks| ==> ks[i] < d
    requires |ks| < n ==> forall d :: d in tm ==> d in ks
    requires |ks| <= n
    requires |objs| == |ks| && forall i :: 0 <= i < |ks| ==> objs[i] == tm[ks[i]] && Dist(store, objs[i], loc) == ks[i]
    ensures forall p :: p in ShownIn(c, store, frame, visibleOnly) ==>
              (exists i :: 0 <= i < |objs| && Dist(store, objs[i], loc) == Dist(store, p, loc)) ||
              (|objs| == n && forall i :: 0 <= i < |objs| ==> Dist(store, objs[i], loc) < Dist(store, p, loc))
    ensures LastAtDistance(store, order, loc, visibleOnly, objs)
  {
    forall p | p in ShownIn(c, store, frame, visibleOnly)
      ensures (exists i :: 0 <= i < |objs| && Dist(store, objs[i], loc) == Dist(store, p, loc)) ||
              (|objs| == n && forall i :: 0 <= i < |objs| ==> Dist(store, objs[i], loc) < Dist(store, p, loc))
    {
      var k :| 0 <= k < |order| && order[k] == p;
      var d := Dist(store, p, loc);
      assert d in tm;
      if d in ks {
        var i :| 0 <= i < |ks| && ks[i] == d;
        assert Dist(store, objs[i], loc) == d;
      }
    }
    forall i, a, b | 0 <= i < |objs| && 0 <= a < b < |order| && order[a] == objs[i] && Shown(store, order[b], visibleOnly)
      ensures Dist(store, order[b], loc) != Dist(store, objs[i], loc)
    {
      assert ks[i] in tm && order[a] == tm[ks[i]];
    }
  }

  lemma SelectedObject(c: Content, store: Store, frame: int, order: seq<ObjId>, loc: FeatureMap, visibleOnly: bool,
                       tm: map<real, ObjId>, d: real)
    requires frame in c && Enumerates(order, c[frame])
    requires forall d :: d in tm ==> tm[d] in order && Shown(store, tm[d], visibleOnly) && Dist(store, tm[d], loc) == d
    requires d in tm
    ensures tm[d] in ShownIn(c, store, frame, visibleOnly) && Dist(store, tm[d], loc) == d
  {
    assert tm[d] in order;
  }
}

=== FILE: comparators.dfy ===
/** The comparators used to order trackable objects by a feature or by name. */
module Comparators {
  import opened Wrappers
  import opened JavaLang
  import opened Trackable

  /**
   * Orders objects by increasing value of `feature`: -1, 0 or 1. The sign is
   * derived from `o2.diffTo(o1)`. `None` when either object lacks the feature.
   */
  function FeatureCompare(o1: FeatureMap, o2: FeatureMap, feature: string): (r: Option<int>)
    ensures r.Some? <==> feature in o1 && feature in o2
    ensures r.Some? ==> (r.value == -1 <==> o1[feature] < o2[feature])
    ensures r.Some? ==> (r.value == 0 <==> o1[feature] == o2[feature])
    ensures r.Some? ==> (r.value == 1 <==> o1[feature] > o2[feature])
  {
    match DiffTo(o2, o1, feature)
    case None => None
    case Some(diff) => Some(if diff == 0.0 then 0 else if diff < 0.0 then 1 else -1)
  }

  /** The feature order is anti-symmetric and transitive, as a comparator must be. */
  lemma FeatureCompareIsOrder(a: FeatureMap, b: FeatureMap, c: FeatureMap, f: string)
    requires f in a && f in b && f in c
    ensures FeatureCompare(a, b, f).value == -FeatureCompare(b, a, f).value
    ensures FeatureCompare(a, b, f).value <= 0 && FeatureCompare(b, c, f).value <= 0 ==>
              FeatureCompare(a, c, f).value <= 0
  {
  }

  /** Orders objects by their names with `String.compareTo`; `None` when a name is `null`. */
  function NameCompare(n1: Option<string>, n2: Option<string>): (r: Option<int>)
    ensures r.Some? <==> n1.Some? && n2.Some?
    ensures r.Some? ==> (r.value == 0 <==> n1 == n2)
  {
    if n1.Some? && n2.Some? then
      CompareToZeroIff(n1.value, n2.value);
      Some(CompareTo(n1.value, n2.value))
    else None
  }

  lemma NameCompareIsOrder(a: string, b: string, c: string)
    ensures NameCompare(Some(a), Some(b)).value == -NameCompare(Some(b), Some(a)).value
    ensures NameCompare(Some(a), Some(b)).value <= 0 && NameCompare(Some(b), Some(c)).value <= 0 ==>
              NameCompare(Some(a), Some(c)).value <= 0
  {
    CompareToAntisymmetric(a, b);
    if CompareTo(a, b) <= 0 && CompareTo(b, c) <= 0 {
      CompareToTransitive(a, b, c);
    }
  }
}

=== FILE: contrast.dfy ===
/**
 * The spot contrast analyzer: the difference between the mean intensity of
 * the inner ring of a spot (between half its radius and its radius) and of
 * the ring just outside it, stored as an absolute value.
 */
module SpotContrast {
  import opened Wrappers
  import opened Features
  import opened Trackable

  /** The inner ring starts at this fraction of the radius. */
  const RAD_PERCENTAGE: real := 0.5

  /** Where a neighbourhood pixel counts. */
  datatype Ring = Outer | Inner | Centre

  /** A neighbourhood pixel: its squared distance to the spot centre and its intensity. */
  datatype Sample = Sample(d2: real, value: real)

  /** `radius² (1 - 0.5)²`: the squared radius where the inner ring starts, a quarter of `radius²`. */
  function InnerRadius2(radius2: real): (r: real)
    ensures r == radius2 / 4.0
  {
    radius2 * (1.0 - RAD_PERCENTAGE) * (1.0 - RAD_PERCENTAGE)
  }

  /** Beyond the radius: outer; else beyond the inner radius: inner; else neither. */
  function Classify(d2: real, radius2: real): (g: Ring)
    requires radius2 >= 0.0
    ensures g == Outer <==> d2 > radius2
    ensures g == Inner <==> radius2 / 4.0 < d2 <= radius2
    ensures g == Centre <==> d2 <= radius2 / 4.0
  {
    if d2 > radius2 then Outer
    else if d2 > InnerRadius2(radius2) then Inner
    else Centre
  }

  /** The running totals of the cursor loop. */
  datatype Totals = Totals(innerVolume: nat, innerIntensity: real, outerVolume: nat, outerIntensity: real)

  /** How many samples fall in `g`. */
  function CountIn(samples: seq<Sample>, radius2: real, g: Ring): nat
    requires radius2 >= 0.0
  {
    if samples == [] then 0
    else CountIn(samples[..|samples| - 1], radius2, g) + (if Classify(samples[|samples| - 1].d2, radius2) == g then 1 else 0)
  }

  /** The cursor loop over the neighbourhood pixels. */
  function Accumulate(samples: seq<Sample>, radius2: real): (t: Totals)
    requires radius2 >= 0.0
    ensures t.innerVolume == CountIn(samples, radius2, Inner)
    ensures t.outerVolume == CountIn(samples, radius2, Outer)
    ensures t.innerVolume + t.outerVolume + CountIn(samples, radius2, Centre) == |samples|
  {
    if samples == [] then Totals(0, 0.0, 0, 0.0)
    else Step(Accumulate(samples[..|samples| - 1], radius2), samples[|samples| - 1], radius2)
  }

  /** One pass of the cursor loop: the sample adds to the ring it falls in. */
  function Step(t: Totals, s: Sample, radius2: real): Totals
    requires radius2 >= 0.0
  {
    match Classify(s.d2, radius2)
    case Outer => t.(outerVolume := t.outerVolume + 1, outerIntensity := t.outerIntensity + s.value)
    case Inner => t.(innerVolume := t.innerVolume + 1, innerIntensity := t.innerIntensity + s.value)
    case Centre => t
  }

  /**
   * `getContrast`: inner mean minus outer mean; `None` when a ring is empty,
   * where the division by a zero volume gives no finite mean.
   */
  function Contrast(samples: seq<Sample>, radius2: real): (r: Option<real>)
    requires radius2 >= 0.0
    ensures r.Some? <==> CountIn(samples, radius2, Inner) > 0 && CountIn(samples, radius2, Outer) > 0
  {
    var t := Accumulate(samples, radius2);
    if t.innerVolume == 0 || t.outerVolume == 0 then None
    else Some(t.innerIntensity / (t.innerVolume as real) - t.outerIntensity / (t.outerVolume as real))
  }

  /**
   * Where every pixel has the same intensity, each ring's total is its
   * volume times that intensity.
   */
  lemma {:induction false} UniformTotals(samples: seq<Sample>, radius2: real, v: real)
    requires radius2 >= 0.0
    requires forall i :: 0 <= i < |samples| ==> samples[i].value == v
    ensures Uniform(Accumulate(samples, radius2), v)
    decreases |samples|
  {
    if samples != [] {
      var init := samples[..|samples| - 1];
      assert forall i :: 0 <= i < |init| ==> init[i].value == samples[i].value;
      UniformTotals(init, radius2, v);
      UniformStep(Accumulate(init, radius2), samples[|samples| - 1], radius2, v);
    }
  }

  /** Each ring's total is its volume times `v`. */
  predicate Uniform(t: Totals, v: real) {
    t.innerIntensity == (t.innerVolume as real) * v && t.outerIntensity == (t.outerVolume as real) * v
  }

  lemma UniformStep(t: Totals, s: Sample, radius2: real, v: real)
    requires radius2 >= 0.0 && s.value == v && Uniform(t, v)
    ensures Uniform(Step(t, s, radius2), v)
  {
    OneMore(t.outerVolume, v);
    OneMore(t.innerVolume, v);
  }

  lemma OneMore(n: nat, v: real)
    ensures ((n + 1) as real) * v == (n as real) * v + v
  {
  }

  lemma DivideBack(n: real, v: real)
    requires n != 0.0
    ensures (n * v) / n == v
  {
  }

  /** A uniform neighbourhood has no contrast. */
  lemma UniformHasNoContrast(samples: seq<Sample>, radius2: real, v: real)
    requires radius2 >= 0.0
    requires forall i :: 0 <= i < |samples| ==> samples[i].value == v
    requires Contrast(samples, radius2).Some?
    ensures Contrast(samples, radius2) == Some(0.0)
  {
    var t := Accumulate(samples, radius2);
    UniformTotals(samples, radius2, v);
    assert t.innerVolume > 0 && t.outerVolume > 0;
    assert Uniform(t, v);
    var ni, no := t.innerVolume as real, t.outerVolume as real;
    assert t.innerIntensity == ni * v && t.outerIntensity == no * v;
    DivideBack(ni, v);
    DivideBack(no, v);
    assert t.innerIntensity / (t.innerVolume as real) == v;
    assert t.outerIntensity / (t.outerVolume as real) == v;
    assert Contrast(samples, radius2) == Some(v - v);
  }

  /**
   * `process`: stores the absolute contrast under `key`; `None` when the
   * spot has no radius, which makes the analyzer throw, or when a ring is
   * empty.
   */
  function Process(fm: FeatureMap, key: string, samples: seq<Sample>): (r: Option<FeatureMap>)
    ensures r.Some? <==> RADIUS in fm && Contrast(samples, Sq(fm[RADIUS])).Some?
    ensures r.Some? ==> (
      && r.value.Keys == fm.Keys + {key}
      && r.value[key] >= 0.0
      && (r.value[key] == Contrast(samples, Sq(fm[RADIUS])).value || r.value[key] == -Contrast(samples, Sq(fm[RADIUS])).value)
      && (forall f :: f in fm && f != key ==> r.value[f] == fm[f]))
  {
    match GetFeature(fm, RADIUS)
    case None => None
    case Some(radius) =>
      match Contrast(samples, Sq(radius))
      case None => None
      case Some(c) => Some(PutFeature(fm, key, Abs(c)))
  }
}

=== FILE: costfunction.dfy ===
/** The linking cost for Brownian motion: the squared distance between the two objects. */
module CostFunction {
  import opened Wrappers
  import opened JavaLang
  import opened ObjectUtils

  function LinkingCost(source: Located, target: Located): (r: Option<real>)
    ensures r.Some? <==> |source.position| <= |target.position|
    ensures r.Some? ==> r.value > 0.0
  {
    SquareDistance(source, target)
  }

  /**
   * The cost is a positive, symmetric measure between objects of equal
   * dimension; coincident objects cost the smallest normal double and any
   * other cost is the squared distance.
   */
  lemma LinkingCostIsSymmetricDistance(source: Located, target: Located)
    requires |source.position| == |target.position|
    ensures LinkingCost(source, target) == LinkingCost(target, source)
    ensures LinkingCost(source, target).value > 0.0
    ensures source.position == target.position ==> LinkingCost(source, target) == Some(MIN_NORMAL)
    ensures LinkingCost(source, target).value != MIN_NORMAL ==>
              LinkingCost(source, target).value == SumSqDiff(source.position, target.position, |source.position|)
  {
    SquareDistanceProperties(source, target);
  }
}

=== FILE: dfs.dfy ===
/**
 * The child expansion of the two time-directed depth-first iterators: from
 * a vertex, only neighbours in a later frame are encountered. The traversal
 * itself belongs to a superclass; here one expansion is a function from the
 * vertex's incident edges (in the graph's iteration order) and the set of
 * vertices already seen to the log of events the expansion fires.
 */
module DepthFirst {
  import opened Graph
  import opened TreeSets
  import opened Sets

  datatype Event = EdgeTraversed(edge: Edge) | Encounter(vertex: ObjId, via: Edge) | EncounterAgain(vertex: ObjId, via: Edge)

  /** The end of `e` that is not `v`. */
  function Opposite(e: Edge, v: ObjId): ObjId {
    if e.source == v then e.target else e.source
  }

  /** The neighbour across `e` lies in a later frame than `v`. */
  predicate Forward(e: Edge, v: ObjId, frameOf: ObjId -> int) {
    frameOf(Opposite(e, v)) > frameOf(v)
  }

  /** The edges of the edge-traversed events, in order. */
  function Traversed(events: seq<Event>): (r: seq<Edge>)
    ensures |r| <= |events|
  {
    if events == [] then []
    else if events[0].EdgeTraversed? then [events[0].edge] + Traversed(events[1..])
    else Traversed(events[1..])
  }

  /** The vertices of the encounter events (first encounters and encounters again), in order. */
  function Encountered(events: seq<Event>): (r: seq<ObjId>)
    ensures |r| <= |events|
  {
    if events == [] then []
    else if events[0].EdgeTraversed? then Encountered(events[1..])
    else [events[0].vertex] + Encountered(events[1..])
  }

  lemma {:induction false} TraversedAppend(a: seq<Event>, b: seq<Event>)
    ensures Traversed(a + b) == Traversed(a) + Traversed(b)
  {
    if a == [] {
      assert a + b == b;
    } else {
      assert (a + b)[0] == a[0] && (a + b)[1..] == a[1..] + b;
      TraversedAppend(a[1..], b);
    }
  }

  lemma {:induction false} EncounteredAppend(a: seq<Event>, b: seq<Event>)
    ensures Encountered(a + b) == Encountered(a) + Encountered(b)
  {
    if a == [] {
      assert a + b == b;
    } else {
      assert (a + b)[0] == a[0] && (a + b)[1..] == a[1..] + b;
      EncounteredAppend(a[1..], b);
    }
  }

  // ---------------------------------------------------------------- the unsorted iterator

  /**
   * `TimeDirectedDepthFirstIterator.addUnseenChildrenOf`: for every incident
   * edge, an edge-traversed event when there are listeners; then, for a
   * neighbour in a later frame, an encounter, or an encounter again when it
   * was already seen. An encountered vertex counts as seen from then on.
   */
  function Expand(edges: seq<Edge>, v: ObjId, frameOf: ObjId -> int, seen: set<ObjId>, listeners: bool): (r: seq<Event>)
    decreases |edges|
  {
    if edges == [] then []
    else
      var e := edges[0];
      var u := Opposite(e, v);
      var fired := if listeners then [EdgeTraversed(e)] else [];
      if !Forward(e, v, frameOf) then fired + Expand(edges[1..], v, frameOf, seen, listeners)
      else if u in seen then fired + [EncounterAgain(u, e)] + Expand(edges[1..], v, frameOf, seen, listeners)
      else fired + [Encounter(u, e)] + Expand(edges[1..], v, frameOf, seen + {u}, listeners)
  }

  /** With listeners every incident edge is reported traversed, in order, backward ones included; without, none is. */
  lemma {:induction false} ExpandTraversesEveryEdge(edges: seq<Edge>, v: ObjId, frameOf: ObjId -> int, seen: set<ObjId>, listeners: bool)
    ensures Traversed(Expand(edges, v, frameOf, seen, listeners)) == if listeners then edges else []
    decreases |edges|
  {
    if edges != [] {
      var e := edges[0];
      var u := Opposite(e, v);
      var fired := if listeners then [EdgeTraversed(e)] else [];
      var seen' := if Forward(e, v, frameOf) && u !in seen then seen + {u} else seen;
      var mid := if !Forward(e, v, frameOf) then [] else if u in seen then [EncounterAgain(u, e)] else [Encounter(u, e)];
      var rest := Expand(edges[1..], v, frameOf, seen', listeners);
      assert Expand(edges, v, frameOf, seen, listeners) == fired + mid + rest;
      TraversedAppend(fired + mid, rest);
      TraversedAppend(fired, mid);
      ExpandTraversesEveryEdge(edges[1..], v, frameOf, seen', listeners);
      assert Traversed(mid) == [];
      if listeners {
        assert edges == [e] + edges[1..];
      }
    }
  }

  /**
   * Only later-frame neighbours are encountered, each across one of the
   * vertex's edges, and a first encounter is never of a vertex seen before.
   */
  lemma {:induction false} ExpandOnlyForward(edges: seq<Edge>, v: ObjId, frameOf: ObjId -> int, seen: set<ObjId>, listeners: bool)
    ensures forall ev :: ev in Expand(edges, v, frameOf, seen, listeners) && !ev.EdgeTraversed? ==>
              ev.via in edges && ev.vertex == Opposite(ev.via, v) && frameOf(ev.vertex) > frameOf(v)
    ensures forall ev :: ev in Expand(edges, v, frameOf, seen, listeners) && ev.Encounter? ==> ev.vertex !in seen
    decreases |edges|
  {
    if edges != [] {
      var e := edges[0];
      var u := Opposite(e, v);
      var seen' := if Forward(e, v, frameOf) && u !in seen then seen + {u} else seen;
      ExpandOnlyForward(edges[1..], v, frameOf, seen', listeners);
      forall ev | ev in Expand(edges[1..], v, frameOf, seen', listeners) && !ev.EdgeTraversed?
        ensures ev.via in edges
      {
        assert ev.via in edges[1..];
      }
    }
  }

  /**
   * Every edge to a later-frame neighbour yields an encounter of that
   * neighbour across that edge: "again" when it had already been seen.
   */
  lemma {:induction false} ExpandReachesForward(edges: seq<Edge>, v: ObjId, frameOf: ObjId -> int, seen: set<ObjId>, listeners: bool)
    ensures forall i :: 0 <= i < |edges| && Forward(edges[i], v, frameOf) ==>
              Encounter(Opposite(edges[i], v), edges[i]) in Expand(edges, v, frameOf, seen, listeners) ||
              EncounterAgain(Opposite(edges[i], v), edges[i]) in Expand(edges, v, frameOf, seen, listeners)
    ensures forall i :: 0 <= i < |edges| && Forward(edges[i], v, frameOf) && Opposite(edges[i], v) in seen ==>
              EncounterAgain(Opposite(edges[i], v), edges[i]) in Expand(edges, v, frameOf, seen, listeners)
    decreases |edges|
  {
    if edges != [] {
      var e := edges[0];
      var u := Opposite(e, v);
      var seen' := if Forward(e, v, frameOf) && u !in seen then seen + {u} else seen;
      ExpandReachesForward(edges[1..], v, frameOf, seen', listeners);
      forall i | 1 <= i < |edges| ensures edges[i] == edges[1..][i - 1] {
      }
    }
  }

  // ---------------------------------------------------------------- the sorted iterator

  /** The later-frame neighbours not yet seen, in edge order: what goes into the tree set. */
  function Candidates(edges: seq<Edge>, v: ObjId, frameOf: ObjId -> int, seen: set<ObjId>): (r: seq<ObjId>)
    ensures forall u :: u in r ==> u !in seen && exists e :: e in edges && Forward(e, v, frameOf) && u == Opposite(e, v)
    ensures forall e :: e in edges && Forward(e, v, frameOf) && Opposite(e, v) !in seen ==> Opposite(e, v) in r
    decreases |edges|
  {
    if edges == [] then []
    else
      var u := Opposite(edges[0], v);
      var rest := Candidates(edges[1..], v, frameOf, seen);
      assert forall e :: e in edges[1..] ==> e in edges;
      if Forward(edges[0], v, frameOf) && u !in seen then [u] + rest else rest
  }

  /** The map from each later-frame neighbour to its edge; a later edge to the same neighbour overwrites an earlier one. */
  function LocalEdges(edges: seq<Edge>, v: ObjId, frameOf: ObjId -> int): (m: map<ObjId, Edge>)
    ensures forall e :: e in edges && Forward(e, v, frameOf) ==> Opposite(e, v) in m
    ensures forall u :: u in m ==> m[u] in edges && Forward(m[u], v, frameOf) && Opposite(m[u], v) == u
    decreases |edges|
  {
    if edges == [] then map[]
    else
      var last := edges[|edges| - 1];
      var m := LocalEdges(edges[..|edges| - 1], v, frameOf);
      assert forall e :: e in edges[..|edges| - 1] ==> e in edges;
      if Forward(last, v, frameOf) then m[Opposite(last, v) := last] else m
  }

  /** Visits the children in order: an edge-traversed event when there are listeners, then the encounter. */
  function Visit(children: seq<ObjId>, local: map<ObjId, Edge>, seen: set<ObjId>, listeners: bool): (r: seq<Event>)
    requires forall c :: c in children ==> c in local
    decreases |children|
  {
    if children == [] then []
    else
      var c := children[0];
      var e := local[c];
      var fired := if listeners then [EdgeTraversed(e)] else [];
      if c in seen then fired + [EncounterAgain(c, e)] + Visit(children[1..], local, seen, listeners)
      else fired + [Encounter(c, e)] + Visit(children[1..], local, seen + {c}, listeners)
  }

  /**
   * `TimeDirectedSortedDepthFirstIterator.addUnseenChildrenOf`: the unseen
   * later-frame neighbours go into a tree set ordered by the comparator,
   * which is then visited from its greatest element down.
   */
  function SortedExpand(edges: seq<Edge>, v: ObjId, frameOf: ObjId -> int, seen: set<ObjId>, listeners: bool,
                        cmp: (ObjId, ObjId) -> int): seq<Event>
  {
    var local := LocalEdges(edges, v, frameOf);
    var children := Reverse(TreeOf(cmp, Candidates(edges, v, frameOf, seen)));
    assert forall c :: c in children ==> c in local by {
      forall c | c in children ensures c in local {
        var i :| 0 <= i < |children| && children[i] == c;
        assert c in TreeOf(cmp, Candidates(edges, v, frameOf, seen));
      }
    }
    Visit(children, local, seen, listeners)
  }

  /** Visiting distinct, unseen children fires first encounters only, each across the child's edge in the map, and traverses only the children's edges. */
  lemma {:induction false} VisitEvents(children: seq<ObjId>, local: map<ObjId, Edge>, seen: set<ObjId>, listeners: bool)
    requires forall c :: c in children ==> c in local && c !in seen
    requires Distinct(children)
    ensures forall ev :: ev in Visit(children, local, seen, listeners) ==> !ev.EncounterAgain?
    ensures forall ev :: ev in Visit(children, local, seen, listeners) && ev.Encounter? ==> ev.vertex in local && ev.via == local[ev.vertex]
    ensures forall e :: e in Traversed(Visit(children, local, seen, listeners)) ==> exists c :: c in children && e == local[c]
    decreases |children|
  {
    if children != [] {
      var c := children[0];
      var tail := children[1..];
      DistinctTail(children);
      assert forall x :: x in tail ==> x in children;
      VisitEvents(tail, local, seen + {c}, listeners);
      var e := local[c];
      var fired := if listeners then [EdgeTraversed(e)] else [];
      var rest := Visit(tail, local, seen + {c}, listeners);
      assert Visit(children, local, seen, listeners) == fired + [Encounter(c, e)] + rest;
      TraversedAppend(fired + [Encounter(c, e)], rest);
      TraversedAppend(fired, [Encounter(c, e)]);
      assert Traversed([Encounter(c, e)]) == [];
      assert Traversed(fired) == if listeners then [e] else [];
      forall x | x in Traversed(Visit(children, local, seen, listeners)) ensures exists c' :: c' in children && x == local[c'] {
        if x in Traversed(rest) {
          var c' :| c' in tail && x == local[c'];
          assert c' in children;
        } else {
          assert x == e && c in children;
        }
      }
    }
  }

  /** What visiting distinct, unseen children fires: the children encountered in order, each edge-traversed event just before its encounter. */
  lemma {:induction false} VisitFacts(children: seq<ObjId>, local: map<ObjId, Edge>, seen: set<ObjId>, listeners: bool)
    requires forall c :: c in children ==> c in local && c !in seen
    requires Distinct(children)
    ensures Encountered(Visit(children, local, seen, listeners)) == children
    ensures |Traversed(Visit(children, local, seen, listeners))| == if listeners then |children| else 0
    decreases |children|
  {
    if children != [] {
      var c := children[0];
      var e := local[c];
      var fired := if listeners then [EdgeTraversed(e)] else [];
      var tail := children[1..];
      DistinctTail(children);
      assert forall x :: x in tail ==> x in children;
      var rest := Visit(tail, local, seen + {c}, listeners);
      VisitFacts(tail, local, seen + {c}, listeners);
      assert Visit(children, local, seen, listeners) == fired + [Encounter(c, e)] + rest;
      TraversedAppend(fired + [Encounter(c, e)], rest);
      TraversedAppend(fired, [Encounter(c, e)]);
      EncounteredAppend(fired + [Encounter(c, e)], rest);
      EncounteredAppend(fired, [Encounter(c, e)]);
      assert children == [c] + tail;
    }
  }

  /**
   * The sorted expansion never encounters a vertex again: only unseen
   * children are queued. The children are encountered in strictly
   * descending comparator order, at most one per class of equal
   * neighbours, and every unseen later-frame neighbour is encountered or
   * compares equal to one that is. With listeners, an edge-traversed event
   * fires for each queued child only.
   */
  lemma SortedExpandFacts(edges: seq<Edge>, v: ObjId, frameOf: ObjId -> int, seen: set<ObjId>, listeners: bool,
                          cmp: (ObjId, ObjId) -> int)
    requires Comparator(cmp)
    ensures var r := SortedExpand(edges, v, frameOf, seen, listeners, cmp);
            forall ev :: ev in r ==> !ev.EncounterAgain?
    ensures var enc := Encountered(SortedExpand(edges, v, frameOf, seen, listeners, cmp));
            forall i, j :: 0 <= i < j < |enc| ==> cmp(enc[i], enc[j]) > 0
    ensures var enc := Encountered(SortedExpand(edges, v, frameOf, seen, listeners, cmp));
            forall u :: u in enc ==> u !in seen && exists e :: e in edges && Forward(e, v, frameOf) && u == Opposite(e, v)
    ensures var enc := Encountered(SortedExpand(edges, v, frameOf, seen, listeners, cmp));
            forall e :: e in edges && Forward(e, v, frameOf) && Opposite(e, v) !in seen ==>
              exists u :: u in enc && cmp(Opposite(e, v), u) == 0
    ensures var r := SortedExpand(edges, v, frameOf, seen, listeners, cmp);
            |Traversed(r)| == if listeners then |Encountered(r)| else 0
  {
    var local := LocalEdges(edges, v, frameOf);
    var cands := Candidates(edges, v, frameOf, seen);
    var tree := TreeOf(cmp, cands);
    var children := Reverse(tree);
    TreeOfFacts(cmp, cands);
    forall i, j | 0 <= i < j < |children| ensures cmp(children[i], children[j]) > 0 && children[i] != children[j] {
      assert cmp(tree[|tree| - 1 - j], tree[|tree| - 1 - i]) < 0;
      ComparatorReflexive(cmp, children[i]);
    }
    forall c | c in children ensures c in tree && c in local && c !in seen {
      var i :| 0 <= i < |children| && children[i] == c;
    }
    forall y | y in tree ensures y in children {
      var i :| 0 <= i < |tree| && tree[i] == y;
      assert children[|tree| - 1 - i] == y;
    }
    VisitEvents(children, local, seen, listeners);
    VisitFacts(children, local, seen, listeners);
  }
}

=== FILE: duration.dfy ===
/**
 * The track-duration analyzer: for every listed track it scans the track's
 * spots once and records when the track starts and stops, how long it lasts
 * and how far its first-in-time spot lies from its last-in-time spot.
 */
module Duration {
  import opened Wrappers
  import opened Sets
  import opened JavaLang
  import opened ObjectUtils

  /** A spot of a track as the analyzer sees it: its `POSITION_T` and its coordinates. */
  datatype Sample = Sample(t: real, at: Located)

  /**
   * The four track features. The displacement is kept squared: the square
   * root the analyzer applies before storing it is not modelled.
   */
  datatype TrackFeatures = TrackFeatures(duration: real, start: real, stop: real, squaredDisplacement: real)

  datatype DurationError =
    | NoSuchTrack(id: int)   // the track model has no spots for the id
    | EmptyTrack(id: int)    // no spot ever beats the infinite sentinels: the endpoints stay null
    | DimensionMismatch(id: int)

  /** The analyzer computes one value per track from that track alone. */
  const IS_LOCAL: bool := true
  /** The features are computed, never edited by hand. */
  const IS_MANUAL_FEATURE: bool := false

  /**
   * The running scan over the first `k` spots: the index of the spot that
   * set the minimum `t` and of the one that set the maximum. Both tests are
   * strict, so a later spot with the same `t` never replaces an earlier one.
   */
  function Scan(track: seq<Sample>, k: nat): (r: (nat, nat))
    requires 1 <= k <= |track|
    ensures r.0 < k && r.1 < k
    ensures forall j :: 0 <= j < k ==> track[r.0].t <= track[j].t <= track[r.1].t
    ensures forall j :: 0 <= j < r.0 ==> track[j].t > track[r.0].t
    ensures forall j :: 0 <= j < r.1 ==> track[j].t < track[r.1].t
  {
    if k == 1 then (0, 0)
    else
      var prev := Scan(track, k - 1);
      (if track[k - 1].t < track[prev.0].t then k - 1 else prev.0,
       if track[k - 1].t > track[prev.1].t then k - 1 else prev.1)
  }

  /**
   * The features of one track, or why the analyzer cannot compute them.
   * START is the earliest and STOP the latest time of the track, the
   * duration their difference, and the squared displacement is the
   * (always positive) squared distance between the first spot reaching
   * START and the first spot reaching STOP.
   */
  function Measure(id: int, track: seq<Sample>): (r: Result<TrackFeatures, DurationError>)
    ensures track == [] ==> r == Err(EmptyTrack(id))
    ensures r.Ok? ==> (
      var f := r.value;
      && f.start <= f.stop
      && f.duration == f.stop - f.start >= 0.0
      && (forall j :: 0 <= j < |track| ==> f.start <= track[j].t <= f.stop)
      && (exists i :: 0 <= i < |track| && track[i].t == f.start)
      && (exists i :: 0 <= i < |track| && track[i].t == f.stop)
      && f.squaredDisplacement > 0.0)
    ensures r.Err? ==> r == Err(EmptyTrack(id)) || r == Err(DimensionMismatch(id))
  {
    if |track| == 0 then Err(EmptyTrack(id))
    else
      var ends := Scan(track, |track|);
      var minT := track[ends.0].t;
      var maxT := track[ends.1].t;
      match SquareDistance(track[ends.0].at, track[ends.1].at)
      case None => Err(DimensionMismatch(id))
      case Some(d) => Ok(TrackFeatures(maxT - minT, minT, maxT, d))
  }

  /** The spots every sample of the track shares its dimension with. */
  predicate SameDimension(track: seq<Sample>) {
    forall i, j :: 0 <= i < |track| && 0 <= j < |track| ==> |track[i].at.position| == |track[j].at.position|
  }

  /**
   * Spots `a` and `b` are the first to reach START and STOP, and the squared
   * displacement is their squared distance.
   */
  predicate Endpoints(track: seq<Sample>, f: TrackFeatures, a: int, b: int) {
    && 0 <= a < |track| && 0 <= b < |track|
    && track[a].t == f.start && track[b].t == f.stop
    && (forall j :: 0 <= j < a ==> track[j].t > track[a].t)
    && (forall j :: 0 <= j < b ==> track[j].t < track[b].t)
    && SquareDistance(track[a].at, track[b].at) == Some(f.squaredDisplacement)
  }

  /**
   * The displacement endpoints: the first spot attaining the minimum time
   * and the first attaining the maximum; on spots of one dimension the
   * measure never fails for a non-empty track.
   */
  lemma {:induction false} MeasureEndpoints(id: int, track: seq<Sample>)
    requires track != [] && SameDimension(track)
    ensures Measure(id, track).Ok?
    ensures exists a, b :: Endpoints(track, Measure(id, track).value, a, b)
  {
    var ends := Scan(track, |track|);
    var a, b := ends.0, ends.1;
    assert |track[a].at.position| == |track[b].at.position|;
    var d := SquareDistance(track[a].at, track[b].at);
    assert d.Some?;
    var f := TrackFeatures(track[b].t - track[a].t, track[a].t, track[b].t, d.value);
    assert Measure(id, track) == Ok(f);
    assert Endpoints(track, f, a, b);
  }

  /**
   * A one-spot track lasts zero time, and its displacement is not zero but
   * the smallest normal double, since the distance of a spot to itself is.
   */
  lemma SingleSpotTrack(id: int, s: Sample)
    ensures Measure(id, [s]) == Ok(TrackFeatures(0.0, s.t, s.t, MIN_NORMAL))
  {
    SquareDistanceProperties(s.at, s.at);
  }

  /**
   * START, STOP and DURATION do not depend on the order in which the track's
   * spots are visited: any two iteration orders of the same spots agree on
   * them (only the displacement endpoints can differ between orders).
   */
  lemma {:induction false} TimesIndependentOfOrder(id: int, s1: seq<Sample>, s2: seq<Sample>)
    requires multiset(s1) == multiset(s2)
    requires Measure(id, s1).Ok? && Measure(id, s2).Ok?
    ensures Measure(id, s1).value.start == Measure(id, s2).value.start
    ensures Measure(id, s1).value.stop == Measure(id, s2).value.stop
    ensures Measure(id, s1).value.duration == Measure(id, s2).value.duration
  {
    var f1, f2 := Measure(id, s1).value, Measure(id, s2).value;
    forall a: seq<Sample>, b: seq<Sample>, fa: TrackFeatures, fb: TrackFeatures |
      multiset(a) == multiset(b) && Measure(id, a) == Ok(fa) && Measure(id, b) == Ok(fb)
      ensures fa.start <= fb.start && fb.stop <= fa.stop
    {
      var i :| 0 <= i < |b| && b[i].t == fb.start;
      var k :| 0 <= k < |b| && b[k].t == fb.stop;
      assert b[i] in multiset(a) && b[k] in multiset(a);
      var j :| 0 <= j < |a| && a[j] == b[i];
      var l :| 0 <= l < |a| && a[l] == b[k];
      assert fa.start <= a[j].t && a[l].t <= fa.stop;
    }
    assert f1.start <= f2.start && f2.stop <= f1.stop;
    assert f2.start <= f1.start && f1.stop <= f2.stop;
  }

  /**
   * `process`: every listed track, in turn, gets its features; an empty
   * list writes nothing. The first track that cannot be measured stops the
   * run with its error.
   */
  function Process(ids: seq<int>, spotsOf: map<int, seq<Sample>>, store: map<int, TrackFeatures>): (r: Result<map<int, TrackFeatures>, DurationError>)
    ensures ids == [] ==> r == Ok(store)
    ensures r.Ok? ==> (
      && r.value.Keys == store.Keys + Elements(ids)
      && (forall id :: id in ids ==> id in spotsOf && Measure(id, spotsOf[id]) == Ok(r.value[id]))
      && (forall id :: id in store && id !in ids ==> r.value[id] == store[id]))
    ensures r.Err? <==> exists id :: id in ids && (id !in spotsOf || Measure(id, spotsOf[id]).Err?)
    decreases |ids|
  {
    if ids == [] then Ok(store)
    else
      var id := ids[0];
      if id !in spotsOf then Err(NoSuchTrack(id))
      else match Measure(id, spotsOf[id])
        case Err(e) => Err(e)
        case Ok(f) =>
          var rest := Process(ids[1..], spotsOf, store[id := f]);
          assert forall x :: x in ids <==> x == id || x in ids[1..] by {
            assert ids == [id] + ids[1..];
          }
          rest
  }
}

=== FILE: features.dfy ===
/**
 * The names of the privileged numerical features every trackable object
 * carries, and the display tables keyed by them.
 */
module Features {

  const FRAME: string := "FRAME"
  const RADIUS: string := "RADIUS"
  const QUALITY: string := "QUALITY"
  const POSITION_T: string := "POSITION_T"
  const POSITION_X: string := "POSITION_X"
  const POSITION_Y: string := "POSITION_Y"
  const POSITION_Z: string := "POSITION_Z"

  /** The bookkeeping feature an object collection uses to mark visibility. */
  const VISIBILITY: string := "VISIBILITY"

  /** The three spatial coordinates, in the order position index `d` reads them. */
  const POSITION_FEATURES: seq<string> := [POSITION_X, POSITION_Y, POSITION_Z]

  /** The seven privileged features, in declaration order. */
  const FEATURES: seq<string> := [QUALITY, POSITION_X, POSITION_Y, POSITION_Z, POSITION_T, FRAME, RADIUS]

  /** The physical dimension a feature value is expressed in. */
  datatype Dimension = NONE | QUALITY_DIM | LENGTH | POSITION | TIME

  const FEATURE_NAMES: map<string, string> :=
    map[POSITION_X := "X", POSITION_Y := "Y", POSITION_Z := "Z", POSITION_T := "T",
        FRAME := "Frame", RADIUS := "Radius", QUALITY := "Quality"]

  const FEATURE_SHORT_NAMES: map<string, string> :=
    map[POSITION_X := "X", POSITION_Y := "Y", POSITION_Z := "Z", POSITION_T := "T",
        FRAME := "Frame", RADIUS := "R", QUALITY := "Quality"]

  const FEATURE_DIMENSIONS: map<string, Dimension> :=
    map[POSITION_X := POSITION, POSITION_Y := POSITION, POSITION_Z := POSITION, POSITION_T := TIME,
        FRAME := NONE, RADIUS := LENGTH, QUALITY := QUALITY_DIM]

  /** The seven privileged features are pairwise distinct, and visibility is not one of them. */
  lemma PrivilegedFeaturesDistinct()
    ensures |FEATURES| == 7
    ensures forall i, j :: 0 <= i < j < |FEATURES| ==> FEATURES[i] != FEATURES[j]
    ensures VISIBILITY !in FEATURES
  {
  }

  /**
   * The three tables describe exactly the seven privileged features; only
   * the radius has a short name different from its name.
   */
  lemma FeatureTablesAgree()
    ensures FEATURE_NAMES.Keys == FEATURE_SHORT_NAMES.Keys == FEATURE_DIMENSIONS.Keys == set f | f in FEATURES
    ensures forall f :: f in FEATURE_NAMES && f != RADIUS ==> FEATURE_SHORT_NAMES[f] == FEATURE_NAMES[f]
    ensures FEATURE_SHORT_NAMES[RADIUS] != FEATURE_NAMES[RADIUS]
    ensures forall f :: f in FEATURE_DIMENSIONS ==> (FEATURE_DIMENSIONS[f] == POSITION <==> f in POSITION_FEATURES)
  {
  }
}

=== FILE: framepair.dfy ===
/**
 * One frame pair of the nearest-neighbour tracker, independent of how the
 * distance is computed. The sources are taken in a given order; each one asks
 * the flag search for its nearest target that is not yet visited, and is
 * linked to it when the squared distance is within the cap, which marks the
 * target visited. The search is modelled as a brute-force minimum over the
 * targets not yet visited.
 */
module FramePair {
  import opened Wrappers
  import opened Sets
  import opened Graph

  /** `t` is a target nearest to `s`. */
  predicate IsNearest(dist: (ObjId, ObjId) -> real, s: ObjId, t: ObjId, targets: set<ObjId>) {
    t in targets && forall u :: u in targets ==> dist(s, t) <= dist(s, u)
  }

  /** Some target lies within the linking range of `s`. */
  predicate InRange(dist: (ObjId, ObjId) -> real, s: ObjId, targets: set<ObjId>, maxD2: real) {
    exists t :: t in targets && dist(s, t) <= maxD2
  }

  /** The brute-force nearest-neighbour search: a nearest target and its squared distance. */
  method Nearest(dist: (ObjId, ObjId) -> real, s: ObjId, targets: set<ObjId>) returns (t: ObjId, d: real)
    requires targets != {}
    ensures IsNearest(dist, s, t, targets)
    ensures d == dist(s, t)
  {
    t := SetMin(targets);
    d := dist(s, t);
    var rest := targets - {t};
    while rest != {}
      invariant rest <= targets && t in targets && d == dist(s, t)
      invariant forall u :: u in targets && u !in rest ==> d <= dist(s, u)
      decreases rest
    {
      var u := SetMin(rest);
      if dist(s, u) < d {
        t, d := u, dist(s, u);
      }
      rest := rest - {u};
    }
  }

  /**
   * The targets the sources `srcs` have claimed in `h` beyond `g`: the flag
   * search marks a target visited once an edge goes to it.
   */
  ghost function Claimed(g: Graph, h: Graph, srcs: seq<ObjId>): set<ObjId> {
    set e | e in NewEdges(g, h) && e.source in srcs :: e.target
  }

  /**
   * The rule for the `k`-th source of `order`: if an unclaimed target is in
   * range, it has an edge to a nearest unclaimed target; otherwise it has no
   * edge.
   */
  ghost predicate GreedyStep(g: Graph, h: Graph, dist: (ObjId, ObjId) -> real, order: seq<ObjId>, targets: set<ObjId>, maxD2: real, k: int)
    requires 0 <= k < |order|
  {
    var free := targets - Claimed(g, h, order[..k]);
    if InRange(dist, order[k], free, maxD2) then
      exists e :: e in NewEdges(g, h) && e.source == order[k] && IsNearest(dist, order[k], e.target, free)
    else
      forall e :: e in NewEdges(g, h) ==> e.source != order[k]
  }

  /** No two edges of `es` leave the same source. */
  predicate OnePerSource(es: set<Edge>) {
    forall e1, e2 :: e1 in es && e2 in es && e1.source == e2.source ==> e1 == e2
  }

  /** No two edges of `es` enter the same target. */
  predicate OnePerTarget(es: set<Edge>) {
    forall e1, e2 :: e1 in es && e2 in es && e1.target == e2.target ==> e1 == e2
  }

  /** An edge that shares neither end's role with the others keeps both properties. */
  lemma OnePerAdd(es: set<Edge>, e0: Edge)
    requires OnePerSource(es) && OnePerTarget(es)
    requires forall e :: e in es ==> e.source != e0.source && e.target != e0.target
    ensures OnePerSource(es + {e0}) && OnePerTarget(es + {e0})
  {
  }

  /** A new edge from one of `srcs` to one of `targets` within range, weighted by the squared distance. */
  predicate MatchEdge(h: Graph, dist: (ObjId, ObjId) -> real, srcs: seq<ObjId>, targets: set<ObjId>, maxD2: real, e: Edge) {
    e in h.weights && e.source in srcs && e.target in targets && h.weights[e] == dist(e.source, e.target) && h.weights[e] <= maxD2
  }

  /**
   * The edges `h` adds to `g` come from the first `k` sources of `order` and
   * go to targets within range, weighted by the squared distance, at most one
   * per source and one per target.
   */
  ghost predicate Matching(g: Graph, h: Graph, dist: (ObjId, ObjId) -> real, order: seq<ObjId>, targets: set<ObjId>, maxD2: real, k: int)
    requires 0 <= k <= |order|
  {
    (forall e :: e in NewEdges(g, h) ==> MatchEdge(h, dist, order[..k], targets, maxD2, e)) &&
    OnePerSource(NewEdges(g, h)) && OnePerTarget(NewEdges(g, h))
  }

  /** Each of the first `k` sources followed the greedy rule. */
  ghost predicate GreedyUpTo(g: Graph, h: Graph, dist: (ObjId, ObjId) -> real, order: seq<ObjId>, targets: set<ObjId>, maxD2: real, k: int)
    requires 0 <= k <= |order|
  {
    forall j :: 0 <= j < k ==> GreedyStep(g, h, dist, order, targets, maxD2, j)
  }

  /** What linking the first `k` sources of `order` has produced. */
  ghost predicate GreedyProgress(g: Graph, h: Graph, dist: (ObjId, ObjId) -> real, order: seq<ObjId>, targets: set<ObjId>, maxD2: real, k: int) {
    0 <= k <= |order| && Simple(h) && Extends(g, h) &&
    Matching(g, h, dist, order, targets, maxD2, k) && GreedyUpTo(g, h, dist, order, targets, maxD2, k)
  }

  /** Claims made by sources outside `srcs` do not change what `srcs` claimed. */
  lemma ClaimedOthers(g: Graph, h: Graph, h': Graph, srcs: seq<ObjId>, s: ObjId, t: ObjId)
    requires s !in srcs && NewEdges(g, h') == NewEdges(g, h) + {Edge(s, t)}
    ensures Claimed(g, h', srcs) == Claimed(g, h, srcs)
  {
  }

  /** A later source of a distinct enumeration is not among the earlier ones. */
  lemma NotBefore(order: seq<ObjId>, j: int, k: int)
    requires Distinct(order) && 0 <= j <= k < |order|
    ensures order[k] !in order[..j]
  {
    forall m | 0 <= m < j ensures order[..j][m] != order[k] {
      assert order[..j][m] == order[m];
    }
  }

  /** Adding one edge to `h` adds exactly that edge to what `h` adds to `g`. */
  lemma AddOneEdge(g: Graph, h: Graph, h': Graph, s: ObjId, t: ObjId, w: real)
    requires Extends(g, h) && AddWeightedEdge(h, s, t, w) == Ok(h')
    ensures Extends(g, h') && NewEdges(g, h') == NewEdges(g, h) + {Edge(s, t)}
    ensures forall e :: e in h.weights ==> h'.weights[e] == h.weights[e]
  {
    var e0 := Edge(s, t);
    assert h'.weights == h.weights[e0 := w] && e0 !in h.weights;
    forall e | e in g.weights ensures e in h'.weights && h'.weights[e] == g.weights[e] {
      assert e in h.weights && e != e0;
    }
  }

  /** The new edge keeps the greedy rule of every source up to and including the `k`-th. */
  lemma GreedyAddSteps(g: Graph, h: Graph, h': Graph, dist: (ObjId, ObjId) -> real, order: seq<ObjId>, targets: set<ObjId>, maxD2: real,
                       k: int, t: ObjId)
    requires 0 <= k < |order| && Distinct(order)
    requires GreedyUpTo(g, h, dist, order, targets, maxD2, k)
    requires NewEdges(g, h') == NewEdges(g, h) + {Edge(order[k], t)}
    requires IsNearest(dist, order[k], t, targets - Claimed(g, h, order[..k])) && dist(order[k], t) <= maxD2
    ensures GreedyUpTo(g, h', dist, order, targets, maxD2, k + 1)
  {
    var s := order[k];
    forall j | 0 <= j < k + 1 ensures GreedyStep(g, h', dist, order, targets, maxD2, j) {
      NotBefore(order, j, k);
      ClaimedOthers(g, h, h', order[..j], s, t);
      if j < k {
        assert GreedyStep(g, h, dist, order, targets, maxD2, j);
        assert order[j] != s;
      } else {
        assert Edge(s, t) in NewEdges(g, h');
      }
    }
  }

  /** The new edge keeps the edges from earlier sources, to targets in range, one per source and one per target. */
  lemma GreedyAddEdges(g: Graph, h: Graph, h': Graph, dist: (ObjId, ObjId) -> real, order: seq<ObjId>, targets: set<ObjId>, maxD2: real,
                       k: int, t: ObjId)
    requires 0 <= k < |order| && Distinct(order) && Simple(h) && Extends(g, h)
    requires Matching(g, h, dist, order, targets, maxD2, k)
    requires t in targets - Claimed(g, h, order[..k]) && dist(order[k], t) <= maxD2
    requires AddWeightedEdge(h, order[k], t, dist(order[k], t)) == Ok(h')
    ensures Simple(h') && Extends(g, h') && NewEdges(g, h') == NewEdges(g, h) + {Edge(order[k], t)}
    ensures Matching(g, h', dist, order, targets, maxD2, k + 1)
  {
    var s, e0 := order[k], Edge(order[k], t);
    AddOneEdge(g, h, h', s, t, dist(s, t));
    NotBefore(order, k, k);
    assert order[..k + 1] == order[..k] + [s];
    forall e | e in NewEdges(g, h)
      ensures e.source != s && e.target != t && MatchEdge(h', dist, order[..k + 1], targets, maxD2, e)
    {
      assert MatchEdge(h, dist, order[..k], targets, maxD2, e);
      assert e.target in Claimed(g, h, order[..k]);
    }
    OnePerAdd(NewEdges(g, h), e0);
    assert MatchEdge(h', dist, order[..k + 1], targets, maxD2, e0);
  }

  /** Linking the `k`-th source to a nearest unclaimed target in range keeps the progress and claims that target. */
  lemma GreedyAdd(g: Graph, h: Graph, h': Graph, dist: (ObjId, ObjId) -> real, order: seq<ObjId>, targets: set<ObjId>, maxD2: real,
                  k: int, t: ObjId)
    requires GreedyProgress(g, h, dist, order, targets, maxD2, k) && k < |order| && Distinct(order)
    requires IsNearest(dist, order[k], t, targets - Claimed(g, h, order[..k])) && dist(order[k], t) <= maxD2
    requires AddWeightedEdge(h, order[k], t, dist(order[k], t)) == Ok(h')
    ensures GreedyProgress(g, h', dist, order, targets, maxD2, k + 1)
    ensures targets - Claimed(g, h', order[..k + 1]) == targets - Claimed(g, h, order[..k]) - {t}
  {
    GreedyAddEdges(g, h, h', dist, order, targets, maxD2, k, t);
    GreedyAddSteps(g, h, h', dist, order, targets, maxD2, k, t);
    ClaimedNext(g, h, h', order, k, t);
  }

  /** Linking the `k`-th source to `t` adds exactly `t` to what the sources so far have claimed. */
  lemma ClaimedNext(g: Graph, h: Graph, h': Graph, order: seq<ObjId>, k: int, t: ObjId)
    requires Distinct(order) && 0 <= k < |order|
    requires forall e :: e in NewEdges(g, h) ==> e.source in order[..k]
    requires NewEdges(g, h') == NewEdges(g, h) + {Edge(order[k], t)}
    ensures Claimed(g, h', order[..k + 1]) == Claimed(g, h, order[..k]) + {t}
  {
    var s := order[k];
    NotBefore(order, k, k);
    ClaimedOthers(g, h, h', order[..k], s, t);
    assert order[..k + 1] == order[..k] + [s];
    assert Edge(s, t) in NewEdges(g, h');
  }

  /** A source with no unclaimed target in range gets no edge and claims nothing. */
  lemma GreedySkip(g: Graph, h: Graph, dist: (ObjId, ObjId) -> real, order: seq<ObjId>, targets: set<ObjId>, maxD2: real, k: int)
    requires GreedyProgress(g, h, dist, order, targets, maxD2, k) && k < |order| && Distinct(order)
    requires !InRange(dist, order[k], targets - Claimed(g, h, order[..k]), maxD2)
    ensures GreedyProgress(g, h, dist, order, targets, maxD2, k + 1)
    ensures Claimed(g, h, order[..k + 1]) == Claimed(g, h, order[..k])
  {
    var s := order[k];
    assert order[..k + 1] == order[..k] + [s];
    assert s !in order[..k] by {
      forall j | 0 <= j < k ensures order[..k][j] != s {
        assert order[..k][j] == order[j];
      }
    }
    forall e | e in NewEdges(g, h) ensures e.source != s && e.source in order[..k + 1] {
    }
  }

  /**
   * The greedy matching is maximal: every source has an edge, or every target
   * within its range has been claimed by some source.
   */
  lemma GreedyMaximal(g: Graph, h: Graph, dist: (ObjId, ObjId) -> real, order: seq<ObjId>, targets: set<ObjId>, maxD2: real)
    requires GreedyProgress(g, h, dist, order, targets, maxD2, |order|)
    ensures forall s :: s in order ==>
              (exists e :: e in NewEdges(g, h) && e.source == s) ||
              (forall t :: t in targets && dist(s, t) <= maxD2 ==> exists e :: e in NewEdges(g, h) && e.target == t)
  {
    forall s | s in order
      ensures (exists e :: e in NewEdges(g, h) && e.source == s) ||
              (forall t :: t in targets && dist(s, t) <= maxD2 ==> exists e :: e in NewEdges(g, h) && e.target == t)
    {
      var k :| 0 <= k < |order| && order[k] == s;
      assert GreedyStep(g, h, dist, order, targets, maxD2, k);
      var free := targets - Claimed(g, h, order[..k]);
      if !InRange(dist, s, free, maxD2) {
        forall t | t in targets && dist(s, t) <= maxD2 ensures exists e :: e in NewEdges(g, h) && e.target == t {
          assert t in Claimed(g, h, order[..k]);
        }
      }
    }
  }

  /**
   * No edge of the pair can be refused: every source and target is a vertex,
   * no source is also a target, and no source is yet joined to a target.
   */
  predicate FreshPair(g: Graph, order: seq<ObjId>, targets: set<ObjId>) {
    (forall s :: s in order ==> s in g.vertices && s !in targets) &&
    (forall t :: t in targets ==> t in g.vertices) &&
    (forall s, t :: s in order && t in targets ==> !Adjacent(g, s, t))
  }

  /** On a fresh pair, linking the `k`-th source to any target succeeds. */
  lemma FreshAdd(g: Graph, h: Graph, dist: (ObjId, ObjId) -> real, order: seq<ObjId>, targets: set<ObjId>, maxD2: real,
                 k: int, t: ObjId, w: real)
    requires GreedyProgress(g, h, dist, order, targets, maxD2, k) && k < |order| && Distinct(order)
    requires FreshPair(g, order, targets) && t in targets
    ensures AddWeightedEdge(h, order[k], t, w).Ok?
  {
    var s := order[k];
    NotBefore(order, k, k);
    assert Matching(g, h, dist, order, targets, maxD2, k);
    forall e | e in NewEdges(g, h) ensures e.source != s && e.source !in targets {
      assert MatchEdge(h, dist, order[..k], targets, maxD2, e);
    }
    assert Edge(s, t) !in NewEdges(g, h) && Edge(t, s) !in NewEdges(g, h);
  }

  /**
   * One frame pair. The sources are taken in `order`; each is linked to a
   * nearest target no earlier source has been linked to, when that target is
   * within range, and the target is then claimed. Targets that every
   * earlier source claimed are skipped by the search.
   */
  method LinkFramePair(g: Graph, dist: (ObjId, ObjId) -> real, order: seq<ObjId>, targets: set<ObjId>, maxD2: real)
    returns (r: Result<Graph, GraphError>)
    requires Distinct(order) && Simple(g)
    ensures r.Ok? ==> Simple(r.value) && Extends(g, r.value)
    ensures r.Ok? ==> forall e :: e in NewEdges(g, r.value) ==>
              e.source in order && e.target in targets && r.value.weights[e] == dist(e.source, e.target) && r.value.weights[e] <= maxD2
    ensures r.Ok? ==> forall e1, e2 :: e1 in NewEdges(g, r.value) && e2 in NewEdges(g, r.value) && e1.source == e2.source ==> e1 == e2
    ensures r.Ok? ==> forall e1, e2 :: e1 in NewEdges(g, r.value) && e2 in NewEdges(g, r.value) && e1.target == e2.target ==> e1 == e2
    ensures r.Ok? ==> forall k :: 0 <= k < |order| ==> GreedyStep(g, r.value, dist, order, targets, maxD2, k)
    ensures r.Ok? ==> forall s :: s in order ==>
              (exists e :: e in NewEdges(g, r.value) && e.source == s) ||
              (forall t :: t in targets && dist(s, t) <= maxD2 ==> exists e :: e in NewEdges(g, r.value) && e.target == t)
    ensures FreshPair(g, order, targets) ==> r.Ok?
  {
    var h := g;
    var free := targets;
    var k := 0;
    assert NewEdges(g, h) == {};
    while k < |order|
      invariant GreedyProgress(g, h, dist, order, targets, maxD2, k)
      invariant free == targets - Claimed(g, h, order[..k])
    {
      var s := order[k];
      if free == {} {
        GreedySkip(g, h, dist, order, targets, maxD2, k);
      } else {
        var t, d := Nearest(dist, s, free);
        if d <= maxD2 {
          if FreshPair(g, order, targets) {
            FreshAdd(g, h, dist, order, targets, maxD2, k, t, d);
          }
          match AddWeightedEdge(h, s, t, d)
          case Err(e) => return Err(e);
          case Ok(h') =>
            GreedyAdd(g, h, h', dist, order, targets, maxD2, k, t);
            h := h';
            free := free - {t};
        } else {
          GreedySkip(g, h, dist, order, targets, maxD2, k);
        }
      }
      k := k + 1;
    }
    assert order[..k] == order;
    GreedyMaximal(g, h, dist, order, targets, maxD2);
    return Ok(h);
  }
}

=== FILE: graph.dfy ===
/**
 * The simple undirected weighted graph the trackers build (a jgrapht
 * `SimpleWeightedGraph`): a vertex set and a weighted edge set, with no
 * loops and at most one edge between two vertices. An edge is stored in the
 * orientation it was added in; adjacency ignores that orientation.
 */
module Graph {
  import opened Wrappers

  type ObjId = int

  datatype Edge = Edge(source: ObjId, target: ObjId)

  datatype Graph = Graph(vertices: set<ObjId>, weights: map<Edge, real>)

  /** The weight jgrapht gives a new edge until it is set. */
  const DEFAULT_EDGE_WEIGHT: real := 1.0

  /** Why `addEdge` throws: an endpoint that is not a vertex, or a loop. */
  datatype GraphError = MissingVertex(v: ObjId) | LoopNotAllowed(v: ObjId) | NoEdgeToWeigh(u: ObjId, v: ObjId)

  /** `u` and `v` are joined by an edge, in either orientation. */
  predicate Adjacent(g: Graph, u: ObjId, v: ObjId) {
    Edge(u, v) in g.weights || Edge(v, u) in g.weights
  }

  /** The invariant of a simple graph: edges join two distinct vertices, and no pair is joined twice. */
  predicate Simple(g: Graph) {
    forall e :: e in g.weights ==>
      e.source in g.vertices && e.target in g.vertices && e.source != e.target &&
      Edge(e.target, e.source) !in g.weights
  }

  function EmptyGraph(): (g: Graph)
    ensures Simple(g) && g.vertices == {} && g.weights == map[]
  {
    Graph({}, map[])
  }

  /** `addVertex`: adding a vertex that is already present changes nothing. */
  function AddVertex(g: Graph, v: ObjId): (r: Graph)
    ensures r.vertices == g.vertices + {v} && r.weights == g.weights
    ensures Simple(g) ==> Simple(r)
    ensures v in g.vertices ==> r == g
  {
    Graph(g.vertices + {v}, g.weights)
  }

  /**
   * `addEdge(u, v)`: both endpoints must be vertices, then an existing edge
   * between them makes the call a no-op, then a loop is refused; otherwise a
   * new edge of default weight joins them.
   */
  function AddEdge(g: Graph, u: ObjId, v: ObjId): (r: Result<Graph, GraphError>)
    ensures u !in g.vertices ==> r == Err(MissingVertex(u))
    ensures u in g.vertices && v !in g.vertices ==> r == Err(MissingVertex(v))
    ensures u in g.vertices && v in g.vertices && Adjacent(g, u, v) ==> r == Ok(g)
    ensures u in g.vertices && v in g.vertices && !Adjacent(g, u, v) && u == v ==> r == Err(LoopNotAllowed(u))
    ensures r.Ok? ==> r.value.vertices == g.vertices
    ensures r.Ok? ==> forall x, y :: Adjacent(r.value, x, y) <==>
                        (Adjacent(g, x, y) || (x == u && y == v) || (x == v && y == u))
    ensures r.Ok? && !Adjacent(g, u, v) ==> r.value.weights == g.weights[Edge(u, v) := DEFAULT_EDGE_WEIGHT]
    ensures r.Ok? && Simple(g) ==> Simple(r.value)
  {
    if u !in g.vertices then Err(MissingVertex(u))
    else if v !in g.vertices then Err(MissingVertex(v))
    else if Adjacent(g, u, v) then Ok(g)
    else if u == v then Err(LoopNotAllowed(u))
    else Ok(Graph(g.vertices, g.weights[Edge(u, v) := DEFAULT_EDGE_WEIGHT]))
  }

  /**
   * `setEdgeWeight(addEdge(u, v), w)`, as the trackers write it: when the
   * edge already existed `addEdge` returns null and setting its weight throws.
   */
  function AddWeightedEdge(g: Graph, u: ObjId, v: ObjId, w: real): (r: Result<Graph, GraphError>)
    ensures r.Ok? <==> u in g.vertices && v in g.vertices && u != v && !Adjacent(g, u, v)
    ensures r.Ok? ==> r.value == Graph(g.vertices, g.weights[Edge(u, v) := w])
    ensures r.Ok? && Simple(g) ==> Simple(r.value)
  {
    match AddEdge(g, u, v)
    case Err(e) => Err(e)
    case Ok(h) =>
      if h == g then Err(NoEdgeToWeigh(u, v))
      else Ok(Graph(h.vertices, h.weights[Edge(u, v) := w]))
  }

  /** The edges of `h` that `g` does not have. */
  function NewEdges(g: Graph, h: Graph): set<Edge> {
    h.weights.Keys - g.weights.Keys
  }

  /** `h` extends `g`: same vertices, every old edge kept with its weight. */
  predicate Extends(g: Graph, h: Graph) {
    h.vertices == g.vertices &&
    (forall e :: e in g.weights ==> e in h.weights && h.weights[e] == g.weights[e])
  }

  /** Adding an edge twice is the same as adding it once, in either orientation. */
  lemma AddEdgeIdempotent(g: Graph, u: ObjId, v: ObjId)
    requires AddEdge(g, u, v).Ok?
    ensures AddEdge(AddEdge(g, u, v).value, u, v) == AddEdge(g, u, v)
    ensures AddEdge(AddEdge(g, u, v).value, v, u) == AddEdge(g, u, v)
  {
  }
}

=== FILE: javalang.dfy ===
/**
 * The pieces of Java's built-in semantics the model depends on: 32-bit `int`
 * arithmetic, `String.compareTo` on UTF-16 code units, `Integer.toString` and
 * `Double.intValue`.
 */
module JavaLang {

  const INT_MIN: int := -0x8000_0000
  const INT_MAX: int := 0x7fff_ffff
  const TWO_32: int := 0x1_0000_0000

  /** The values a Java `int` can hold. */
  predicate IsInt(x: int) {
    INT_MIN <= x <= INT_MAX
  }

  /** Two's-complement wrap of a mathematical integer into the `int` range. */
  function WrapInt(x: int): (r: int)
    ensures IsInt(r)
    ensures (r - x) % TWO_32 == 0
    ensures IsInt(x) ==> r == x
  {
    var m := (x - INT_MIN) % TWO_32;
    assert (x - INT_MIN) == TWO_32 * ((x - INT_MIN) / TWO_32) + m;
    m + INT_MIN
  }

  /** Java `a - b` on two `int`s. */
  function SubInt(a: int, b: int): int {
    WrapInt(a - b)
  }

  /** Java `x + 1` on an `int` (what `AtomicInteger.incrementAndGet` returns). */
  function IncInt(x: int): int {
    WrapInt(x + 1)
  }

  /** A wrapped difference is zero exactly when the two `int`s are equal. */
  lemma SubIntZeroIff(a: int, b: int)
    requires IsInt(a) && IsInt(b)
    ensures SubInt(a, b) == 0 <==> a == b
  {
    if SubInt(a, b) == 0 {
      assert (0 - (a - b)) % TWO_32 == 0;
      assert -TWO_32 < a - b < TWO_32;
    }
  }

  /** Two non-negative `int`s never overflow when subtracted. */
  lemma SubIntNonNegative(a: int, b: int)
    requires 0 <= a <= INT_MAX && 0 <= b <= INT_MAX
    ensures SubInt(a, b) == a - b
    ensures SubInt(a, b) == -SubInt(b, a)
  {
  }

  /** The `int` after the largest one wraps to the smallest. */
  lemma IncIntOverflow()
    ensures IncInt(INT_MAX) == INT_MIN
  {
  }

  /**
   * The UTF-16 code units Java stores for one character: the character itself
   * below U+10000, otherwise a high surrogate followed by a low surrogate.
   */
  function Utf16Units(c: char): (u: seq<int>)
    ensures |u| == 1 <==> c as int < 0x1_0000
    ensures |u| == 1 ==> u[0] == c as int && !(0xD800 <= u[0] < 0xE000)
    ensures |u| != 1 ==> |u| == 2 && 0xD800 <= u[0] < 0xDC00 && 0xDC00 <= u[1] < 0xE000
    ensures |u| == 2 ==> c as int == 0x1_0000 + (u[0] - 0xD800) * 0x400 + (u[1] - 0xDC00)
  {
    var v := c as int;
    if v < 0x1_0000 then [v]
    else [0xD800 + (v - 0x1_0000) / 0x400, 0xDC00 + (v - 0x1_0000) % 0x400]
  }

  /** The UTF-16 form of a string, the sequence of `char`s a Java `String` holds. */
  function Utf16(s: string): (u: seq<int>)
    ensures |u| >= |s|
  {
    if s == [] then [] else Utf16Units(s[0]) + Utf16(s[1..])
  }

  /** Distinct strings have distinct UTF-16 forms. */
  lemma {:induction false} Utf16Injective(a: string, b: string)
    requires Utf16(a) == Utf16(b)
    ensures a == b
    decreases |a|
  {
    if a != [] && b != [] {
      var ua, ub := Utf16Units(a[0]), Utf16Units(b[0]);
      assert Utf16(a) == ua + Utf16(a[1..]);
      assert Utf16(b) == ub + Utf16(b[1..]);
      assert ua[0] == Utf16(a)[0] == Utf16(b)[0] == ub[0];
      assert |ua| == |ub|;
      if |ua| == 2 {
        assert ua[1] == Utf16(a)[1] == Utf16(b)[1] == ub[1];
      }
      assert ua == Utf16(a)[..|ua|] == Utf16(b)[..|ub|] == ub;
      assert a[0] as int == b[0] as int;
      assert Utf16(a[1..]) == Utf16(a)[|ua|..] == Utf16(b)[|ub|..] == Utf16(b[1..]);
      Utf16Injective(a[1..], b[1..]);
      assert a == [a[0]] + a[1..];
      assert b == [b[0]] + b[1..];
    }
  }

  /**
   * `String.compareTo` on the code units: the difference of the first
   * differing units, or the difference of the lengths when one is a prefix
   * of the other.
   */
  function CompareUnits(a: seq<int>, b: seq<int>): int
    decreases |a|
  {
    if |a| == 0 || |b| == 0 then |a| - |b|
    else if a[0] != b[0] then a[0] - b[0]
    else CompareUnits(a[1..], b[1..])
  }

  /** Java `String.compareTo`. */
  function CompareTo(a: string, b: string): int {
    CompareUnits(Utf16(a), Utf16(b))
  }

  /**
   * The UTF-16 order is not the order of code points: a character above
   * U+FFFF sorts before U+E000 because its high surrogate is smaller.
   */
  lemma CompareToSurrogateOrder()
    ensures CompareTo("\U{10000}", "\U{E000}") < 0
    ensures ('\U{10000}' as int) - ('\U{E000}' as int) > 0
  {
    assert Utf16("\U{10000}") == [0xD800, 0xDC00];
    assert Utf16("\U{E000}") == [0xE000];
  }

  lemma {:induction false} CompareUnitsAntisymmetric(a: seq<int>, b: seq<int>)
    ensures CompareUnits(a, b) == -CompareUnits(b, a)
    decreases |a|
  {
    if |a| != 0 && |b| != 0 && a[0] == b[0] {
      CompareUnitsAntisymmetric(a[1..], b[1..]);
    }
  }

  lemma {:induction false} CompareUnitsZeroIff(a: seq<int>, b: seq<int>)
    ensures CompareUnits(a, b) == 0 <==> a == b
    decreases |a|
  {
    if |a| != 0 && |b| != 0 && a[0] == b[0] {
      CompareUnitsZeroIff(a[1..], b[1..]);
      assert a == [a[0]] + a[1..];
      assert b == [b[0]] + b[1..];
      if a[1..] != b[1..] {
        assert a != b;
      }
    } else if |a| != 0 && |b| != 0 {
      assert a[0] != b[0];
    }
  }

  lemma {:induction false} CompareUnitsTransitive(a: seq<int>, b: seq<int>, c: seq<int>)
    requires CompareUnits(a, b) <= 0 && CompareUnits(b, c) <= 0
    ensures CompareUnits(a, c) <= 0
    decreases |a|
  {
    if |a| != 0 && |b| != 0 && |c| != 0 && a[0] == b[0] && b[0] == c[0] {
      CompareUnitsTransitive(a[1..], b[1..], c[1..]);
    }
  }

  lemma CompareToAntisymmetric(a: string, b: string)
    ensures CompareTo(a, b) == -CompareTo(b, a)
  {
    CompareUnitsAntisymmetric(Utf16(a), Utf16(b));
  }

  lemma CompareToZeroIff(a: string, b: string)
    ensures CompareTo(a, b) == 0 <==> a == b
  {
    CompareUnitsZeroIff(Utf16(a), Utf16(b));
    if Utf16(a) == Utf16(b) {
      Utf16Injective(a, b);
    }
  }

  lemma CompareToTransitive(a: string, b: string, c: string)
    requires CompareTo(a, b) <= 0 && CompareTo(b, c) <= 0
    ensures CompareTo(a, c) <= 0
  {
    CompareUnitsTransitive(Utf16(a), Utf16(b), Utf16(c));
  }

  /** The decimal digit character for `d`. */
  function DigitChar(d: int): char
    requires 0 <= d < 10
  {
    ('0' as int + d) as char
  }

  predicate IsDigit(c: char) {
    '0' <= c <= '9'
  }

  /** Decimal representation of a natural number, without sign. */
  function NatToString(n: nat): (s: string)
    ensures |s| >= 1
    ensures forall i :: 0 <= i < |s| ==> IsDigit(s[i])
    decreases n
  {
    if n < 10 then [DigitChar(n)] else NatToString(n / 10) + [DigitChar(n % 10)]
  }

  /** Java `Integer.toString` / string concatenation of an `int`. */
  function IntToString(n: int): string {
    if n < 0 then "-" + NatToString(-n) else NatToString(n)
  }

  /** Reads back a string of decimal digits. */
  function ParseNat(s: string): nat
    requires forall i :: 0 <= i < |s| ==> IsDigit(s[i])
  {
    if |s| == 0 then 0
    else
      assert IsDigit(s[|s| - 1]);
      ParseNat(s[..|s| - 1]) * 10 + (s[|s| - 1] as int - '0' as int)
  }

  /** Reads back an optionally negative decimal integer. */
  function ParseInt(s: string): int
    requires |s| >= 1
    requires forall i :: 1 <= i < |s| ==> IsDigit(s[i])
    requires s[0] == '-' || IsDigit(s[0])
  {
    if s[0] == '-' then -(ParseNat(s[1..]) as int) else ParseNat(s)
  }

  lemma {:induction false} ParseNatToString(n: nat)
    ensures ParseNat(NatToString(n)) == n
    decreases n
  {
    if n >= 10 {
      var s := NatToString(n);
      ParseNatToString(n / 10);
      assert s[..|s| - 1] == NatToString(n / 10);
    }
  }

  /** Printing an `int` in decimal and parsing it back gives the same `int`. */
  lemma IntToStringRoundTrip(n: int)
    ensures |IntToString(n)| >= 1
    ensures forall i :: 1 <= i < |IntToString(n)| ==> IsDigit(IntToString(n)[i])
    ensures IntToString(n)[0] == '-' || IsDigit(IntToString(n)[0])
    ensures ParseInt(IntToString(n)) == n
  {
    var s := IntToString(n);
    if n < 0 {
      ParseNatToString(-n);
      assert s[1..] == NatToString(-n);
    } else {
      ParseNatToString(n);
    }
  }

  /** Distinct `int`s print differently. */
  lemma IntToStringInjective(a: int, b: int)
    requires IntToString(a) == IntToString(b)
    ensures a == b
  {
    IntToStringRoundTrip(a);
    IntToStringRoundTrip(b);
  }

  /**
   * Java `Double.intValue`: truncation toward zero, saturating at the `int`
   * bounds. Feature values are reals here, so the NaN case (which gives 0)
   * has no counterpart.
   */
  function TruncateToInt(x: real): (r: int)
    ensures IsInt(r)
    ensures 0.0 <= x < INT_MAX as real + 1.0 ==> r as real <= x < r as real + 1.0
    ensures INT_MIN as real - 1.0 < x < 0.0 ==> r as real - 1.0 < x <= r as real
    ensures x >= INT_MAX as real ==> r == INT_MAX
    ensures x <= INT_MIN as real ==> r == INT_MIN
  {
    var t := if x >= 0.0 then x.Floor else -((-x).Floor);
    if t > INT_MAX then INT_MAX else if t < INT_MIN then INT_MIN else t
  }

  /** Truncation keeps the order of its arguments. */
  lemma TruncateToIntMonotone(x: real, y: real)
    requires x <= y
    ensures TruncateToInt(x) <= TruncateToInt(y)
  {
  }

  function Pow2(n: nat): (r: nat)
    ensures r >= 1
  {
    if n == 0 then 1 else 2 * Pow2(n - 1)
  }

  /** Java's `Double.MIN_NORMAL`, the smallest positive normal double: 2^-1022. */
  const MIN_NORMAL: real := 1.0 / Pow2(1022) as real

  lemma MinNormalPositive()
    ensures 0.0 < MIN_NORMAL <= 1.0
  {
  }
}

=== FILE: kalman.dfy ===
/**
 * The Kalman tracker. Every active filter predicts where its track goes in
 * the next frame; the predictions are assigned to that frame's visible
 * objects; objects left unassigned in two consecutive frames are paired up to
 * start new filters; filters that miss too many frames are dropped. The
 * filter arithmetic (predicted positions, occlusion counts) and the two
 * linear-assignment solvers are parameters of the model.
 */
module Kalman {
  import opened Wrappers
  import opened JavaLang
  import opened Sets
  import opened Trackable
  import opened Collection
  import opened Graph
  import opened ObjectUtils
  import opened CostFunction
  import Features

  const BASE_ERROR_MSG: string := "[KalmanTracker] "

  /** A filter is identified by the frame it was started in and the object it was started from. */
  datatype FilterId = FilterId(born: int, source: ObjId)

  /**
   * The state between two frames: the last object of each active filter,
   * the initial state each filter was started with, the graph built so far,
   * and the objects left unlinked in the current and in the previous frame.
   */
  datatype Tracker = Tracker(tips: map<FilterId, ObjId>, initial: map<FilterId, seq<real>>, graph: Graph,
                             orphans: set<ObjId>, previousOrphans: set<ObjId>)

  datatype KalmanError = NoFrames | LinkingFailed(message: string) | GraphFailure(error: GraphError)

  // ---------------------------------------------------------------- costs and initial states

  /** The cost of assigning a predicted position to an object: their squared distance plus the smallest normal double. */
  function PredictionCost(pred: Point3, spot: Point3): (r: real)
    ensures r > 0.0
    ensures r == SqDist(spot, pred) + MIN_NORMAL
    ensures r == MIN_NORMAL <==> pred == spot
  {
    MinNormalPositive();
    var dx := pred.x - spot.x;
    var dy := pred.y - spot.y;
    var dz := pred.z - spot.z;
    Sq(dx) + Sq(dy) + Sq(dz) + MIN_NORMAL
  }

  /** An object as the squared-distance cost function sees it; only its three coordinates enter the cost. */
  function LocatedOf(store: Store, o: ObjId): Located {
    var p := PosOf(store, o);
    Located(0, [p.x, p.y, p.z])
  }

  /** The cost of starting a filter from `s` to `t`: the squared distance, never zero. */
  function NucleationCost(store: Store, s: ObjId, t: ObjId): (r: real)
    ensures r > 0.0
    ensures PosOf(store, s) == PosOf(store, t) ==> r == MIN_NORMAL
  {
    LinkingCostIsSymmetricDistance(LocatedOf(store, s), LocatedOf(store, t));
    LinkingCost(LocatedOf(store, s), LocatedOf(store, t)).value
  }

  lemma NucleationCostSymmetric(store: Store, s: ObjId, t: ObjId)
    ensures NucleationCost(store, s, t) == NucleationCost(store, t, s)
  {
    LinkingCostIsSymmetricDistance(LocatedOf(store, s), LocatedOf(store, t));
  }

  /**
   * The state a new filter starts from: the position of the second object,
   * and as velocity the displacement from the first object to the second.
   */
  function EstimateInitialState(store: Store, first: ObjId, second: ObjId): (xp: seq<real>)
    ensures |xp| == 6
    ensures Point3(xp[0], xp[1], xp[2]) == PosOf(store, second)
    ensures Point3(xp[0] - xp[3], xp[1] - xp[4], xp[2] - xp[5]) == PosOf(store, first)
  {
    var p := PosOf(store, second);
    var q := PosOf(store, first);
    [p.x, p.y, p.z, p.x - q.x, p.y - q.y, p.z - q.z]
  }

  // ---------------------------------------------------------------- error messages

  function PredictionLinkingError(frame: int, detail: string): (m: string)
    ensures |m| >= |BASE_ERROR_MSG| + |detail| && m[..|BASE_ERROR_MSG|] == BASE_ERROR_MSG
    ensures m[|m| - |detail|..] == detail
  {
    var m := BASE_ERROR_MSG + "Error linking candidates in frame " + IntToString(frame) + ": " + detail;
    assert m[..|BASE_ERROR_MSG|] == BASE_ERROR_MSG;
    assert m[|m| - |detail|..] == detail;
    m
  }

  function NucleationLinkingError(frame: int, detail: string): (m: string)
    ensures |m| >= |BASE_ERROR_MSG| + |detail| && m[..|BASE_ERROR_MSG|] == BASE_ERROR_MSG
    ensures m[|m| - |detail|..] == detail
  {
    var m := BASE_ERROR_MSG + "Error linking spots from frame " + IntToString(frame - 1) + " to frame " + IntToString(frame) +
             ": " + detail;
    assert m[..|BASE_ERROR_MSG|] == BASE_ERROR_MSG;
    assert m[|m| - |detail|..] == detail;
    m
  }

  // ---------------------------------------------------------------- the parameters

  /**
   * What the model takes as given: where each filter predicts its object in
   * a frame, the two assignment solvers (frame, rows, columns to an
   * assignment or an error message), and each filter's occlusion count after
   * it missed a frame.
   */
  datatype Oracles = Oracles(
    predict: (FilterId, int) -> Point3,
    predictionLinker: (int, set<FilterId>, set<ObjId>) -> Result<map<FilterId, ObjId>, string>,
    nucleationLinker: (int, set<ObjId>, set<ObjId>) -> Result<map<ObjId, ObjId>, string>,
    occlusions: (FilterId, int) -> int)

  /** `a` assigns some rows to distinct columns. */
  predicate Assignment<R, C>(a: map<R, C>, rows: set<R>, cols: set<C>) {
    a.Keys <= rows && (forall r :: r in a ==> a[r] in cols) &&
    (forall r1, r2 :: r1 in a && r2 in a && r1 != r2 ==> a[r1] != a[r2])
  }

  /** The prediction solver returns assignments whose every cost is within the search radius. */
  ghost predicate SoundPredictionLinker(o: Oracles, store: Store, maxCost: real) {
    forall f, rows, cols :: o.predictionLinker(f, rows, cols).Ok? ==>
      var a := o.predictionLinker(f, rows, cols).value;
      Assignment(a, rows, cols) &&
      forall k :: k in a ==> PredictionCost(o.predict(k, f), PosOf(store, a[k])) <= maxCost
  }

  /** The nucleation solver returns assignments whose every cost is within the initial search radius. */
  ghost predicate SoundNucleationLinker(o: Oracles, store: Store, maxInitialCost: real) {
    forall f, rows, cols :: o.nucleationLinker(f, rows, cols).Ok? ==>
      var a := o.nucleationLinker(f, rows, cols).value;
      Assignment(a, rows, cols) &&
      forall s :: s in a ==> NucleationCost(store, s, a[s]) <= maxInitialCost
  }

  // ---------------------------------------------------------------- adding links to the graph

  /** An edge to add, with the cost the solver reported for it. */
  datatype Link = Link(source: ObjId, target: ObjId, cost: real)

  function LinkEdges(links: set<Link>): (r: set<Edge>)
    ensures forall l :: l in links ==> Edge(l.source, l.target) in r
    ensures forall e :: e in r ==> exists l :: l in links && e == Edge(l.source, l.target)
  {
    set l | l in links :: Edge(l.source, l.target)
  }

  function Ends(links: set<Link>): set<ObjId> {
    (set l | l in links :: l.source) + (set l | l in links :: l.target)
  }

  /** Two links join the same two objects. */
  predicate SamePair(l1: Link, l2: Link) {
    (l1.source == l2.source && l1.target == l2.target) || (l1.source == l2.target && l1.target == l2.source)
  }

  /** Every link can be added: none is a loop, none joins objects already joined, no two join the same objects. */
  predicate Addable(g: Graph, links: set<Link>) {
    (forall l :: l in links ==> l.source != l.target && !Adjacent(g, l.source, l.target)) &&
    (forall l1, l2 :: l1 in links && l2 in links && l1 != l2 ==> !SamePair(l1, l2))
  }

  /** `h` is `g` with the links' objects and weighted edges added. */
  ghost predicate Linked(g: Graph, h: Graph, links: set<Link>) {
    h.vertices == g.vertices + Ends(links) &&
    (forall e :: e in g.weights ==> e in h.weights && h.weights[e] == g.weights[e]) &&
    (forall l :: l in links ==> Edge(l.source, l.target) in h.weights && h.weights[Edge(l.source, l.target)] == l.cost) &&
    (forall e :: e in h.weights ==> e in g.weights || e in LinkEdges(links))
  }

  /**
   * For each link: add both objects, add the edge, set its weight. The
   * first link that cannot be added makes the whole call fail.
   */
  method AddLinks(g: Graph, links: set<Link>) returns (r: Result<Graph, GraphError>)
    requires Simple(g)
    ensures r.Ok? <==> Addable(g, links)
    ensures r.Ok? ==> Simple(r.value) && Linked(g, r.value, links)
  {
    var h := g;
    var rest := links;
    while rest != {}
      invariant rest <= links
      invariant Simple(h) && Linked(g, h, links - rest) && Addable(g, links - rest)
      decreases rest
    {
      ghost var some := Pick(rest);
      var l :| l in rest;
      var h1 := AddVertex(AddVertex(h, l.source), l.target);
      var step := AddWeightedEdge(h1, l.source, l.target, l.cost);
      if step.Err? {
        AddLinkFails(g, h, h1, links, links - rest, l);
        return Err(step.error);
      }
      AddLinkSucceeds(g, h, h1, step.value, links - rest, l);
      MoveToDone(links, rest, l);
      h := step.value;
      rest := rest - {l};
    }
    assert links - rest == links;
    return Ok(h);
  }

  lemma AddLinkSucceeds(g: Graph, h: Graph, h1: Graph, h2: Graph, done: set<Link>, l: Link)
    requires Simple(h) && Linked(g, h, done) && Addable(g, done) && l !in done
    requires h1 == AddVertex(AddVertex(h, l.source), l.target)
    requires AddWeightedEdge(h1, l.source, l.target, l.cost) == Ok(h2)
    ensures Simple(h2) && Linked(g, h2, done + {l}) && Addable(g, done + {l})
  {
    assert h2 == Graph(h.vertices + {l.source, l.target}, h.weights[Edge(l.source, l.target) := l.cost]);
    assert !Adjacent(h, l.source, l.target) && l.source != l.target;
    LinkedGrows(g, h, done, l);
    AddableGrows(g, h, done, l);
  }

  lemma LinkedGrows(g: Graph, h: Graph, done: set<Link>, l: Link)
    requires Linked(g, h, done) && !Adjacent(h, l.source, l.target)
    ensures Linked(g, Graph(h.vertices + {l.source, l.target}, h.weights[Edge(l.source, l.target) := l.cost]), done + {l})
  {
    var h2 := Graph(h.vertices + {l.source, l.target}, h.weights[Edge(l.source, l.target) := l.cost]);
    var all := done + {l};
    assert Ends(all) == Ends(done) + {l.source, l.target};
    forall e | e in h2.weights ensures e in g.weights || e in LinkEdges(all) {
      if e != Edge(l.source, l.target) {
        assert e in h.weights;
      }
    }
  }

  lemma AddableGrows(g: Graph, h: Graph, done: set<Link>, l: Link)
    requires Linked(g, h, done) && Addable(g, done)
    requires !Adjacent(h, l.source, l.target) && l.source != l.target
    ensures Addable(g, done + {l})
  {
    forall l' | l' in done ensures !SamePair(l', l) {
      assert Edge(l'.source, l'.target) in h.weights;
    }
  }

  lemma AddLinkFails(g: Graph, h: Graph, h1: Graph, links: set<Link>, done: set<Link>, l: Link)
    requires Linked(g, h, done) && done <= links && l in links && l !in done
    requires h1 == AddVertex(AddVertex(h, l.source), l.target)
    requires AddWeightedEdge(h1, l.source, l.target, l.cost).Err?
    ensures !Addable(g, links)
  {
    if l.source != l.target && !Adjacent(g, l.source, l.target) {
      var e := if Edge(l.source, l.target) in h.weights then Edge(l.source, l.target) else Edge(l.target, l.source);
      assert e in h.weights;
      assert e in LinkEdges(done);
      var l' :| l' in done && e == Edge(l'.source, l'.target);
      assert l' != l && SamePair(l', l);
    }
  }

  /** Two rounds of linking add exactly the edges of both rounds and keep every earlier edge. */
  lemma TwoLinkings(g: Graph, h1: Graph, h2: Graph, l1: set<Link>, l2: set<Link>)
    requires Linked(g, h1, l1) && Addable(g, l1) && Linked(h1, h2, l2) && Addable(h1, l2)
    ensures forall e :: e in g.weights ==> e in h2.weights && h2.weights[e] == g.weights[e]
    ensures NewEdges(g, h2) == LinkEdges(l1) + LinkEdges(l2)
    ensures forall l :: l in l1 ==> Edge(l.source, l.target) in h2.weights && h2.weights[Edge(l.source, l.target)] == l.cost
    ensures h2.vertices == g.vertices + Ends(l1) + Ends(l2)
  {
    forall e | e in LinkEdges(l1) ensures e !in g.weights {
      var l :| l in l1 && e == Edge(l.source, l.target);
      assert !Adjacent(g, l.source, l.target);
    }
    forall e | e in LinkEdges(l2) ensures e !in g.weights {
      var l :| l in l2 && e == Edge(l.source, l.target);
      assert !Adjacent(h1, l.source, l.target);
    }
  }

  // ---------------------------------------------------------------- one frame

  /** The prediction linker runs only when there are both filters and measurements. */
  predicate PredictionRan(st: Tracker, measurements: set<ObjId>) {
    st.tips != map[] && measurements != {}
  }

  /** The assignment of predictions to measurements; none is attempted without filters or without measurements. */
  function PredictionAssignment(st: Tracker, o: Oracles, frame: int, measurements: set<ObjId>): Result<map<FilterId, ObjId>, string> {
    if PredictionRan(st, measurements) then o.predictionLinker(frame, st.tips.Keys, measurements) else Ok(map[])
  }

  /** The assignment of the previous frame's orphans to this frame's; none is attempted when either is empty. */
  function NucleationAssignment(st: Tracker, o: Oracles, frame: int): Result<map<ObjId, ObjId>, string> {
    if st.previousOrphans != {} && st.orphans != {} then o.nucleationLinker(frame, st.previousOrphans, st.orphans) else Ok(map[])
  }

  /** The nucleation solver pairs some orphan with itself, which only a shared orphan set allows. */
  predicate SelfPaired(st: Tracker, o: Oracles, frame: int) {
    var res := NucleationAssignment(st, o, frame);
    res.Ok? && exists s :: s in res.value && res.value[s] == s
  }

  /** Each assigned filter moves on to its measurement. */
  function Advance(tips: map<FilterId, ObjId>, a: map<FilterId, ObjId>): map<FilterId, ObjId> {
    map k | k in tips :: if k in a then a[k] else tips[k]
  }

  /** The links of the prediction step: from each assigned filter's last object to its measurement. */
  function MatchLinks(st: Tracker, store: Store, o: Oracles, frame: int, a: map<FilterId, ObjId>): set<Link>
    requires a.Keys <= st.tips.Keys
  {
    set k | k in a :: Link(st.tips[k], a[k], PredictionCost(o.predict(k, frame), PosOf(store, a[k])))
  }

  /** The links of the nucleation step: from each assigned orphan of the previous frame to its orphan of this frame. */
  function NucleationLinks(store: Store, n: map<ObjId, ObjId>): set<Link> {
    set s | s in n :: Link(s, n[s], NucleationCost(store, s, n[s]))
  }

  /** The objects of this frame the nucleation assignment uses. */
  function Targets(n: map<ObjId, ObjId>): (r: set<ObjId>)
    ensures forall x :: x in r <==> exists s :: s in n && n[s] == x
  {
    set s | s in n :: n[s]
  }

  /** The filters started in `frame`, at their second object. */
  function NewFilters(frame: int, n: map<ObjId, ObjId>): map<FilterId, ObjId> {
    map s | s in n :: FilterId(frame, s) := n[s]
  }

  function NewStates(store: Store, frame: int, n: map<ObjId, ObjId>): map<FilterId, seq<real>> {
    map s | s in n :: FilterId(frame, s) := EstimateInitialState(store, s, n[s])
  }

  /**
   * The orphans after the prediction step, as written: refreshed from the
   * measurements only when predictions were assigned, and otherwise the
   * previous frame's orphans, still shared with the previous-orphan set.
   */
  function OrphansAfterMatchingAsWritten(orphans: set<ObjId>, measurements: set<ObjId>, matched: Option<set<ObjId>>): (r: set<ObjId>)
    ensures matched.Some? ==> r <= measurements
  {
    match matched
    case Some(targets) => measurements - targets
    case None => orphans
  }

  /**
   * The objects that can be left as orphans by the prediction step. Corrected,
   * this frame's measurements. As written, also this frame's measurements when
   * the prediction linker ran, and otherwise the orphans carried over, which
   * since the previous frame are the same set as the previous orphans.
   */
  function OrphanPool(st: Tracker, measurements: set<ObjId>, corrected: bool): set<ObjId> {
    if corrected || PredictionRan(st, measurements) then measurements else st.orphans
  }

  /** The orphans after the prediction step, corrected: the measurements nothing was assigned to. */
  function OrphansAfterMatching(measurements: set<ObjId>, matched: set<ObjId>): (r: set<ObjId>)
    ensures r <= measurements && r !! matched
    ensures r + matched >= measurements
  {
    measurements - matched
  }

  /**
   * With no filter to predict, the orphans as written are the previous
   * frame's: the current frame's objects are never offered for nucleation,
   * and a previous-frame orphan may be assigned to itself, a loop the graph
   * refuses.
   */
  lemma StaleOrphansAsWritten()
    ensures OrphansAfterMatchingAsWritten({1}, {2}, None) == {1}
    ensures !(OrphansAfterMatchingAsWritten({1}, {2}, None) <= {2})
    ensures OrphansAfterMatching({2}, {}) == {2}
    ensures !Addable(EmptyGraph(), NucleationLinks(map[], map[1 := 1]))
  {
    assert Link(1, 1, NucleationCost(map[], 1, 1)) in NucleationLinks(map[], map[1 := 1]);
  }

  /**
   * The solvers of the example below: the prediction solver assigns
   * nothing, and the nucleation solver pairs object 2 with itself in
   * frame 2 when it may, and nothing otherwise.
   */
  function PairTwoInFrameTwo(): Oracles {
    Oracles((k, f) => Point3(0.0, 0.0, 0.0), (f, rows, cols) => Ok(map[]),
            (f, rows, cols) => if f == 2 && 2 in rows && 2 in cols then Ok(map[2 := 2]) else Ok(map[]),
            (k, f) => 0)
  }

  /** Those solvers are sound for any cap of at least 1. */
  lemma PairTwoInFrameTwoSound(store: Store, cap: real)
    requires 1.0 <= cap
    ensures SoundPredictionLinker(PairTwoInFrameTwo(), store, cap)
    ensures SoundNucleationLinker(PairTwoInFrameTwo(), store, cap)
  {
    MinNormalPositive();
    assert PosOf(store, 2) == PosOf(store, 2);
  }

  /**
   * As written, a frame can fail on a self-pair even when no object is filed
   * in two frames. Objects 1 and 2, far apart, are filed in frames 0 and 1,
   * and frame 2 is empty. In frame 1 no filter predicts and the nucleation
   * solver pairs nothing, so nucleation leaves both orphan sets `{2}`. In
   * frame 2 no filter predicts either, the orphans are still `{2}`, and the
   * solver pairs 2 with itself, which `Step` turns into a graph error.
   */
  lemma StaleSelfPairWithoutSharing()
    ensures var c: Content := map[0 := {1}, 1 := {2}, 2 := {}];
            var store: Store := map[1 := map[Features.VISIBILITY := 1.0], 2 := map[Features.VISIBILITY := 1.0]];
            var o := PairTwoInFrameTwo();
            var start := Tracker(map[], map[], EmptyGraph(), VisibleIn(c, store, 1), VisibleIn(c, store, 0));
            var after := Tracker(map[], map[], EmptyGraph(), {2}, {2});
            Exclusive(c) && HasVisibility(c, store) &&
            SoundPredictionLinker(o, store, 1.0) && SoundNucleationLinker(o, store, 1.0) &&
            !PredictionRan(start, VisibleIn(c, store, 1)) && OrphanPool(start, VisibleIn(c, store, 1), false) == {2} &&
            NucleationAssignment(start, o, 1) == Ok(map[]) && after.orphans == {2} - Targets(map[]) &&
            !PredictionRan(after, VisibleIn(c, store, 2)) && SelfPaired(after, o, 2)
  {
    var c: Content := map[0 := {1}, 1 := {2}, 2 := {}];
    var store: Store := map[1 := map[Features.VISIBILITY := 1.0], 2 := map[Features.VISIBILITY := 1.0]];
    PairTwoInFrameTwoSound(store, 1.0);
    assert VisibleIn(c, store, 0) == {1} by { assert IsVisible(store, 1); }
    assert VisibleIn(c, store, 1) == {2} by { assert IsVisible(store, 2); }
  }

  // ---------------------------------------------------------------- what each phase promises

  /** Some edge added between `g` and `h` ends at `x`. */
  ghost predicate Reached(g: Graph, h: Graph, x: ObjId) {
    exists e :: e in NewEdges(g, h) && e.target == x
  }

  /** Every edge of `g` is still in `h`, with its weight. */
  predicate KeepsEdges(g: Graph, h: Graph) {
    forall e :: e in g.weights ==> e in h.weights && h.weights[e] == g.weights[e]
  }

  /** Every object of `h` is one of `g` or an end of an edge `h` added. */
  ghost predicate GrowsByEdges(g: Graph, h: Graph) {
    forall v :: v in h.vertices ==> v in g.vertices || exists e :: e in NewEdges(g, h) && (v == e.source || v == e.target)
  }

  /** Filter `k` moved on from its last object to a new one, on a new edge weighted by the prediction cost. */
  predicate MatchedBy(st: Tracker, st': Tracker, store: Store, o: Oracles, frame: int, maxCost: real, k: FilterId) {
    k in st.tips && k in st'.tips && Edge(st.tips[k], st'.tips[k]) in NewEdges(st.graph, st'.graph) &&
    st'.graph.weights[Edge(st.tips[k], st'.tips[k])] == PredictionCost(o.predict(k, frame), PosOf(store, st'.tips[k])) <= maxCost
  }

  /** `e` is the edge some filter moved on along. */
  ghost predicate MatchEdge(st: Tracker, st': Tracker, store: Store, o: Oracles, frame: int, maxCost: real, e: Edge) {
    exists k :: MatchedBy(st, st', store, o, frame, maxCost, k) && e == Edge(st.tips[k], st'.tips[k])
  }

  /** `e` links an orphan of the previous frame to an orphan of this frame, and a filter was started on it. */
  predicate NucleationEdge(st: Tracker, st': Tracker, store: Store, frame: int, maxInitialCost: real, e: Edge) {
    e in st'.graph.weights && e.source in st.previousOrphans &&
    FilterId(frame, e.source) in st'.tips && st'.tips[FilterId(frame, e.source)] == e.target &&
    st'.graph.weights[e] == NucleationCost(store, e.source, e.target) <= maxInitialCost
  }

  /** Filter `k` was started in `frame` from an orphan of the previous frame, on a new edge, with the estimated initial state. */
  predicate Started(st: Tracker, st': Tracker, store: Store, frame: int, k: FilterId) {
    k.born == frame && k.source in st.previousOrphans && k in st'.tips && k in st'.initial &&
    Edge(k.source, st'.tips[k]) in NewEdges(st.graph, st'.graph) &&
    st'.initial[k] == EstimateInitialState(store, k.source, st'.tips[k])
  }

  /**
   * The prediction step's outcome: the filters not in `childless` each moved
   * on to a measurement along a new edge, the others stayed; those edges are
   * all that was added; the orphans are the objects of `pool` no edge reached.
   */
  ghost predicate MatchOutcome(st: Tracker, st1: Tracker, childless: set<FilterId>, store: Store, o: Oracles, frame: int,
                               maxCost: real, measurements: set<ObjId>, pool: set<ObjId>) {
    Simple(st1.graph) && KeepsEdges(st.graph, st1.graph) && GrowsByEdges(st.graph, st1.graph) &&
    st1.initial == st.initial && st1.previousOrphans == st.previousOrphans &&
    st1.tips.Keys == st.tips.Keys && childless <= st.tips.Keys &&
    (forall k :: k in childless ==> st1.tips[k] == st.tips[k]) &&
    (forall k :: k in st.tips && k !in childless ==> MatchedBy(st, st1, store, o, frame, maxCost, k) && st1.tips[k] in measurements) &&
    (forall e :: e in NewEdges(st.graph, st1.graph) ==> exists k :: k in st.tips && k !in childless && e == Edge(st.tips[k], st1.tips[k])) &&
    (forall x :: x in st1.orphans <==> x in pool && !Reached(st.graph, st1.graph, x))
  }

  /**
   * The nucleation step's outcome: existing filters are untouched, every new
   * filter was started on a new edge between orphans, those edges are all
   * that was added, and the orphans left are those no edge reached.
   */
  ghost predicate NucleationOutcome(st1: Tracker, st2: Tracker, store: Store, frame: int, maxInitialCost: real) {
    Simple(st2.graph) && KeepsEdges(st1.graph, st2.graph) && GrowsByEdges(st1.graph, st2.graph) &&
    st2.previousOrphans == st2.orphans &&
    (forall k :: k in st1.tips ==> k in st2.tips && st2.tips[k] == st1.tips[k]) &&
    (forall k :: k in st2.tips && k !in st1.tips ==> Started(st1, st2, store, frame, k)) &&
    (forall e :: e in NewEdges(st1.graph, st2.graph) ==> e.target in st1.orphans && NucleationEdge(st1, st2, store, frame, maxInitialCost, e)) &&
    (forall x :: x in st2.orphans <==> x in st1.orphans && !Reached(st1.graph, st2.graph, x))
  }

  /** The edges of a linking round are new, and are all that is new. */
  lemma LinkedNewEdges(g: Graph, h: Graph, links: set<Link>)
    requires Linked(g, h, links) && Addable(g, links)
    ensures NewEdges(g, h) == LinkEdges(links)
    ensures KeepsEdges(g, h)
    ensures GrowsByEdges(g, h)
  {
    forall e | e in LinkEdges(links) ensures e !in g.weights {
      var l :| l in links && e == Edge(l.source, l.target);
      assert !Adjacent(g, l.source, l.target);
    }
    forall v | v in h.vertices && v !in g.vertices
      ensures exists e :: e in NewEdges(g, h) && (v == e.source || v == e.target)
    {
      var l :| l in links && (v == l.source || v == l.target);
      assert Edge(l.source, l.target) in LinkEdges(links);
    }
  }

  // ---------------------------------------------------------------- the prediction step

  lemma MatchOutcomeHolds(st: Tracker, st1: Tracker, childless: set<FilterId>, a: map<FilterId, ObjId>, store: Store, o: Oracles,
                          frame: int, maxCost: real, measurements: set<ObjId>, pool: set<ObjId>)
    requires Assignment(a, st.tips.Keys, measurements)
    requires forall k :: k in a ==> PredictionCost(o.predict(k, frame), PosOf(store, a[k])) <= maxCost
    requires st1 == st.(tips := Advance(st.tips, a), graph := st1.graph, orphans := pool - a.Values)
    requires childless == st.tips.Keys - a.Keys
    requires Simple(st1.graph)
    requires Linked(st.graph, st1.graph, MatchLinks(st, store, o, frame, a)) && Addable(st.graph, MatchLinks(st, store, o, frame, a))
    ensures MatchOutcome(st, st1, childless, store, o, frame, maxCost, measurements, pool)
  {
    var links := MatchLinks(st, store, o, frame, a);
    LinkedNewEdges(st.graph, st1.graph, links);
    forall k | k in a
      ensures MatchedBy(st, st1, store, o, frame, maxCost, k) && st1.tips[k] in measurements
    {
      assert Link(st.tips[k], a[k], PredictionCost(o.predict(k, frame), PosOf(store, a[k]))) in links;
    }
    forall e | e in NewEdges(st.graph, st1.graph)
      ensures exists k :: k in st.tips && k !in childless && e == Edge(st.tips[k], st1.tips[k])
    {
      var l :| l in links && e == Edge(l.source, l.target);
      var k :| k in a && l == Link(st.tips[k], a[k], PredictionCost(o.predict(k, frame), PosOf(store, a[k])));
    }
    MatchReaches(st, st1, a, store, o, frame, pool);
  }

  /**
   * The objects the prediction step reached are exactly the assigned
   * measurements, so removing those from the pool leaves the pool's
   * objects no new edge reached.
   */
  lemma MatchReaches(st: Tracker, st1: Tracker, a: map<FilterId, ObjId>, store: Store, o: Oracles, frame: int, pool: set<ObjId>)
    requires a.Keys <= st.tips.Keys
    requires st1.orphans == pool - a.Values
    requires NewEdges(st.graph, st1.graph) == LinkEdges(MatchLinks(st, store, o, frame, a))
    ensures forall x :: x in st1.orphans <==> x in pool && !Reached(st.graph, st1.graph, x)
  {
    var links := MatchLinks(st, store, o, frame, a);
    forall x | x in pool
      ensures x in a.Values <==> Reached(st.graph, st1.graph, x)
    {
      if x in a.Values {
        var k :| k in a && a[k] == x;
        assert Link(st.tips[k], a[k], PredictionCost(o.predict(k, frame), PosOf(store, a[k]))) in links;
        assert Edge(st.tips[k], x) in NewEdges(st.graph, st1.graph);
      } else {
        forall e | e in NewEdges(st.graph, st1.graph) ensures e.target != x {
          var l :| l in links && e == Edge(l.source, l.target);
          var k :| k in a && l == Link(st.tips[k], a[k], PredictionCost(o.predict(k, frame), PosOf(store, a[k])));
          assert e.target in a.Values;
        }
      }
    }
  }

  /**
   * The prediction step: assign predictions to measurements, link each
   * assigned filter's last object to its measurement, and move the filter
   * on. Returns the new state and the filters left without a measurement.
   * The orphans are refreshed as written, or corrected when `corrected`.
   */
  method MatchPredictions(st: Tracker, store: Store, o: Oracles, frame: int, measurements: set<ObjId>, maxCost: real, corrected: bool)
    returns (r: Result<(Tracker, set<FilterId>), KalmanError>)
    requires Simple(st.graph)
    requires SoundPredictionLinker(o, store, maxCost)
    ensures var res := PredictionAssignment(st, o, frame, measurements);
            res.Err? ==> r == Err(LinkingFailed(PredictionLinkingError(frame, res.error)))
    ensures var res := PredictionAssignment(st, o, frame, measurements);
            res.Ok? ==> res.value.Keys <= st.tips.Keys &&
                        (r.Ok? <==> Addable(st.graph, MatchLinks(st, store, o, frame, res.value)))
    ensures r.Ok? ==> MatchOutcome(st, r.value.0, r.value.1, store, o, frame, maxCost, measurements, OrphanPool(st, measurements, corrected))
    ensures r.Ok? ==> var a := PredictionAssignment(st, o, frame, measurements).value;
            r.value.0.orphans == if corrected then OrphansAfterMatching(measurements, a.Values)
                                 else OrphansAfterMatchingAsWritten(st.orphans, measurements,
                                                                    if PredictionRan(st, measurements) then Some(a.Values) else None)
  {
    var res := PredictionAssignment(st, o, frame, measurements);
    if res.Err? {
      return Err(LinkingFailed(PredictionLinkingError(frame, res.error)));
    }
    var a := res.value;
    var links := MatchLinks(st, store, o, frame, a);
    var added := AddLinks(st.graph, links);
    if added.Err? {
      return Err(GraphFailure(added.error));
    }
    var pool := OrphanPool(st, measurements, corrected);
    var st1 := st.(tips := Advance(st.tips, a), graph := added.value, orphans := pool - a.Values);
    MatchOutcomeHolds(st, st1, st.tips.Keys - a.Keys, a, store, o, frame, maxCost, measurements, pool);
    return Ok((st1, st.tips.Keys - a.Keys));
  }

  // ---------------------------------------------------------------- the nucleation step

  lemma NucleationOutcomeHolds(st1: Tracker, st2: Tracker, n: map<ObjId, ObjId>, store: Store, frame: int, maxInitialCost: real)
    requires BornBefore(st1, frame)
    requires Assignment(n, st1.previousOrphans, st1.orphans)
    requires forall s :: s in n ==> NucleationCost(store, s, n[s]) <= maxInitialCost
    requires st2 == Tracker(st1.tips + NewFilters(frame, n), st1.initial + NewStates(store, frame, n), st2.graph,
                            st1.orphans - Targets(n), st1.orphans - Targets(n))
    requires Simple(st2.graph)
    requires Linked(st1.graph, st2.graph, NucleationLinks(store, n)) && Addable(st1.graph, NucleationLinks(store, n))
    ensures NucleationOutcome(st1, st2, store, frame, maxInitialCost)
  {
    var links := NucleationLinks(store, n);
    LinkedNewEdges(st1.graph, st2.graph, links);
    forall k | k in st1.tips ensures k in st2.tips && st2.tips[k] == st1.tips[k] {
      assert k !in NewFilters(frame, n);
    }
    NucleationStarts(st1, st2, n, store, frame, maxInitialCost);
    forall k | k in st2.tips && k !in st1.tips ensures Started(st1, st2, store, frame, k) {
      var s :| s in n && k == FilterId(frame, s);
    }
    forall e | e in NewEdges(st1.graph, st2.graph)
      ensures e.target in st1.orphans && NucleationEdge(st1, st2, store, frame, maxInitialCost, e)
    {
      var l :| l in links && e == Edge(l.source, l.target);
      var s :| s in n && l == Link(s, n[s], NucleationCost(store, s, n[s]));
    }
    NucleationReaches(st1, st2, n, store);
  }

  /** Each assigned orphan of the previous frame starts a filter at its target, across a new edge within the cost bound. */
  lemma NucleationStarts(st1: Tracker, st2: Tracker, n: map<ObjId, ObjId>, store: Store, frame: int, maxInitialCost: real)
    requires BornBefore(st1, frame)
    requires Assignment(n, st1.previousOrphans, st1.orphans)
    requires forall s :: s in n ==> NucleationCost(store, s, n[s]) <= maxInitialCost
    requires st2 == Tracker(st1.tips + NewFilters(frame, n), st1.initial + NewStates(store, frame, n), st2.graph,
                            st1.orphans - Targets(n), st1.orphans - Targets(n))
    requires Linked(st1.graph, st2.graph, NucleationLinks(store, n))
    requires NewEdges(st1.graph, st2.graph) == LinkEdges(NucleationLinks(store, n))
    ensures forall s :: s in n ==> Started(st1, st2, store, frame, FilterId(frame, s)) && st2.tips[FilterId(frame, s)] == n[s]
    ensures forall s :: s in n ==> NucleationEdge(st1, st2, store, frame, maxInitialCost, Edge(s, n[s]))
  {
    var links := NucleationLinks(store, n);
    forall s | s in n
      ensures Started(st1, st2, store, frame, FilterId(frame, s)) && st2.tips[FilterId(frame, s)] == n[s]
      ensures NucleationEdge(st1, st2, store, frame, maxInitialCost, Edge(s, n[s]))
    {
      assert FilterId(frame, s) in NewFilters(frame, n);
      assert FilterId(frame, s) in NewStates(store, frame, n);
      assert Link(s, n[s], NucleationCost(store, s, n[s])) in links;
    }
  }

  /** The objects the nucleation step reached are exactly the assigned orphans. */
  lemma NucleationReaches(st1: Tracker, st2: Tracker, n: map<ObjId, ObjId>, store: Store)
    requires st2.orphans == st1.orphans - Targets(n)
    requires NewEdges(st1.graph, st2.graph) == LinkEdges(NucleationLinks(store, n))
    ensures forall x :: x in st2.orphans <==> x in st1.orphans && !Reached(st1.graph, st2.graph, x)
  {
    var links := NucleationLinks(store, n);
    forall x | x in st1.orphans
      ensures x in Targets(n) <==> Reached(st1.graph, st2.graph, x)
    {
      if x in Targets(n) {
        var s :| s in n && n[s] == x;
        assert Link(s, n[s], NucleationCost(store, s, n[s])) in links;
        assert Edge(s, x) in NewEdges(st1.graph, st2.graph);
      } else {
        forall e | e in NewEdges(st1.graph, st2.graph) ensures e.target != x {
          var l :| l in links && e == Edge(l.source, l.target);
          var s :| s in n && l == Link(s, n[s], NucleationCost(store, s, n[s]));
          assert e.target in Targets(n);
        }
      }
    }
  }

  /**
   * The nucleation step: assign the previous frame's orphans to this
   * frame's, link each pair, and start a filter on it. This frame's orphans
   * left over become the previous orphans of the next frame.
   */
  method Nucleate(st: Tracker, store: Store, o: Oracles, frame: int, maxInitialCost: real) returns (r: Result<Tracker, KalmanError>)
    requires Simple(st.graph) && BornBefore(st, frame)
    requires SoundNucleationLinker(o, store, maxInitialCost)
    ensures var res := NucleationAssignment(st, o, frame);
            res.Err? ==> r == Err(LinkingFailed(NucleationLinkingError(frame, res.error)))
    ensures var res := NucleationAssignment(st, o, frame);
            res.Ok? ==> (r.Ok? <==> Addable(st.graph, NucleationLinks(store, res.value))) && (r.Err? ==> r.error.GraphFailure?)
    ensures SelfPaired(st, o, frame) ==> r.Err? && r.error.GraphFailure?
    ensures r.Ok? ==> NucleationOutcome(st, r.value, store, frame, maxInitialCost)
  {
    var res := NucleationAssignment(st, o, frame);
    if res.Err? {
      return Err(LinkingFailed(NucleationLinkingError(frame, res.error)));
    }
    var n := res.value;
    if s :| s in n && n[s] == s {
      assert Link(s, s, NucleationCost(store, s, s)) in NucleationLinks(store, n);
    }
    var added := AddLinks(st.graph, NucleationLinks(store, n));
    if added.Err? {
      return Err(GraphFailure(added.error));
    }
    var left := st.orphans - Targets(n);
    var st2 := Tracker(st.tips + NewFilters(frame, n), st.initial + NewStates(store, frame, n), added.value, left, left);
    NucleationOutcomeHolds(st, st2, n, store, frame, maxInitialCost);
    return Ok(st2);
  }

  // ---------------------------------------------------------------- one frame

  /** Each filter left without a measurement records an occlusion; one that has bridged more than `maxFrameGap` frames is dropped. */
  function Retire(st: Tracker, childless: set<FilterId>, o: Oracles, frame: int, maxFrameGap: int): (r: Tracker)
    ensures r == st.(tips := r.tips)
    ensures forall k :: k in r.tips <==> k in st.tips && (k !in childless || o.occlusions(k, frame) <= maxFrameGap)
    ensures forall k :: k in r.tips ==> r.tips[k] == st.tips[k]
  {
    st.(tips := map k | k in st.tips && (k !in childless || o.occlusions(k, frame) <= maxFrameGap) :: st.tips[k])
  }

  /** No filter of `st` was started in `frame` or later. */
  predicate BornBefore(st: Tracker, frame: int) {
    forall k :: k in st.tips ==> k.born < frame
  }

  /**
   * One frame of the main loop: the prediction step, the nucleation step,
   * then the filters that found no measurement record an occlusion and may
   * be dropped. As written (`corrected` false), a frame in which the
   * prediction linker does not run nucleates from the orphans carried over,
   * and an orphan paired with itself makes the graph refuse the loop.
   */
  method Step(st: Tracker, c: Content, store: Store, o: Oracles, frame: int, maxCost: real, maxInitialCost: real, maxFrameGap: int,
              corrected: bool)
    returns (r: Result<Tracker, KalmanError>)
    requires Simple(st.graph) && BornBefore(st, frame)
    requires SoundPredictionLinker(o, store, maxCost) && SoundNucleationLinker(o, store, maxInitialCost)
    ensures r.Ok? ==> Simple(r.value.graph) && BornBefore(r.value, frame + 1)
    ensures r.Ok? ==> KeepsEdges(st.graph, r.value.graph) && GrowsByEdges(st.graph, r.value.graph)
    ensures r.Ok? ==> forall e :: e in NewEdges(st.graph, r.value.graph) ==>
              (MatchEdge(st, r.value, store, o, frame, maxCost, e) && e.target in VisibleIn(c, store, frame)) ||
              (NucleationEdge(st, r.value, store, frame, maxInitialCost, e) &&
               e.target in OrphanPool(st, VisibleIn(c, store, frame), corrected))
    ensures r.Ok? ==> r.value.previousOrphans == r.value.orphans
    ensures r.Ok? ==> forall x :: x in r.value.orphans <==>
              x in OrphanPool(st, VisibleIn(c, store, frame), corrected) && !Reached(st.graph, r.value.graph, x)
    ensures !corrected && !PredictionRan(st, VisibleIn(c, store, frame)) && SelfPaired(st, o, frame) ==>
              r.Err? && r.error.GraphFailure?
    ensures corrected && Exclusive(c) && Behind(c, st, frame) && r.Err? ==> r.error.LinkingFailed?
    ensures r.Ok? ==> forall k :: k in st.tips && k in r.value.tips ==>
              r.value.tips[k] == st.tips[k] || MatchedBy(st, r.value, store, o, frame, maxCost, k)
    ensures r.Ok? ==> forall k :: k in st.tips && k !in r.value.tips ==> o.occlusions(k, frame) > maxFrameGap
    ensures r.Ok? ==> forall k :: k in r.value.tips && k !in st.tips ==> Started(st, r.value, store, frame, k)
  {
    var measurements := VisibleIn(c, store, frame);
    if corrected && Exclusive(c) && Behind(c, st, frame) {
      MatchAddable(c, store, o, st, frame, maxCost);
    }
    var m := MatchPredictions(st, store, o, frame, measurements, maxCost, corrected);
    if m.Err? {
      return Err(m.error);
    }
    var st1 := m.value.0;
    if !corrected && !PredictionRan(st, measurements) {
      assert st1.orphans == st.orphans && st1.previousOrphans == st.previousOrphans;
      assert NucleationAssignment(st1, o, frame) == NucleationAssignment(st, o, frame);
    }
    if corrected && Exclusive(c) && Behind(c, st, frame) {
      NucleationAddable(c, store, o, st, st1, m.value.1, frame, maxCost, maxInitialCost);
    }
    r := FinishFrame(st, st1, m.value.1, store, o, frame, maxCost, maxInitialCost, maxFrameGap, measurements,
                     OrphanPool(st, measurements, corrected));
  }

  /**
   * The rest of a frame once the prediction step has taken `st` to `st1`:
   * the nucleation step, then the childless filters record an occlusion and
   * may be dropped.
   */
  method FinishFrame(st: Tracker, st1: Tracker, childless: set<FilterId>, store: Store, o: Oracles, frame: int,
                     maxCost: real, maxInitialCost: real, maxFrameGap: int, measurements: set<ObjId>, pool: set<ObjId>)
    returns (r: Result<Tracker, KalmanError>)
    requires BornBefore(st, frame) && SoundNucleationLinker(o, store, maxInitialCost)
    requires MatchOutcome(st, st1, childless, store, o, frame, maxCost, measurements, pool)
    ensures r.Ok? ==> Simple(r.value.graph) && BornBefore(r.value, frame + 1)
    ensures r.Ok? ==> KeepsEdges(st.graph, r.value.graph) && GrowsByEdges(st.graph, r.value.graph)
    ensures r.Ok? ==> forall e :: e in NewEdges(st.graph, r.value.graph) ==>
              (MatchEdge(st, r.value, store, o, frame, maxCost, e) && e.target in measurements) ||
              (NucleationEdge(st, r.value, store, frame, maxInitialCost, e) && e.target in pool)
    ensures r.Ok? ==> r.value.previousOrphans == r.value.orphans
    ensures r.Ok? ==> forall x :: x in r.value.orphans <==> x in pool && !Reached(st.graph, r.value.graph, x)
    ensures r.Ok? ==> forall k :: k in st.tips && k in r.value.tips ==>
              r.value.tips[k] == st.tips[k] || MatchedBy(st, r.value, store, o, frame, maxCost, k)
    ensures r.Ok? ==> forall k :: k in st.tips && k !in r.value.tips ==> o.occlusions(k, frame) > maxFrameGap
    ensures r.Ok? ==> forall k :: k in r.value.tips && k !in st.tips ==> Started(st, r.value, store, frame, k)
    ensures SelfPaired(st1, o, frame) ==> r.Err? && r.error.GraphFailure?
    ensures r.Err? ==>
              r.error.LinkingFailed? ||
              (r.error.GraphFailure? && NucleationAssignment(st1, o, frame).Ok? &&
               !Addable(st1.graph, NucleationLinks(store, NucleationAssignment(st1, o, frame).value)))
  {
    assert BornBefore(st1, frame);
    var n := Nucleate(st1, store, o, frame, maxInitialCost);
    if n.Err? {
      return Err(n.error);
    }
    var st3 := Retire(n.value, childless, o, frame, maxFrameGap);
    CombineEdges(st, st1, n.value, st3, childless, store, o, frame, maxCost, maxInitialCost, maxFrameGap, measurements, pool);
    CombineOrphans(st, st1, n.value, st3, childless, store, o, frame, maxCost, maxInitialCost, maxFrameGap, measurements, pool);
    CombineFilters(st, st1, n.value, st3, childless, store, o, frame, maxCost, maxInitialCost, maxFrameGap, measurements, pool);
    return Ok(st3);
  }

  lemma CombineEdges(st: Tracker, st1: Tracker, st2: Tracker, st3: Tracker, childless: set<FilterId>, store: Store, o: Oracles,
                     frame: int, maxCost: real, maxInitialCost: real, maxFrameGap: int, measurements: set<ObjId>,
                     pool: set<ObjId>)
    requires BornBefore(st, frame)
    requires MatchOutcome(st, st1, childless, store, o, frame, maxCost, measurements, pool)
    requires NucleationOutcome(st1, st2, store, frame, maxInitialCost)
    requires st3 == Retire(st2, childless, o, frame, maxFrameGap)
    ensures KeepsEdges(st.graph, st3.graph) && GrowsByEdges(st.graph, st3.graph)
    ensures forall e :: e in NewEdges(st.graph, st3.graph) ==>
              (MatchEdge(st, st3, store, o, frame, maxCost, e) && e.target in measurements) ||
              (NucleationEdge(st, st3, store, frame, maxInitialCost, e) && e.target in pool)
  {
    forall e | e in NewEdges(st.graph, st3.graph)
      ensures (MatchEdge(st, st3, store, o, frame, maxCost, e) && e.target in measurements) ||
              (NucleationEdge(st, st3, store, frame, maxInitialCost, e) && e.target in pool)
    {
      if e in st1.graph.weights {
        assert e in NewEdges(st.graph, st1.graph);
        var k :| k in st.tips && k !in childless && e == Edge(st.tips[k], st1.tips[k]);
        assert MatchedBy(st, st1, store, o, frame, maxCost, k);
        assert MatchedBy(st, st3, store, o, frame, maxCost, k);
      } else {
        assert NucleationEdge(st1, st2, store, frame, maxInitialCost, e);
        assert FilterId(frame, e.source) !in childless;
      }
    }
    forall v | v in st3.graph.vertices && v !in st.graph.vertices
      ensures exists e :: e in NewEdges(st.graph, st3.graph) && (v == e.source || v == e.target)
    {
      if v in st1.graph.vertices {
        var e :| e in NewEdges(st.graph, st1.graph) && (v == e.source || v == e.target);
        assert e in NewEdges(st.graph, st3.graph);
      } else {
        var e :| e in NewEdges(st1.graph, st2.graph) && (v == e.source || v == e.target);
        assert e in NewEdges(st.graph, st3.graph);
      }
    }
  }

  lemma CombineOrphans(st: Tracker, st1: Tracker, st2: Tracker, st3: Tracker, childless: set<FilterId>, store: Store, o: Oracles,
                       frame: int, maxCost: real, maxInitialCost: real, maxFrameGap: int, measurements: set<ObjId>,
                     pool: set<ObjId>)
    requires MatchOutcome(st, st1, childless, store, o, frame, maxCost, measurements, pool)
    requires NucleationOutcome(st1, st2, store, frame, maxInitialCost)
    requires st3 == Retire(st2, childless, o, frame, maxFrameGap)
    ensures st3.previousOrphans == st3.orphans
    ensures forall x :: x in st3.orphans <==> x in pool && !Reached(st.graph, st3.graph, x)
  {
    forall x | x in pool
      ensures Reached(st.graph, st3.graph, x) <==> Reached(st.graph, st1.graph, x) || Reached(st1.graph, st2.graph, x)
    {
      if e :| e in NewEdges(st.graph, st3.graph) && e.target == x {
        if e !in st1.graph.weights {
          assert e in NewEdges(st1.graph, st2.graph);
        }
      }
      if e :| e in NewEdges(st.graph, st1.graph) && e.target == x {
        assert e in NewEdges(st.graph, st3.graph);
      }
      if e :| e in NewEdges(st1.graph, st2.graph) && e.target == x {
        assert e in NewEdges(st.graph, st3.graph);
      }
    }
  }

  lemma CombineFilters(st: Tracker, st1: Tracker, st2: Tracker, st3: Tracker, childless: set<FilterId>, store: Store, o: Oracles,
                       frame: int, maxCost: real, maxInitialCost: real, maxFrameGap: int, measurements: set<ObjId>,
                     pool: set<ObjId>)
    requires BornBefore(st, frame)
    requires MatchOutcome(st, st1, childless, store, o, frame, maxCost, measurements, pool)
    requires NucleationOutcome(st1, st2, store, frame, maxInitialCost)
    requires st3 == Retire(st2, childless, o, frame, maxFrameGap)
    ensures BornBefore(st3, frame + 1)
    ensures forall k :: k in st.tips && k in st3.tips ==>
              st3.tips[k] == st.tips[k] || MatchedBy(st, st3, store, o, frame, maxCost, k)
    ensures forall k :: k in st.tips && k !in st3.tips ==> o.occlusions(k, frame) > maxFrameGap
    ensures forall k :: k in st3.tips && k !in st.tips ==> Started(st, st3, store, frame, k)
  {
    forall k | k in st.tips && k in st3.tips && k !in childless
      ensures MatchedBy(st, st3, store, o, frame, maxCost, k)
    {
      assert MatchedBy(st, st1, store, o, frame, maxCost, k);
    }
    forall k | k in st3.tips && k !in st.tips
      ensures Started(st, st3, store, frame, k)
    {
      assert Started(st1, st2, store, frame, k);
    }
  }

  // ---------------------------------------------------------------- when a corrected frame cannot fail

  /** `x` is filed in a frame before `frame`. */
  ghost predicate FiledBefore(c: Content, x: ObjId, frame: int) {
    exists f :: f in c && f < frame && x in c[f]
  }

  /**
   * The state looks only backwards from `frame`: every filter's last
   * object, every previous orphan and every vertex is filed in an earlier
   * frame, and every orphan in this frame or an earlier one.
   */
  ghost predicate Behind(c: Content, st: Tracker, frame: int) {
    (forall k :: k in st.tips ==> FiledBefore(c, st.tips[k], frame)) &&
    (forall x :: x in st.previousOrphans ==> FiledBefore(c, x, frame)) &&
    (forall x :: x in st.orphans ==> FiledBefore(c, x, frame + 1)) &&
    (forall v :: v in st.graph.vertices ==> FiledBefore(c, v, frame))
  }

  lemma FiledLater(c: Content, x: ObjId, frame: int, later: int)
    requires FiledBefore(c, x, frame) && frame <= later
    ensures FiledBefore(c, x, later)
  {
    var f :| f in c && f < frame && x in c[f];
  }

  /** The visible objects of `frame` are filed before any later frame. */
  lemma VisibleFiledBefore(c: Content, store: Store, frame: int, later: int)
    requires frame < later
    ensures forall x :: x in VisibleIn(c, store, frame) ==> FiledBefore(c, x, later)
  {
    forall x | x in VisibleIn(c, store, frame) ensures FiledBefore(c, x, later) {
      assert frame in c && x in c[frame];
    }
  }

  /** When no object is filed in two frames, an object visible in `frame` is filed in no earlier frame. */
  lemma NotFiledBefore(c: Content, store: Store, x: ObjId, frame: int)
    requires Exclusive(c) && x in VisibleIn(c, store, frame)
    ensures !FiledBefore(c, x, frame)
  {
    assert frame in c && x in c[frame];
  }

  /**
   * When no object is filed in two frames, the prediction links of a state
   * that looks backwards can all be added: each goes from an object of an
   * earlier frame to a distinct measurement of this frame, which no edge
   * touches yet.
   */
  lemma MatchAddable(c: Content, store: Store, o: Oracles, st: Tracker, frame: int, maxCost: real)
    requires Exclusive(c) && Behind(c, st, frame) && Simple(st.graph)
    requires SoundPredictionLinker(o, store, maxCost)
    ensures var res := PredictionAssignment(st, o, frame, VisibleIn(c, store, frame));
            res.Ok? ==> res.value.Keys <= st.tips.Keys && Addable(st.graph, MatchLinks(st, store, o, frame, res.value))
  {
    var measurements := VisibleIn(c, store, frame);
    var res := PredictionAssignment(st, o, frame, measurements);
    if res.Ok? {
      var a := res.value;
      assert Assignment(a, st.tips.Keys, measurements);
      var links := MatchLinks(st, store, o, frame, a);
      forall k | k in a ensures FiledBefore(c, st.tips[k], frame) && !FiledBefore(c, a[k], frame) {
        NotFiledBefore(c, store, a[k], frame);
      }
      forall l | l in links ensures l.source != l.target && !Adjacent(st.graph, l.source, l.target) {
        var k :| k in a && l == Link(st.tips[k], a[k], PredictionCost(o.predict(k, frame), PosOf(store, a[k])));
        assert l.target !in st.graph.vertices;
      }
      forall l1, l2 | l1 in links && l2 in links && l1 != l2 ensures !SamePair(l1, l2) {
        var k1 :| k1 in a && l1 == Link(st.tips[k1], a[k1], PredictionCost(o.predict(k1, frame), PosOf(store, a[k1])));
        var k2 :| k2 in a && l2 == Link(st.tips[k2], a[k2], PredictionCost(o.predict(k2, frame), PosOf(store, a[k2])));
        assert a[k1] != a[k2];
      }
    }
  }

  /**
   * Corrected, when no object is filed in two frames, an orphan left by the
   * prediction step is filed in no earlier frame and is no vertex yet: the
   * prediction edges start in earlier frames and reach no orphan.
   */
  lemma OrphanUntouched(c: Content, store: Store, o: Oracles, st: Tracker, st1: Tracker, childless: set<FilterId>, frame: int,
                        maxCost: real, x: ObjId)
    requires Exclusive(c) && Behind(c, st, frame)
    requires MatchOutcome(st, st1, childless, store, o, frame, maxCost, VisibleIn(c, store, frame), VisibleIn(c, store, frame))
    requires x in st1.orphans
    ensures !FiledBefore(c, x, frame) && x !in st1.graph.vertices
  {
    NotFiledBefore(c, store, x, frame);
    assert x !in st.graph.vertices;
    assert !Reached(st.graph, st1.graph, x);
    forall e | e in NewEdges(st.graph, st1.graph) ensures e.source != x && e.target != x {
      var k :| k in st.tips && k !in childless && e == Edge(st.tips[k], st1.tips[k]);
      assert FiledBefore(c, st.tips[k], frame);
    }
  }

  /**
   * Corrected, when no object is filed in two frames, the nucleation links
   * can all be added: each goes from a previous orphan of an earlier frame
   * to a distinct orphan of this frame that no edge touches.
   */
  lemma NucleationAddable(c: Content, store: Store, o: Oracles, st: Tracker, st1: Tracker, childless: set<FilterId>, frame: int,
                          maxCost: real, maxInitialCost: real)
    requires Exclusive(c) && Behind(c, st, frame)
    requires SoundNucleationLinker(o, store, maxInitialCost)
    requires MatchOutcome(st, st1, childless, store, o, frame, maxCost, VisibleIn(c, store, frame), VisibleIn(c, store, frame))
    ensures var res := NucleationAssignment(st1, o, frame);
            res.Ok? ==> Addable(st1.graph, NucleationLinks(store, res.value))
  {
    var res := NucleationAssignment(st1, o, frame);
    if res.Ok? {
      var n := res.value;
      assert Assignment(n, st1.previousOrphans, st1.orphans);
      var links := NucleationLinks(store, n);
      forall s | s in n ensures FiledBefore(c, s, frame) && !FiledBefore(c, n[s], frame) && n[s] !in st1.graph.vertices {
        OrphanUntouched(c, store, o, st, st1, childless, frame, maxCost, n[s]);
      }
      forall l | l in links ensures l.source != l.target && !Adjacent(st1.graph, l.source, l.target) {
        var s :| s in n && l == Link(s, n[s], NucleationCost(store, s, n[s]));
      }
      forall l1, l2 | l1 in links && l2 in links && l1 != l2 ensures !SamePair(l1, l2) {
        var s1 :| s1 in n && l1 == Link(s1, n[s1], NucleationCost(store, s1, n[s1]));
        var s2 :| s2 in n && l2 == Link(s2, n[s2], NucleationCost(store, s2, n[s2]));
        assert n[s1] != n[s2];
      }
    }
  }

  /** The state the main loop starts from looks backwards from the second frame. */
  lemma StartBehind(c: Content, store: Store, first: int, second: int)
    requires first < second
    ensures Behind(c, Tracker(map[], map[], EmptyGraph(), VisibleIn(c, store, second), VisibleIn(c, store, first)), second)
  {
    VisibleFiledBefore(c, store, first, second);
    VisibleFiledBefore(c, store, second, second + 1);
  }

  /** A frame keeps the state looking backwards: every new edge ends in this frame or an earlier one. */
  lemma StepKeepsBehind(c: Content, store: Store, o: Oracles, st: Tracker, st': Tracker, frame: int,
                        maxCost: real, maxInitialCost: real, corrected: bool)
    requires Behind(c, st, frame)
    requires GrowsByEdges(st.graph, st'.graph)
    requires forall e :: e in NewEdges(st.graph, st'.graph) ==>
               (MatchEdge(st, st', store, o, frame, maxCost, e) && e.target in VisibleIn(c, store, frame)) ||
               (NucleationEdge(st, st', store, frame, maxInitialCost, e) &&
                e.target in OrphanPool(st, VisibleIn(c, store, frame), corrected))
    requires st'.previousOrphans == st'.orphans
    requires forall x :: x in st'.orphans ==> x in OrphanPool(st, VisibleIn(c, store, frame), corrected)
    requires forall k :: k in st.tips && k in st'.tips ==> st'.tips[k] == st.tips[k] || MatchedBy(st, st', store, o, frame, maxCost, k)
    requires forall k :: k in st'.tips && k !in st.tips ==> Started(st, st', store, frame, k)
    ensures Behind(c, st', frame + 1)
  {
    var pool := OrphanPool(st, VisibleIn(c, store, frame), corrected);
    VisibleFiledBefore(c, store, frame, frame + 1);
    assert forall x :: x in pool ==> FiledBefore(c, x, frame + 1);
    forall e | e in NewEdges(st.graph, st'.graph)
      ensures FiledBefore(c, e.source, frame + 1) && FiledBefore(c, e.target, frame + 1)
    {
      if MatchEdge(st, st', store, o, frame, maxCost, e) {
        var k :| MatchedBy(st, st', store, o, frame, maxCost, k) && e == Edge(st.tips[k], st'.tips[k]);
        FiledLater(c, st.tips[k], frame, frame + 1);
      } else {
        FiledLater(c, e.source, frame, frame + 1);
      }
    }
    forall k | k in st'.tips ensures FiledBefore(c, st'.tips[k], frame + 1) {
      if k in st.tips && st'.tips[k] == st.tips[k] {
        FiledLater(c, st.tips[k], frame, frame + 1);
      } else if k in st.tips {
        assert MatchedBy(st, st', store, o, frame, maxCost, k);
      } else {
        assert Started(st, st', store, frame, k);
      }
    }
    forall v | v in st'.graph.vertices ensures FiledBefore(c, v, frame + 1) {
      if v in st.graph.vertices {
        FiledLater(c, v, frame, frame + 1);
      } else {
        var e :| e in NewEdges(st.graph, st'.graph) && (v == e.source || v == e.target);
      }
    }
    forall x | x in st'.orphans ensures FiledBefore(c, x, frame + 2) {
      FiledLater(c, x, frame + 1, frame + 2);
    }
  }

  // ---------------------------------------------------------------- the main loop

  /** The larger of two reals. */
  function Larger(a: real, b: real): (r: real)
    ensures a <= r && b <= r && (r == a || r == b)
  {
    if a < b then b else a
  }

  lemma VisibleInIsVisible(c: Content, store: Store, frame: int)
    ensures VisibleIn(c, store, frame) <= VisibleObjects(c, store)
  {
    forall x | x in VisibleIn(c, store, frame) ensures x in Objects(c) {
      assert frame in c && x in c[frame];
    }
  }

  /**
   * What holds between frames: the graph is simple with every weight
   * positive and within `cap`, no filter was started in `frame` or later,
   * and every object the state refers to is a visible object of the
   * collection.
   */
  ghost predicate Running(c: Content, store: Store, st: Tracker, frame: int, cap: real) {
    Simple(st.graph) && BornBefore(st, frame) &&
    (forall e :: e in st.graph.weights ==> 0.0 < st.graph.weights[e] <= cap) &&
    (forall k :: k in st.tips ==> st.tips[k] in VisibleObjects(c, store)) &&
    st.previousOrphans <= VisibleObjects(c, store) && st.orphans <= VisibleObjects(c, store) &&
    st.graph.vertices <= VisibleObjects(c, store)
  }

  lemma StepKeepsRunning(c: Content, store: Store, o: Oracles, st: Tracker, st': Tracker, frame: int,
                         maxCost: real, maxInitialCost: real, cap: real, pool: set<ObjId>)
    requires Running(c, store, st, frame, cap)
    requires maxCost <= cap && maxInitialCost <= cap
    requires pool <= VisibleObjects(c, store)
    requires Simple(st'.graph) && BornBefore(st', frame + 1)
    requires KeepsEdges(st.graph, st'.graph) && GrowsByEdges(st.graph, st'.graph)
    requires forall e :: e in NewEdges(st.graph, st'.graph) ==>
               (MatchEdge(st, st', store, o, frame, maxCost, e) && e.target in VisibleIn(c, store, frame)) ||
               (NucleationEdge(st, st', store, frame, maxInitialCost, e) && e.target in pool)
    requires st'.previousOrphans == st'.orphans
    requires forall x :: x in st'.orphans <==> x in pool && !Reached(st.graph, st'.graph, x)
    requires forall k :: k in st.tips && k in st'.tips ==> st'.tips[k] == st.tips[k] || MatchedBy(st, st', store, o, frame, maxCost, k)
    requires forall k :: k in st'.tips && k !in st.tips ==> Started(st, st', store, frame, k)
    ensures Running(c, store, st', frame + 1, cap)
  {
    VisibleInIsVisible(c, store, frame);
    forall e | e in NewEdges(st.graph, st'.graph)
      ensures 0.0 < st'.graph.weights[e] <= cap
      ensures e.source in VisibleObjects(c, store) && e.target in VisibleObjects(c, store)
    {
      if MatchEdge(st, st', store, o, frame, maxCost, e) {
        var k :| MatchedBy(st, st', store, o, frame, maxCost, k) && e == Edge(st.tips[k], st'.tips[k]);
      }
    }
    forall e | e in st'.graph.weights ensures 0.0 < st'.graph.weights[e] <= cap {
      if e in st.graph.weights {
      } else {
        assert e in NewEdges(st.graph, st'.graph);
      }
    }
    forall k | k in st'.tips ensures st'.tips[k] in VisibleObjects(c, store) {
      if k in st.tips && st'.tips[k] != st.tips[k] {
        assert MatchedBy(st, st', store, o, frame, maxCost, k);
      } else if k !in st.tips {
        assert Started(st, st', store, frame, k);
      }
    }
    forall v | v in st'.graph.vertices ensures v in VisibleObjects(c, store) {
      if v !in st.graph.vertices {
        var e :| e in NewEdges(st.graph, st'.graph) && (v == e.source || v == e.target);
      }
    }
    forall x | x in st'.previousOrphans ensures x in VisibleObjects(c, store) {
      assert x in pool;
    }
  }

  /**
   * One turn of the main loop: a frame's step, which keeps what holds
   * between frames. Corrected, with no object filed in two frames, only a
   * solver can fail it.
   */
  method NextFrame(st: Tracker, c: Content, store: Store, o: Oracles, frame: int, maxCost: real, maxInitialCost: real,
                   maxFrameGap: int, corrected: bool, ghost cap: real)
    returns (r: Result<Tracker, KalmanError>)
    requires Running(c, store, st, frame, cap) && Behind(c, st, frame)
    requires maxCost <= cap && maxInitialCost <= cap
    requires SoundPredictionLinker(o, store, maxCost) && SoundNucleationLinker(o, store, maxInitialCost)
    ensures r.Ok? ==> Running(c, store, r.value, frame + 1, cap) && Behind(c, r.value, frame + 1)
    ensures corrected && Exclusive(c) && r.Err? ==> r.error.LinkingFailed?
  {
    r := Step(st, c, store, o, frame, maxCost, maxInitialCost, maxFrameGap, corrected);
    if r.Ok? {
      VisibleInIsVisible(c, store, frame);
      StepKeepsRunning(c, store, o, st, r.value, frame, maxCost, maxInitialCost, cap,
                       OrphanPool(st, VisibleIn(c, store, frame), corrected));
      StepKeepsBehind(c, store, o, st, r.value, frame, maxCost, maxInitialCost, corrected);
    }
  }

  /**
   * `process`: nothing to do without frames (reading the first frame
   * throws) and nothing to link with one frame; otherwise one step per frame
   * number from the second frame to the last, absent frames included. The
   * prediction cost is capped by the squared search radius, the nucleation
   * cost by the squared initial search radius. The orphans are refreshed as
   * written, or corrected when `corrected`.
   */
  method Track(c: Content, store: Store, o: Oracles, maxSearchRadius: real, initialSearchRadius: real, maxFrameGap: int,
               corrected: bool)
    returns (r: Result<Graph, KalmanError>)
    requires HasVisibility(c, store)
    requires SoundPredictionLinker(o, store, Mul(maxSearchRadius, maxSearchRadius))
    requires SoundNucleationLinker(o, store, Mul(initialSearchRadius, initialSearchRadius))
    ensures c == map[] ==> r == Err(NoFrames)
    ensures |c.Keys| == 1 ==> r == Ok(EmptyGraph())
    ensures r.Ok? ==> Simple(r.value) && r.value.vertices <= VisibleObjects(c, store)
    ensures r.Ok? ==> forall e :: e in r.value.weights ==>
              0.0 < r.value.weights[e] <= Larger(Mul(maxSearchRadius, maxSearchRadius), Mul(initialSearchRadius, initialSearchRadius))
    ensures corrected && c != map[] && Exclusive(c) && r.Err? ==> r.error.LinkingFailed?
  {
    if c == map[] {
      return Err(NoFrames);
    }
    var first := FirstKey(c);
    var last := LastKey(c);
    if first == last {
      return Ok(EmptyGraph());
    }
    assert |c.Keys| != 1 by {
      assert last in c.Keys - {first};
      assert |c.Keys - {first}| == |c.Keys| - 1;
    }
    var second := Higher(c, first);
    var maxCost := Mul(maxSearchRadius, maxSearchRadius);
    var maxInitialCost := Mul(initialSearchRadius, initialSearchRadius);
    ghost var cap := Larger(maxCost, maxInitialCost);
    var st := Tracker(map[], map[], EmptyGraph(), VisibleIn(c, store, second), VisibleIn(c, store, first));
    VisibleInIsVisible(c, store, first);
    VisibleInIsVisible(c, store, second);
    StartBehind(c, store, first, second);
    var frame := second;
    while frame <= last
      invariant Running(c, store, st, frame, cap)
      invariant Behind(c, st, frame)
      decreases last - frame
    {
      var step := NextFrame(st, c, store, o, frame, maxCost, maxInitialCost, maxFrameGap, corrected, cap);
      if step.Err? {
        return Err(step.error);
      }
      st := step.value;
      frame := frame + 1;
    }
    return Ok(st.graph);
  }

  /**
   * `process` as written: a frame in which no filter predicts (or no object
   * is visible) nucleates from the previous frame's orphans on both sides.
   */
  method Process(c: Content, store: Store, o: Oracles, maxSearchRadius: real, initialSearchRadius: real, maxFrameGap: int)
    returns (r: Result<Graph, KalmanError>)
    requires HasVisibility(c, store)
    requires SoundPredictionLinker(o, store, Mul(maxSearchRadius, maxSearchRadius))
    requires SoundNucleationLinker(o, store, Mul(initialSearchRadius, initialSearchRadius))
    ensures c == map[] ==> r == Err(NoFrames)
    ensures |c.Keys| == 1 ==> r == Ok(EmptyGraph())
    ensures r.Ok? ==> Simple(r.value) && r.value.vertices <= VisibleObjects(c, store)
    ensures r.Ok? ==> forall e :: e in r.value.weights ==>
              0.0 < r.value.weights[e] <= Larger(Mul(maxSearchRadius, maxSearchRadius), Mul(initialSearchRadius, initialSearchRadius))
  {
    r := Track(c, store, o, maxSearchRadius, initialSearchRadius, maxFrameGap, false);
  }

  /**
   * `process` with the orphans refreshed from every frame's measurements.
   * When no object is filed in two frames, only a solver can fail it.
   */
  method ProcessCorrected(c: Content, store: Store, o: Oracles, maxSearchRadius: real, initialSearchRadius: real, maxFrameGap: int)
    returns (r: Result<Graph, KalmanError>)
    requires HasVisibility(c, store)
    requires SoundPredictionLinker(o, store, Mul(maxSearchRadius, maxSearchRadius))
    requires SoundNucleationLinker(o, store, Mul(initialSearchRadius, initialSearchRadius))
    ensures c == map[] ==> r == Err(NoFrames)
    ensures |c.Keys| == 1 ==> r == Ok(EmptyGraph())
    ensures r.Ok? ==> Simple(r.value) && r.value.vertices <= VisibleObjects(c, store)
    ensures r.Ok? ==> forall e :: e in r.value.weights ==>
              0.0 < r.value.weights[e] <= Larger(Mul(maxSearchRadius, maxSearchRadius), Mul(initialSearchRadius, initialSearchRadius))
    ensures c != map[] && Exclusive(c) && r.Err? ==> r.error.LinkingFailed?
  {
    r := Track(c, store, o, maxSearchRadius, initialSearchRadius, maxFrameGap, true);
  }
}

=== FILE: navigator.dfy ===
/**
 * `TrackNavigator`: moves the selection to a spot of the next or previous
 * track, or to a sibling (another spot of the same track in the same frame).
 * The track model it queries is given as data: the visible track IDs in
 * iteration order, the track of each spot, the spots of each track in
 * iteration order, and each spot's frame and name. The iteration orders of
 * the selected spots and edges are inputs too, since the source iterates
 * hash sets.
 */
module Navigator {
  import opened Wrappers
  import opened Sets
  import opened JavaLang
  import opened Graph
  import opened TreeSets
  import opened Selection

  datatype Tracks = Tracks(ids: seq<int>, trackOf: map<ObjId, int>, spotsOf: map<int, seq<ObjId>>,
                           frameOf: ObjId -> int, nameOf: ObjId -> string)

  /** Why a move throws: a track ID with no spot set behind it (`NullPointerException`). */
  datatype NavError = NoSuchTrack

  // ---------------------------------------------------------------- orders

  /** `featureComparator(FRAME)`: the sign of the frame difference. */
  function FrameOrder(frameOf: ObjId -> int): (ObjId, ObjId) -> int {
    (a: ObjId, b: ObjId) => if frameOf(a) < frameOf(b) then -1 else if frameOf(a) == frameOf(b) then 0 else 1
  }

  /** `nameComparator`: `String.compareTo` on the names. */
  function NameOrder(nameOf: ObjId -> string): (ObjId, ObjId) -> int {
    (a: ObjId, b: ObjId) => CompareTo(nameOf(a), nameOf(b))
  }

  lemma FrameOrderIsComparator(frameOf: ObjId -> int)
    ensures Comparator(FrameOrder(frameOf))
  {
  }

  lemma NameOrderIsComparator(nameOf: ObjId -> string)
    ensures Comparator(NameOrder(nameOf))
  {
    var cmp := NameOrder(nameOf);
    forall a, b ensures cmp(a, b) < 0 <==> cmp(b, a) > 0 {
      CompareToAntisymmetric(nameOf(a), nameOf(b));
    }
    forall a, b, c | cmp(a, b) < 0 && cmp(b, c) < 0 ensures cmp(a, c) < 0 {
      CompareToTransitive(nameOf(a), nameOf(b), nameOf(c));
      CompareToZeroIff(nameOf(a), nameOf(c));
      if nameOf(a) == nameOf(c) {
        CompareToAntisymmetric(nameOf(a), nameOf(b));
      }
    }
    forall a, b, c | cmp(a, b) == 0 && cmp(b, c) < 0 ensures cmp(a, c) < 0 {
      CompareToZeroIff(nameOf(a), nameOf(b));
    }
    forall a, b, c | cmp(a, b) == 0 && cmp(a, c) < 0 ensures cmp(b, c) < 0 {
      CompareToZeroIff(nameOf(a), nameOf(b));
    }
  }

  // ---------------------------------------------------------------- the current spot

  /** Scanning in order and replacing the candidate only on a strictly lower frame: the position of the first spot of lowest frame. */
  function LowestIndex(xs: seq<ObjId>, frameOf: ObjId -> int): (i: nat)
    requires xs != []
    ensures i < |xs|
    ensures forall j :: 0 <= j < |xs| ==> frameOf(xs[i]) <= frameOf(xs[j])
    ensures forall j :: 0 <= j < i ==> frameOf(xs[j]) > frameOf(xs[i])
  {
    if |xs| == 1 then 0
    else
      var init := xs[..|xs| - 1];
      var i := LowestIndex(init, frameOf);
      assert forall j :: 0 <= j < |init| ==> init[j] == xs[j];
      if frameOf(xs[|xs| - 1]) < frameOf(xs[i]) then |xs| - 1 else i
  }

  /** The sources of the edges, in order. */
  function Sources(edges: seq<Edge>): (r: seq<ObjId>)
    ensures |r| == |edges| && forall i :: 0 <= i < |edges| ==> r[i] == edges[i].source
  {
    seq(|edges|, i requires 0 <= i < |edges| => edges[i].source)
  }

  /**
   * `getASpot`: a spot of lowest frame among the selected spots; failing
   * that, a source of lowest frame among the selected edges; failing that,
   * none.
   */
  function GetASpot(sel: Selection, spotOrder: seq<ObjId>, edgeOrder: seq<Edge>, frameOf: ObjId -> int): (r: Option<ObjId>)
    requires Elements(spotOrder) == sel.spots && Elements(edgeOrder) == sel.edges
    ensures r.None? <==> sel.spots == {} && sel.edges == {}
    ensures sel.spots != {} ==> (r.Some? && r.value in sel.spots &&
              forall y :: y in sel.spots ==> frameOf(r.value) <= frameOf(y))
    ensures sel.spots == {} && sel.edges != {} ==> (r.Some? &&
              (exists e :: e in sel.edges && e.source == r.value) &&
              forall e :: e in sel.edges ==> frameOf(r.value) <= frameOf(e.source))
  {
    if spotOrder != [] then
      var i := LowestIndex(spotOrder, frameOf);
      assert spotOrder[0] in sel.spots;
      assert forall y :: y in sel.spots ==> exists j :: 0 <= j < |spotOrder| && spotOrder[j] == y;
      Some(spotOrder[i])
    else if edgeOrder != [] then
      var sources := Sources(edgeOrder);
      var i := LowestIndex(sources, frameOf);
      assert forall e :: e in sel.edges ==> exists j :: 0 <= j < |edgeOrder| && edgeOrder[j] == e;
      assert edgeOrder[i] in sel.edges;
      Some(sources[i])
    else
      assert spotOrder == [] && edgeOrder == [];
      None
  }

  // ---------------------------------------------------------------- the next and previous track

  /** The position of `t` in `ids`. */
  function IndexOf(ids: seq<int>, t: int): (k: nat)
    requires t in ids
    ensures k < |ids| && ids[k] == t
    ensures Distinct(ids) ==> forall j :: 0 <= j < |ids| && ids[j] == t ==> j == k
  {
    if ids[0] == t then 0
    else
      var k := IndexOf(ids[1..], t);
      assert ids[k + 1] == ids[1..][k];
      k + 1
  }

  /** The position after `k` in a ring of `n`. */
  function Succ(k: nat, n: nat): nat {
    if k + 1 < n then k + 1 else 0
  }

  /** The position before `k` in a ring of `n`. */
  function Pred(k: nat, n: nat): nat
    requires n > 0
  {
    if k > 0 then k - 1 else n - 1
  }

  /** The loop of `nextTrack` from position `i` on: the ID after `t`, wrapping to the first; none when `t` is not listed. */
  function NextAfter(ids: seq<int>, t: int, i: nat): (r: Option<int>)
    requires Distinct(ids) && i <= |ids| && forall j :: 0 <= j < i ==> ids[j] != t
    ensures t !in ids ==> r.None?
    ensures t in ids ==> (IndexOf(ids, t) < |ids| && Succ(IndexOf(ids, t), |ids|) < |ids| &&
              r == Some(ids[Succ(IndexOf(ids, t), |ids|)]))
    decreases |ids| - i
  {
    if i == |ids| then None
    else if ids[i] == t then
      assert IndexOf(ids, t) == i;
      if i + 1 < |ids| then Some(ids[i + 1]) else Some(ids[0])
    else NextAfter(ids, t, i + 1)
  }

  /** `nextTrack`'s choice of track: after the spot's track, or after the first when the spot has none. */
  function NextTrackId(ids: seq<int>, current: Option<int>): (r: Option<int>)
    requires Distinct(ids) && ids != []
  {
    NextAfter(ids, if current.Some? then current.value else ids[0], 0)
  }

  /** The loop of `previousTrack` from position `i` on, `prev` holding the ID seen last: the ID before `t`, wrapping to the last. */
  function PreviousBefore(ids: seq<int>, t: int, i: nat, prev: Option<int>): (r: Option<int>)
    requires Distinct(ids) && 0 < |ids| && i <= |ids| && (forall j :: 0 <= j < i ==> ids[j] != t) &&
             prev == (if i == 0 then None else Some(ids[i - 1]))
    ensures t !in ids ==> r == Some(ids[|ids| - 1])
    ensures t in ids ==> IndexOf(ids, t) < |ids| && r == Some(ids[Pred(IndexOf(ids, t), |ids|)])
    decreases |ids| - i
  {
    if i == |ids| then prev
    else if ids[i] == t then
      assert IndexOf(ids, t) == i;
      if prev.Some? then prev else Some(ids[|ids| - 1])
    else PreviousBefore(ids, t, i + 1, Some(ids[i]))
  }

  /** `previousTrack`'s choice of track: before the spot's track, or before the last when the spot has none. */
  function PreviousTrackId(ids: seq<int>, current: Option<int>): (r: Option<int>)
    requires Distinct(ids) && ids != []
  {
    PreviousBefore(ids, if current.Some? then current.value else ids[|ids| - 1], 0, None)
  }

  /**
   * Track navigation is cyclic: for a listed track, the previous of the next
   * and the next of the previous are the track itself. A spot without a
   * track moves to the second track, or back to the last but one; a track
   * that is not listed has no next (the source then throws) but has the last
   * track as its previous.
   */
  lemma TrackCycle(ids: seq<int>, t: int)
    requires Distinct(ids) && ids != []
    ensures t in ids ==> (NextTrackId(ids, Some(t)).Some? &&
              PreviousTrackId(ids, NextTrackId(ids, Some(t))) == Some(t))
    ensures t in ids ==> (PreviousTrackId(ids, Some(t)).Some? &&
              NextTrackId(ids, PreviousTrackId(ids, Some(t))) == Some(t))
    ensures NextTrackId(ids, None) == Some(ids[Succ(0, |ids|)])
    ensures PreviousTrackId(ids, None) == Some(ids[Pred(|ids| - 1, |ids|)])
    ensures t !in ids ==> NextTrackId(ids, Some(t)) == None && PreviousTrackId(ids, Some(t)) == Some(ids[|ids| - 1])
  {
    var n := |ids|;
    assert ids[0] in ids && IndexOf(ids, ids[0]) == 0;
    assert ids[n - 1] in ids && IndexOf(ids, ids[n - 1]) == n - 1;
    if t in ids {
      var k := IndexOf(ids, t);
      var k1 := Succ(k, n);
      assert IndexOf(ids, ids[k1]) == k1;
      assert Pred(k1, n) == k;
      var k0 := Pred(k, n);
      assert IndexOf(ids, ids[k0]) == k0;
      assert Succ(k0, n) == k;
    }
  }

  // ---------------------------------------------------------------- the ring of a track

  /** The spot of the target track in the frame closest to `spot`'s: the ceiling in a frame-ordered tree set, else the floor. */
  function RingTarget(spots: seq<ObjId>, spot: ObjId, frameOf: ObjId -> int): Option<ObjId> {
    var cmp := FrameOrder(frameOf);
    var ring := TreeOf(cmp, spots);
    var c := Ceiling(cmp, ring, spot);
    if c.Some? then c else Floor(cmp, ring, spot)
  }

  /** Only an empty track has no ring target; a ring target is a spot of the track. */
  lemma RingTargetInTrack(spots: seq<ObjId>, spot: ObjId, frameOf: ObjId -> int)
    ensures RingTarget(spots, spot, frameOf).None? <==> spots == []
    ensures RingTarget(spots, spot, frameOf).Some? ==> RingTarget(spots, spot, frameOf).value in spots
  {
    var cmp := FrameOrder(frameOf);
    FrameOrderIsComparator(frameOf);
    EndsOfTree(cmp, spots);
    var ring := TreeOf(cmp, spots);
    if ring != [] {
      assert ring[0] in ring;
    }
  }

  /**
   * When the track has a spot in `spot`'s frame or later, the ring target is
   * in the earliest such frame.
   */
  lemma RingTargetCeiling(spots: seq<ObjId>, spot: ObjId, frameOf: ObjId -> int)
    requires exists s :: s in spots && frameOf(s) >= frameOf(spot)
    ensures RingTarget(spots, spot, frameOf).Some?
    ensures frameOf(RingTarget(spots, spot, frameOf).value) >= frameOf(spot)
    ensures forall s :: s in spots && frameOf(s) >= frameOf(spot) ==> frameOf(RingTarget(spots, spot, frameOf).value) <= frameOf(s)
  {
    var cmp := FrameOrder(frameOf);
    var s0 :| s0 in spots && frameOf(s0) >= frameOf(spot);
    assert cmp(spot, s0) <= 0;
    FrameCeiling(frameOf, spots, spot);
    var c := Ceiling(cmp, TreeOf(cmp, spots), spot);
    assert c.Some? && RingTarget(spots, spot, frameOf) == c;
    assert cmp(spot, c.value) <= 0;
    forall s | s in spots && frameOf(s) >= frameOf(spot) ensures frameOf(c.value) <= frameOf(s) {
      assert cmp(spot, s) <= 0;
      assert cmp(c.value, s) <= 0;
    }
  }

  /** The frame ring's ceiling exists when some spot is not earlier, and is not after any such spot. */
  lemma FrameCeiling(frameOf: ObjId -> int, spots: seq<ObjId>, spot: ObjId)
    ensures (exists s :: s in spots && FrameOrder(frameOf)(spot, s) <= 0) ==>
              Ceiling(FrameOrder(frameOf), TreeOf(FrameOrder(frameOf), spots), spot).Some?
    ensures Ceiling(FrameOrder(frameOf), TreeOf(FrameOrder(frameOf), spots), spot).Some? ==>
              forall s :: s in spots && FrameOrder(frameOf)(spot, s) <= 0 ==>
                FrameOrder(frameOf)(Ceiling(FrameOrder(frameOf), TreeOf(FrameOrder(frameOf), spots), spot).value, s) <= 0
  {
    FrameOrderIsComparator(frameOf);
    CeilingOfTree(FrameOrder(frameOf), spots, spot);
  }

  /** When every spot of the track is in an earlier frame, the ring target is in the latest frame. */
  lemma RingTargetFloor(spots: seq<ObjId>, spot: ObjId, frameOf: ObjId -> int)
    requires spots != [] && forall s :: s in spots ==> frameOf(s) < frameOf(spot)
    ensures RingTarget(spots, spot, frameOf).Some?
    ensures forall s :: s in spots ==> frameOf(s) <= frameOf(RingTarget(spots, spot, frameOf).value)
  {
    var cmp := FrameOrder(frameOf);
    NoCeiling(spots, spot, frameOf);
    assert spots[0] in spots && cmp(spot, spots[0]) >= 0;
    FrameFloor(frameOf, spots, spot);
    var fl := Floor(cmp, TreeOf(cmp, spots), spot);
    assert fl.Some? && RingTarget(spots, spot, frameOf) == fl;
    var f := fl.value;
    forall s | s in spots ensures frameOf(s) <= frameOf(f) {
      assert cmp(spot, s) >= 0;
      assert cmp(f, s) >= 0;
    }
  }

  /** The frame ring's floor exists when some spot is not later, and is not before any such spot. */
  lemma FrameFloor(frameOf: ObjId -> int, spots: seq<ObjId>, spot: ObjId)
    ensures (exists s :: s in spots && FrameOrder(frameOf)(spot, s) >= 0) ==>
              Floor(FrameOrder(frameOf), TreeOf(FrameOrder(frameOf), spots), spot).Some?
    ensures Floor(FrameOrder(frameOf), TreeOf(FrameOrder(frameOf), spots), spot).Some? ==>
              forall s :: s in spots && FrameOrder(frameOf)(spot, s) >= 0 ==>
                FrameOrder(frameOf)(Floor(FrameOrder(frameOf), TreeOf(FrameOrder(frameOf), spots), spot).value, s) >= 0
  {
    FrameOrderIsComparator(frameOf);
    FloorOfTree(FrameOrder(frameOf), spots, spot);
  }

  /** When every spot of the track is earlier, the frame ring has no ceiling. */
  lemma NoCeiling(spots: seq<ObjId>, spot: ObjId, frameOf: ObjId -> int)
    requires forall s :: s in spots ==> frameOf(s) < frameOf(spot)
    ensures Ceiling(FrameOrder(frameOf), TreeOf(FrameOrder(frameOf), spots), spot).None?
  {
  }

  // ---------------------------------------------------------------- siblings

  /** The other spots of the track in the same frame as `spot`, in iteration order. */
  function SiblingCandidates(spots: seq<ObjId>, spot: ObjId, frameOf: ObjId -> int): (r: seq<ObjId>)
    ensures forall s :: s in r <==> s in spots && frameOf(s) == frameOf(spot) && s != spot
  {
    if spots == [] then []
    else
      var rest := SiblingCandidates(spots[1..], spot, frameOf);
      assert forall s :: s in spots <==> s == spots[0] || s in spots[1..];
      if frameOf(spots[0]) == frameOf(spot) && spots[0] != spot then [spots[0]] + rest else rest
  }

  /** `nextSibling`'s pick in the name-ordered ring: the ceiling of `spot`, else the first. */
  function NextSiblingIn(candidates: seq<ObjId>, spot: ObjId, nameOf: ObjId -> string): Option<ObjId> {
    var cmp := NameOrder(nameOf);
    var ring := TreeOf(cmp, candidates);
    if ring == [] then None
    else
      var c := Ceiling(cmp, ring, spot);
      if c.Some? then c else Some(ring[0])
  }

  /** `previousSibling`'s pick in the name-ordered ring: the floor of `spot`, else the last. */
  function PreviousSiblingIn(candidates: seq<ObjId>, spot: ObjId, nameOf: ObjId -> string): Option<ObjId> {
    var cmp := NameOrder(nameOf);
    var ring := TreeOf(cmp, candidates);
    if ring == [] then None
    else
      var f := Floor(cmp, ring, spot);
      if f.Some? then f else Some(ring[|ring| - 1])
  }

  /** There is a next or previous sibling exactly when there are candidates, and it is one of them. */
  lemma SiblingAmongCandidates(candidates: seq<ObjId>, spot: ObjId, nameOf: ObjId -> string)
    ensures NextSiblingIn(candidates, spot, nameOf).None? <==> candidates == []
    ensures NextSiblingIn(candidates, spot, nameOf).Some? ==> NextSiblingIn(candidates, spot, nameOf).value in candidates
    ensures PreviousSiblingIn(candidates, spot, nameOf).None? <==> candidates == []
    ensures PreviousSiblingIn(candidates, spot, nameOf).Some? ==> PreviousSiblingIn(candidates, spot, nameOf).value in candidates
  {
    var cmp := NameOrder(nameOf);
    NameOrderIsComparator(nameOf);
    EndsOfTree(cmp, candidates);
    var ring := TreeOf(cmp, candidates);
    if ring != [] {
      assert ring[0] in ring && ring[|ring| - 1] in ring;
    }
  }

  /**
   * The next sibling is the candidate whose name comes first among those not
   * before `spot`'s name; when there is none, the first name of all, so the
   * siblings form a ring.
   */
  lemma NextSiblingIsCeiling(candidates: seq<ObjId>, spot: ObjId, nameOf: ObjId -> string)
    requires candidates != []
    ensures var r := NextSiblingIn(candidates, spot, nameOf).value;
            (exists c :: c in candidates && CompareTo(nameOf(spot), nameOf(c)) <= 0) ==>
              CompareTo(nameOf(spot), nameOf(r)) <= 0 &&
              forall c :: c in candidates && CompareTo(nameOf(spot), nameOf(c)) <= 0 ==> CompareTo(nameOf(r), nameOf(c)) <= 0
    ensures var r := NextSiblingIn(candidates, spot, nameOf).value;
            (forall c :: c in candidates ==> CompareTo(nameOf(spot), nameOf(c)) > 0) ==>
              forall c :: c in candidates ==> CompareTo(nameOf(r), nameOf(c)) <= 0
  {
    var cmp := NameOrder(nameOf);
    NameOrderIsComparator(nameOf);
    EndsOfTree(cmp, candidates);
    CeilingOfTree(cmp, candidates, spot);
    SiblingAmongCandidates(candidates, spot, nameOf);
  }

  /**
   * The previous sibling is the candidate whose name comes last among those
   * not after `spot`'s name; when there is none, the last name of all.
   */
  lemma PreviousSiblingIsFloor(candidates: seq<ObjId>, spot: ObjId, nameOf: ObjId -> string)
    requires candidates != []
    ensures var r := PreviousSiblingIn(candidates, spot, nameOf).value;
            (exists c :: c in candidates && CompareTo(nameOf(spot), nameOf(c)) >= 0) ==>
              CompareTo(nameOf(spot), nameOf(r)) >= 0 &&
              forall c :: c in candidates && CompareTo(nameOf(spot), nameOf(c)) >= 0 ==> CompareTo(nameOf(r), nameOf(c)) >= 0
    ensures var r := PreviousSiblingIn(candidates, spot, nameOf).value;
            (forall c :: c in candidates ==> CompareTo(nameOf(spot), nameOf(c)) < 0) ==>
              forall c :: c in candidates ==> CompareTo(nameOf(r), nameOf(c)) >= 0
  {
    var cmp := NameOrder(nameOf);
    NameOrderIsComparator(nameOf);
    EndsOfTree(cmp, candidates);
    FloorOfTree(cmp, candidates, spot);
    SiblingAmongCandidates(candidates, spot, nameOf);
  }

  // ---------------------------------------------------------------- the moves

  /** A successful move: the selection is cleared, then the target is added. */
  function MoveSelection(sel: Selection, target: ObjId): (r: Selection)
    ensures r.spots == {target} && r.edges == {}
    ensures |r.fired| == |sel.fired| + 4 && r.fired[..|sel.fired|] == sel.fired
  {
    AddSpot(Clear(sel), target)
  }

  /**
   * The move onto track `id`: the spot nearest in frame to `spot`. A track
   * without spots has no ring target, so the selection is only cleared.
   */
  function MoveToTrack(sel: Selection, tracks: Tracks, id: int, spot: ObjId): (r: Result<Selection, NavError>)
    ensures r.Ok? <==> id in tracks.spotsOf
    ensures r.Ok? && tracks.spotsOf[id] != [] ==>
              RingTarget(tracks.spotsOf[id], spot, tracks.frameOf).Some? &&
              RingTarget(tracks.spotsOf[id], spot, tracks.frameOf).value in tracks.spotsOf[id] &&
              r.value == MoveSelection(sel, RingTarget(tracks.spotsOf[id], spot, tracks.frameOf).value)
    ensures r.Ok? && tracks.spotsOf[id] == [] ==> r.value == Clear(sel)
  {
    if id !in tracks.spotsOf then Err(NoSuchTrack)
    else
      RingTargetInTrack(tracks.spotsOf[id], spot, tracks.frameOf);
      match RingTarget(tracks.spotsOf[id], spot, tracks.frameOf)
      case None => Ok(Clear(sel))
      case Some(target) => Ok(MoveSelection(sel, target))
  }

  /** What a move onto track `id` leaves: the selection cleared, then the one target of that track added if it has spots. */
  ghost predicate MovedOnto(sel: Selection, tracks: Tracks, id: int, r: Selection) {
    id in tracks.spotsOf &&
    (tracks.spotsOf[id] == [] ==> r == Clear(sel)) &&
    (tracks.spotsOf[id] != [] ==> exists t :: t in tracks.spotsOf[id] && r == MoveSelection(sel, t))
  }

  /** The track of `spot`, if it has one. */
  function TrackOf(tracks: Tracks, spot: ObjId): Option<int> {
    if spot in tracks.trackOf then Some(tracks.trackOf[spot]) else None
  }

  /**
   * `nextTrack`: from the current spot to the next track. Nothing happens
   * without a current spot or without tracks; otherwise the selection
   * becomes the one target spot.
   */
  function NextTrack(sel: Selection, spotOrder: seq<ObjId>, edgeOrder: seq<Edge>, tracks: Tracks): (r: Result<Selection, NavError>)
    requires Elements(spotOrder) == sel.spots && Elements(edgeOrder) == sel.edges && Distinct(tracks.ids)
    ensures (sel.spots == {} && sel.edges == {}) || tracks.ids == [] ==> r == Ok(sel)
    ensures r.Ok? && r.value != sel ==> exists id ::
              NextTrackId(tracks.ids, TrackOf(tracks, GetASpot(sel, spotOrder, edgeOrder, tracks.frameOf).value)) == Some(id) &&
              MovedOnto(sel, tracks, id, r.value)
  {
    match GetASpot(sel, spotOrder, edgeOrder, tracks.frameOf)
    case None => Ok(sel)
    case Some(spot) =>
      if tracks.ids == [] then Ok(sel)
      else
        match NextTrackId(tracks.ids, TrackOf(tracks, spot))
        case None => Err(NoSuchTrack)
        case Some(id) => MoveToTrack(sel, tracks, id, spot)
  }

  /** `previousTrack`: the mirror of `NextTrack`, towards the previous track. */
  function PreviousTrack(sel: Selection, spotOrder: seq<ObjId>, edgeOrder: seq<Edge>, tracks: Tracks): (r: Result<Selection, NavError>)
    requires Elements(spotOrder) == sel.spots && Elements(edgeOrder) == sel.edges && Distinct(tracks.ids)
    ensures (sel.spots == {} && sel.edges == {}) || tracks.ids == [] ==> r == Ok(sel)
    ensures r.Ok? && r.value != sel ==> exists id ::
              PreviousTrackId(tracks.ids, TrackOf(tracks, GetASpot(sel, spotOrder, edgeOrder, tracks.frameOf).value)) == Some(id) &&
              MovedOnto(sel, tracks, id, r.value)
  {
    match GetASpot(sel, spotOrder, edgeOrder, tracks.frameOf)
    case None => Ok(sel)
    case Some(spot) =>
      if tracks.ids == [] then Ok(sel)
      else
        match PreviousTrackId(tracks.ids, TrackOf(tracks, spot))
        case None => Err(NoSuchTrack)
        case Some(id) => MoveToTrack(sel, tracks, id, spot)
  }

  /**
   * `nextSibling`: nothing happens without a current spot, when it has no
   * track, or when it has no sibling; otherwise the selection becomes the
   * next sibling.
   */
  function NextSibling(sel: Selection, spotOrder: seq<ObjId>, edgeOrder: seq<Edge>, tracks: Tracks): (r: Result<Selection, NavError>)
    requires Elements(spotOrder) == sel.spots && Elements(edgeOrder) == sel.edges
    ensures (sel.spots == {} && sel.edges == {}) ==> r == Ok(sel)
    ensures r.Ok? && r.value != sel ==> exists t :: (r.value == MoveSelection(sel, t) &&
              var spot := GetASpot(sel, spotOrder, edgeOrder, tracks.frameOf).value;
              spot in tracks.trackOf && tracks.trackOf[spot] in tracks.spotsOf &&
              t in tracks.spotsOf[tracks.trackOf[spot]] && t != spot && tracks.frameOf(t) == tracks.frameOf(spot))
  {
    match GetASpot(sel, spotOrder, edgeOrder, tracks.frameOf)
    case None => Ok(sel)
    case Some(spot) =>
      if spot !in tracks.trackOf then Ok(sel)
      else if tracks.trackOf[spot] !in tracks.spotsOf then Err(NoSuchTrack)
      else
        var candidates := SiblingCandidates(tracks.spotsOf[tracks.trackOf[spot]], spot, tracks.frameOf);
        SiblingAmongCandidates(candidates, spot, tracks.nameOf);
        match NextSiblingIn(candidates, spot, tracks.nameOf)
        case None => Ok(sel)
        case Some(t) => Ok(MoveSelection(sel, t))
  }

  /** `previousSibling`: the mirror of `NextSibling`. */
  function PreviousSibling(sel: Selection, spotOrder: seq<ObjId>, edgeOrder: seq<Edge>, tracks: Tracks): (r: Result<Selection, NavError>)
    requires Elements(spotOrder) == sel.spots && Elements(edgeOrder) == sel.edges
    ensures (sel.spots == {} && sel.edges == {}) ==> r == Ok(sel)
    ensures r.Ok? && r.value != sel ==> exists t :: (r.value == MoveSelection(sel, t) &&
              var spot := GetASpot(sel, spotOrder, edgeOrder, tracks.frameOf).value;
              spot in tracks.trackOf && tracks.trackOf[spot] in tracks.spotsOf &&
              t in tracks.spotsOf[tracks.trackOf[spot]] && t != spot && tracks.frameOf(t) == tracks.frameOf(spot))
  {
    match GetASpot(sel, spotOrder, edgeOrder, tracks.frameOf)
    case None => Ok(sel)
    case Some(spot) =>
      if spot !in tracks.trackOf then Ok(sel)
      else if tracks.trackOf[spot] !in tracks.spotsOf then Err(NoSuchTrack)
      else
        var candidates := SiblingCandidates(tracks.spotsOf[tracks.trackOf[spot]], spot, tracks.frameOf);
        SiblingAmongCandidates(candidates, spot, tracks.nameOf);
        match PreviousSiblingIn(candidates, spot, tracks.nameOf)
        case None => Ok(sel)
        case Some(t) => Ok(MoveSelection(sel, t))
  }
}

=== FILE: nntracker.dfy ===
/**
 * The nearest-neighbour tracker: the visible objects of a frame, taken in
 * the order the frame's hash set enumerates them, are each linked to the
 * nearest visible object of the next frame present in the collection that no
 * earlier source has claimed, provided the squared distance does not exceed
 * the squared maximal linking distance. The k-d tree flag search is modelled
 * as a brute-force minimum over the unclaimed targets; the thread pool as one
 * sequential loop over frames.
 */
module NearestNeighbor {
  import opened Wrappers
  import opened Features
  import opened Trackable
  import opened Collection
  import opened CollectionIteration
  import opened Graph
  import opened FramePair

  /** The settings key holding the maximal linking distance. */
  const KEY_LINKING_MAX_DISTANCE: string := "LINKING_MAX_DISTANCE"

  /** A settings value: a `Double`, or anything else. */
  datatype Setting = DoubleSetting(value: real) | OtherSetting

  type Settings = map<string, Setting>

  datatype ParamError = MissingParameter(key: string) | NotADouble(key: string)

  /** The static `checkInput`: the maximal linking distance must be present as a `Double`. */
  function CheckInput(settings: Settings): (r: Result<real, ParamError>)
    ensures r.Ok? <==> KEY_LINKING_MAX_DISTANCE in settings && settings[KEY_LINKING_MAX_DISTANCE].DoubleSetting?
    ensures r.Ok? ==> r.value == settings[KEY_LINKING_MAX_DISTANCE].value
    ensures KEY_LINKING_MAX_DISTANCE !in settings ==> r == Err(MissingParameter(KEY_LINKING_MAX_DISTANCE))
  {
    if KEY_LINKING_MAX_DISTANCE !in settings then Err(MissingParameter(KEY_LINKING_MAX_DISTANCE))
    else match settings[KEY_LINKING_MAX_DISTANCE]
      case DoubleSetting(d) => Ok(d)
      case OtherSetting => Err(NotADouble(KEY_LINKING_MAX_DISTANCE))
  }

  /**
   * The instance `checkInput`: the error message is stored on failure and
   * left as it was on success.
   */
  function CheckInputStoring(errorMessage: Option<ParamError>, settings: Settings): (r: (bool, Option<ParamError>))
    ensures r.0 <==> CheckInput(settings).Ok?
    ensures r.0 ==> r.1 == errorMessage
    ensures !r.0 ==> r.1 == Some(CheckInput(settings).error)
  {
    match CheckInput(settings)
    case Ok(_) => (true, errorMessage)
    case Err(e) => (false, Some(e))
  }

  /** `reset`: a graph holding every visible object and no edge. */
  function Reset(c: Content, store: Store): (g: Graph)
    ensures Simple(g)
    ensures forall o :: o in g.vertices <==> o in Objects(c) && IsVisible(store, o)
    ensures g.weights == map[]
  {
    Graph(VisibleObjects(c, store), map[])
  }

  /** The squared distance the k-d tree reports between two objects. */
  function D(store: Store, a: ObjId, b: ObjId): (r: real)
    ensures r >= 0.0
    ensures r == 0.0 <==> PosOf(store, a) == PosOf(store, b)
  {
    SqDist(PosOf(store, a), PosOf(store, b))
  }

  /** The distance the tracker links by, as a value. */
  function Metric(store: Store): (ObjId, ObjId) -> real {
    (a, b) => D(store, a, b)
  }

  /**
   * Edge `e` is one the tracker may make for source frame `i`: from a visible
   * object of frame `i` to a visible object of the next present frame, within
   * range, weighted by its squared distance.
   */
  predicate LinkedAt(c: Content, store: Store, maxD2: real, i: int, e: Edge, w: real)
    requires i < LastKey(c) && c != map[]
  {
    e.source in VisibleIn(c, store, i) && e.target in VisibleIn(c, store, Higher(c, i)) &&
    w == D(store, e.source, e.target) && w <= maxD2
  }

  /** Source `s` of frame `i` has a target within range in the next present frame. */
  predicate Linkable(c: Content, store: Store, maxD2: real, i: int, s: ObjId)
    requires i < LastKey(c) && c != map[]
  {
    s in VisibleIn(c, store, i) && InRange(Metric(store), s, VisibleIn(c, store, Higher(c, i)), maxD2)
  }

  /**
   * Source `s` of frame `i` is served in `g`: it has an edge, or every target
   * within its range has an edge from some source of frame `i`.
   */
  predicate Served(c: Content, store: Store, maxD2: real, i: int, s: ObjId, g: Graph)
    requires i < LastKey(c) && c != map[]
  {
    (exists e :: e in g.weights && e.source == s) ||
    (forall t :: t in VisibleIn(c, store, Higher(c, i)) && D(store, s, t) <= maxD2 ==>
       exists e :: e in g.weights && e.target == t && e.source in VisibleIn(c, store, i))
  }

  /**
   * The frame loop's progress in `g`: every edge is one the tracker may make
   * for a source frame in `[first, i)`, and every linkable source of those
   * frames is served.
   */
  ghost predicate LinkedBelow(c: Content, store: Store, maxD2: real, first: int, i: int, g: Graph)
    requires c != map[]
  {
    (forall e :: e in g.weights ==> exists j :: first <= j < i && j < LastKey(c) && LinkedAt(c, store, maxD2, j, e, g.weights[e])) &&
    (forall j, s :: first <= j < i && j < LastKey(c) && Linkable(c, store, maxD2, j, s) ==> Served(c, store, maxD2, j, s, g))
  }

  /** No edge of `g` leaves an object of frame `i` or of the next present frame. */
  predicate FramesUntouched(c: Content, g: Graph, i: int)
    requires i < LastKey(c) && c != map[]
  {
    forall e :: e in g.weights ==> e.source !in Bucket(c, i) && e.source !in Bucket(c, Higher(c, i))
  }

  /** When no object is filed in two frames, the edges of earlier frames leave neither frame of the next pair. */
  lemma BelowUntouched(c: Content, store: Store, maxD2: real, first: int, i: int, g: Graph)
    requires c != map[] && first <= i < LastKey(c) && Exclusive(c)
    requires forall e :: e in g.weights ==> exists j :: first <= j < i && j < LastKey(c) && LinkedAt(c, store, maxD2, j, e, g.weights[e])
    ensures FramesUntouched(c, g, i)
  {
    var next := Higher(c, i);
    forall e | e in g.weights ensures e.source !in Bucket(c, i) && e.source !in Bucket(c, next) {
      var j :| first <= j < i && j < LastKey(c) && LinkedAt(c, store, maxD2, j, e, g.weights[e]);
      assert e.source in Bucket(c, j);
      assert j in c && e.source in c[j];
      assert j != i && j != next;
    }
  }

  /** Under the same conditions, the visible objects of frame `i` and of the next present frame form a fresh pair. */
  lemma FreshFrames(c: Content, store: Store, g: Graph, i: int, order: seq<ObjId>)
    requires c != map[] && i < LastKey(c) && Exclusive(c)
    requires VisibleObjects(c, store) <= g.vertices && FramesUntouched(c, g, i)
    requires forall o :: o in order <==> o in VisibleIn(c, store, i)
    ensures FreshPair(g, order, VisibleIn(c, store, Higher(c, i)))
  {
    var targets := VisibleIn(c, store, Higher(c, i));
    forall o | o in order ensures o in Bucket(c, i) && o !in targets {
      assert o in VisibleIn(c, store, i);
    }
  }

  datatype NNError = SettingError(e: ParamError) | NoFrames | LinkFailure(g: GraphError)

  /** The squared maximal linking distance. */
  function MaxDistSquare(settings: Settings): (r: real)
    requires CheckInput(settings).Ok?
    ensures r >= 0.0
  {
    MulSelfFacts(CheckInput(settings).value);
    Mul(CheckInput(settings).value, CheckInput(settings).value)
  }

  /**
   * `process`: reset, read the maximal distance, then link every integer
   * frame `i` from the first frame up to (excluding) the last to the next
   * present frame. Frame pairs whose target frame has no visible object are
   * skipped; a source frame that is absent has no objects. `orders` gives the
   * enumeration of each frame's hash set.
   */
  method Process(c: Content, store: Store, orders: Orders, settings: Settings) returns (r: Result<Graph, NNError>)
    requires HasVisibility(c, store) && WellOrdered(c, orders)
    ensures CheckInput(settings).Err? ==> r == Err(SettingError(CheckInput(settings).error))
    ensures CheckInput(settings).Ok? && c == map[] ==> r == Err(NoFrames)
    ensures r.Ok? ==> Simple(r.value) && r.value.vertices == Reset(c, store).vertices
    ensures r.Ok? ==> forall e :: e in r.value.weights ==>
              exists i :: FirstKey(c) <= i < LastKey(c) && LinkedAt(c, store, MaxDistSquare(settings), i, e, r.value.weights[e])
    ensures r.Ok? ==> forall i, s :: FirstKey(c) <= i < LastKey(c) && Linkable(c, store, MaxDistSquare(settings), i, s) ==>
              Served(c, store, MaxDistSquare(settings), i, s, r.value)
    ensures CheckInput(settings).Ok? && c != map[] && Exclusive(c) ==> r.Ok?
    ensures r.Err? ==> CheckInput(settings).Err? || c == map[] || (r.error.LinkFailure? && !Exclusive(c))
  {
    if CheckInput(settings).Err? {
      return Err(SettingError(CheckInput(settings).error));
    }
    var maxD2 := MaxDistSquare(settings);
    if c == map[] {
      return Err(NoFrames);
    }
    r := LinkFrames(c, store, orders, maxD2);
  }

  /**
   * The frame loop of `process`: from the reset graph, link every integer
   * frame from the first frame up to (excluding) the last to the next present
   * frame; only a failing edge addition stops it.
   */
  method LinkFrames(c: Content, store: Store, orders: Orders, maxD2: real) returns (r: Result<Graph, NNError>)
    requires HasVisibility(c, store) && WellOrdered(c, orders) && c != map[]
    ensures r.Err? ==> r.error.LinkFailure?
    ensures r.Ok? ==> Simple(r.value) && r.value.vertices == Reset(c, store).vertices
    ensures r.Ok? ==> forall e :: e in r.value.weights ==>
              exists i :: FirstKey(c) <= i < LastKey(c) && LinkedAt(c, store, maxD2, i, e, r.value.weights[e])
    ensures r.Ok? ==> forall i, s :: FirstKey(c) <= i < LastKey(c) && Linkable(c, store, maxD2, i, s) ==>
              Served(c, store, maxD2, i, s, r.value)
    ensures Exclusive(c) ==> r.Ok?
  {
    var g := Reset(c, store);
    var first, last := FirstKey(c), LastKey(c);
    var i := first;
    while i < last
      invariant first <= i && (i <= last || first == last)
      invariant Simple(g) && g.vertices == Reset(c, store).vertices
      invariant LinkedBelow(c, store, maxD2, first, i, g)
      decreases last - i
    {
      if Exclusive(c) {
        BelowUntouched(c, store, maxD2, first, i, g);
      }
      var step := LinkFrame(c, store, orders, maxD2, i, g);
      if step.Err? {
        return Err(LinkFailure(step.error));
      }
      ProcessStepEdges(c, store, maxD2, first, i, g, step.value);
      ProcessStepServed(c, store, maxD2, first, i, g, step.value);
      g := step.value;
      i := i + 1;
    }
    return Ok(g);
  }

  /**
   * Source `s` of frame `i` is served by the edges `h` adds to `g`: it gets
   * one, or every target within its range in the next present frame gets one.
   */
  predicate PairServed(c: Content, store: Store, maxD2: real, i: int, s: ObjId, g: Graph, h: Graph)
    requires i < LastKey(c) && c != map[]
  {
    (exists e :: e in NewEdges(g, h) && e.source == s) ||
    (forall t :: t in VisibleIn(c, store, Higher(c, i)) && D(store, s, t) <= maxD2 ==>
       exists e :: e in NewEdges(g, h) && e.target == t)
  }

  /**
   * One turn of the frame loop: link the visible objects of source frame `i`,
   * in enumeration order, to the next present frame, when that frame has
   * visible objects.
   */
  method LinkFrame(c: Content, store: Store, orders: Orders, maxD2: real, i: int, g: Graph) returns (r: Result<Graph, GraphError>)
    requires HasVisibility(c, store) && WellOrdered(c, orders) && c != map[] && i < LastKey(c)
    requires Simple(g)
    ensures r.Ok? ==> Simple(r.value) && Extends(g, r.value)
    ensures r.Ok? ==> forall e :: e in NewEdges(g, r.value) ==> LinkedAt(c, store, maxD2, i, e, r.value.weights[e])
    ensures r.Ok? ==> forall s :: s in VisibleIn(c, store, i) ==> PairServed(c, store, maxD2, i, s, g, r.value)
    ensures Exclusive(c) && VisibleObjects(c, store) <= g.vertices && FramesUntouched(c, g, i) ==> r.Ok?
  {
    var targets := VisibleIn(c, store, Higher(c, i));
    if targets != {} {
      var order := IterateFrame(c, store, orders, i, true);
      if Exclusive(c) && VisibleObjects(c, store) <= g.vertices && FramesUntouched(c, g, i) {
        FreshFrames(c, store, g, i, order);
      }
      r := LinkFramePair(g, Metric(store), order, targets, maxD2);
    } else {
      assert NewEdges(g, g) == {};
      r := Ok(g);
    }
  }

  /** After one more linked frame pair, every edge is one the tracker may make for a frame in `[first, i]`. */
  lemma ProcessStepEdges(c: Content, store: Store, maxD2: real, first: int, i: int, g: Graph, h: Graph)
    requires c != map[] && first <= i < LastKey(c)
    requires Extends(g, h)
    requires forall e :: e in g.weights ==> exists j :: first <= j < i && j < LastKey(c) && LinkedAt(c, store, maxD2, j, e, g.weights[e])
    requires forall e :: e in NewEdges(g, h) ==> LinkedAt(c, store, maxD2, i, e, h.weights[e])
    ensures forall e :: e in h.weights ==> exists j :: first <= j < i + 1 && j < LastKey(c) && LinkedAt(c, store, maxD2, j, e, h.weights[e])
  {
  }

  /** The linkable sources of earlier frames stay served, and those of frame `i` become served. */
  lemma ProcessStepServed(c: Content, store: Store, maxD2: real, first: int, i: int, g: Graph, h: Graph)
    requires c != map[] && first <= i < LastKey(c)
    requires Extends(g, h)
    requires forall j, s :: first <= j < i && j < LastKey(c) && Linkable(c, store, maxD2, j, s) ==> Served(c, store, maxD2, j, s, g)
    requires forall s :: s in VisibleIn(c, store, i) ==> PairServed(c, store, maxD2, i, s, g, h)
    requires forall e :: e in NewEdges(g, h) ==> e.source in VisibleIn(c, store, i)
    ensures forall j, s :: first <= j < i + 1 && j < LastKey(c) && Linkable(c, store, maxD2, j, s) ==> Served(c, store, maxD2, j, s, h)
  {
  }
}

=== FILE: objectutils.dfy ===
/**
 * Generic helpers over tracking objects that know their frame and their
 * coordinates: frame difference, frame ordering and squared distance.
 */
module ObjectUtils {
  import opened Wrappers
  import opened JavaLang
  import opened Trackable

  /** A tracking object as these helpers see it: a frame and one coordinate per dimension. */
  datatype Located = Located(frame: int, position: seq<real>)

  predicate HasIntFrame(t: Located) {
    IsInt(t.frame)
  }

  /** `t1.frame() - t2.frame()` in 32-bit arithmetic. */
  function FrameDiff(t1: Located, t2: Located): int
    requires HasIntFrame(t1) && HasIntFrame(t2)
  {
    SubInt(t1.frame, t2.frame)
  }

  /** The frame comparator: the same wrapped difference. */
  function FrameCompare(o1: Located, o2: Located): (r: int)
    requires HasIntFrame(o1) && HasIntFrame(o2)
    ensures r == 0 <==> o1.frame == o2.frame
  {
    SubIntZeroIff(o1.frame, o2.frame);
    SubInt(o1.frame, o2.frame)
  }

  /**
   * For the non-negative frames of a movie the difference does not overflow:
   * it is anti-symmetric and its sign orders objects by frame.
   */
  lemma FrameDiffOrders(t1: Located, t2: Located)
    requires 0 <= t1.frame <= INT_MAX && 0 <= t2.frame <= INT_MAX
    ensures FrameDiff(t1, t2) == t1.frame - t2.frame == -FrameDiff(t2, t1)
    ensures FrameCompare(t1, t2) < 0 <==> t1.frame < t2.frame
    ensures FrameCompare(t1, t2) > 0 <==> t1.frame > t2.frame
  {
    SubIntNonNegative(t1.frame, t2.frame);
  }

  /** `sum_{d < n} (a[d] - b[d])^2`. */
  function SumSqDiff(a: seq<real>, b: seq<real>, n: nat): (r: real)
    requires n <= |a| && n <= |b|
    ensures r >= 0.0
  {
    if n == 0 then 0.0 else SumSqDiff(a, b, n - 1) + Sq(a[n - 1] - b[n - 1])
  }

  lemma {:induction false} SumSqDiffZeroIff(a: seq<real>, b: seq<real>, n: nat)
    requires n <= |a| && n <= |b|
    ensures SumSqDiff(a, b, n) == 0.0 <==> a[..n] == b[..n]
  {
    if n > 0 {
      SumSqDiffZeroIff(a, b, n - 1);
      assert a[..n] == a[..n - 1] + [a[n - 1]];
      assert b[..n] == b[..n - 1] + [b[n - 1]];
      if a[..n] == b[..n] {
        assert a[..n - 1] == a[..n][..n - 1];
        assert b[..n - 1] == b[..n][..n - 1];
        assert a[n - 1] == a[..n][n - 1];
      }
    }
  }

  lemma {:induction false} SumSqDiffSymmetric(a: seq<real>, b: seq<real>, n: nat)
    requires n <= |a| && n <= |b|
    ensures SumSqDiff(a, b, n) == SumSqDiff(b, a, n)
  {
    if n > 0 {
      SumSqDiffSymmetric(a, b, n - 1);
      assert Sq(a[n - 1] - b[n - 1]) == Sq(b[n - 1] - a[n - 1]) by {
        assert Mul(a[n - 1] - b[n - 1], a[n - 1] - b[n - 1]) == Mul(b[n - 1] - a[n - 1], b[n - 1] - a[n - 1]);
      }
    }
  }

  /**
   * Squared distance over the dimensions of `t1`, replaced by the smallest
   * normal double when it is zero, so that it is always strictly positive.
   * `None` when `t2` has fewer dimensions than `t1`.
   */
  function SquareDistance(t1: Located, t2: Located): (r: Option<real>)
    ensures r.Some? <==> |t1.position| <= |t2.position|
    ensures r.Some? ==> r.value > 0.0
  {
    if |t1.position| <= |t2.position| then
      var sum := SumSqDiff(t1.position, t2.position, |t1.position|);
      MinNormalPositive();
      Some(if sum == 0.0 then MIN_NORMAL else sum)
    else None
  }

  /**
   * For objects of the same dimension the distance is symmetric, equals the
   * smallest normal double exactly when they coincide (or the true squared
   * distance happens to be that value), and otherwise is the squared distance.
   */
  lemma SquareDistanceProperties(t1: Located, t2: Located)
    requires |t1.position| == |t2.position|
    ensures SquareDistance(t1, t2) == SquareDistance(t2, t1)
    ensures t1.position == t2.position ==> SquareDistance(t1, t2) == Some(MIN_NORMAL)
    ensures SquareDistance(t1, t2).value != MIN_NORMAL ==>
              SquareDistance(t1, t2).value == SumSqDiff(t1.position, t2.position, |t1.position|)
  {
    var n := |t1.position|;
    SumSqDiffSymmetric(t1.position, t2.position, n);
    SumSqDiffZeroIff(t1.position, t2.position, n);
    assert t1.position[..n] == t1.position && t2.position[..n] == t2.position;
  }
}

=== FILE: radius.dfy ===
/**
 * The radius estimator: it tries a range of diameters around a spot's
 * nominal one, measures the mean intensity in the successive rings they
 * delimit, and keeps the diameter where the intensity drops the most,
 * refined by fitting a parabola through the neighbouring contrasts.
 */
module RadiusEstimate {
  import opened Wrappers

  /** The smallest and the largest tried diameter, as ratios of the nominal one. */
  const MIN_DIAMETER_RATIO: real := 0.1
  const MAX_DIAMETER_RATIO: real := 2.0
  /** The number of diameters tried by default. */
  const N_DIAMETERS: nat := 20

  /** The `i`-th of `n` diameters evenly spread from `0.1 c` to `2 c`. */
  function Diameter(c: real, n: nat, i: nat): real
    requires n >= 2
  {
    c * (MIN_DIAMETER_RATIO + (i as real) * (MAX_DIAMETER_RATIO - MIN_DIAMETER_RATIO) / ((n - 1) as real))
  }

  /** `prepareDiameters`: `n` diameters from `0.1 c` to `2 c`, increasing when `c` is positive. */
  function PrepareDiameters(c: real, n: nat): (d: seq<real>)
    requires n >= 2
    ensures |d| == n
    ensures d[0] == MIN_DIAMETER_RATIO * c && d[n - 1] == MAX_DIAMETER_RATIO * c
    ensures c > 0.0 ==> forall i :: 0 < i < n ==> d[i - 1] < d[i]
  {
    var d := seq(n, i requires 0 <= i => Diameter(c, n, i));
    forall i | 0 < i < n
      ensures c > 0.0 ==> d[i - 1] < d[i]
    {
      DiameterStep(c, n, i);
    }
    LastDiameter(c, n);
    d
  }

  lemma DiameterStep(c: real, n: nat, i: nat)
    requires n >= 2 && 0 < i
    ensures c > 0.0 ==> Diameter(c, n, i - 1) < Diameter(c, n, i)
  {
    var k := (MAX_DIAMETER_RATIO - MIN_DIAMETER_RATIO) / ((n - 1) as real);
    assert k > 0.0;
    assert (i as real) * k == ((i - 1) as real) * k + k;
    var a := MIN_DIAMETER_RATIO + ((i - 1) as real) * k;
    assert Diameter(c, n, i - 1) == c * a;
    assert Diameter(c, n, i) == c * (a + k) == c * a + c * k;
    if c > 0.0 {
      assert c * k > 0.0;
    }
  }

  lemma LastDiameter(c: real, n: nat)
    requires n >= 2
    ensures Diameter(c, n, n - 1) == MAX_DIAMETER_RATIO * c
  {
    var m := (n - 1) as real;
    assert m * (MAX_DIAMETER_RATIO - MIN_DIAMETER_RATIO) / m == MAX_DIAMETER_RATIO - MIN_DIAMETER_RATIO;
  }

  /** The squared ring radii `d²/4`. */
  function SquaredRadii(d: seq<real>): (r2: seq<real>)
    ensures |r2| == |d|
    ensures forall i :: 0 <= i < |d| ==> r2[i] == d[i] * d[i] / 4.0
  {
    seq(|d|, i requires 0 <= i < |d| => d[i] * d[i] / 4.0)
  }

  /** Increasing positive diameters give increasing squared radii. */
  lemma SquaredRadiiIncrease(d: seq<real>)
    requires |d| > 0 && d[0] > 0.0
    requires forall i :: 0 < i < |d| ==> d[i - 1] < d[i]
    ensures forall i :: 0 < i < |d| ==> SquaredRadii(d)[i - 1] < SquaredRadii(d)[i]
  {
    var r2 := SquaredRadii(d);
    forall i | 0 < i < |d|
      ensures r2[i - 1] < r2[i]
    {
      Positive(d, i - 1);
      var a, b := d[i - 1], d[i];
      assert a * a < a * b < b * b;
    }
  }

  lemma {:induction false} Positive(d: seq<real>, i: nat)
    requires |d| > 0 && d[0] > 0.0
    requires forall j :: 0 < j < |d| ==> d[j - 1] < d[j]
    requires i < |d|
    ensures d[i] > 0.0
  {
    if i > 0 {
      Positive(d, i - 1);
    }
  }

  /**
   * The ring a sample at squared distance `d2` falls in: the first ring
   * `i < n - 1` whose squared radius it does not exceed, else the last one.
   */
  function RingOf(r2: seq<real>, d2: real, from: nat): (i: nat)
    requires from < |r2|
    ensures from <= i < |r2|
    ensures i < |r2| - 1 ==> d2 <= r2[i]
    ensures forall j :: from <= j < i ==> d2 > r2[j]
    decreases |r2| - from
  {
    if from == |r2| - 1 || d2 <= r2[from] then from else RingOf(r2, d2, from + 1)
  }

  /**
   * For increasing squared radii the ring is the annulus holding the
   * sample: beyond the previous radius and within its own, except that the
   * last ring takes everything beyond the second-to-last radius.
   */
  lemma {:induction false} RingIsAnnulus(r2: seq<real>, d2: real)
    requires |r2| >= 1
    requires forall i :: 0 < i < |r2| ==> r2[i - 1] < r2[i]
    ensures var i := RingOf(r2, d2, 0); (
      && (i > 0 ==> r2[i - 1] < d2)
      && (i < |r2| - 1 ==> d2 <= r2[i]))
    ensures forall i :: 0 <= i < |r2| - 1 && d2 <= r2[i] && (i == 0 || r2[i - 1] < d2) ==> RingOf(r2, d2, 0) == i
  {
    IncreasingAll(r2);
  }

  lemma IncreasingAll(r2: seq<real>)
    requires forall k :: 0 < k < |r2| ==> r2[k - 1] < r2[k]
    ensures forall a, b :: 0 <= a <= b < |r2| ==> r2[a] <= r2[b]
  {
    forall a, b | 0 <= a <= b < |r2|
      ensures r2[a] <= r2[b]
    {
      Increasing(r2, a, b);
    }
  }

  lemma {:induction false} Increasing(r2: seq<real>, i: nat, j: nat)
    requires forall k :: 0 < k < |r2| ==> r2[k - 1] < r2[k]
    requires i <= j < |r2|
    ensures r2[i] <= r2[j]
    decreases j - i
  {
    if i < j {
      Increasing(r2, i, j - 1);
    }
  }

  /** A pixel visited by the cursor: its squared distance to the spot centre and its intensity. */
  datatype Sample = Sample(d2: real, value: real)

  /** Zero-filled accumulators for `n` rings. */
  function Zeros(n: nat): (z: seq<real>)
    ensures |z| == n && forall i :: 0 <= i < n ==> z[i] == 0.0
  {
    seq(n, _ => 0.0)
  }

  /** The sum of a sequence of counts. */
  function Total(v: seq<nat>): nat {
    if v == [] then 0 else Total(v[..|v| - 1]) + v[|v| - 1]
  }

  lemma {:induction false} TotalIncrement(v: seq<nat>, i: nat)
    requires i < |v|
    ensures Total(v[i := v[i] + 1]) == Total(v) + 1
    decreases |v|
  {
    var w := v[i := v[i] + 1];
    assert w[..|w| - 1] == if i < |v| - 1 then v[..|v| - 1][i := v[i] + 1] else v[..|v| - 1];
    if i < |v| - 1 {
      TotalIncrement(v[..|v| - 1], i);
    }
  }

  lemma {:induction false} TotalZero(n: nat)
    ensures Total(seq(n, _ => 0)) == 0
  {
    if n > 0 {
      assert seq(n, _ => 0)[..n - 1] == seq(n - 1, _ => 0);
      TotalZero(n - 1);
    }
  }

  /**
   * The cursor loop: every sample adds its intensity to the sum of its ring
   * and one to that ring's volume.
   */
  function Accumulate(samples: seq<Sample>, r2: seq<real>): (acc: (seq<real>, seq<nat>))
    requires |r2| >= 1
    ensures |acc.0| == |r2| && |acc.1| == |r2|
    ensures Total(acc.1) == |samples|
    decreases |samples|
  {
    if samples == [] then
      TotalZero(|r2|);
      (Zeros(|r2|), seq(|r2|, _ => 0))
    else
      var prev := Accumulate(samples[..|samples| - 1], r2);
      var s := samples[|samples| - 1];
      var i := RingOf(r2, s.d2, 0);
      TotalIncrement(prev.1, i);
      (prev.0[i := prev.0[i] + s.value], prev.1[i := prev.1[i] + 1])
  }

  /** Some sample falls in ring `i`. */
  predicate Hit(samples: seq<Sample>, r2: seq<real>, i: nat)
    requires |r2| >= 1
  {
    exists k :: 0 <= k < |samples| && RingOf(r2, samples[k].d2, 0) == i
  }

  /** A ring receives a sample exactly when some sample falls in it. */
  lemma {:induction false} RingVolumes(samples: seq<Sample>, r2: seq<real>, i: nat)
    requires |r2| >= 1 && i < |r2|
    ensures Accumulate(samples, r2).1[i] > 0 <==> Hit(samples, r2, i)
    decreases |samples|
  {
    if samples != [] {
      var init := samples[..|samples| - 1];
      var last := samples[|samples| - 1];
      RingVolumes(init, r2, i);
      var before := Accumulate(init, r2).1;
      var j := RingOf(r2, last.d2, 0);
      assert Accumulate(samples, r2).1 == before[j := before[j] + 1];
      assert Accumulate(samples, r2).1[i] > 0 <==> before[i] > 0 || j == i;
      assert samples == init + [last];
      HitSplit(samples, init, last, r2, i);
    }
  }

  /** Some sample of `init + [last]` falls in ring `i` exactly when one of `init` or `last` does. */
  lemma HitSplit(samples: seq<Sample>, init: seq<Sample>, last: Sample, r2: seq<real>, i: nat)
    requires |r2| >= 1 && samples == init + [last]
    ensures Hit(samples, r2, i) <==> Hit(init, r2, i) || RingOf(r2, last.d2, 0) == i
  {
    if Hit(init, r2, i) {
      var k :| 0 <= k < |init| && RingOf(r2, init[k].d2, 0) == i;
      assert samples[k] == init[k];
    }
    if RingOf(r2, last.d2, 0) == i {
      assert samples[|init|] == last;
    }
    if Hit(samples, r2, i) {
      var k :| 0 <= k < |samples| && RingOf(r2, samples[k].d2, 0) == i;
      if k < |init| {
        assert init[k] == samples[k];
      }
    }
  }

  /**
   * The mean intensity of each ring; `None` for a ring that received no
   * sample, where Java divides `0.0` by a zero volume and gets NaN.
   */
  function MeanIntensities(sums: seq<real>, volumes: seq<nat>): (m: seq<Option<real>>)
    requires |sums| == |volumes|
    ensures |m| == |sums|
    ensures forall i :: 0 <= i < |sums| ==> (m[i].Some? <==> volumes[i] > 0)
    ensures forall i :: 0 <= i < |sums| && m[i].Some? ==> m[i].value * (volumes[i] as real) == sums[i]
  {
    seq(|sums|, i requires 0 <= i < |sums| => if volumes[i] > 0 then Some(sums[i] / (volumes[i] as real)) else None)
  }

  /**
   * The contrast at each diameter: how much the mean intensity drops from
   * one ring to the next; undefined (NaN) when either mean is.
   */
  function Contrasts(means: seq<Option<real>>): (c: seq<Option<real>>)
    requires |means| >= 1
    ensures |c| == |means| - 1
    ensures forall j :: 0 <= j < |c| ==> (c[j].Some? <==> means[j].Some? && means[j + 1].Some?)
    ensures forall j :: 0 <= j < |c| && c[j].Some? ==> means[j + 1].value == means[j].value - c[j].value
  {
    seq(|means| - 1, j requires 0 <= j < |means| - 1 =>
      if means[j].Some? && means[j + 1].Some? then Some(-(means[j + 1].value - means[j].value)) else None)
  }

  /** The sum of the defined values. */
  function Sum(v: seq<Option<real>>): real {
    if v == [] then 0.0 else Sum(v[..|v| - 1]) + (if v[|v| - 1].Some? then v[|v| - 1].value else 0.0)
  }

  /** When every ring has a mean, the contrasts telescope: together they are the drop from the innermost to the outermost ring. */
  lemma {:induction false} ContrastsTelescope(means: seq<Option<real>>)
    requires |means| >= 1
    requires forall i :: 0 <= i < |means| ==> means[i].Some?
    ensures Sum(Contrasts(means)) == means[0].value - means[|means| - 1].value
    decreases |means|
  {
    if |means| > 1 {
      var init := means[..|means| - 1];
      ContrastsTelescope(init);
      assert Contrasts(means)[..|means| - 2] == Contrasts(init);
    }
  }

  /**
   * The index the search for the largest contrast settles on. The running
   * maximum starts below every number and a comparison with NaN is false,
   * so it is the first largest defined contrast, or 0 when none is defined.
   */
  function FirstMax(c: seq<Option<real>>, k: nat): (m: nat)
    requires 1 <= k <= |c|
    ensures m < k
    ensures c[m].None? ==> m == 0 && forall j :: 0 <= j < k ==> c[j].None?
    ensures c[m].Some? ==> forall j :: 0 <= j < k && c[j].Some? ==> c[j].value <= c[m].value
    ensures c[m].Some? ==> forall j :: 0 <= j < m && c[j].Some? ==> c[j].value < c[m].value
  {
    if k == 1 then 0
    else
      var prev := FirstMax(c, k - 1);
      if c[k - 1].Some? && (c[prev].None? || c[k - 1].value > c[prev].value) then k - 1 else prev
  }

  /**
   * The abscissa of the vertex of the parabola through three points;
   * the middle abscissa when they are aligned, and `None` when two
   * abscissas coincide and the slopes are not numbers.
   */
  function Interpolate(x1: real, y1: real, x2: real, y2: real, x3: real, y3: real): (r: Option<real>)
    ensures r.Some? <==> x1 != x2 && x2 != x3 && x1 != x3
  {
    if x1 == x2 || x2 == x3 || x1 == x3 then None
    else
      var d2 := 2.0 * ((y3 - y2) / (x3 - x2) - (y2 - y1) / (x2 - x1)) / (x3 - x1);
      if d2 == 0.0 then Some(x2)
      else
        var d1 := (y3 - y2) / (x3 - x2) - d2 / 2.0 * (x3 - x2);
        Some(x2 - d1 / d2)
  }

  /** `a + b (x - x2) + c (x - x2)²`. */
  function Parabola(a: real, b: real, c: real, x2: real, x: real): real {
    a + b * (x - x2) + c * (x - x2) * (x - x2)
  }

  /** Half the second derivative of the parabola through the three points. */
  function Curvature(x1: real, y1: real, x2: real, y2: real, x3: real, y3: real): real
    requires x1 != x2 && x2 != x3 && x1 != x3
  {
    ((y3 - y2) / (x3 - x2) - (y2 - y1) / (x2 - x1)) / (x3 - x1)
  }

  /** The slope at `x2` of the parabola through the three points. */
  function SlopeAtMiddle(x1: real, y1: real, x2: real, y2: real, x3: real, y3: real): real
    requires x1 != x2 && x2 != x3 && x1 != x3
  {
    (y3 - y2) / (x3 - x2) - Curvature(x1, y1, x2, y2, x3, y3) * (x3 - x2)
  }

  /**
   * The interpolation's partner: the parabola it builds passes through the
   * three points, and when it is not a line its slope vanishes at the
   * returned abscissa; when the three points are aligned the result is the
   * middle abscissa.
   */
  lemma InterpolateIsVertex(x1: real, y1: real, x2: real, y2: real, x3: real, y3: real)
    requires x1 != x2 && x2 != x3 && x1 != x3
    ensures Parabola(y2, SlopeAtMiddle(x1, y1, x2, y2, x3, y3), Curvature(x1, y1, x2, y2, x3, y3), x2, x1) == y1
    ensures Parabola(y2, SlopeAtMiddle(x1, y1, x2, y2, x3, y3), Curvature(x1, y1, x2, y2, x3, y3), x2, x2) == y2
    ensures Parabola(y2, SlopeAtMiddle(x1, y1, x2, y2, x3, y3), Curvature(x1, y1, x2, y2, x3, y3), x2, x3) == y3
    ensures Curvature(x1, y1, x2, y2, x3, y3) != 0.0 ==>
              SlopeAtMiddle(x1, y1, x2, y2, x3, y3)
              + 2.0 * Curvature(x1, y1, x2, y2, x3, y3) * (Interpolate(x1, y1, x2, y2, x3, y3).value - x2) == 0.0
    ensures Curvature(x1, y1, x2, y2, x3, y3) == 0.0 ==> Interpolate(x1, y1, x2, y2, x3, y3) == Some(x2)
  {
    ParabolaPoints(x1, y1, x2, y2, x3, y3);
    var c := Curvature(x1, y1, x2, y2, x3, y3);
    var b := SlopeAtMiddle(x1, y1, x2, y2, x3, y3);
    InterpolateForm(x1, y1, x2, y2, x3, y3);
    if c != 0.0 {
      var q := b / (2.0 * c);
      assert Interpolate(x1, y1, x2, y2, x3, y3).value - x2 == -q;
      DivMul(b, 2.0 * c);
      assert 2.0 * c * -q == -b;
    }
  }

  /** The parabola with the middle point's value, slope and curvature passes through the three points. */
  lemma ParabolaPoints(x1: real, y1: real, x2: real, y2: real, x3: real, y3: real)
    requires x1 != x2 && x2 != x3 && x1 != x3
    ensures Parabola(y2, SlopeAtMiddle(x1, y1, x2, y2, x3, y3), Curvature(x1, y1, x2, y2, x3, y3), x2, x1) == y1
    ensures Parabola(y2, SlopeAtMiddle(x1, y1, x2, y2, x3, y3), Curvature(x1, y1, x2, y2, x3, y3), x2, x3) == y3
  {
    var s1 := (y2 - y1) / (x2 - x1);
    var s3 := (y3 - y2) / (x3 - x2);
    var c := Curvature(x1, y1, x2, y2, x3, y3);
    assert c == (s3 - s1) / (x3 - x1);
    DivMul(y2 - y1, x2 - x1);
    DivMul(y3 - y2, x3 - x2);
    DivMul(s3 - s1, x3 - x1);
    ParabolaThrough(y1, y2, y3, s1, s3, c, SlopeAtMiddle(x1, y1, x2, y2, x3, y3), x1, x2, x3);
  }

  /** The interpolation in terms of the curvature and the middle slope: `x2 - b / 2c`, or `x2` on a line. */
  lemma InterpolateForm(x1: real, y1: real, x2: real, y2: real, x3: real, y3: real)
    requires x1 != x2 && x2 != x3 && x1 != x3
    ensures Curvature(x1, y1, x2, y2, x3, y3) == 0.0 ==> Interpolate(x1, y1, x2, y2, x3, y3) == Some(x2)
    ensures Curvature(x1, y1, x2, y2, x3, y3) != 0.0 ==>
              Interpolate(x1, y1, x2, y2, x3, y3)
              == Some(x2 - SlopeAtMiddle(x1, y1, x2, y2, x3, y3) / (2.0 * Curvature(x1, y1, x2, y2, x3, y3)))
  {
    var s1 := (y2 - y1) / (x2 - x1);
    var s3 := (y3 - y2) / (x3 - x2);
    var c := Curvature(x1, y1, x2, y2, x3, y3);
    var d2 := 2.0 * (s3 - s1) / (x3 - x1);
    DivScale(s3 - s1, x3 - x1, 2.0);
    assert d2 == 2.0 * c;
    if c != 0.0 {
      assert d2 / 2.0 == c;
      var d1 := s3 - d2 / 2.0 * (x3 - x2);
      assert d1 == SlopeAtMiddle(x1, y1, x2, y2, x3, y3);
      assert Interpolate(x1, y1, x2, y2, x3, y3) == Some(x2 - d1 / d2);
    } else {
      assert d2 == 0.0;
    }
  }

  lemma DivMul(a: real, b: real)
    requires b != 0.0
    ensures (a / b) * b == a
  {
  }

  lemma DivScale(a: real, b: real, k: real)
    requires b != 0.0
    ensures (k * a) / b == k * (a / b)
  {
  }

  /** The polynomial identities behind `ParabolaPoints`, with `u = x3 - x2` and `v = x1 - x2`. */
  lemma ParabolaThrough(y1: real, y2: real, y3: real, s1: real, s3: real, c: real, b: real, x1: real, x2: real, x3: real)
    requires s1 * (x2 - x1) == y2 - y1 && s3 * (x3 - x2) == y3 - y2 && c * (x3 - x1) == s3 - s1
    requires b == s3 - c * (x3 - x2)
    ensures Parabola(y2, b, c, x2, x3) == y3
    ensures Parabola(y2, b, c, x2, x1) == y1
  {
    var u, v := x3 - x2, x1 - x2;
    assert Parabola(y2, b, c, x2, x3) == y2 + b * u + c * u * u;
    assert Parabola(y2, b, c, x2, x1) == y2 + b * v + c * v * v;
    assert b * u == s3 * u - c * u * u;
    assert b * v + c * v * v == s3 * v - c * v * (u - v);
    assert c * v * (u - v) == v * (s3 - s1);
  }

  /**
   * The estimated diameter from the tried diameters and the contrasts: the
   * diameter of the first largest contrast when it is one of the first two
   * or the last; otherwise the parabola vertex through it and its
   * neighbours, NaN (`None`) when a neighbouring contrast is.
   */
  function BestDiameter(diameters: seq<real>, c: seq<Option<real>>): Option<real>
    requires |c| >= 1 && |diameters| == |c| + 1
  {
    var m := FirstMax(c, |c|);
    if 1 >= m || |c| - 1 == m then Some(diameters[m])
    else if c[m - 1].Some? && c[m].Some? && c[m + 1].Some? then
      Interpolate(diameters[m - 1], c[m - 1].value, diameters[m], c[m].value, diameters[m + 1], c[m + 1].value)
    else None
  }

  /**
   * When the middle point is the highest, the vertex of the parabola lies
   * between the outer two abscissas.
   */
  lemma VertexBetween(x1: real, y1: real, x2: real, y2: real, x3: real, y3: real)
    requires x1 < x2 < x3 && y1 <= y2 && y3 <= y2
    ensures x1 <= Interpolate(x1, y1, x2, y2, x3, y3).value <= x3
  {
    var s1 := (y2 - y1) / (x2 - x1);
    var s3 := (y3 - y2) / (x3 - x2);
    var k := Curvature(x1, y1, x2, y2, x3, y3);
    var b := SlopeAtMiddle(x1, y1, x2, y2, x3, y3);
    var u, w := x3 - x2, x2 - x1;
    assert k == (s3 - s1) / (x3 - x1) && b == s3 - k * u;
    DivSign(y2 - y1, x2 - x1);
    DivSign(y2 - y3, x3 - x2);
    assert (y2 - y3) / (x3 - x2) == -s3;
    DivMul(s3 - s1, x3 - x1);
    assert x3 - x1 == u + w;
    VertexAlgebra(s1, s3, k, u, w);
    InterpolateForm(x1, y1, x2, y2, x3, y3);
    if k != 0.0 {
      var t := Interpolate(x1, y1, x2, y2, x3, y3).value - x2;
      assert t == -(b / (2.0 * k));
      DivMul(b, 2.0 * k);
      assert b + 2.0 * k * t == 0.0;
      assert (t - u) * (2.0 * k) == -(s3 + k * u);
      assert (t + w) * (2.0 * k) == -(s3 - k * u - 2.0 * k * w);
      NegativeFactor(t - u, 2.0 * k);
      NegativeFactor(-(t + w), 2.0 * k);
    }
  }

  lemma DivSign(a: real, b: real)
    requires a >= 0.0 && b > 0.0
    ensures a / b >= 0.0
  {
  }

  /** A product with a negative factor has the opposite sign of the other factor. */
  lemma NegativeFactor(x: real, y: real)
    requires y < 0.0 && x * y >= 0.0
    ensures x <= 0.0
  {
  }

  /** The sign facts behind `VertexBetween`, with `u = x3 - x2` and `w = x2 - x1`. */
  lemma VertexAlgebra(s1: real, s3: real, k: real, u: real, w: real)
    requires u > 0.0 && w > 0.0 && s1 >= 0.0 && s3 <= 0.0 && k * (u + w) == s3 - s1
    ensures k <= 0.0
    ensures s3 + k * u <= 0.0
    ensures s3 - k * u - 2.0 * k * w >= 0.0
  {
    assert k * -(u + w) == s1 - s3;
    NegativeFactor(k, -(u + w));
    assert (s3 + k * u) * (u + w) == s3 * w + 2.0 * s3 * u - s1 * u;
    assert s3 * w <= 0.0 && s3 * u <= 0.0 && s1 * u >= 0.0;
    NegativeFactor(s3 + k * u, -(u + w));
    assert (s3 - k * u - 2.0 * k * w) * (u + w) == s1 * u + 2.0 * s1 * w - s3 * w;
    assert s1 * w >= 0.0;
    NegativeFactor(-(s3 - k * u - 2.0 * k * w), -(u + w));
  }

  /**
   * With increasing diameters the estimate is undefined exactly when the
   * vertex would be fitted through an undefined neighbouring contrast;
   * otherwise it stays within the tried range, and a vertex lies between
   * the neighbouring diameters.
   */
  lemma BestDiameterCases(diameters: seq<real>, c: seq<Option<real>>)
    requires |c| >= 1 && |diameters| == |c| + 1
    requires forall i :: 0 < i < |diameters| ==> diameters[i - 1] < diameters[i]
    ensures var r := BestDiameter(diameters, c);
            var m := FirstMax(c, |c|);
            && (r.None? <==> 1 < m < |c| - 1 && (c[m - 1].None? || c[m + 1].None?))
            && (r.Some? ==> diameters[0] <= r.value <= diameters[|c|])
            && (r.Some? && 1 < m < |c| - 1 ==> diameters[m - 1] <= r.value <= diameters[m + 1])
  {
    var m := FirstMax(c, |c|);
    var n := |diameters|;
    if 1 < m < |c| - 1 && c[m - 1].Some? && c[m + 1].Some? {
      Increasing(diameters, 0, m - 1);
      Increasing(diameters, m + 1, n - 1);
      VertexBetween(diameters[m - 1], c[m - 1].value, diameters[m], c[m].value, diameters[m + 1], c[m + 1].value);
    } else {
      Increasing(diameters, 0, m);
      Increasing(diameters, m, n - 1);
    }
  }

  /** The cursor visits only pixels within the second-largest tried radius. */
  predicate WithinCursor(radius: real, n: nat, samples: seq<Sample>)
    requires n >= 2
  {
    forall k :: 0 <= k < |samples| ==> samples[k].d2 <= SquaredRadii(PrepareDiameters(2.0 * radius, n))[n - 2]
  }

  /** The contrasts computed for a spot of the given radius from the pixels its cursor visits. */
  function ContrastsOf(radius: real, n: nat, samples: seq<Sample>): (c: seq<Option<real>>)
    requires n >= 2
    ensures |c| == n - 1
  {
    var acc := Accumulate(samples, SquaredRadii(PrepareDiameters(2.0 * radius, n)));
    Contrasts(MeanIntensities(acc.0, acc.1))
  }

  /** A sample within the second-largest radius never reaches the last ring. */
  lemma {:induction false} RingBeforeLast(r2: seq<real>, d2: real, from: nat)
    requires from + 2 <= |r2| && d2 <= r2[|r2| - 2]
    ensures RingOf(r2, d2, from) <= |r2| - 2
    decreases |r2| - from
  {
    if d2 > r2[from] {
      RingBeforeLast(r2, d2, from + 1);
    }
  }

  /**
   * Because the cursor stops at the second-largest radius, the outermost
   * ring stays empty, so the outermost contrast is NaN and the search for
   * the largest contrast never settles on the last index (beyond two
   * diameters).
   */
  lemma OutermostContrastUndefined(radius: real, n: nat, samples: seq<Sample>)
    requires n >= 2 && WithinCursor(radius, n, samples)
    ensures ContrastsOf(radius, n, samples)[n - 2].None?
    ensures n >= 3 ==> FirstMax(ContrastsOf(radius, n, samples), n - 1) < n - 2
  {
    var r2 := SquaredRadii(PrepareDiameters(2.0 * radius, n));
    forall k | 0 <= k < |samples| ensures RingOf(r2, samples[k].d2, 0) != n - 1 {
      RingBeforeLast(r2, samples[k].d2, 0);
    }
    RingVolumes(samples, r2, n - 1);
  }

  /**
   * `process`: the estimate for a spot of the given radius from the pixels
   * its cursor visits; `None` stands for NaN.
   */
  function Estimate(radius: real, n: nat, samples: seq<Sample>): (r: Option<real>)
    requires n >= 2 && WithinCursor(radius, n, samples)
    ensures var d := PrepareDiameters(2.0 * radius, n);
            var c := ContrastsOf(radius, n, samples);
            var m := FirstMax(c, n - 1);
            && (m <= 1 ==> r == Some(d[m]))
            && (n >= 5 && m == n - 3 ==> r.None?)
            && (radius > 0.0 ==> (r.None? <==> 1 < m < n - 2 && (c[m - 1].None? || c[m + 1].None?)))
            && (radius > 0.0 && r.Some? ==> MIN_DIAMETER_RATIO * 2.0 * radius <= r.value <= MAX_DIAMETER_RATIO * 2.0 * radius)
            && (radius > 0.0 && r.Some? && 1 < m ==> d[m - 1] <= r.value <= d[m + 1])
  {
    var d := PrepareDiameters(2.0 * radius, n);
    var c := ContrastsOf(radius, n, samples);
    OutermostContrastUndefined(radius, n, samples);
    UndefinedNeighbour(d, c);
    if radius > 0.0 then
      BestDiameterCases(d, c);
      BestDiameter(d, c)
    else
      BestDiameter(d, c)
  }

  /** A vertex fitted through an undefined right-hand contrast is NaN. */
  lemma UndefinedNeighbour(diameters: seq<real>, c: seq<Option<real>>)
    requires |c| >= 1 && |diameters| == |c| + 1
    ensures var m := FirstMax(c, |c|);
            1 < m < |c| - 1 && c[m + 1].None? ==> BestDiameter(diameters, c).None?
  {
  }
}

=== FILE: segments.dfy ===
/**
 * `GraphSegmentSplitter`: splits each connected component of a track graph
 * into a segment start (an earliest object), a segment end (a latest object)
 * and, on request, the objects in between in frame order. The connected
 * components and the iteration order of each component set are inputs; since
 * the frame sort is stable, ties in frame are broken by that order: the start
 * is the first earliest object enumerated, the end the last latest one.
 */
module Segments {
  import opened Sets

  type ObjId = int

  /** `s` is in ascending frame order. */
  predicate SortedByFrame(s: seq<ObjId>, frameOf: ObjId -> int) {
    forall i, j :: 0 <= i < j < |s| ==> frameOf(s[i]) <= frameOf(s[j])
  }

  /** Inserts `x` after every element whose frame is not greater, so that equal frames keep their order. */
  function Insert(x: ObjId, s: seq<ObjId>, frameOf: ObjId -> int): (r: seq<ObjId>)
    ensures multiset(r) == multiset(s) + multiset{x}
  {
    if |s| == 0 then [x]
    else if frameOf(x) < frameOf(s[0]) then [x] + s
    else
      assert s == [s[0]] + s[1..];
      [s[0]] + Insert(x, s[1..], frameOf)
  }

  lemma {:induction false} InsertSorted(x: ObjId, s: seq<ObjId>, frameOf: ObjId -> int)
    requires SortedByFrame(s, frameOf)
    ensures SortedByFrame(Insert(x, s, frameOf), frameOf)
  {
    if |s| > 0 {
      if frameOf(x) < frameOf(s[0]) {
        forall y | y in s ensures frameOf(x) <= frameOf(y) {
          var k :| 0 <= k < |s| && s[k] == y;
        }
        ConsSorted(x, s, frameOf);
      } else {
        var rest := Insert(x, s[1..], frameOf);
        SortedSlice(s, frameOf, 1, |s|);
        InsertSorted(x, s[1..], frameOf);
        HeadBelowInsert(x, s, frameOf);
        ConsSorted(s[0], rest, frameOf);
      }
    }
  }

  /** The first object of a sorted sequence is not later than anything inserted behind it. */
  lemma HeadBelowInsert(x: ObjId, s: seq<ObjId>, frameOf: ObjId -> int)
    requires SortedByFrame(s, frameOf) && |s| > 0 && frameOf(x) >= frameOf(s[0])
    ensures forall y :: y in Insert(x, s[1..], frameOf) ==> frameOf(s[0]) <= frameOf(y)
  {
    var rest := Insert(x, s[1..], frameOf);
    forall y | y in rest ensures frameOf(s[0]) <= frameOf(y) {
      assert y in multiset(rest);
      if y != x {
        assert y in multiset(s[1..]);
        var k :| 0 <= k < |s[1..]| && s[1..][k] == y;
        assert s[k + 1] == y;
      }
    }
  }

  /** An object not later than every object of a sorted sequence can go in front. */
  lemma ConsSorted(h: ObjId, rest: seq<ObjId>, frameOf: ObjId -> int)
    requires SortedByFrame(rest, frameOf)
    requires forall y :: y in rest ==> frameOf(h) <= frameOf(y)
    ensures SortedByFrame([h] + rest, frameOf)
  {
    var r := [h] + rest;
    forall i, j | 0 <= i < j < |r| ensures frameOf(r[i]) <= frameOf(r[j]) {
      assert r[j] == rest[j - 1];
      if i > 0 {
        assert r[i] == rest[i - 1];
      } else {
        assert rest[j - 1] in rest;
      }
    }
  }

  lemma SortedSlice(s: seq<ObjId>, frameOf: ObjId -> int, a: int, b: int)
    requires SortedByFrame(s, frameOf) && 0 <= a <= b <= |s|
    ensures SortedByFrame(s[a..b], frameOf)
  {
    forall i, j | 0 <= i < j < b - a ensures frameOf(s[a..b][i]) <= frameOf(s[a..b][j]) {
      assert s[a..b][i] == s[a + i] && s[a..b][j] == s[a + j];
    }
  }

  /** `Collections.sort` with the frame comparator: a stable sort by ascending frame. */
  function SortByFrame(s: seq<ObjId>, frameOf: ObjId -> int): (r: seq<ObjId>)
    ensures multiset(r) == multiset(s)
    ensures SortedByFrame(r, frameOf)
  {
    if |s| == 0 then []
    else
      assert s == s[..|s| - 1] + [s[|s| - 1]];
      var sorted := SortByFrame(s[..|s| - 1], frameOf);
      InsertSorted(s[|s| - 1], sorted, frameOf);
      Insert(s[|s| - 1], sorted, frameOf)
  }

  /** The objects of `s` in frame `t`, in their order in `s`. */
  function AtFrame(s: seq<ObjId>, t: int, frameOf: ObjId -> int): seq<ObjId> {
    if s == [] then [] else (if frameOf(s[0]) == t then [s[0]] else []) + AtFrame(s[1..], t, frameOf)
  }

  lemma {:induction false} AtFrameMembers(s: seq<ObjId>, t: int, frameOf: ObjId -> int)
    ensures forall y :: y in AtFrame(s, t, frameOf) <==> y in s && frameOf(y) == t
    decreases |s|
  {
    if s != [] {
      AtFrameMembers(s[1..], t, frameOf);
      assert s == [s[0]] + s[1..];
    }
  }

  lemma AtFrameCons(x: ObjId, s: seq<ObjId>, t: int, frameOf: ObjId -> int)
    ensures AtFrame([x] + s, t, frameOf) == AtFrame([x], t, frameOf) + AtFrame(s, t, frameOf)
  {
    assert ([x] + s)[0] == x;
    assert ([x] + s)[1..] == s;
    assert [x][1..] == [];
  }

  lemma {:induction false} AtFrameAppend(a: seq<ObjId>, b: seq<ObjId>, t: int, frameOf: ObjId -> int)
    ensures AtFrame(a + b, t, frameOf) == AtFrame(a, t, frameOf) + AtFrame(b, t, frameOf)
    decreases |a|
  {
    if a == [] {
      assert a + b == b;
    } else {
      var h := if frameOf(a[0]) == t then [a[0]] else [];
      assert (a + b)[0] == a[0];
      assert (a + b)[1..] == a[1..] + b;
      assert AtFrame(a + b, t, frameOf) == h + AtFrame(a[1..] + b, t, frameOf);
      AtFrameAppend(a[1..], b, t, frameOf);
      assert AtFrame(a, t, frameOf) == h + AtFrame(a[1..], t, frameOf);
      assert h + (AtFrame(a[1..], t, frameOf) + AtFrame(b, t, frameOf))
          == (h + AtFrame(a[1..], t, frameOf)) + AtFrame(b, t, frameOf);
    }
  }

  lemma {:induction false} AtFrameEmpty(s: seq<ObjId>, t: int, frameOf: ObjId -> int)
    requires forall k :: 0 <= k < |s| ==> frameOf(s[k]) != t
    ensures AtFrame(s, t, frameOf) == []
    decreases |s|
  {
    if s != [] {
      assert frameOf(s[0]) != t;
      assert forall k :: 0 <= k < |s| - 1 ==> s[1..][k] == s[k + 1];
      AtFrameEmpty(s[1..], t, frameOf);
      assert AtFrame(s, t, frameOf) == [] + AtFrame(s[1..], t, frameOf);
    }
  }

  /** The last object of a sequence is the last one of its frame. */
  lemma AtFrameLast(s: seq<ObjId>, frameOf: ObjId -> int)
    requires s != []
    ensures AtFrame(s, frameOf(s[|s| - 1]), frameOf) != []
    ensures AtFrame(s, frameOf(s[|s| - 1]), frameOf)[|AtFrame(s, frameOf(s[|s| - 1]), frameOf)| - 1] == s[|s| - 1]
  {
    var n := |s|;
    assert s == s[..n - 1] + [s[n - 1]];
    AtFrameAppend(s[..n - 1], [s[n - 1]], frameOf(s[n - 1]), frameOf);
    assert AtFrame([s[n - 1]], frameOf(s[n - 1]), frameOf) == [s[n - 1]];
  }

  /** Putting an object earlier than all of a sorted sequence in front of it keeps each frame's order. */
  lemma FrontStable(x: ObjId, s: seq<ObjId>, t: int, frameOf: ObjId -> int)
    requires SortedByFrame(s, frameOf) && |s| > 0 && frameOf(x) < frameOf(s[0])
    ensures AtFrame([x] + s, t, frameOf) == AtFrame(s, t, frameOf) + AtFrame([x], t, frameOf)
  {
    AtFrameCons(x, s, t, frameOf);
    if frameOf(x) == t {
      AtFrameEmpty(s, t, frameOf);
    }
  }

  lemma BehindStable(s: seq<ObjId>, rest: seq<ObjId>, tail: seq<ObjId>, t: int, frameOf: ObjId -> int)
    requires |s| > 0 && AtFrame(rest, t, frameOf) == AtFrame(s[1..], t, frameOf) + tail
    ensures AtFrame([s[0]] + rest, t, frameOf) == AtFrame(s, t, frameOf) + tail
  {
    AtFrameCons(s[0], rest, t, frameOf);
    AtFrameCons(s[0], s[1..], t, frameOf);
    assert [s[0]] + s[1..] == s;
  }

  /** Inserting `x` into a sorted sequence puts it behind every object of its frame. */
  lemma {:induction false} InsertStable(x: ObjId, s: seq<ObjId>, t: int, frameOf: ObjId -> int)
    requires SortedByFrame(s, frameOf)
    ensures AtFrame(Insert(x, s, frameOf), t, frameOf) == AtFrame(s, t, frameOf) + AtFrame([x], t, frameOf)
    decreases |s|
  {
    if |s| == 0 {
      assert Insert(x, s, frameOf) == [x];
      assert AtFrame(s, t, frameOf) == [];
    } else if frameOf(x) < frameOf(s[0]) {
      assert Insert(x, s, frameOf) == [x] + s;
      FrontStable(x, s, t, frameOf);
    } else {
      assert Insert(x, s, frameOf) == [s[0]] + Insert(x, s[1..], frameOf);
      SortedSlice(s, frameOf, 1, |s|);
      InsertStable(x, s[1..], t, frameOf);
      BehindStable(s, Insert(x, s[1..], frameOf), AtFrame([x], t, frameOf), t, frameOf);
    }
  }

  /** The frame sort is stable: within each frame, the objects keep their order. */
  lemma {:induction false} SortStable(s: seq<ObjId>, t: int, frameOf: ObjId -> int)
    ensures AtFrame(SortByFrame(s, frameOf), t, frameOf) == AtFrame(s, t, frameOf)
    decreases |s|
  {
    if |s| > 0 {
      var init, last := s[..|s| - 1], s[|s| - 1];
      SortStable(init, t, frameOf);
      InsertStable(last, SortByFrame(init, frameOf), t, frameOf);
      assert s == init + [last];
      AtFrameAppend(init, [last], t, frameOf);
    }
  }

  /** No object enumerated before the first one of a frame is in that frame. */
  lemma {:induction false} FirstOfFrame(c: seq<ObjId>, t: int, frameOf: ObjId -> int, i: int, j: int)
    requires Distinct(c) && 0 <= i < j < |c| && AtFrame(c, t, frameOf) != [] && AtFrame(c, t, frameOf)[0] == c[j]
    ensures frameOf(c[i]) != t
    decreases |c|
  {
    if frameOf(c[0]) == t {
      assert false;
    } else if i > 0 {
      assert AtFrame(c, t, frameOf) == AtFrame(c[1..], t, frameOf);
      DistinctTail(c);
      assert c[1..][j - 1] == c[j];
      FirstOfFrame(c[1..], t, frameOf, i - 1, j - 1);
    }
  }

  /** No object enumerated after the last one of a frame is in that frame. */
  lemma {:induction false} LastOfFrame(c: seq<ObjId>, t: int, frameOf: ObjId -> int, i: int, j: int)
    requires Distinct(c) && 0 <= i < j < |c| && AtFrame(c, t, frameOf) != []
    requires AtFrame(c, t, frameOf)[|AtFrame(c, t, frameOf)| - 1] == c[i]
    ensures frameOf(c[j]) != t
    decreases |c|
  {
    DistinctTail(c);
    var rest := AtFrame(c[1..], t, frameOf);
    AtFrameMembers(c[1..], t, frameOf);
    assert c[1..][j - 1] == c[j];
    if frameOf(c[j]) == t {
      assert c[j] in rest;
      assert AtFrame(c, t, frameOf)[|AtFrame(c, t, frameOf)| - 1] == rest[|rest| - 1];
      if i == 0 {
        assert false;
      } else {
        assert c[1..][i - 1] == c[i];
        LastOfFrame(c[1..], t, frameOf, i - 1, j - 1);
      }
    }
  }

  /**
   * `s` is enumerated first among the objects of its frame in `c`, and `e`
   * last among those of its frame.
   */
  predicate FirstAndLast(c: seq<ObjId>, s: ObjId, e: ObjId, frameOf: ObjId -> int) {
    (forall i, j :: 0 <= i < j < |c| && c[j] == s ==> frameOf(c[i]) != frameOf(s)) &&
    (forall i, j :: 0 <= i < j < |c| && c[i] == e ==> frameOf(c[j]) != frameOf(e))
  }

  /** The ends of the stable sort are the first object of the earliest frame and the last of the latest. */
  lemma SortedEndsInOrder(c: seq<ObjId>, frameOf: ObjId -> int)
    requires |c| >= 2 && Distinct(c)
    ensures |SortByFrame(c, frameOf)| == |c|
    ensures FirstAndLast(c, SortByFrame(c, frameOf)[0], SortByFrame(c, frameOf)[|c| - 1], frameOf)
  {
    var list := SortByFrame(c, frameOf);
    assert |list| == |multiset(list)| == |c|;
    SortedFirst(c, list, frameOf);
    SortedLast(c, list, frameOf);
  }

  lemma SortedFirst(c: seq<ObjId>, list: seq<ObjId>, frameOf: ObjId -> int)
    requires |c| >= 2 && Distinct(c) && list == SortByFrame(c, frameOf) && |list| == |c|
    ensures forall i, j :: 0 <= i < j < |c| && c[j] == list[0] ==> frameOf(c[i]) != frameOf(list[0])
  {
    var m := frameOf(list[0]);
    SortStable(c, m, frameOf);
    assert AtFrame(list, m, frameOf)[0] == list[0];
    forall i, j | 0 <= i < j < |c| && c[j] == list[0] ensures frameOf(c[i]) != m {
      FirstOfFrame(c, m, frameOf, i, j);
    }
  }

  lemma SortedLast(c: seq<ObjId>, list: seq<ObjId>, frameOf: ObjId -> int)
    requires |c| >= 2 && Distinct(c) && list == SortByFrame(c, frameOf) && |list| == |c|
    ensures forall i, j :: 0 <= i < j < |c| && c[i] == list[|c| - 1] ==> frameOf(c[j]) != frameOf(list[|c| - 1])
  {
    var n := |list|;
    var big := frameOf(list[n - 1]);
    SortStable(c, big, frameOf);
    AtFrameLast(list, frameOf);
    forall i, j | 0 <= i < j < |c| && c[i] == list[n - 1] ensures frameOf(c[j]) != big {
      LastOfFrame(c, big, frameOf, i, j);
    }
  }

  /** The components the splitter keeps: those with at least two objects, in their original order. */
  function Big(components: seq<seq<ObjId>>): (r: seq<seq<ObjId>>)
    ensures |r| <= |components|
    ensures forall k :: 0 <= k < |r| ==> |r[k]| >= 2 && r[k] in components
    ensures forall c :: c in components && |c| >= 2 ==> c in r
  {
    if |components| == 0 then []
    else if |components[0]| < 2 then Big(components[1..])
    else [components[0]] + Big(components[1..])
  }

  datatype Segments = Segments(starts: seq<ObjId>, ends: seq<ObjId>, middles: seq<seq<ObjId>>)

  /** `s` and `e` are two distinct objects of `c`, earliest and latest in frame. */
  predicate Bracketed(c: seq<ObjId>, s: ObjId, e: ObjId, frameOf: ObjId -> int) {
    s in c && e in c && s != e &&
    forall x :: x in c ==> frameOf(s) <= frameOf(x) <= frameOf(e)
  }

  /** `m` holds the objects of `c` other than `s` and `e`, in ascending frame order. */
  predicate Between(c: seq<ObjId>, s: ObjId, e: ObjId, m: seq<ObjId>, frameOf: ObjId -> int) {
    multiset(m) + multiset{s, e} == multiset(c) && SortedByFrame(m, frameOf)
  }

  /** The start, end and middle the constructor takes from one component of at least two objects. */
  function SplitOne(c: seq<ObjId>, frameOf: ObjId -> int): (r: (ObjId, ObjId, seq<ObjId>))
    requires |c| >= 2 && Distinct(c)
    ensures Bracketed(c, r.0, r.1, frameOf)
    ensures FirstAndLast(c, r.0, r.1, frameOf)
    ensures Between(c, r.0, r.1, r.2, frameOf)
  {
    var list := SortByFrame(c, frameOf);
    assert |list| == |multiset(list)| == |c|;
    SortedEndsInOrder(c, frameOf);
    EndsOfSorted(c, list, frameOf);
    MiddleOfSorted(c, list, frameOf);
    (list[0], list[|list| - 1], list[1..|list| - 1])
  }

  lemma EndsOfSorted(c: seq<ObjId>, list: seq<ObjId>, frameOf: ObjId -> int)
    requires |c| >= 2 && Distinct(c) && |list| == |c|
    requires multiset(list) == multiset(c) && SortedByFrame(list, frameOf)
    ensures Bracketed(c, list[0], list[|list| - 1], frameOf)
  {
    var n := |list|;
    assert list[0] != list[n - 1] by {
      if list[0] == list[n - 1] {
        assert list == [list[0]] + list[1..n - 1] + [list[n - 1]];
        assert multiset(list) == multiset{list[0]} + multiset(list[1..n - 1]) + multiset{list[n - 1]};
        DistinctOnce(c, list[0]);
        assert false;
      }
    }
    forall x | x in c ensures frameOf(list[0]) <= frameOf(x) <= frameOf(list[n - 1]) {
      assert x in multiset(list);
      var i :| 0 <= i < n && list[i] == x;
    }
    assert list[0] in multiset(c) && list[n - 1] in multiset(c);
  }

  lemma MiddleOfSorted(c: seq<ObjId>, list: seq<ObjId>, frameOf: ObjId -> int)
    requires |list| >= 2
    requires multiset(list) == multiset(c) && SortedByFrame(list, frameOf)
    ensures Between(c, list[0], list[|list| - 1], list[1..|list| - 1], frameOf)
  {
    var n := |list|;
    assert list == [list[0]] + list[1..n - 1] + [list[n - 1]];
    SortedSlice(list, frameOf, 1, n - 1);
  }

  /** An element of a sequence without duplicates occurs in it once. */
  lemma {:induction false} DistinctOnce(s: seq<ObjId>, x: ObjId)
    requires Distinct(s)
    ensures multiset(s)[x] <= 1
  {
    if |s| > 0 {
      assert s == [s[0]] + s[1..];
      assert Distinct(s[1..]) by {
        forall i, j | 0 <= i < j < |s[1..]| ensures s[1..][i] != s[1..][j] {
          assert s[1..][i] == s[i + 1] && s[1..][j] == s[j + 1];
        }
      }
      DistinctOnce(s[1..], x);
      if s[0] == x {
        forall j | 0 <= j < |s[1..]| ensures s[1..][j] != x {
          assert s[1..][j] == s[j + 1];
        }
      }
    }
  }

  /**
   * The constructor: one start, one end and (with `findMiddlePoints`) one
   * middle list per component of at least two objects; without
   * `findMiddlePoints` the middles list is empty.
   */
  function Split(components: seq<seq<ObjId>>, frameOf: ObjId -> int, findMiddlePoints: bool): (r: Segments)
    requires forall i :: 0 <= i < |components| ==> Distinct(components[i])
    ensures |r.starts| == |r.ends| == |Big(components)|
    ensures findMiddlePoints ==> |r.middles| == |r.starts|
    ensures !findMiddlePoints ==> r.middles == []
    ensures forall k :: 0 <= k < |r.starts| ==> Bracketed(Big(components)[k], r.starts[k], r.ends[k], frameOf)
    ensures forall k :: 0 <= k < |r.starts| ==> FirstAndLast(Big(components)[k], r.starts[k], r.ends[k], frameOf)
    ensures findMiddlePoints ==> forall k :: 0 <= k < |r.middles| ==>
              Between(Big(components)[k], r.starts[k], r.ends[k], r.middles[k], frameOf)
  {
    var big := Big(components);
    BigDistinct(components);
    var parts := SplitAll(big, frameOf);
    PartsGiveSegments(big, parts, frameOf);
    Segments(Starts(parts), Ends(parts), if findMiddlePoints then Middles(parts) else [])
  }

  /** What each split component promises carries over to the columns of starts, ends and middles. */
  lemma PartsGiveSegments(big: seq<seq<ObjId>>, parts: seq<(ObjId, ObjId, seq<ObjId>)>, frameOf: ObjId -> int)
    requires |parts| == |big|
    requires forall k :: 0 <= k < |big| ==>
               Bracketed(big[k], parts[k].0, parts[k].1, frameOf) && FirstAndLast(big[k], parts[k].0, parts[k].1, frameOf) &&
               Between(big[k], parts[k].0, parts[k].1, parts[k].2, frameOf)
    ensures forall k :: 0 <= k < |big| ==> Bracketed(big[k], Starts(parts)[k], Ends(parts)[k], frameOf)
    ensures forall k :: 0 <= k < |big| ==> FirstAndLast(big[k], Starts(parts)[k], Ends(parts)[k], frameOf)
    ensures forall k :: 0 <= k < |big| ==> Between(big[k], Starts(parts)[k], Ends(parts)[k], Middles(parts)[k], frameOf)
  {
    var s, e, m := Starts(parts), Ends(parts), Middles(parts);
    forall k | 0 <= k < |big|
      ensures Bracketed(big[k], s[k], e[k], frameOf) && FirstAndLast(big[k], s[k], e[k], frameOf)
      ensures Between(big[k], s[k], e[k], m[k], frameOf)
    {
      assert s[k] == parts[k].0 && e[k] == parts[k].1 && m[k] == parts[k].2;
    }
  }

  function Starts(parts: seq<(ObjId, ObjId, seq<ObjId>)>): (r: seq<ObjId>)
    ensures |r| == |parts| && forall k :: 0 <= k < |parts| ==> r[k] == parts[k].0
  {
    seq(|parts|, k requires 0 <= k < |parts| => parts[k].0)
  }

  function Ends(parts: seq<(ObjId, ObjId, seq<ObjId>)>): (r: seq<ObjId>)
    ensures |r| == |parts| && forall k :: 0 <= k < |parts| ==> r[k] == parts[k].1
  {
    seq(|parts|, k requires 0 <= k < |parts| => parts[k].1)
  }

  function Middles(parts: seq<(ObjId, ObjId, seq<ObjId>)>): (r: seq<seq<ObjId>>)
    ensures |r| == |parts| && forall k :: 0 <= k < |parts| ==> r[k] == parts[k].2
  {
    seq(|parts|, k requires 0 <= k < |parts| => parts[k].2)
  }

  /** The kept components are components, so none repeats an object. */
  lemma BigDistinct(components: seq<seq<ObjId>>)
    requires forall i :: 0 <= i < |components| ==> Distinct(components[i])
    ensures forall k :: 0 <= k < |Big(components)| ==> Distinct(Big(components)[k])
  {
    forall k | 0 <= k < |Big(components)| ensures Distinct(Big(components)[k]) {
      var i :| 0 <= i < |components| && components[i] == Big(components)[k];
    }
  }

  /** `SplitOne` applied to every kept component. */
  function SplitAll(big: seq<seq<ObjId>>, frameOf: ObjId -> int): (parts: seq<(ObjId, ObjId, seq<ObjId>)>)
    requires forall k :: 0 <= k < |big| ==> |big[k]| >= 2 && Distinct(big[k])
    ensures |parts| == |big|
    ensures forall k :: 0 <= k < |big| ==>
              Bracketed(big[k], parts[k].0, parts[k].1, frameOf) && FirstAndLast(big[k], parts[k].0, parts[k].1, frameOf) &&
              Between(big[k], parts[k].0, parts[k].1, parts[k].2, frameOf)
  {
    seq(|big|, k requires 0 <= k < |big| => SplitOne(big[k], frameOf))
  }

  /** A start, its middle and its end together are exactly the objects of the component. */
  lemma SegmentsPartitionComponents(components: seq<seq<ObjId>>, frameOf: ObjId -> int, k: int)
    requires forall i :: 0 <= i < |components| ==> Distinct(components[i])
    requires 0 <= k < |Big(components)|
    ensures var r := Split(components, frameOf, true);
            multiset([r.starts[k]] + r.middles[k] + [r.ends[k]]) == multiset(Big(components)[k])
  {
  }
}

=== FILE: selection.dfy ===
/**
 * `SelectionModel`: the selected spots and edges of a model, and the
 * change events sent to its listeners. Every event goes to every listener
 * in the same way, so the model keeps the sequence of events fired instead
 * of the listeners; an event maps each item whose membership changed to
 * whether it is now selected, with `None` for a map left null.
 */
module Selection {
  import opened Wrappers
  import opened Sets
  import opened Graph

  datatype Change = Change(spots: Option<map<ObjId, bool>>, edges: Option<map<Edge, bool>>)

  datatype Selection = Selection(spots: set<ObjId>, edges: set<Edge>, fired: seq<Change>)

  /** A new selection model: nothing selected, nothing fired. */
  function Empty(): (s: Selection)
    ensures s.spots == {} && s.edges == {} && s.fired == []
  {
    Selection({}, {}, [])
  }

  /** The map reporting each item of `items` as now selected (`b`) or not. */
  function Report<T(==)>(items: set<T>, b: bool): (m: map<T, bool>)
    ensures m.Keys == items && forall x :: x in m ==> m[x] == b
  {
    map x | x in items :: b
  }

  // ---------------------------------------------------------------- bulk updates of one set

  /** `Set.add` of each item in turn; the map reports those that were not yet there. */
  function AddAll<T(==)>(sel: set<T>, items: seq<T>): (r: (set<T>, map<T, bool>))
    decreases |items|
  {
    if items == [] then (sel, map[])
    else
      var (s, m) := AddAll(sel, items[..|items| - 1]);
      var x := items[|items| - 1];
      if x in s then (s, m) else (s + {x}, m[x := true])
  }

  /** `Set.remove` of each item in turn; the map reports those that were there. */
  function RemoveAll<T(==)>(sel: set<T>, items: seq<T>): (r: (set<T>, map<T, bool>))
    decreases |items|
  {
    if items == [] then (sel, map[])
    else
      var (s, m) := RemoveAll(sel, items[..|items| - 1]);
      var x := items[|items| - 1];
      if x in s then (s - {x}, m[x := false]) else (s, m)
  }

  /** Adding a collection yields the union and reports exactly the items that were new, whatever their order or repetitions. */
  lemma {:induction false} AddAllIsUnion<T(!new)>(sel: set<T>, items: seq<T>)
    ensures AddAll(sel, items) == (sel + Elements(items), Report(Elements(items) - sel, true))
    decreases |items|
  {
    if items == [] {
      assert Elements(items) == {};
      assert Report(Elements(items) - sel, true) == map[];
      assert sel + Elements(items) == sel;
      assert AddAll(sel, items) == (sel, map[]);
    } else {
      var init := items[..|items| - 1];
      var x := items[|items| - 1];
      AddAllIsUnion(sel, init);
      assert items == init + [x];
      assert Elements(items) == Elements(init) + {x};
      var (t, m) := AddAll(sel, init);
      if x in t {
        assert Elements(items) - sel == Elements(init) - sel;
        assert sel + Elements(items) == t;
        assert AddAll(sel, items) == (t, m);
      } else {
        assert Elements(items) - sel == (Elements(init) - sel) + {x};
        assert m[x := true] == Report(Elements(items) - sel, true);
        assert sel + Elements(items) == t + {x};
        assert AddAll(sel, items) == (t + {x}, m[x := true]);
      }
    }
  }

  /** Removing a collection yields the difference and reports exactly the items that were selected. */
  lemma {:induction false} RemoveAllIsDifference<T(!new)>(sel: set<T>, items: seq<T>)
    ensures RemoveAll(sel, items) == (sel - Elements(items), Report(sel * Elements(items), false))
    decreases |items|
  {
    if items == [] {
      assert Elements(items) == {};
      assert Report(sel * Elements(items), false) == map[];
      assert sel - Elements(items) == sel;
      assert RemoveAll(sel, items) == (sel, map[]);
    } else {
      var init := items[..|items| - 1];
      var x := items[|items| - 1];
      RemoveAllIsDifference(sel, init);
      assert items == init + [x];
      assert Elements(items) == Elements(init) + {x};
      var (t, m) := RemoveAll(sel, init);
      if x in t {
        assert sel - Elements(items) == t - {x};
        assert RemoveAll(sel, items) == (t - {x}, m[x := false]);
        assert sel * Elements(items) == (sel * Elements(init)) + {x};
        assert m[x := false] == Report(sel * Elements(items), false);
      } else {
        assert sel * Elements(items) == sel * Elements(init);
        assert sel - Elements(items) == t;
        assert RemoveAll(sel, items) == (t, m);
      }
    }
  }

  // ---------------------------------------------------------------- spots

  /** `addSpotToSelection(spot)`: a spot already selected changes nothing and fires nothing. */
  function AddSpot(s: Selection, x: ObjId): (r: Selection)
    ensures r.spots == s.spots + {x} && r.edges == s.edges
    ensures x in s.spots ==> r == s
    ensures x !in s.spots ==> r.fired == s.fired + [Change(Some(map[x := true]), None)]
  {
    if x in s.spots then s
    else Selection(s.spots + {x}, s.edges, s.fired + [Change(Some(map[x := true]), None)])
  }

  /** `removeSpotFromSelection(spot)`: a spot not selected changes nothing and fires nothing. */
  function RemoveSpot(s: Selection, x: ObjId): (r: Selection)
    ensures r.spots == s.spots - {x} && r.edges == s.edges
    ensures x !in s.spots ==> r == s
    ensures x in s.spots ==> r.fired == s.fired + [Change(Some(map[x := false]), None)]
  {
    if x !in s.spots then s
    else Selection(s.spots - {x}, s.edges, s.fired + [Change(Some(map[x := false]), None)])
  }

  /** `addSpotToSelection(spots)`: one event, fired even when no spot was new. */
  function AddSpots(s: Selection, xs: seq<ObjId>): (r: Selection)
    ensures r.spots == s.spots + Elements(xs) && r.edges == s.edges
    ensures r.fired == s.fired + [Change(Some(Report(Elements(xs) - s.spots, true)), None)]
  {
    AddAllIsUnion(s.spots, xs);
    var (sel, m) := AddAll(s.spots, xs);
    Selection(sel, s.edges, s.fired + [Change(Some(m), None)])
  }

  /** `removeSpotFromSelection(spots)`: one event, fired even when no spot was selected. */
  function RemoveSpots(s: Selection, xs: seq<ObjId>): (r: Selection)
    ensures r.spots == s.spots - Elements(xs) && r.edges == s.edges
    ensures r.fired == s.fired + [Change(Some(Report(s.spots * Elements(xs), false)), None)]
  {
    RemoveAllIsDifference(s.spots, xs);
    var (sel, m) := RemoveAll(s.spots, xs);
    Selection(sel, s.edges, s.fired + [Change(Some(m), None)])
  }

  /** `clearSpotSelection`: every selected spot is reported unselected. */
  function ClearSpots(s: Selection): (r: Selection)
    ensures r.spots == {} && r.edges == s.edges
    ensures r.fired == s.fired + [Change(Some(Report(s.spots, false)), None)]
  {
    Selection({}, s.edges, s.fired + [Change(Some(Report(s.spots, false)), None)])
  }

  // ---------------------------------------------------------------- edges

  /** `addEdgeToSelection(edge)`, the mirror of `AddSpot`. */
  function AddEdgeToSelection(s: Selection, e: Edge): (r: Selection)
    ensures r.edges == s.edges + {e} && r.spots == s.spots
    ensures e in s.edges ==> r == s
    ensures e !in s.edges ==> r.fired == s.fired + [Change(None, Some(map[e := true]))]
  {
    if e in s.edges then s
    else Selection(s.spots, s.edges + {e}, s.fired + [Change(None, Some(map[e := true]))])
  }

  /** `removeEdgeFromSelection(edge)`, the mirror of `RemoveSpot`. */
  function RemoveEdge(s: Selection, e: Edge): (r: Selection)
    ensures r.edges == s.edges - {e} && r.spots == s.spots
    ensures e !in s.edges ==> r == s
    ensures e in s.edges ==> r.fired == s.fired + [Change(None, Some(map[e := false]))]
  {
    if e !in s.edges then s
    else Selection(s.spots, s.edges - {e}, s.fired + [Change(None, Some(map[e := false]))])
  }

  /** `addEdgeToSelection(edges)`, the mirror of `AddSpots`. */
  function AddEdges(s: Selection, es: seq<Edge>): (r: Selection)
    ensures r.edges == s.edges + Elements(es) && r.spots == s.spots
    ensures r.fired == s.fired + [Change(None, Some(Report(Elements(es) - s.edges, true)))]
  {
    AddAllIsUnion(s.edges, es);
    var (sel, m) := AddAll(s.edges, es);
    Selection(s.spots, sel, s.fired + [Change(None, Some(m))])
  }

  /** `removeEdgeFromSelection(edges)`, the mirror of `RemoveSpots`. */
  function RemoveEdges(s: Selection, es: seq<Edge>): (r: Selection)
    ensures r.edges == s.edges - Elements(es) && r.spots == s.spots
    ensures r.fired == s.fired + [Change(None, Some(Report(s.edges * Elements(es), false)))]
  {
    RemoveAllIsDifference(s.edges, es);
    var (sel, m) := RemoveAll(s.edges, es);
    Selection(s.spots, sel, s.fired + [Change(None, Some(m))])
  }

  /** `clearEdgeSelection`: every selected edge is reported unselected. */
  function ClearEdges(s: Selection): (r: Selection)
    ensures r.edges == {} && r.spots == s.spots
    ensures r.fired == s.fired + [Change(None, Some(Report(s.edges, false)))]
  {
    Selection(s.spots, {}, s.fired + [Change(None, Some(Report(s.edges, false)))])
  }

  /**
   * `clearSelection`: the combined event is prepared first, then the spot
   * and edge clears fire their own events, then the combined one fires.
   */
  function Clear(s: Selection): (r: Selection)
    ensures r.spots == {} && r.edges == {}
    ensures r.fired == s.fired + [Change(Some(Report(s.spots, false)), None),
                                  Change(None, Some(Report(s.edges, false))),
                                  Change(Some(Report(s.spots, false)), Some(Report(s.edges, false)))]
  {
    var combined := Change(Some(Report(s.spots, false)), Some(Report(s.edges, false)));
    var cleared := ClearEdges(ClearSpots(s));
    Selection(cleared.spots, cleared.edges, cleared.fired + [combined])
  }

  // ---------------------------------------------------------------- properties of the updates

  /** Adding a spot twice is adding it once; the second call fires nothing. */
  lemma AddSpotIdempotent(s: Selection, x: ObjId)
    ensures AddSpot(AddSpot(s, x), x) == AddSpot(s, x)
  {
  }

  /** Removing a spot just added restores the spot set, with one event for each call. */
  lemma AddThenRemoveSpot(s: Selection, x: ObjId)
    requires x !in s.spots
    ensures RemoveSpot(AddSpot(s, x), x).spots == s.spots
    ensures RemoveSpot(AddSpot(s, x), x).fired ==
              s.fired + [Change(Some(map[x := true]), None), Change(Some(map[x := false]), None)]
  {
  }

  /**
   * The single and bulk adds agree on the selection, but for an already
   * selected spot the single add stays silent while the bulk add fires an
   * empty event.
   */
  lemma SingleAndBulkAdd(s: Selection, x: ObjId)
    ensures AddSpots(s, [x]).spots == AddSpot(s, x).spots
    ensures x !in s.spots ==> AddSpots(s, [x]) == AddSpot(s, x)
    ensures x in s.spots ==> AddSpots(s, [x]).fired == AddSpot(s, x).fired + [Change(Some(map[]), None)]
  {
    assert Elements([x]) == {x};
    if x !in s.spots {
      assert Elements([x]) - s.spots == {x};
      assert Report({x}, true) == map[x := true];
    } else {
      assert Report(Elements([x]) - s.spots, true) == map[];
    }
  }

  /** The combined event of `clearSelection` reports what the spot and edge clears report between them. */
  lemma ClearReportsEverything(s: Selection)
    ensures var r := Clear(s);
            |r.fired| == |s.fired| + 3 &&
            r.fired[|s.fired| + 2].spots == r.fired[|s.fired|].spots &&
            r.fired[|s.fired| + 2].edges == r.fired[|s.fired| + 1].edges
  {
  }

  // ---------------------------------------------------------------- selectTrack

  /**
   * The spots one step of the walk reaches from `v`: any neighbour when
   * `direction` is 0; the source of each edge arriving at `v` when it is
   * positive (upward in time); the target of each edge leaving `v` when it
   * is negative.
   */
  function Next(g: Graph, v: ObjId, direction: int): (r: set<ObjId>)
    requires Simple(g)
    ensures r <= g.vertices
  {
    if direction == 0 then set u | u in g.vertices && Adjacent(g, v, u)
    else if direction > 0 then set e | e in g.weights && e.target == v && e.source != v :: e.source
    else set e | e in g.weights && e.source == v && e.target != v :: e.target
  }

  /** No step of the walk leaves `s`. */
  ghost predicate Closed(g: Graph, direction: int, s: set<ObjId>)
    requires Simple(g)
  {
    forall v :: v in s ==> Next(g, v, direction) <= s
  }

  /**
   * The walk: `todo` holds the spots still to inspect and `done` those
   * inspected. A spot is inspected once; the result is everything reached.
   */
  function Reach(g: Graph, direction: int, todo: set<ObjId>, done: set<ObjId>): (r: set<ObjId>)
    requires Simple(g) && todo <= g.vertices && done <= g.vertices
    ensures todo + done <= r <= g.vertices
    decreases |g.vertices - done|, |todo|
  {
    if todo == {} then done
    else
      var v := SetMin(todo);
      if v in done then Reach(g, direction, todo - {v}, done)
      else
        assert g.vertices - (done + {v}) < g.vertices - done;
        Reach(g, direction, todo - {v} + Next(g, v, direction), done + {v})
  }

  /** What the walk reaches is closed under its steps, provided every inspected spot's steps are already queued or inspected. */
  lemma {:induction false} ReachClosed(g: Graph, direction: int, todo: set<ObjId>, done: set<ObjId>)
    requires Simple(g) && todo <= g.vertices && done <= g.vertices
    requires forall v :: v in done ==> Next(g, v, direction) <= done + todo
    ensures Closed(g, direction, Reach(g, direction, todo, done))
    decreases |g.vertices - done|, |todo|
  {
    if todo != {} {
      var v := SetMin(todo);
      if v in done {
        ReachClosed(g, direction, todo - {v}, done);
      } else {
        assert g.vertices - (done + {v}) < g.vertices - done;
        ReachClosed(g, direction, todo - {v} + Next(g, v, direction), done + {v});
      }
    }
  }

  /** The walk reaches nothing outside a closed set holding its start. */
  lemma {:induction false} ReachLeast(g: Graph, direction: int, todo: set<ObjId>, done: set<ObjId>, s: set<ObjId>)
    requires Simple(g) && todo <= g.vertices && done <= g.vertices
    requires Closed(g, direction, s) && todo + done <= s
    ensures Reach(g, direction, todo, done) <= s
    decreases |g.vertices - done|, |todo|
  {
    if todo != {} {
      var v := SetMin(todo);
      if v in done {
        ReachLeast(g, direction, todo - {v}, done, s);
      } else {
        assert g.vertices - (done + {v}) < g.vertices - done;
        assert Next(g, v, direction) <= s;
        ReachLeast(g, direction, todo - {v} + Next(g, v, direction), done + {v}, s);
      }
    }
  }

  /** The spots `selectTrack` inspects: the given spots and both ends of the given edges. */
  function Seeds(spots: seq<ObjId>, edges: seq<Edge>): (r: set<ObjId>)
    ensures forall x :: x in spots ==> x in r
    ensures forall e :: e in edges ==> e.source in r && e.target in r
    ensures forall x :: x in r ==> x in spots || exists e :: e in edges && (x == e.source || x == e.target)
  {
    Elements(spots) + (set e | e in edges :: e.source) + (set e | e in edges :: e.target)
  }

  /**
   * The edges the walk collects from the spots `reached`: every edge touching
   * them when `direction` is 0, otherwise the edges it steps along.
   */
  function WalkedEdges(g: Graph, direction: int, reached: set<ObjId>): (r: set<Edge>)
    ensures r <= g.weights.Keys
  {
    if direction == 0 then set e | e in g.weights && (e.source in reached || e.target in reached)
    else if direction > 0 then set e | e in g.weights && e.target in reached && e.source != e.target
    else set e | e in g.weights && e.source in reached && e.source != e.target
  }

  /** The "tail cut": only edges with both ends among the selected spots stay. */
  function CutTail(edges: set<Edge>, spots: set<ObjId>): (r: set<Edge>)
    ensures r <= edges
    ensures forall e :: e in r ==> e.source in spots && e.target in spots
    ensures forall e :: e in edges && e.source in spots && e.target in spots ==> e in r
  {
    set e | e in edges && e.source in spots && e.target in spots
  }

  /**
   * `selectTrack`: walks from the seeds in the given direction, keeps the
   * walked edges whose two ends were reached, and adds both sets to the
   * selection through the bulk adds, firing their two events.
   */
  function SelectTrack(s: Selection, g: Graph, spots: seq<ObjId>, edges: seq<Edge>, direction: int): (r: Selection)
    requires Simple(g) && Seeds(spots, edges) <= g.vertices
    ensures s.spots <= r.spots && s.edges <= r.edges
    ensures Seeds(spots, edges) <= r.spots
    ensures forall e :: e in r.edges - s.edges ==> e in g.weights && e.source in r.spots && e.target in r.spots
    ensures r.spots - s.spots <= g.vertices
    ensures |r.fired| == |s.fired| + 2 && r.fired[..|s.fired|] == s.fired
    ensures r.edges == s.edges + WalkedEdges(g, direction, Reach(g, direction, Seeds(spots, edges), {}))
  {
    var reached := Reach(g, direction, Seeds(spots, edges), {});
    ReachClosed(g, direction, Seeds(spots, edges), {});
    TailCutKeepsWalkedEdges(g, direction, reached);
    var kept := CutTail(WalkedEdges(g, direction, reached), reached);
    Selection(s.spots + reached, s.edges + kept,
              s.fired + [Change(Some(Report(reached - s.spots, true)), None),
                         Change(None, Some(Report(kept - s.edges, true)))])
  }

  /**
   * The spots `selectTrack` adds are exactly the least set that holds the
   * seeds and that no step of the walk leaves.
   */
  lemma SelectTrackSpots(s: Selection, g: Graph, spots: seq<ObjId>, edges: seq<Edge>, direction: int)
    requires Simple(g) && Seeds(spots, edges) <= g.vertices
    ensures var added := SelectTrack(s, g, spots, edges, direction).spots;
            exists reached :: added == s.spots + reached &&
              Seeds(spots, edges) <= reached && Closed(g, direction, reached) &&
              forall c :: c <= g.vertices && Seeds(spots, edges) <= c && Closed(g, direction, c) ==> reached <= c
  {
    var seeds := Seeds(spots, edges);
    var reached := Reach(g, direction, seeds, {});
    ReachClosed(g, direction, seeds, {});
    forall c | c <= g.vertices && seeds <= c && Closed(g, direction, c) ensures reached <= c {
      ReachLeast(g, direction, seeds, {}, c);
    }
  }

  /**
   * The tail cut removes nothing: every walked edge already has both ends
   * among the reached spots, because the walk is closed under its steps.
   */
  lemma TailCutKeepsWalkedEdges(g: Graph, direction: int, reached: set<ObjId>)
    requires Simple(g) && reached <= g.vertices && Closed(g, direction, reached)
    ensures CutTail(WalkedEdges(g, direction, reached), reached) == WalkedEdges(g, direction, reached)
  {
    forall e | e in WalkedEdges(g, direction, reached) ensures e.source in reached && e.target in reached {
      if direction == 0 {
        if e.source in reached {
          assert e.target in Next(g, e.source, direction);
        }
        if e.target in reached {
          assert e.source in Next(g, e.target, direction);
        }
      } else if direction > 0 {
        assert e.source in Next(g, e.target, direction);
      } else {
        assert e.target in Next(g, e.source, direction);
      }
    }
  }
}

=== FILE: sets.dfy ===
/** Least and greatest elements of finite integer sets. */
module Sets {

  predicate IsLeast(m: int, s: set<int>)
  {
    m in s && forall y :: y in s ==> m <= y
  }

  predicate IsGreatest(m: int, s: set<int>)
  {
    m in s && forall y :: y in s ==> y <= m
  }

  /** Some element of a nonempty set. */
  lemma Pick<T>(s: set<T>) returns (x: T)
    requires s != {}
    ensures x in s
  {
    if forall y :: y !in s {
      assert false;
    }
    x :| x in s;
  }

  lemma {:induction false} LeastExists(s: set<int>)
    requires s != {}
    ensures exists m :: IsLeast(m, s)
    decreases |s|
  {
    var x := Pick(s);
    if s == {x} {
      assert IsLeast(x, s);
    } else {
      var rest := s - {x};
      LeastExists(rest);
      var lo :| IsLeast(lo, rest);
      var m := if x < lo then x else lo;
      forall y | y in s
        ensures m <= y
      {
        if y != x {
          assert y in rest;
        }
      }
      assert IsLeast(m, s);
    }
  }

  lemma {:induction false} GreatestExists(s: set<int>)
    requires s != {}
    ensures exists m :: IsGreatest(m, s)
    decreases |s|
  {
    var x := Pick(s);
    if s == {x} {
      assert IsGreatest(x, s);
    } else {
      var rest := s - {x};
      GreatestExists(rest);
      var hi :| IsGreatest(hi, rest);
      var m := if x > hi then x else hi;
      forall y | y in s
        ensures y <= m
      {
        if y != x {
          assert y in rest;
        }
      }
      assert IsGreatest(m, s);
    }
  }

  /** The least element of a nonempty set. */
  function SetMin(s: set<int>): (m: int)
    requires s != {}
    ensures m in s && forall x :: x in s ==> m <= x
  {
    LeastExists(s);
    var m :| IsLeast(m, s);
    m
  }

  /** The greatest element of a nonempty set. */
  function SetMax(s: set<int>): (m: int)
    requires s != {}
    ensures m in s && forall x :: x in s ==> x <= m
  {
    GreatestExists(s);
    var m :| IsGreatest(m, s);
    m
  }

  /** Moving one element of `rest` over to the done side of a worklist loop. */
  lemma MoveToDone<T>(all: set<T>, rest: set<T>, x: T)
    requires x in rest && rest <= all
    ensures all - (rest - {x}) == (all - rest) + {x}
  {
  }

  /** Moving the least remaining element over keeps every done element below every remaining one. */
  lemma MinToDone(done: set<int>, rest: set<int>, m: int)
    requires m in rest && forall x :: x in rest ==> m <= x
    requires forall f, g :: f in done && g in rest ==> f < g
    ensures forall f, g :: f in done + {m} && g in rest - {m} ==> f < g
  {
    forall f, g | f in done + {m} && g in rest - {m} ensures f < g {
      if f == m {
        assert m <= g && m != g;
      }
    }
  }

  /** No element occurs twice. */
  predicate Distinct<T(==)>(s: seq<T>) {
    forall i, j :: 0 <= i < j < |s| ==> s[i] != s[j]
  }

  /** The elements of a sequence, as a set. */
  function Elements<T(==,!new)>(s: seq<T>): (r: set<T>)
    ensures forall x :: x in r <==> x in s
  {
    set x | x in s
  }

  /** Dropping the head of a sequence without repetitions leaves one without the head. */
  lemma DistinctTail<T>(s: seq<T>)
    requires Distinct(s) && s != []
    ensures Distinct(s[1..]) && s[0] !in s[1..]
  {
    var t := s[1..];
    forall i, j | 0 <= i < j < |t|
      ensures t[i] != t[j]
    {
      assert t[i] == s[i + 1] && t[j] == s[j + 1];
    }
    forall j | 0 <= j < |t|
      ensures t[j] != s[0]
    {
      assert t[j] == s[j + 1];
    }
  }

  /** A sequence without repetitions has as many elements as its set. */
  lemma {:induction false} DistinctCardinality<T(!new)>(s: seq<T>)
    requires Distinct(s)
    ensures |Elements(s)| == |s|
  {
    if |s| > 0 {
      var t := s[1..];
      DistinctTail(s);
      DistinctCardinality(t);
      assert Elements(s) == Elements(t) + {s[0]} by {
        assert s == [s[0]] + t;
      }
    }
  }

  // The same for sets of reals, which the distance-keyed sorted maps need.

  predicate IsLeastReal(m: real, s: set<real>)
  {
    m in s && forall y :: y in s ==> m <= y
  }

  lemma {:induction false} LeastRealExists(s: set<real>)
    requires s != {}
    ensures exists m :: IsLeastReal(m, s)
    decreases |s|
  {
    var x := Pick(s);
    if s == {x} {
      assert IsLeastReal(x, s);
    } else {
      var rest := s - {x};
      LeastRealExists(rest);
      var lo :| IsLeastReal(lo, rest);
      var m := if x < lo then x else lo;
      forall y | y in s
        ensures m <= y
      {
        if y != x {
          assert y in rest;
        }
      }
      assert IsLeastReal(m, s);
    }
  }

  /** The least element of a nonempty set of reals. */
  function SetMinReal(s: set<real>): (m: real)
    requires s != {}
    ensures m in s && forall x :: x in s ==> m <= x
  {
    LeastRealExists(s);
    var m :| IsLeastReal(m, s);
    m
  }
}

=== FILE: settings.dfy ===
/**
 * The user settings of a tracking session: the source image, the crop box
 * derived from it, the validity check run before a session starts, and the
 * spot and track filter lists.
 */
module SessionSettings {
  import opened Wrappers
  import opened JavaLang
  import Collection

  type Polygon = seq<(int, int)>

  /** Where the image was read from, when the image knows it. */
  datatype FileInfo = FileInfo(fileName: string, directory: string)

  /** A region of interest: its bounding rectangle and its outline. */
  datatype Roi = Roi(x: int, y: int, width: int, height: int, polygon: Polygon)

  datatype Calibration = Calibration(pixelWidth: real, pixelHeight: real, pixelDepth: real, frameInterval: real)

  /** The part of an image the settings read. */
  datatype Image = Image(fileInfo: Option<FileInfo>, shortTitle: string,
                         width: int, height: int, nslices: int, nframes: int,
                         calibration: Calibration, roi: Option<Roi>)

  /** A detector setting value; the settings only care whether the map exists. */
  datatype Value = IntValue(i: int) | RealValue(r: real) | BoolValue(b: bool) | TextValue(s: string)

  datatype Settings = Settings(
    imp: Option<Image>, polygon: Option<Polygon>,
    tstart: int, tend: int, xstart: int, xend: int, ystart: int, yend: int, zstart: int, zend: int,
    dt: real, dx: real, dy: real, dz: real,
    width: int, height: int, nslices: int, nframes: int,
    imageFolder: string, imageFileName: string,
    detectorSettings: Option<map<string, Value>>,
    initialSpotFilterValue: Option<real>,
    spotFilters: seq<Collection.FeatureFilter>, trackFilters: seq<Collection.FeatureFilter>,
    errorMessage: Option<string>)

  /** A freshly constructed settings object. */
  const Defaults: Settings := Settings(
    None, None, 0, 0, 0, 0, 0, 0, 0, 0,
    1.0, 1.0, 1.0, 1.0, 0, 0, 0, 0, "", "",
    Some(map[]), Some(0.0), [], [], None)

  /** The image dimensions Java can hold: every count is a non-negative `int`. */
  predicate ValidImage(img: Image) {
    && 0 <= img.width <= INT_MAX && 0 <= img.height <= INT_MAX
    && 0 <= img.nslices <= INT_MAX && 0 <= img.nframes <= INT_MAX
  }

  /** The crop box `[xstart, xend] × [ystart, yend]`, ends included. */
  datatype Box = Box(xstart: int, xend: int, ystart: int, yend: int)

  function BoxOf(s: Settings): Box {
    Box(s.xstart, s.xend, s.ystart, s.yend)
  }

  /** Without an ROI the crop box is the whole image, its last pixel included. */
  function WholeImageBox(img: Image): (b: Box)
    requires ValidImage(img)
    ensures img.width > 0 ==> b.xend - b.xstart + 1 == img.width
    ensures img.height > 0 ==> b.yend - b.ystart + 1 == img.height
  {
    Box(0, WrapInt(img.width - 1), 0, WrapInt(img.height - 1))
  }

  /** The crop box of an ROI as the settings compute it: the far ends are `x + width` and `y + height`. */
  function RoiBoxAsWritten(roi: Roi): (b: Box)
    ensures IsInt(roi.x + roi.width) ==> b.xend - b.xstart == roi.width
    ensures IsInt(roi.y + roi.height) ==> b.yend - b.ystart == roi.height
  {
    Box(roi.x, WrapInt(roi.width + roi.x), roi.y, WrapInt(roi.height + roi.y))
  }

  /** The crop box of an ROI with inclusive ends, as every other crop bound is: `x + width - 1`. */
  function RoiBox(roi: Roi): (b: Box)
    ensures IsInt(roi.x + roi.width - 1) ==> b.xend - b.xstart + 1 == roi.width
    ensures IsInt(roi.y + roi.height - 1) ==> b.yend - b.ystart + 1 == roi.height
  {
    Box(roi.x, WrapInt(roi.x + roi.width - 1), roi.y, WrapInt(roi.y + roi.height - 1))
  }

  /** `setFrom`, parameterised by the rule that turns an ROI into a crop box. */
  function SetFromWith(s: Settings, imp: Option<Image>, roiBox: Roi -> Box): (r: Settings)
    requires imp.Some? ==> ValidImage(imp.value)
    ensures imp.None? ==> r == s.(imp := None)
    ensures imp.Some? ==> (
      var img := imp.value;
      && r.imp == imp
      && r.width == img.width && r.height == img.height
      && r.nslices == img.nslices && r.nframes == img.nframes
      && r.dt != 0.0
      && (img.calibration.frameInterval != 0.0 ==> r.dt == img.calibration.frameInterval)
      && r.zstart == 0 && r.zend == img.nslices - 1
      && r.tstart == 0 && r.tend == img.nframes - 1
      && (img.roi.None? ==> BoxOf(r) == WholeImageBox(img) && r.polygon.None?)
      && (img.roi.Some? ==> BoxOf(r) == roiBox(img.roi.value) && r.polygon == Some(img.roi.value.polygon))
      && r.imageFileName == (if img.fileInfo.Some? then img.fileInfo.value.fileName else img.shortTitle)
      && r.imageFolder == (if img.fileInfo.Some? then img.fileInfo.value.directory else ""))
    ensures (
      && r.detectorSettings == s.detectorSettings && r.initialSpotFilterValue == s.initialSpotFilterValue
      && r.spotFilters == s.spotFilters && r.trackFilters == s.trackFilters && r.errorMessage == s.errorMessage)
  {
    match imp
    case None => s.(imp := None)
    case Some(img) =>
      var cal := img.calibration;
      var box := if img.roi.None? then WholeImageBox(img) else roiBox(img.roi.value);
      s.(imp := imp,
         imageFileName := if img.fileInfo.Some? then img.fileInfo.value.fileName else img.shortTitle,
         imageFolder := if img.fileInfo.Some? then img.fileInfo.value.directory else "",
         width := img.width, height := img.height, nslices := img.nslices, nframes := img.nframes,
         dx := cal.pixelWidth, dy := cal.pixelHeight, dz := cal.pixelDepth,
         dt := if cal.frameInterval == 0.0 then 1.0 else cal.frameInterval,
         zstart := 0, zend := img.nslices - 1, tstart := 0, tend := img.nframes - 1,
         xstart := box.xstart, xend := box.xend, ystart := box.ystart, yend := box.yend,
         polygon := if img.roi.None? then None else Some(img.roi.value.polygon))
  }

  /** `setFrom` as the settings compute it. */
  function SetFromAsWritten(s: Settings, imp: Option<Image>): (r: Settings)
    requires imp.Some? ==> ValidImage(imp.value)
    ensures imp.Some? && imp.value.roi.Some? ==> BoxOf(r) == RoiBoxAsWritten(imp.value.roi.value)
  {
    SetFromWith(s, imp, RoiBoxAsWritten)
  }

  /** `setFrom` with inclusive ROI ends. */
  function SetFrom(s: Settings, imp: Option<Image>): (r: Settings)
    requires imp.Some? ==> ValidImage(imp.value)
    ensures imp.Some? && imp.value.roi.Some? ==> BoxOf(r) == RoiBox(imp.value.roi.value)
  {
    SetFromWith(s, imp, RoiBox)
  }

  /** An ROI that is exactly the whole image. */
  function FullRoi(img: Image): Roi {
    Roi(0, 0, img.width, img.height, [(0, 0), (img.width, 0), (img.width, img.height), (0, img.height)])
  }

  /**
   * With the ends computed as `x + width`, an ROI covering the whole image
   * yields a box one pixel wider and taller than the image: its far corner
   * `(width, height)` lies outside it, unlike the box computed without an ROI.
   */
  lemma {:induction false} FullRoiBoxAsWritten(s: Settings, img: Image)
    requires ValidImage(img) && img.roi == Some(FullRoi(img))
    ensures BoxOf(SetFromAsWritten(s, Some(img))) == Box(0, img.width, 0, img.height)
    ensures BoxOf(SetFromAsWritten(s, Some(img))) != BoxOf(SetFromAsWritten(s, Some(img.(roi := None))))
  {
    var r := SetFromAsWritten(s, Some(img));
    assert BoxOf(r) == RoiBoxAsWritten(FullRoi(img));
    assert BoxOf(SetFromAsWritten(s, Some(img.(roi := None)))) == WholeImageBox(img.(roi := None));
  }

  /** With inclusive ends, an ROI covering the whole image crops exactly like no ROI. */
  lemma {:induction false} FullRoiBox(s: Settings, img: Image)
    requires ValidImage(img) && img.roi == Some(FullRoi(img))
    ensures BoxOf(SetFrom(s, Some(img))) == BoxOf(SetFrom(s, Some(img.(roi := None))))
  {
    var r := SetFrom(s, Some(img));
    assert BoxOf(r) == RoiBox(FullRoi(img));
    assert BoxOf(SetFrom(s, Some(img.(roi := None)))) == WholeImageBox(img.(roi := None));
  }

  /**
   * An ROI inside the image yields a box inside the image whose size is the
   * ROI's; as written the box reaches one pixel further in each direction.
   */
  lemma {:induction false} RoiBoxInsideImage(img: Image, roi: Roi)
    requires ValidImage(img)
    requires 0 <= roi.x && 0 < roi.width && roi.x + roi.width <= img.width
    requires 0 <= roi.y && 0 < roi.height && roi.y + roi.height <= img.height
    ensures 0 <= RoiBox(roi).xend < img.width && 0 <= RoiBox(roi).yend < img.height
    ensures RoiBox(roi).xend - RoiBox(roi).xstart + 1 == roi.width
    ensures RoiBoxAsWritten(roi).xend == RoiBox(roi).xend + 1 && RoiBoxAsWritten(roi).yend == RoiBox(roi).yend + 1
  {
    assert IsInt(roi.x + roi.width - 1) && IsInt(roi.x + roi.width);
    assert IsInt(roi.y + roi.height - 1) && IsInt(roi.y + roi.height);
  }

  const NULL_IMAGE_MESSAGE: string := "The source image is null.\n"
  const NULL_DETECTOR_SETTINGS_MESSAGE: string := "The detector settings is null.\n"
  const NULL_THRESHOLD_MESSAGE: string := "Initial spot quality threshold is not set.\n"

  /**
   * `checkValidity`: the verdict, and the settings with the error message
   * of the first missing piece, checked in the order image, detector
   * settings, initial threshold. A valid object is left untouched.
   */
  function CheckValidity(s: Settings): (r: (bool, Settings))
    ensures r.0 <==> s.imp.Some? && s.detectorSettings.Some? && s.initialSpotFilterValue.Some?
    ensures r.0 ==> r.1 == s
    ensures !r.0 ==> r.1 == s.(errorMessage := r.1.errorMessage) && r.1.errorMessage.Some?
    ensures s.imp.None? ==> r.1.errorMessage == Some(NULL_IMAGE_MESSAGE)
    ensures s.imp.Some? && s.detectorSettings.None? ==> r.1.errorMessage == Some(NULL_DETECTOR_SETTINGS_MESSAGE)
    ensures s.imp.Some? && s.detectorSettings.Some? && s.initialSpotFilterValue.None? ==>
              r.1.errorMessage == Some(NULL_THRESHOLD_MESSAGE)
  {
    if s.imp.None? then (false, s.(errorMessage := Some(NULL_IMAGE_MESSAGE)))
    else if s.detectorSettings.None? then (false, s.(errorMessage := Some(NULL_DETECTOR_SETTINGS_MESSAGE)))
    else if s.initialSpotFilterValue.None? then (false, s.(errorMessage := Some(NULL_THRESHOLD_MESSAGE)))
    else (true, s)
  }

  /**
   * Settings freshly taken from an image pass the check unless something
   * cleared the detector settings or the threshold; in particular default
   * settings become valid once an image is set, and `setFrom(null)` makes
   * any settings invalid with the image message.
   */
  lemma SetFromThenCheck(s: Settings, img: Image)
    requires ValidImage(img)
    ensures CheckValidity(SetFrom(s, Some(img))).0 <==> s.detectorSettings.Some? && s.initialSpotFilterValue.Some?
    ensures CheckValidity(SetFrom(Defaults, Some(img))).0
    ensures CheckValidity(SetFrom(s, None)).1.errorMessage == Some(NULL_IMAGE_MESSAGE)
  {
  }

  /** `List.add`: append at the end. */
  function AddFilter(filters: seq<Collection.FeatureFilter>, f: Collection.FeatureFilter): (r: seq<Collection.FeatureFilter>)
    ensures |r| == |filters| + 1 && r[|filters|] == f && r[..|filters|] == filters
  {
    filters + [f]
  }

  /** The position of the first element equal to `f`. */
  function FirstIndex(filters: seq<Collection.FeatureFilter>, f: Collection.FeatureFilter): (i: nat)
    requires f in filters
    ensures i < |filters| && filters[i] == f && f !in filters[..i]
  {
    if filters[0] == f then 0
    else
      var i := FirstIndex(filters[1..], f);
      assert filters[..i + 1] == [filters[0]] + filters[1..][..i];
      i + 1
  }

  /** `List.remove(Object)`: drop the first element equal to `f`, if any. */
  function RemoveFilter(filters: seq<Collection.FeatureFilter>, f: Collection.FeatureFilter): (r: seq<Collection.FeatureFilter>)
    ensures f !in filters ==> r == filters
    ensures f in filters ==> exists i :: (
      && 0 <= i < |filters| && filters[i] == f && f !in filters[..i]
      && r == filters[..i] + filters[i + 1..])
    ensures multiset(r) == multiset(filters) - multiset{f}
  {
    if f !in filters then filters
    else
      var i := FirstIndex(filters, f);
      assert filters == filters[..i] + [f] + filters[i + 1..];
      filters[..i] + filters[i + 1..]
  }

  /** Removing what was just added restores the same filters, up to order; exactly when it was not there before. */
  lemma {:induction false} RemoveAfterAdd(filters: seq<Collection.FeatureFilter>, f: Collection.FeatureFilter)
    ensures multiset(RemoveFilter(AddFilter(filters, f), f)) == multiset(filters)
    ensures f !in filters ==> RemoveFilter(AddFilter(filters, f), f) == filters
  {
    var added := AddFilter(filters, f);
    assert multiset(added) == multiset(filters) + multiset{f};
    if f !in filters {
      assert forall j :: 0 <= j < |filters| ==> added[j] == filters[j] && added[j] != f;
      var i := FirstIndex(added, f);
      assert i == |filters|;
      assert added[..i] == filters;
    }
  }

  function AddSpotFilter(s: Settings, f: Collection.FeatureFilter): (r: Settings)
    ensures r.spotFilters == AddFilter(s.spotFilters, f) && r == s.(spotFilters := r.spotFilters)
  {
    s.(spotFilters := AddFilter(s.spotFilters, f))
  }

  function RemoveSpotFilter(s: Settings, f: Collection.FeatureFilter): (r: Settings)
    ensures multiset(r.spotFilters) == multiset(s.spotFilters) - multiset{f} && r == s.(spotFilters := r.spotFilters)
  {
    s.(spotFilters := RemoveFilter(s.spotFilters, f))
  }

  function ClearSpotFilters(s: Settings): (r: Settings)
    ensures r.spotFilters == [] && r == s.(spotFilters := [])
  {
    s.(spotFilters := [])
  }

  function AddTrackFilter(s: Settings, f: Collection.FeatureFilter): (r: Settings)
    ensures r.trackFilters == AddFilter(s.trackFilters, f) && r == s.(trackFilters := r.trackFilters)
  {
    s.(trackFilters := AddFilter(s.trackFilters, f))
  }

  function RemoveTrackFilter(s: Settings, f: Collection.FeatureFilter): (r: Settings)
    ensures multiset(r.trackFilters) == multiset(s.trackFilters) - multiset{f} && r == s.(trackFilters := r.trackFilters)
  {
    s.(trackFilters := RemoveFilter(s.trackFilters, f))
  }

  function ClearTrackFilters(s: Settings): (r: Settings)
    ensures r.trackFilters == [] && r == s.(trackFilters := [])
  {
    s.(trackFilters := [])
  }

  /** The two filter lists are independent: spot-filter edits never touch the track filters and vice versa. */
  lemma FilterListsIndependent(s: Settings, f: Collection.FeatureFilter, g: Collection.FeatureFilter)
    ensures AddTrackFilter(AddSpotFilter(s, f), g) == AddSpotFilter(AddTrackFilter(s, g), f)
    ensures RemoveTrackFilter(RemoveSpotFilter(s, f), g) == RemoveSpotFilter(RemoveTrackFilter(s, g), f)
    ensures ClearSpotFilters(AddTrackFilter(s, g)).trackFilters == AddFilter(s.trackFilters, g)
  {
  }
}

=== FILE: spots.dfy ===
/**
 * A detection: a trackable object with a unique integer ID drawn from a shared
 * counter, a name, and a feature map that always holds its position, radius
 * and quality.
 */
module Spots {
  import opened Wrappers
  import opened JavaLang
  import opened Features
  import opened Trackable

  /** The shared ID counter: the last ID handed out (initially -1). */
  datatype IdCounter = IdCounter(last: int)

  const INITIAL_COUNTER: IdCounter := IdCounter(-1)

  /**
   * A spot. `features` is the map every feature operation reads and writes;
   * `shadowFeatures` is a second, private map declared by the spot class itself
   * which nothing ever fills but which the textual dump consults.
   */
  datatype Spot = Spot(id: int, name: Option<string>, features: FeatureMap, shadowFeatures: FeatureMap)

  /** The name a spot gets when none is supplied: `"ID"` followed by its ID in decimal. */
  function DefaultName(id: int): string {
    "ID" + IntToString(id)
  }

  /**
   * The regular constructor: takes the next ID from the counter (32-bit
   * increment) and stores position, radius and quality.
   */
  function NewSpot(counter: IdCounter, x: real, y: real, z: real, radius: real, quality: real,
                   name: Option<string>): (r: (IdCounter, Spot))
    requires IsInt(counter.last)
    ensures IsInt(r.0.last) && r.1.id == r.0.last
    ensures counter.last < INT_MAX ==> r.1.id == counter.last + 1
    ensures counter.last == INT_MAX ==> r.1.id == INT_MIN
    ensures r.1.features.Keys == {POSITION_X, POSITION_Y, POSITION_Z, RADIUS, QUALITY}
    ensures Positioned(r.1.features) && Position(r.1.features) == Point3(x, y, z)
    ensures GetFeature(r.1.features, RADIUS) == Some(radius)
    ensures GetFeature(r.1.features, QUALITY) == Some(quality)
    ensures r.1.name == if name.Some? then name else Some(DefaultName(r.1.id))
    ensures r.1.shadowFeatures == map[]
  {
    var id := IncInt(counter.last);
    var fm := map[POSITION_X := x, POSITION_Y := y, POSITION_Z := z, RADIUS := radius, QUALITY := quality];
    (IdCounter(id), Spot(id, if name.Some? then name else Some(DefaultName(id)), fm, map[]))
  }

  /**
   * The copy constructor: a new spot (fresh ID) at the position of `src` with
   * its radius, quality and name. `None` when `src` lacks one of these features.
   */
  function CopySpot(counter: IdCounter, src: Spot): (r: Option<(IdCounter, Spot)>)
    requires IsInt(counter.last)
    ensures r.Some? <==> Positioned(src.features) && RADIUS in src.features && QUALITY in src.features
    ensures r.Some? ==> r.value.1.features == src.features - (src.features.Keys - {POSITION_X, POSITION_Y, POSITION_Z, RADIUS, QUALITY})
    ensures r.Some? ==> r.value.1.name.Some? && (src.name.Some? ==> r.value.1.name == src.name)
    ensures r.Some? && src.name.None? ==> r.value.1.name == Some(DefaultName(r.value.1.id))
    ensures r.Some? ==> r.value.1.id == r.value.0.last == IncInt(counter.last)
  {
    if Positioned(src.features) && RADIUS in src.features && QUALITY in src.features then
      var p := Position(src.features);
      Some(NewSpot(counter, p.x, p.y, p.z, src.features[RADIUS], src.features[QUALITY], src.name))
    else None
  }

  /**
   * Copying a copy gives the same features and the same name under a new ID:
   * a nameless spot's copy carries the first copy's default name along.
   */
  lemma CopyOfCopy(counter: IdCounter, src: Spot)
    requires IsInt(counter.last) && Positioned(src.features) && RADIUS in src.features && QUALITY in src.features
    ensures var (c1, s1) := CopySpot(counter, src).value;
            CopySpot(c1, s1).Some? &&
            CopySpot(c1, s1).value.1.features == s1.features &&
            CopySpot(c1, s1).value.1.name == s1.name &&
            CopySpot(c1, s1).value.1.id != s1.id
  {
  }

  /** The loading constructor: a blank spot with the given ID; raises the counter to that ID if it is behind. */
  function LoadSpot(counter: IdCounter, id: int): (r: (IdCounter, Spot))
    ensures r.0.last >= counter.last && r.0.last >= id
    ensures r.0.last == counter.last || r.0.last == id
    ensures r.1.id == id && r.1.name.None? && r.1.features == map[] && r.1.shadowFeatures == map[]
  {
    (if counter.last < id then IdCounter(id) else counter, Spot(id, None, map[], map[]))
  }

  /** The counter after loading spots with the given IDs, in order. */
  function LoadAll(counter: IdCounter, ids: seq<int>): IdCounter
    decreases |ids|
  {
    if |ids| == 0 then counter else LoadAll(LoadSpot(counter, ids[0]).0, ids[1..])
  }

  /**
   * After loading spots from a file, the next regular spot gets an ID larger
   * than every loaded one (as long as the counter does not overflow).
   */
  lemma {:induction false} LoadedIdsStayBehind(counter: IdCounter, ids: seq<int>)
    ensures LoadAll(counter, ids).last >= counter.last
    ensures forall i :: 0 <= i < |ids| ==> LoadAll(counter, ids).last >= ids[i]
    decreases |ids|
  {
    if |ids| > 0 {
      var c1 := LoadSpot(counter, ids[0]).0;
      LoadedIdsStayBehind(c1, ids[1..]);
      forall i | 0 <= i < |ids|
        ensures LoadAll(counter, ids).last >= ids[i]
      {
        if i > 0 {
          assert ids[i] == ids[1..][i - 1];
        }
      }
    }
  }

  lemma FreshIdAfterLoading(counter: IdCounter, ids: seq<int>, x: real, y: real, z: real,
                            radius: real, quality: real, name: Option<string>)
    requires IsInt(LoadAll(counter, ids).last) && LoadAll(counter, ids).last < INT_MAX
    ensures forall i :: 0 <= i < |ids| ==>
              NewSpot(LoadAll(counter, ids), x, y, z, radius, quality, name).1.id > ids[i]
  {
    LoadedIdsStayBehind(counter, ids);
  }

  /** Two spots made one after the other get different IDs. */
  lemma SuccessiveSpotsDiffer(counter: IdCounter, a: (real, real, real, real, real), b: (real, real, real, real, real),
                              na: Option<string>, nb: Option<string>)
    requires IsInt(counter.last)
    ensures var (c1, s1) := NewSpot(counter, a.0, a.1, a.2, a.3, a.4, na);
            NewSpot(c1, b.0, b.1, b.2, b.3, b.4, nb).1.id != s1.id
  {
  }

  /** Spot equality: by ID; `null` is never equal. */
  function Equals(self: Spot, other: Option<Spot>): (r: bool)
    ensures r <==> other.Some? && other.value.id == self.id
  {
    other.Some? && other.value.id == self.id
  }

  function HashCode(self: Spot): int {
    self.id
  }

  /** Equality is an equivalence relation on spots and agrees with the hash code. */
  lemma EqualsIsConsistent(a: Spot, b: Spot, c: Spot)
    ensures Equals(a, Some(a))
    ensures Equals(a, Some(b)) == Equals(b, Some(a))
    ensures Equals(a, Some(b)) && Equals(b, Some(c)) ==> Equals(a, Some(c))
    ensures Equals(a, Some(b)) ==> HashCode(a) == HashCode(b)
    ensures !Equals(a, None)
  {
  }

  /** The display string: the name, or the default name when the name is absent or empty. */
  function ToString(self: Spot): (r: string)
    ensures |r| >= 1
    ensures self.name.Some? && self.name.value != "" ==> r == self.name.value
    ensures self.name.None? || self.name.value == "" ==> r == "ID" + IntToString(self.id)
  {
    if self.name.None? || self.name.value == "" then DefaultName(self.id) else self.name.value
  }

  /** Unnamed spots display differently whenever their IDs differ. */
  lemma UnnamedToStringInjective(a: Spot, b: Spot)
    requires a.name.None? || a.name == Some("")
    requires b.name.None? || b.name == Some("")
    requires ToString(a) == ToString(b)
    ensures a.id == b.id
  {
    assert ToString(a)[2..] == IntToString(a.id);
    assert ToString(b)[2..] == IntToString(b.id);
    IntToStringInjective(a.id, b.id);
  }

  function GetName(self: Spot): Option<string> {
    self.name
  }

  function SetName(self: Spot, name: Option<string>): (r: Spot)
    ensures GetName(r) == name
    ensures r.id == self.id && r.features == self.features && r.shadowFeatures == self.shadowFeatures
  {
    self.(name := name)
  }

  /** Stores a feature through the inherited feature map. */
  function PutSpotFeature(self: Spot, feature: string, value: real): (r: Spot)
    ensures GetFeature(r.features, feature) == Some(value)
    ensures forall g :: g != feature ==> GetFeature(r.features, g) == GetFeature(self.features, g)
    ensures r.id == self.id && r.name == self.name && r.shadowFeatures == self.shadowFeatures
  {
    self.(features := PutFeature(self.features, feature, value))
  }

  /** The first line of the textual dump. */
  function EchoNameLine(self: Spot): (r: string)
    ensures self.name.None? ==> r == "Spot: <no name>\n"
    ensures self.name.Some? ==> |r| == |self.name.value| + 7 && r[..6] == "Spot: " && r[6..|r| - 1] == self.name.value && r[|r| - 1] == '\n'
  {
    if self.name.None? then "Spot: <no name>\n" else "Spot: " + self.name.value + "\n"
  }

  /** What the feature part of the textual dump shows: a notice, or the listed feature names. */
  datatype FeatureSection = NoFeaturesCalculated | FeatureList(names: set<string>)

  /** The feature part of the dump, as written: it consults the shadowing map. */
  function EchoFeatureSection(self: Spot): (r: FeatureSection)
    ensures r.NoFeaturesCalculated? <==> self.shadowFeatures == map[]
  {
    if |self.shadowFeatures| < 1 then NoFeaturesCalculated else FeatureList(self.shadowFeatures.Keys)
  }

  /** The feature part of the dump as evidently intended: it lists the spot's stored features. */
  function EchoFeatureSectionCorrected(self: Spot): (r: FeatureSection)
    ensures r.NoFeaturesCalculated? <==> self.features == map[]
    ensures r.FeatureList? ==> r.names == self.features.Keys
  {
    if |self.features| < 1 then NoFeaturesCalculated else FeatureList(self.features.Keys)
  }

  /** Every spot the constructors and setters can produce has an empty shadowing map. */
  ghost predicate Reachable(s: Spot) {
    s.shadowFeatures == map[]
  }

  lemma ConstructorsAndSettersKeepShadowEmpty(counter: IdCounter, s: Spot, id: int, f: string, v: real,
                                             n: Option<string>)
    requires IsInt(counter.last)
    ensures Reachable(NewSpot(counter, 0.0, 0.0, 0.0, 0.0, 0.0, n).1)
    ensures Reachable(LoadSpot(counter, id).1)
    ensures CopySpot(counter, s).Some? ==> Reachable(CopySpot(counter, s).value.1)
    ensures Reachable(s) ==> Reachable(PutSpotFeature(s, f, v)) && Reachable(SetName(s, n))
  {
  }

  /**
   * The dump never lists features: even a freshly made spot, which stores five
   * features, reports that none were calculated, whereas the corrected dump
   * lists those five.
   */
  lemma EchoIgnoresStoredFeatures(counter: IdCounter, s: Spot, x: real, y: real, z: real, radius: real,
                                  quality: real)
    requires IsInt(counter.last)
    ensures Reachable(s) ==> EchoFeatureSection(s) == NoFeaturesCalculated
    ensures var made := NewSpot(counter, x, y, z, radius, quality, None).1;
            EchoFeatureSection(made) == NoFeaturesCalculated &&
            EchoFeatureSectionCorrected(made) == FeatureList({POSITION_X, POSITION_Y, POSITION_Z, RADIUS, QUALITY})
  {
    var made := NewSpot(counter, x, y, z, radius, quality, None).1;
    assert POSITION_X in made.features;
  }
}

=== FILE: trackable.dfy ===
/**
 * The feature store shared by every trackable object: named real-valued
 * features, name handling, and the feature arithmetic used to compare objects.
 * Java's `double` is modelled as `real`; a missing feature, which makes the
 * Java code throw a `NullPointerException`, is modelled as `None`.
 */
module Trackable {
  import opened Wrappers
  import opened Features

  /** The features an object stores, by name. */
  type FeatureMap = map<string, real>

  /** The value stored for `feature`, or `None` when it was never set. */
  function GetFeature(fm: FeatureMap, feature: string): (r: Option<real>)
    ensures r.Some? <==> feature in fm
    ensures r.Some? ==> r.value == fm[feature]
  {
    if feature in fm then Some(fm[feature]) else None
  }

  /** Stores `value` under `feature`, replacing any previous value. */
  function PutFeature(fm: FeatureMap, feature: string, value: real): (r: FeatureMap)
    ensures r.Keys == fm.Keys + {feature}
  {
    fm[feature := value]
  }

  /** Reading back a feature sees the last value put under its name, and nothing else changes. */
  lemma GetAfterPut(fm: FeatureMap, f: string, v: real, g: string)
    ensures GetFeature(PutFeature(fm, f, v), g) == if f == g then Some(v) else GetFeature(fm, g)
  {
  }

  /** `this.f - other.f`, or `None` when either object lacks the feature. */
  function DiffTo(self: FeatureMap, other: FeatureMap, feature: string): (r: Option<real>)
    ensures r.Some? <==> feature in self && feature in other
  {
    if feature in self && feature in other then Some(self[feature] - other[feature]) else None
  }

  /** The difference is anti-symmetric: `A.diffTo(B) == -B.diffTo(A)`. */
  lemma DiffToAntisymmetric(a: FeatureMap, b: FeatureMap, f: string)
    ensures DiffTo(a, b, f).Some? <==> DiffTo(b, a, f).Some?
    ensures DiffTo(a, b, f).Some? ==> DiffTo(a, b, f).value == -DiffTo(b, a, f).value
  {
  }

  /** The real absolute value. */
  function Abs(x: real): (r: real)
    ensures r >= 0.0 && (r == x || r == -x)
  {
    if x < 0.0 then -x else x
  }

  /**
   * `|a - b| / ((a + b) / 2)`, and zero when `a == -b` (the only case the
   * denominator vanishes). `None` when either object lacks the feature.
   */
  function NormalizeDiffTo(self: FeatureMap, other: FeatureMap, feature: string): (r: Option<real>)
    ensures r.Some? <==> feature in self && feature in other
    ensures r.Some? && self[feature] == -other[feature] ==> r.value == 0.0
    ensures r.Some? && self[feature] + other[feature] > 0.0 ==> r.value >= 0.0
    ensures r.Some? && self[feature] != -other[feature] ==>
              r.value * ((self[feature] + other[feature]) / 2.0) == Abs(self[feature] - other[feature])
  {
    if feature in self && feature in other then
      var a := self[feature];
      var b := other[feature];
      if a == -b then Some(0.0) else Some(Abs(a - b) / ((a + b) / 2.0))
    else None
  }

  /** The normalized difference is symmetric. */
  lemma NormalizeDiffToSymmetric(a: FeatureMap, b: FeatureMap, f: string)
    ensures NormalizeDiffTo(a, b, f) == NormalizeDiffTo(b, a, f)
  {
  }

  /** An object has the three spatial coordinates set. */
  predicate Positioned(fm: FeatureMap) {
    POSITION_X in fm && POSITION_Y in fm && POSITION_Z in fm
  }

  /** A point of 3D space. */
  datatype Point3 = Point3(x: real, y: real, z: real)

  function Position(fm: FeatureMap): Point3
    requires Positioned(fm)
  {
    Point3(fm[POSITION_X], fm[POSITION_Y], fm[POSITION_Z])
  }

  /** Real multiplication, kept behind a function so that sign facts about it can be stated once. */
  function Mul(a: real, b: real): real {
    a * b
  }

  lemma MulPositive(a: real, b: real)
    requires a > 0.0 && b > 0.0
    ensures Mul(a, b) > 0.0
  {
  }

  lemma MulSelfFacts(x: real)
    ensures Mul(x, x) >= 0.0
    ensures Mul(x, x) == 0.0 <==> x == 0.0
  {
    if x > 0.0 {
      MulPositive(x, x);
    } else if x < 0.0 {
      MulPositive(-x, -x);
      assert Mul(x, x) == Mul(-x, -x);
    }
  }

  function Sq(x: real): (r: real)
    ensures r >= 0.0
    ensures r == 0.0 <==> x == 0.0
  {
    MulSelfFacts(x);
    Mul(x, x)
  }

  /** Squared Euclidean distance between two points. */
  function SqDist(p: Point3, q: Point3): (r: real)
    ensures r >= 0.0
    ensures r == 0.0 <==> p == q
  {
    Sq(q.x - p.x) + Sq(q.y - p.y) + Sq(q.z - p.z)
  }

  lemma SqDistSymmetric(p: Point3, q: Point3)
    ensures SqDist(p, q) == SqDist(q, p)
  {
  }

  /**
   * Sum over the position features of `(other.f - this.f)^2`, or `None` when
   * a position feature is missing on either side.
   */
  function SquareDistanceTo(self: FeatureMap, other: FeatureMap): (r: Option<real>)
    ensures r.Some? <==> Positioned(self) && Positioned(other)
    ensures r.Some? ==> r.value >= 0.0
    ensures r.Some? ==> (r.value == 0.0 <==> Position(self) == Position(other))
  {
    SumSquaresOfPositions(self, other);
    SumSquares(self, other, POSITION_FEATURES)
  }

  function SumSquares(self: FeatureMap, other: FeatureMap, fs: seq<string>): (r: Option<real>)
    ensures r.Some? <==> forall i :: 0 <= i < |fs| ==> fs[i] in self && fs[i] in other
    ensures r.Some? ==> r.value >= 0.0
  {
    if |fs| == 0 then Some(0.0)
    else if fs[0] in self && fs[0] in other then
      match SumSquares(self, other, fs[1..])
      case None => None
      case Some(rest) => Some(Sq(other[fs[0]] - self[fs[0]]) + rest)
    else None
  }

  lemma SumSquaresOfPositions(a: FeatureMap, b: FeatureMap)
    ensures SumSquares(a, b, POSITION_FEATURES).Some? <==> Positioned(a) && Positioned(b)
    ensures Positioned(a) && Positioned(b) ==>
              SumSquares(a, b, POSITION_FEATURES) == Some(SqDist(Position(a), Position(b)))
  {
    var fs := POSITION_FEATURES;
    assert fs[1..] == [POSITION_Y, POSITION_Z];
    assert fs[1..][1..] == [POSITION_Z];
    assert fs[1..][1..][1..] == [];
    if Positioned(a) && Positioned(b) {
      var p, q := Position(a), Position(b);
      assert SumSquares(a, b, [POSITION_Z]) == Some(Sq(q.z - p.z) + 0.0);
      assert SumSquares(a, b, [POSITION_Y, POSITION_Z]) == Some(Sq(q.y - p.y) + (Sq(q.z - p.z) + 0.0));
    }
  }

  /** The feature-based distance agrees with the Euclidean distance of the positions. */
  lemma SquareDistanceToIsSqDist(a: FeatureMap, b: FeatureMap)
    requires Positioned(a) && Positioned(b)
    ensures SquareDistanceTo(a, b) == Some(SqDist(Position(a), Position(b)))
  {
    SumSquaresOfPositions(a, b);
  }

  lemma SquareDistanceToSymmetric(a: FeatureMap, b: FeatureMap)
    ensures SquareDistanceTo(a, b) == SquareDistanceTo(b, a)
  {
    if Positioned(a) && Positioned(b) {
      SquareDistanceToIsSqDist(a, b);
      SquareDistanceToIsSqDist(b, a);
      SqDistSymmetric(Position(a), Position(b));
    }
  }

  /**
   * Coordinate `d` of the object: the position feature `d`, or `None` when `d`
   * is not 0, 1 or 2 or the feature is missing.
   */
  function GetDoublePosition(fm: FeatureMap, d: int): (r: Option<real>)
    ensures r.Some? <==> 0 <= d < 3 && POSITION_FEATURES[d] in fm
    ensures Positioned(fm) && d == 0 ==> r == Some(Position(fm).x)
    ensures Positioned(fm) && d == 1 ==> r == Some(Position(fm).y)
    ensures Positioned(fm) && d == 2 ==> r == Some(Position(fm).z)
  {
    if 0 <= d < 3 then GetFeature(fm, POSITION_FEATURES[d]) else None
  }
}

=== FILE: treesets.dfy ===
/**
 * A Java `TreeSet` with a comparator, as the iterators and the navigator
 * use it: the elements held in ascending comparator order, an element that
 * compares equal to one already held being dropped on insertion.
 */
module TreeSets {
  import opened Wrappers

  type ObjId = int

  /** The first clause of the `Comparator` contract: swapping the arguments flips the sign. */
  ghost predicate Antisymmetric(cmp: (ObjId, ObjId) -> int) {
    forall a, b :: cmp(a, b) < 0 <==> cmp(b, a) > 0
  }

  /** The contract of a Java `Comparator`: antisymmetric signs, transitive, and equal elements compare alike. */
  ghost predicate Comparator(cmp: (ObjId, ObjId) -> int) {
    Antisymmetric(cmp) &&
    (forall a, b, c :: cmp(a, b) < 0 && cmp(b, c) < 0 ==> cmp(a, c) < 0) &&
    (forall a, b, c :: cmp(a, b) == 0 && cmp(b, c) < 0 ==> cmp(a, c) < 0) &&
    (forall a, b, c :: cmp(a, b) == 0 && cmp(a, c) < 0 ==> cmp(b, c) < 0)
  }

  lemma ComparatorReflexive(cmp: (ObjId, ObjId) -> int, a: ObjId)
    requires Antisymmetric(cmp)
    ensures cmp(a, a) == 0
  {
    assert cmp(a, a) < 0 <==> cmp(a, a) > 0;
  }

  lemma ComparatorFlip(cmp: (ObjId, ObjId) -> int, a: ObjId, b: ObjId)
    requires Antisymmetric(cmp)
    ensures cmp(a, b) > 0 <==> cmp(b, a) < 0
  {
  }

  lemma ComparatorTransitive(cmp: (ObjId, ObjId) -> int, a: ObjId, b: ObjId, c: ObjId)
    requires Comparator(cmp)
    ensures cmp(a, b) < 0 && cmp(b, c) < 0 ==> cmp(a, c) < 0
  {
  }

  /** Comparing below an element that compares equal to a third is comparing below the third. */
  lemma ComparatorEqualRight(cmp: (ObjId, ObjId) -> int, a: ObjId, b: ObjId, c: ObjId)
    requires Comparator(cmp) && cmp(b, c) == 0
    ensures cmp(a, b) < 0 ==> cmp(a, c) < 0
    ensures cmp(a, b) > 0 ==> cmp(a, c) > 0
    ensures cmp(a, b) == 0 ==> cmp(a, c) == 0
  {
    ComparatorFlip(cmp, b, c);
    ComparatorFlip(cmp, a, c);
    ComparatorFlip(cmp, a, b);
    ComparatorFlip(cmp, c, b);
  }

  /** A tree set's elements in ascending order: each strictly below the next. */
  predicate Ascending(cmp: (ObjId, ObjId) -> int, t: seq<ObjId>) {
    forall i, j :: 0 <= i < j < |t| ==> cmp(t[i], t[j]) < 0
  }

  /** `x` is inserted before the first element above it. */
  function Insert(cmp: (ObjId, ObjId) -> int, t: seq<ObjId>, x: ObjId): (r: seq<ObjId>)
    ensures |r| == |t| + 1
    ensures forall y :: y in r <==> y in t || y == x
  {
    if t == [] then [x]
    else if cmp(x, t[0]) < 0 then [x] + t
    else [t[0]] + Insert(cmp, t[1..], x)
  }

  lemma {:induction false} InsertAscending(cmp: (ObjId, ObjId) -> int, t: seq<ObjId>, x: ObjId)
    requires Comparator(cmp) && Ascending(cmp, t)
    requires forall y :: y in t ==> cmp(x, y) != 0
    ensures Ascending(cmp, Insert(cmp, t, x))
  {
    if t != [] {
      if cmp(x, t[0]) < 0 {
        InsertFirst(cmp, t, x);
      } else {
        assert Ascending(cmp, t[1..]) by {
          forall i, j | 0 <= i < j < |t[1..]| ensures cmp(t[1..][i], t[1..][j]) < 0 {
            assert t[1..][i] == t[i + 1] && t[1..][j] == t[j + 1];
          }
        }
        InsertAscending(cmp, t[1..], x);
        assert t[0] in t;
        ComparatorFlip(cmp, x, t[0]);
        InsertBehind(cmp, t, x);
      }
    }
  }

  /** An element below the least one goes in front. */
  lemma InsertFirst(cmp: (ObjId, ObjId) -> int, t: seq<ObjId>, x: ObjId)
    requires Comparator(cmp) && Ascending(cmp, t)
    requires t != [] && cmp(x, t[0]) < 0
    ensures Ascending(cmp, [x] + t)
  {
    var r := [x] + t;
    forall i, j | 0 <= i < j < |r| ensures cmp(r[i], r[j]) < 0 {
      if i > 0 {
        assert r[i] == t[i - 1] && r[j] == t[j - 1];
      } else if j > 1 {
        assert r[j] == t[j - 1];
        ComparatorTransitive(cmp, x, t[0], t[j - 1]);
      }
    }
  }

  /** An element above the least one goes behind it. */
  lemma InsertBehind(cmp: (ObjId, ObjId) -> int, t: seq<ObjId>, x: ObjId)
    requires Ascending(cmp, t)
    requires t != [] && cmp(t[0], x) < 0
    requires Ascending(cmp, Insert(cmp, t[1..], x))
    requires Insert(cmp, t, x) == [t[0]] + Insert(cmp, t[1..], x)
    ensures Ascending(cmp, Insert(cmp, t, x))
  {
    HeadBelowInsert(cmp, t, x);
    ConsAscending(cmp, t[0], Insert(cmp, t[1..], x));
  }

  /** The least element of a tree set is below everything inserted behind it. */
  lemma HeadBelowInsert(cmp: (ObjId, ObjId) -> int, t: seq<ObjId>, x: ObjId)
    requires Ascending(cmp, t)
    requires t != [] && cmp(t[0], x) < 0
    ensures forall y :: y in Insert(cmp, t[1..], x) ==> cmp(t[0], y) < 0
  {
    forall y | y in Insert(cmp, t[1..], x) ensures cmp(t[0], y) < 0 {
      if y != x {
        var k :| 0 <= k < |t[1..]| && t[1..][k] == y;
        assert t[k + 1] == y;
      }
    }
  }

  /** An element below every element of an ascending sequence can go in front. */
  lemma ConsAscending(cmp: (ObjId, ObjId) -> int, h: ObjId, rest: seq<ObjId>)
    requires Ascending(cmp, rest)
    requires forall y :: y in rest ==> cmp(h, y) < 0
    ensures Ascending(cmp, [h] + rest)
  {
    var r := [h] + rest;
    forall i, j | 0 <= i < j < |r| ensures cmp(r[i], r[j]) < 0 {
      assert r[j] == rest[j - 1];
      if i > 0 {
        assert r[i] == rest[i - 1];
      } else {
        assert rest[j - 1] in rest;
      }
    }
  }

  /** `TreeSet.add`: an element comparing equal to one already held is dropped. */
  function Add(cmp: (ObjId, ObjId) -> int, t: seq<ObjId>, x: ObjId): seq<ObjId> {
    if exists y :: y in t && cmp(x, y) == 0 then t else Insert(cmp, t, x)
  }

  /** The tree set built by adding `xs` in order. */
  function TreeOf(cmp: (ObjId, ObjId) -> int, xs: seq<ObjId>): (t: seq<ObjId>)
    ensures forall y :: y in t ==> y in xs
    decreases |xs|
  {
    if xs == [] then []
    else Add(cmp, TreeOf(cmp, xs[..|xs| - 1]), xs[|xs| - 1])
  }

  /** Adding keeps a tree set ascending, and the added element is then held or collapsed onto an equal one. */
  lemma AddFacts(cmp: (ObjId, ObjId) -> int, t: seq<ObjId>, x: ObjId)
    requires Comparator(cmp) && Ascending(cmp, t)
    ensures Ascending(cmp, Add(cmp, t, x))
    ensures forall y :: y in t ==> y in Add(cmp, t, x)
    ensures exists y :: y in Add(cmp, t, x) && cmp(x, y) == 0
  {
    if !exists y :: y in t && cmp(x, y) == 0 {
      InsertAscending(cmp, t, x);
      ComparatorReflexive(cmp, x);
      assert x in Add(cmp, t, x);
    }
  }

  /**
   * A tree set is ascending, and every element added is held or collapsed
   * onto a held element that compares equal to it.
   */
  lemma {:induction false} TreeOfFacts(cmp: (ObjId, ObjId) -> int, xs: seq<ObjId>)
    requires Comparator(cmp)
    ensures Ascending(cmp, TreeOf(cmp, xs))
    ensures forall x :: x in xs ==> exists y :: y in TreeOf(cmp, xs) && cmp(x, y) == 0
    decreases |xs|
  {
    if xs != [] {
      var init := xs[..|xs| - 1];
      var x := xs[|xs| - 1];
      var t := TreeOf(cmp, init);
      TreeOfFacts(cmp, init);
      AddFacts(cmp, t, x);
      forall z | z in xs ensures exists y :: y in TreeOf(cmp, xs) && cmp(z, y) == 0 {
        if z != x {
          assert z in init;
          var y :| y in t && cmp(z, y) == 0;
          assert y in TreeOf(cmp, xs);
        }
      }
    }
  }

  /** The elements from last to first: `descendingIterator`. */
  function Reverse(s: seq<ObjId>): (r: seq<ObjId>)
    ensures |r| == |s| && forall i :: 0 <= i < |s| ==> r[i] == s[|s| - 1 - i]
  {
    seq(|s|, i requires 0 <= i < |s| => s[|s| - 1 - i])
  }

  // ---------------------------------------------------------------- navigation

  /** `TreeSet.ceiling(x)`: the least element not below `x`. */
  function Ceiling(cmp: (ObjId, ObjId) -> int, t: seq<ObjId>, x: ObjId): (r: Option<ObjId>)
    ensures r.Some? ==> r.value in t && cmp(x, r.value) <= 0
    ensures r.None? ==> forall y :: y in t ==> cmp(x, y) > 0
  {
    if t == [] then None
    else if cmp(x, t[0]) <= 0 then Some(t[0])
    else
      var r := Ceiling(cmp, t[1..], x);
      assert forall y :: y in t ==> y == t[0] || y in t[1..];
      r
  }

  /** `TreeSet.floor(x)`: the greatest element not above `x`. */
  function Floor(cmp: (ObjId, ObjId) -> int, t: seq<ObjId>, x: ObjId): (r: Option<ObjId>)
    ensures r.Some? ==> r.value in t && cmp(x, r.value) >= 0
    ensures r.None? ==> forall y :: y in t ==> cmp(x, y) < 0
  {
    if t == [] then None
    else if cmp(x, t[|t| - 1]) >= 0 then Some(t[|t| - 1])
    else
      var r := Floor(cmp, t[..|t| - 1], x);
      assert forall y :: y in t ==> y == t[|t| - 1] || y in t[..|t| - 1];
      r
  }

  lemma AscendingSlice(cmp: (ObjId, ObjId) -> int, t: seq<ObjId>, a: int, b: int)
    requires Ascending(cmp, t) && 0 <= a <= b <= |t|
    ensures Ascending(cmp, t[a..b])
  {
    forall i, j | 0 <= i < j < b - a ensures cmp(t[a..b][i], t[a..b][j]) < 0 {
      assert t[a..b][i] == t[a + i] && t[a..b][j] == t[a + j];
    }
  }

  /** The first element of an ascending tree set is below or equal to every element, the last above or equal. */
  lemma Extremes(cmp: (ObjId, ObjId) -> int, t: seq<ObjId>)
    requires Antisymmetric(cmp) && Ascending(cmp, t) && t != []
    ensures forall y :: y in t ==> cmp(t[0], y) <= 0 && cmp(t[|t| - 1], y) >= 0
  {
    forall y | y in t ensures cmp(t[0], y) <= 0 && cmp(t[|t| - 1], y) >= 0 {
      var j :| 0 <= j < |t| && t[j] == y;
      ComparatorReflexive(cmp, y);
      ComparatorFlip(cmp, t[|t| - 1], y);
    }
  }

  /**
   * The ceiling in the tree set built from `xs` exists when some element of
   * `xs` is not below `x`, and is then below or equal to every such element.
   */
  lemma CeilingOfTree(cmp: (ObjId, ObjId) -> int, xs: seq<ObjId>, x: ObjId)
    requires Comparator(cmp)
    ensures (exists s :: s in xs && cmp(x, s) <= 0) ==> Ceiling(cmp, TreeOf(cmp, xs), x).Some?
    ensures Ceiling(cmp, TreeOf(cmp, xs), x).Some? ==>
              forall s :: s in xs && cmp(x, s) <= 0 ==> cmp(Ceiling(cmp, TreeOf(cmp, xs), x).value, s) <= 0
  {
    var t := TreeOf(cmp, xs);
    TreeOfFacts(cmp, xs);
    CeilingIsLeast(cmp, t, x);
    forall s | s in xs && cmp(x, s) <= 0
      ensures Ceiling(cmp, t, x).Some? && cmp(Ceiling(cmp, t, x).value, s) <= 0
    {
      var y :| y in t && cmp(s, y) == 0;
      ComparatorFlip(cmp, s, y);
      ComparatorEqualRight(cmp, x, s, y);
      var c := Ceiling(cmp, t, x).value;
      ComparatorEqualRight(cmp, c, y, s);
    }
  }

  /**
   * The floor in the tree set built from `xs` exists when some element of
   * `xs` is not above `x`, and is then above or equal to every such element.
   */
  lemma FloorOfTree(cmp: (ObjId, ObjId) -> int, xs: seq<ObjId>, x: ObjId)
    requires Comparator(cmp)
    ensures (exists s :: s in xs && cmp(x, s) >= 0) ==> Floor(cmp, TreeOf(cmp, xs), x).Some?
    ensures Floor(cmp, TreeOf(cmp, xs), x).Some? ==>
              forall s :: s in xs && cmp(x, s) >= 0 ==> cmp(Floor(cmp, TreeOf(cmp, xs), x).value, s) >= 0
  {
    var t := TreeOf(cmp, xs);
    TreeOfFacts(cmp, xs);
    FloorIsGreatest(cmp, t, x);
    forall s | s in xs && cmp(x, s) >= 0
      ensures Floor(cmp, t, x).Some? && cmp(Floor(cmp, t, x).value, s) >= 0
    {
      var y :| y in t && cmp(s, y) == 0;
      ComparatorFlip(cmp, s, y);
      ComparatorEqualRight(cmp, x, s, y);
      var f := Floor(cmp, t, x).value;
      ComparatorEqualRight(cmp, f, y, s);
    }
  }

  /**
   * The tree set built from `xs` is empty only when `xs` is; its first
   * element is below or equal to every element of `xs`, its last above or
   * equal.
   */
  lemma EndsOfTree(cmp: (ObjId, ObjId) -> int, xs: seq<ObjId>)
    requires Comparator(cmp)
    ensures TreeOf(cmp, xs) == [] <==> xs == []
    ensures xs != [] ==> forall s :: s in xs ==>
              cmp(TreeOf(cmp, xs)[0], s) <= 0 && cmp(TreeOf(cmp, xs)[|TreeOf(cmp, xs)| - 1], s) >= 0
  {
    var t := TreeOf(cmp, xs);
    TreeOfFacts(cmp, xs);
    if xs != [] {
      assert xs[0] in xs;
      Extremes(cmp, t);
      forall s | s in xs ensures cmp(t[0], s) <= 0 && cmp(t[|t| - 1], s) >= 0 {
        var y :| y in t && cmp(s, y) == 0;
        ComparatorFlip(cmp, s, y);
        ComparatorEqualRight(cmp, t[0], y, s);
        ComparatorEqualRight(cmp, t[|t| - 1], y, s);
      }
    }
  }

  /** In an ascending tree set the ceiling is below every other element not below `x`. */
  lemma {:induction false} CeilingIsLeast(cmp: (ObjId, ObjId) -> int, t: seq<ObjId>, x: ObjId)
    requires Antisymmetric(cmp) && Ascending(cmp, t)
    ensures Ceiling(cmp, t, x).Some? ==>
              forall y :: y in t && cmp(x, y) <= 0 ==> cmp(Ceiling(cmp, t, x).value, y) <= 0
  {
    if t != [] {
      if cmp(x, t[0]) <= 0 {
        Extremes(cmp, t);
      } else {
        AscendingSlice(cmp, t, 1, |t|);
        CeilingIsLeast(cmp, t[1..], x);
        NotBelowInTail(cmp, t, x);
      }
    }
  }

  /** In an ascending tree set the floor is above every other element not above `x`. */
  lemma {:induction false} FloorIsGreatest(cmp: (ObjId, ObjId) -> int, t: seq<ObjId>, x: ObjId)
    requires Antisymmetric(cmp) && Ascending(cmp, t)
    ensures Floor(cmp, t, x).Some? ==>
              forall y :: y in t && cmp(x, y) >= 0 ==> cmp(Floor(cmp, t, x).value, y) >= 0
  {
    if t != [] {
      var n := |t|;
      if cmp(x, t[n - 1]) >= 0 {
        Extremes(cmp, t);
      } else {
        var init := t[..n - 1];
        AscendingSlice(cmp, t, 0, n - 1);
        assert t[0..n - 1] == init;
        FloorIsGreatest(cmp, init, x);
        NotAboveInInit(cmp, t, x);
      }
    }
  }

  /** When `x` is above the head, every element not below `x` is in the tail. */
  lemma NotBelowInTail(cmp: (ObjId, ObjId) -> int, t: seq<ObjId>, x: ObjId)
    requires t != [] && cmp(x, t[0]) > 0
    ensures forall y :: y in t && cmp(x, y) <= 0 ==> y in t[1..]
  {
    forall y | y in t && cmp(x, y) <= 0 ensures y in t[1..] {
      var j :| 0 <= j < |t| && t[j] == y;
      assert j != 0;
      assert t[1..][j - 1] == y;
    }
  }

  /** When `x` is below the last element, every element not above `x` is in the rest. */
  lemma NotAboveInInit(cmp: (ObjId, ObjId) -> int, t: seq<ObjId>, x: ObjId)
    requires t != [] && cmp(x, t[|t| - 1]) < 0
    ensures forall y :: y in t && cmp(x, y) >= 0 ==> y in t[..|t| - 1]
  {
    forall y | y in t && cmp(x, y) >= 0 ensures y in t[..|t| - 1] {
      var j :| 0 <= j < |t| && t[j] == y;
      assert j != |t| - 1;
      assert t[..|t| - 1][j] == y;
    }
  }
}

=== FILE: wrappers.dfy ===
/** Failure-carrying values used wherever the Java code returns `null` or throws. */
module Wrappers {

  /** `None` stands for a Java `null` (or, for floating-point results, NaN). */
  datatype Option<+T> = None | Some(value: T)

  /** `Err` stands for an exception the Java code would throw, or an error flag it returns. */
  datatype Result<+T, +E> = Ok(value: T) | Err(error: E)
}
